=== FILE: README.md ===
# Supermarket back office — a Dafny model

This project models the core of a supermarket back-office system: a React client
and a set of Spring services (coupons, inventory, transactions, employees,
customers).

- **Session and access control.** The model covers the client's session: the
  session store with its redirect and initialisation guards, the identity-provider
  wrapper, the token refresh timer, the HTTP interceptor with its one-shot
  refresh-and-replay, the role gate and the post-login redirect policy.
- **Services.** Each service operation is a function or a method over an
  explicit repository state, for example `Map<Integer, Coupon>` or a list of
  inventory rows. Errors are modelled as `Result` values, and a batch that fails
  leaves the state as it was.
- **Pages.** Each page is a class whose handlers change its fields, or a value
  together with the handlers that compute its next state. This covers the point
  of sale, the catalogue, the transfer form, the coupon, customer, report and
  history pages.

Some things the model does not compute, and takes as inputs instead:

- the identity provider's answers;
- the answers of the remote services;
- the clock;
- the user's confirmations.

Amounts of money are integers: whole cents in the services, and the page's own
unit in the client. Java's 32-bit `int` casts, its truncating division and
`RoundingMode.HALF_UP` are written out explicitly where the source uses them.

Where the intended behaviour and the code disagree, the model follows the code.
The data-loaded flag is meant to hold only while the session is authenticated.
In the code, a profile load that settles after `logout` sets the flag and the
user again (`AuthContext.ProfileArrivesAfterLogout`).

## Model

| member | source | states |
|---|---|---|
| AuthContext.HasAnyRole | frontend/src/contexts/AuthContext.jsx:204-206 | holds exactly when some listed role is among the loaded roles |
| AuthContext.HasAllRoles | frontend/src/contexts/AuthContext.jsx:208-210 | holds exactly when every listed role is among the loaded roles |
| AuthContext.RoleChecksAgree | frontend/src/contexts/AuthContext.jsx:200-210 | on one role both checks agree with `hasRole`; `hasAllRoles()` of nothing holds and `hasAnyRole()` of nothing fails |
| AuthContext.RoleChecksBothSpellings | frontend/src/contexts/AuthContext.jsx:212-222 | `isCashier`, `isManager` and `isWarehouse` accept exactly the upper-case and the lower-case role name |
| AuthContext.RedirectTarget | frontend/src/contexts/AuthContext.jsx:72-87 | only "/", "/home" and "/login" redirect; the first of cashier → /cash, manager → /admin, warehouse → /warehouse wins, and no matching role means no navigation |
| AuthContext.LoadedRoles | frontend/src/contexts/AuthContext.jsx:147-157 | the roles are the realm roles followed by the client roles of the client id; a missing claim contributes nothing |
| AuthContext.ModuleFlags.constructor | frontend/src/contexts/AuthContext.jsx:21-22 | both module flags start false |
| AuthContext.InitResult | frontend/src/contexts/AuthContext.jsx:97-103 | a skipped `init` resolves with the current `authenticated`; a delegated one rejects exactly when the provider fails and otherwise resolves with whether the user signed in |
| AuthContext.AuthProvider.constructor | frontend/src/contexts/AuthContext.jsx:25-33 | a page load starts unauthenticated and loading, with no user, no roles, no redirect done and no timer |
| AuthContext.AuthProvider.StartInit | frontend/src/contexts/AuthContext.jsx:89-94 | `initKeycloak` does nothing while initialising or once initialised; otherwise it sets `isInitializing` and calls `init` |
| AuthContext.AuthProvider.CompleteInit | frontend/src/contexts/AuthContext.jsx:96-124 | success sets `isInitialized` and `authenticated` and creates a timer only when none exists; failure clears `isInitializing` and leaves `isInitialized` false; `loading` ends false either way |
| AuthContext.AuthProvider.SettleInit | frontend/src/contexts/AuthContext.jsx:105-123 | a resolved `init` marks the client initialised, takes its `authenticated` value and starts a timer only when none runs; a rejected one only clears `isInitializing`; `loading` ends either way |
| AuthContext.AuthProvider.AuthenticatedEffect | frontend/src/contexts/AuthContext.jsx:37-41 | becoming authenticated starts one profile load with `dataLoaded` false and the roles loaded from the token |
| AuthContext.AuthProvider.ProfileSettled | frontend/src/contexts/AuthContext.jsx:60-70 | `dataLoaded` ends true whether the profile load resolves or rejects; the user is stored only on success |
| AuthContext.AuthProvider.RedirectEffect | frontend/src/contexts/AuthContext.jsx:44-57 | the redirect fires only when authenticated, loaded, with a user, with roles and not yet redirected, sets `hasRedirected` in the same step and cannot fire again |
| AuthContext.AuthProvider.Login | frontend/src/contexts/AuthContext.jsx:165-175 | `login` resets `hasRedirected` and `dataLoaded`; before initialisation it initialises first and asks for sign-in afterwards, otherwise it asks at once |
| AuthContext.AuthProvider.Logout | frontend/src/contexts/AuthContext.jsx:181-192 | `logout` clears the user, the roles, `authenticated`, `dataLoaded` and `hasRedirected`, drops the timer and asks the provider to sign out |
| AuthContext.AuthProvider.LogoutSettled | frontend/src/contexts/AuthContext.jsx:192-193 | `isLoggingOut` is cleared only when the provider's sign-out resolves |
| AuthContext.AuthProvider.RefreshTick | frontend/src/contexts/AuthContext.jsx:111-112 | a tick happens only while the timer runs, and starts one `updateToken(70)` call without waiting for it |
| AuthContext.AuthProvider.RefreshSettled | frontend/src/contexts/AuthContext.jsx:112-115 | a started refresh settles whether or not the timer still runs: a new token is stored, and a rejection performs `logout` |
| AuthContext.RefreshFailsAfterLogout | frontend/src/contexts/AuthContext.jsx:111-116 | a refresh that starts before `logout` and is rejected after it asks the provider to sign out a second time |
| AuthContext.ProfileArrivesAfterLogout | frontend/src/contexts/AuthContext.jsx:60-70 | a profile load that settles after `logout` leaves the session loaded with a user but not authenticated |
| AuthContext.NoTimerAfterRelogin | frontend/src/contexts/AuthContext.jsx:165-175 | after sign-in, sign-out and `login` again no second timer is ever created, because `isInitialized` stays set |
| IdentityClient.Keycloak.constructor | frontend/src/contexts/keycloak.js:11-14 | the singleton starts with `_isInitialized` false and no token |
| IdentityClient.Keycloak.Init | frontend/src/contexts/keycloak.js:18-26 | a second `init` resolves with the current `authenticated` without reaching the library; the first sets the flag and delegates |
| IdentityClient.Keycloak.LibraryInitSettled | frontend/src/contexts/keycloak.js:25 | the library's `init` stores the grant on sign-in and changes nothing on rejection |
| IdentityClient.Keycloak.UpdateToken | frontend/src/contexts/AuthContext.jsx:112 | a refresh either stores the new token or keeps the old one |
| IdentityClient.Keycloak.Login | frontend/src/contexts/AuthContext.jsx:170-173 | one more sign-in redirect |
| IdentityClient.Keycloak.Logout | frontend/src/contexts/AuthContext.jsx:192 | one more sign-out redirect |
| IdentityClient.InitTwiceAfterFailure | frontend/src/contexts/keycloak.js:18-26 | after a rejected initialisation a second `init` is skipped, so the library is entered once |
| AccessGate.Gate | frontend/src/pages/all/ProtectedRoute.jsx:4-35 | waiting exactly while loading or not loaded; the children exactly when loaded, authenticated, with a user and holding the required role; /home otherwise |
| AccessGate.RoleMismatchLooksSignedOut | frontend/src/pages/all/ProtectedRoute.jsx:20-32 | a missing role sends the user to /home exactly as being signed out does |
| AccessGate.NoRoleAdmitsEverySession | frontend/src/pages/all/ProtectedRoute.jsx:30 | without a required role every loaded, signed-in user with a profile gets the children |
| HttpClient.BearerValue | frontend/src/contexts/axios.js:15 | the header value is "Bearer " followed by the token |
| HttpClient.WithToken | frontend/src/contexts/axios.js:12-18 | the bearer header is set only when the token is truthy, and no other header changes |
| HttpClient.RequestConfig.constructor | frontend/src/contexts/axios.js:28 | a new request carries its headers and has not been retried |
| HttpClient.Api.constructor | frontend/src/contexts/axios.js:4-9 | the client has sent nothing yet |
| HttpClient.Api.AttachToken | frontend/src/contexts/axios.js:12-18 | the request interceptor sets the headers from the current token |
| HttpClient.Api.Send | frontend/src/contexts/axios.js:25-48 | success resolves after one attempt; a 401 on an unretried request refreshes the token and replays once, or signs out and rejects if the refresh fails; any other failure rejects |
| HttpClient.AtMostOneReplay | frontend/src/contexts/axios.js:31-32 | a request is sent at most twice, and a second 401 after a refresh rejects |
| Routes.Lookup | frontend/src/App.jsx:11-38 | finds exactly the element of the route with that path |
| Routes.RouteTable | frontend/src/App.jsx:12-37 | five distinct paths: "/" forwards to /home, /home is open, /cash, /warehouse and /admin need CASHIER, WAREHOUSE and MANAGER |
| Routes.Visit | frontend/src/App.jsx:11-38 | an unknown path renders nothing and the open page always renders |
| Routes.RedirectTargetAdmitted | frontend/src/contexts/AuthContext.jsx:79-85 | a redirect target is a guarded route, and a user holding its upper-case role gets through its gate |
| Routes.LowerCaseRoleRedirectedThenDenied | frontend/src/App.jsx:17 | a "cashier" role is sent to /cash, whose gate wants "CASHIER" and sends the user back to /home |
| CouponRepository.FindAllActiveCoupons | backend/coupon-market-service/src/main/java/com/supermarket/coupon_market_service/repository/CouponRepository.java:15-18 | exactly the stored coupons that are active, whose start is at or before today's midnight and whose end is at or after it, a missing bound being open; no coupon is invented or repeated |
| CouponRepository.ActiveOnDays | backend/coupon-market-service/src/main/java/com/supermarket/coupon_market_service/repository/CouponRepository.java:15-18 | by days: a coupon is active on a day exactly when it started on an earlier day or at that midnight, and ends on that day or later |
| CouponRepository.FindActiveCouponsByType | backend/coupon-market-service/src/main/java/com/supermarket/coupon_market_service/repository/CouponRepository.java:20-24 | exactly the stored coupons active today and of the given type |
| CouponRepository.ByTypeNarrowsAll | backend/coupon-market-service/src/main/java/com/supermarket/coupon_market_service/repository/CouponRepository.java:15-24 | the typed query is the general query narrowed to the type |
| CouponService.MatchesLiteral | backend/coupon-market-service/src/main/java/com/supermarket/coupon_market_service/service/CouponService.java:329-333 | a pattern without "*" matches exactly the code equal to it |
| CouponService.StarMatchesLine | backend/coupon-market-service/src/main/java/com/supermarket/coupon_market_service/service/CouponService.java:329-333 | a lone "*" matches any code without a line terminator |
| CouponService.PrefixPattern | backend/coupon-market-service/src/main/java/com/supermarket/coupon_market_service/service/CouponService.java:329-333 | "SUA*" matches exactly the single-line codes that start with SUA |
| CouponService.FixedDiscount | backend/coupon-market-service/src/main/java/com/supermarket/coupon_market_service/service/CouponService.java:203-210 | the fixed amount when positive, otherwise 0 |
| CouponService.CalculatedAmount | backend/coupon-market-service/src/main/java/com/supermarket/coupon_market_service/service/CouponService.java:345-362 | with a positive percentage, the total times the percentage over 100 rounded half-up to cents; otherwise the coupon's amount |
| CouponService.BestComboCoupon | backend/coupon-market-service/src/main/java/com/supermarket/coupon_market_service/service/CouponService.java:158-164 | a found combo winner is reported as a combo without product codes |
| CouponService.BestTotalCoupon | backend/coupon-market-service/src/main/java/com/supermarket/coupon_market_service/service/CouponService.java:190-196 | a found total winner is reported as a total coupon without product codes |
| CouponService.BestHolidayCoupon | backend/coupon-market-service/src/main/java/com/supermarket/coupon_market_service/service/CouponService.java:212-218 | a found holiday winner is reported as a holiday coupon without product codes |
| CouponService.BestCustomerCoupon | backend/coupon-market-service/src/main/java/com/supermarket/coupon_market_service/service/CouponService.java:225-235 | no card number, or a blank one, selects nothing |
| CouponService.BestComboIsMaximal | backend/coupon-market-service/src/main/java/com/supermarket/coupon_market_service/service/CouponService.java:158-188 | a combo winner exists exactly when some combo applies, and it has the greatest amount of those that apply |
| CouponService.BestTotalIsMaximal | backend/coupon-market-service/src/main/java/com/supermarket/coupon_market_service/service/CouponService.java:190-210 | a total winner exists exactly when some total coupon applies, and it has the greatest amount |
| CouponService.BestHolidayIsMaximal | backend/coupon-market-service/src/main/java/com/supermarket/coupon_market_service/service/CouponService.java:212-223 | a holiday winner exists exactly when some holiday window holds today, and it has the greatest amount |
| CouponService.BestCustomerIsMaximal | backend/coupon-market-service/src/main/java/com/supermarket/coupon_market_service/service/CouponService.java:225-274 | for a non-blank card a customer winner exists exactly when some customer coupon applies, and it has the greatest amount |
| CouponService.MatchedCodes | backend/coupon-market-service/src/main/java/com/supermarket/coupon_market_service/service/CouponService.java:290-293 | one code per matching product, in product order, each the code of that product; every code it lists matches the coupon and every matching product's code is listed |
| CouponService.ApplyProductCoupon | backend/coupon-market-service/src/main/java/com/supermarket/coupon_market_service/service/CouponService.java:285-315 | nothing exactly when no product matches; otherwise a product entry listing the matched codes, whose amount is the coupon amount times their number |
| CouponService.ProductCoupons | backend/coupon-market-service/src/main/java/com/supermarket/coupon_market_service/service/CouponService.java:276-283 | one entry per active coupon that is a PRODUCT coupon and matches a product, in the order of the active list, each that coupon applied to the products; every such coupon's entry is listed |
| CouponService.MatchedCodesMatch | backend/coupon-market-service/src/main/java/com/supermarket/coupon_market_service/service/CouponService.java:290-293 | every code collected from the matching products matches the coupon |
| CouponService.NoMatchNoCoupon | backend/coupon-market-service/src/main/java/com/supermarket/coupon_market_service/service/CouponService.java:290-297 | a product coupon yields nothing exactly when no product matches it |
| CouponService.AppliedProductCoupon | backend/coupon-market-service/src/main/java/com/supermarket/coupon_market_service/service/CouponService.java:276-283 | a coupon kept by the product step is a PRODUCT coupon that yields a product entry |
| CouponService.ProductCouponsApplied | backend/coupon-market-service/src/main/java/com/supermarket/coupon_market_service/service/CouponService.java:276-283 | each listed entry is its coupon applied to the products, in the order of the kept coupons |
| CouponService.ProductCouponsComplete | backend/coupon-market-service/src/main/java/com/supermarket/coupon_market_service/service/CouponService.java:276-283 | no applicable product coupon is dropped |
| CouponService.OptionList | backend/coupon-market-service/src/main/java/com/supermarket/coupon_market_service/service/CouponService.java:120-133 | an optional winner as a list of zero or one entry |
| CouponService.AddIfPresent | backend/coupon-market-service/src/main/java/com/supermarket/coupon_market_service/service/CouponService.java:120-121 | `ifPresent(add)` appends the winner when there is one |
| CouponService.ApplyCoupons | backend/coupon-market-service/src/main/java/com/supermarket/coupon_market_service/service/CouponService.java:79-155 | no products gives all zeros; otherwise the total is the given amount or the price sum, the discount is the sum of the applied amounts, and the final total is their difference floored at 0 |
| CouponService.SelectedOrder | backend/coupon-market-service/src/main/java/com/supermarket/coupon_market_service/service/CouponService.java:119-136 | applied coupons come in kind order: combo, total, holiday, customer, then products |
| CouponService.CouponStore.constructor | backend/coupon-market-service/src/main/java/com/supermarket/coupon_market_service/service/CouponService.java:29-42 | the store holds the given coupons |
| CouponService.CouponStore.UpdateCoupon | backend/coupon-market-service/src/main/java/com/supermarket/coupon_market_service/service/CouponService.java:59-68 | a missing id fails and changes nothing; otherwise the row takes the request's fields and no id is added or lost |
| CouponService.CouponStore.DeleteCoupon | backend/coupon-market-service/src/main/java/com/supermarket/coupon_market_service/service/CouponService.java:71-76 | a missing id fails and changes nothing; otherwise exactly that row is removed |
| InventoryTransactions.FindRow | backend/inventory-market-service/src/main/java/com/supermarket/inventory/service/InventoryTransactionService.java:140-150 | the product's row is found exactly when it has at most one row of that kind; a missing row reads as quantity 0, and a second row makes the query throw |
| InventoryTransactions.Validate | backend/inventory-market-service/src/main/java/com/supermarket/inventory/service/InventoryTransactionService.java:128-138 | passes exactly when the product id is present and non-empty, the quantity positive and the type present; otherwise the first failing check in that order |
| InventoryTransactions.ApplySucceedsIff | backend/inventory-market-service/src/main/java/com/supermarket/inventory/service/InventoryTransactionService.java:35-75 | a transaction succeeds exactly when it validates, the product has at most one WAREHOUSE and one SHELF row, the type is IMPORT or EXPORT and, for an export, the warehouse holds enough; each failure gives its own error, a duplicate row the single-result query's |
| InventoryTransactions.ImportAddsToWarehouse | backend/inventory-market-service/src/main/java/com/supermarket/inventory/service/InventoryTransactionService.java:152-170 | an import succeeds exactly when the product has at most one row of each kind; it then adds the quantity to the warehouse row, creating it if missing, and leaves the shelf quantity unchanged, one row of each kind remaining |
| InventoryTransactions.ExportConserves | backend/inventory-market-service/src/main/java/com/supermarket/inventory/service/InventoryTransactionService.java:152-170 | an export moves the quantity from the warehouse to the shelf |
| InventoryTransactions.ApplyFrame | backend/inventory-market-service/src/main/java/com/supermarket/inventory/service/InventoryTransactionService.java:59-68 | a success needs at most one row of each kind, leaves the product with exactly one, changes no other product's rows and appends exactly one history row |
| InventoryTransactions.ApplyKeepsNonNegative | backend/inventory-market-service/src/main/java/com/supermarket/inventory/service/InventoryTransactionService.java:53-57 | no transaction makes a quantity negative |
| InventoryTransactions.BatchResponses | backend/inventory-market-service/src/main/java/com/supermarket/inventory/service/InventoryTransactionService.java:81-105 | a successful batch answers each request in order and appends one history row per request |
| InventoryTransactions.BatchFailsAtFirstError | backend/inventory-market-service/src/main/java/com/supermarket/inventory/service/InventoryTransactionService.java:89-100 | a failed batch fails at the first request that fails after the ones before it, naming its product |
| InventoryTransactions.BatchKeepsNonNegative | backend/inventory-market-service/src/main/java/com/supermarket/inventory/service/InventoryTransactionService.java:81-105 | a batch never makes a quantity negative |
| InventoryTransactions.StockService.constructor | backend/inventory-market-service/src/main/java/com/supermarket/inventory/service/InventoryTransactionService.java:26-29 | the service starts over the given stock and history |
| InventoryTransactions.StockService.TransactionInventory | backend/inventory-market-service/src/main/java/com/supermarket/inventory/service/InventoryTransactionService.java:34-75 | success stores the new stock and the history row and answers that row; failure, a duplicate row included, changes nothing and reports the error |
| InventoryTransactions.StockService.BatchTransactionInventory | backend/inventory-market-service/src/main/java/com/supermarket/inventory/service/InventoryTransactionService.java:80-105 | all or nothing: success stores the whole batch's effect, failure leaves the stock and history as before |
| InventoryTransactions.BatchStopsAtFailure | backend/inventory-market-service/src/main/java/com/supermarket/inventory/service/InventoryTransactionService.java:93-100 | once a prefix of the batch fails, the whole batch fails with that error |
| InventoryTransactions.GroupByDate | backend/inventory-market-service/src/main/java/com/supermarket/inventory/service/InventoryTransactionService.java:123-125 | the groups are keyed by exactly the dates that occur |
| InventoryTransactions.GroupIsFilter | backend/inventory-market-service/src/main/java/com/supermarket/inventory/service/InventoryTransactionService.java:123-125 | each group holds exactly the records of its date, in their original order |
| InventoryTransactions.WindowRecordsFiled | backend/inventory-market-service/src/main/java/com/supermarket/inventory/service/InventoryTransactionService.java:109-126 | every record inside the optional date bounds is filed under its own date |
| InventoryTransactions.FiledRecordsInWindow | backend/inventory-market-service/src/main/java/com/supermarket/inventory/service/InventoryTransactionService.java:109-126 | every filed record lies inside the bounds and carries the date it is filed under |
| InventoryListing.KeyFor | backend/inventory-market-service/src/main/java/com/transportation/inventory/service/InventoryService.java:67-72 | "name" sorts by name, "quantity" by quantity, and "id" or any other value by product id |
| InventoryListing.ComparatorTotal | backend/inventory-market-service/src/main/java/com/transportation/inventory/service/InventoryService.java:65-76 | every comparator the switch can build, reversed or not, is a total preorder |
| InventoryListing.SortListing | backend/inventory-market-service/src/main/java/com/transportation/inventory/service/InventoryService.java:65-78 | the sort throws exactly when a null name must be compared; otherwise it returns the same rows in the comparator's order |
| InventoryListing.QuantityOrder | backend/inventory-market-service/src/main/java/com/transportation/inventory/service/InventoryService.java:69-76 | sorting by quantity gives ascending quantities, or descending ones for "desc" |
| InventoryListing.OnlyDescReverses | backend/inventory-market-service/src/main/java/com/transportation/inventory/service/InventoryService.java:74-76 | any direction other than "desc" sorts as no direction does |
| InventoryListing.DescInAnyCase | backend/inventory-market-service/src/main/java/com/transportation/inventory/service/InventoryService.java:74 | "desc" is recognised in any letter case, and nothing else reverses |
| InventoryListing.OtherDirectionsAscend | backend/inventory-market-service/src/main/java/com/transportation/inventory/service/InventoryService.java:74 | "asc", "descending" and a missing direction do not reverse the order |
| InventoryListing.Fill | backend/inventory-market-service/src/main/java/com/transportation/inventory/service/InventoryService.java:43-62 | each response keeps the row's product and quantity, and takes the name and price only when the product lookup answered |
| InventoryListing.Listing | backend/inventory-market-service/src/main/java/com/transportation/inventory/service/InventoryService.java:41-64 | one response per row, in row order |
| InventoryListing.BuildListing | backend/inventory-market-service/src/main/java/com/transportation/inventory/service/InventoryService.java:41-64 | the mapping loop builds the listing of the rows |
| OrderInventory.PairIndices | backend/inventory-market-service/src/main/java/com/transportation/inventory/repository/InventoryRepository.java:18 | the positions of exactly the rows of one source and product, increasing |
| OrderInventory.Items | backend/inventory-market-service/src/main/java/com/transportation/inventory/service/InventoryService.java:44 | each row mapped to its product and quantity |
| OrderInventory.GetInventoryBySourceId | backend/inventory-market-service/src/main/java/com/transportation/inventory/service/InventoryService.java:36-79 | the source's rows, looked up and sorted as the comparator says; every listed row comes from that source |
| OrderInventory.SourceResponses | backend/inventory-market-service/src/main/java/com/transportation/inventory/service/InventoryService.java:36-44 | the source's responses are made one per row of that source, in row order, with its product and quantity |
| OrderInventory.ListedFromSource | backend/inventory-market-service/src/main/java/com/transportation/inventory/service/InventoryService.java:36-79 | a reordering of those responses lists only products and quantities of that source's rows |
| OrderInventory.SourceListingFromRows | backend/inventory-market-service/src/main/java/com/transportation/inventory/service/InventoryService.java:36-79 | every response the source's listing returns carries the product and quantity of one of that source's rows |
| OrderInventory.PairQuantityUpdate | backend/inventory-market-service/src/main/java/com/transportation/inventory/service/InventoryService.java:102-104 | changing one row's quantity changes its pair's total by the difference and no other pair's |
| OrderInventory.InventoryTable.constructor | backend/inventory-market-service/src/main/java/com/transportation/inventory/repository/InventoryRepository.java:16 | the table starts empty |
| OrderInventory.InventoryTable.Insert | backend/inventory-market-service/src/main/java/com/transportation/inventory/service/InventoryService.java:106-112 | a save of a new row appends it with a fresh id |
| OrderInventory.InventoryTable.AddProductToCart | backend/inventory-market-service/src/main/java/com/transportation/inventory/service/InventoryService.java:81-113 | an existing row for the order and product gets the quantity added; a missing one is created; two rows make the lookup throw and change nothing; afterwards the pair has one row |
| OrderInventory.InventoryTable.CreateInventoryWithSourceId | backend/inventory-market-service/src/main/java/com/transportation/inventory/service/InventoryService.java:155-161 | one new row for the source with the request's product and quantity |
| OrderInventory.InventoryTable.CreatePendingOrderWithInventory | backend/inventory-market-service/src/main/java/com/transportation/inventory/service/InventoryService.java:164-188 | one new row per request, in request order, all under the new order's id |
| OrderInventory.InventoryTable.UpdateQuantities | backend/inventory-market-service/src/main/java/com/transportation/inventory/service/InventoryService.java:204-213 | the rows after the requests have been applied one after another |
| OrderInventory.PairAppend | backend/inventory-market-service/src/main/java/com/transportation/inventory/service/InventoryService.java:105-110 | a row added for a pair that had none leaves exactly one row for it |
| OrderInventory.PairIndicesIgnoreQuantity | backend/inventory-market-service/src/main/java/com/transportation/inventory/service/InventoryService.java:102-104 | which rows belong to a pair does not depend on quantities |
| OrderInventory.SetQuantity | backend/inventory-market-service/src/main/java/com/transportation/inventory/repository/InventoryRepository.java:27-31 | every row of the source and product takes the quantity; no other row changes |
| OrderInventory.UpdateAll | backend/inventory-market-service/src/main/java/com/transportation/inventory/service/InventoryService.java:206-212 | the rows keep their number |
| OrderInventory.UpdateSetsLastQuantity | backend/inventory-market-service/src/main/java/com/transportation/inventory/service/InventoryService.java:204-213 | each row of the source ends with the last quantity requested for its product; other rows are unchanged |
| OrderInventory.UpdateIdempotent | backend/inventory-market-service/src/main/java/com/transportation/inventory/service/InventoryService.java:204-213 | sending the same update twice leaves the rows as sending it once |
| OrderInventory.OrdersWithInventory | backend/inventory-market-service/src/main/java/com/transportation/inventory/service/InventoryService.java:115-152 | fails exactly when some order's listing fails; otherwise the orders' statuses, each built from its order and its own listing, rearranged newest first |
| OrderInventory.OrderListing | backend/inventory-market-service/src/main/java/com/transportation/inventory/service/InventoryService.java:136-142 | an order's status carries its id and creation time and its source listing by name ascending, and fails exactly when that listing fails |
| OrderInventory.Statuses | backend/inventory-market-service/src/main/java/com/transportation/inventory/service/InventoryService.java:134-144 | one status per order, in order, each the order's own listing |
| OrderInventory.MapUntilError | backend/inventory-market-service/src/main/java/com/transportation/inventory/service/InventoryService.java:134-144 | a stream map whose mapper may throw fails exactly when some element fails, and otherwise maps each element |
| OrderInventory.SortNewestFirst | backend/inventory-market-service/src/main/java/com/transportation/inventory/service/InventoryService.java:145-151 | the same statuses, each as often as before, with creation times descending |
| OrderInventory.NewestFirst | backend/inventory-market-service/src/main/java/com/transportation/inventory/service/InventoryService.java:145-148 | the reversed creation-time comparator is a total preorder that puts a status first exactly when it is no older |
| WarehouseInventory.Items | backend/inventory-market-service/src/main/java/com/supermarket/inventory/service/InventoryService.java:42 | each row mapped to its product and quantity |
| WarehouseInventory.GetInventory | backend/inventory-market-service/src/main/java/com/supermarket/inventory/service/InventoryService.java:31-77 | the WAREHOUSE rows, looked up and sorted as the comparator says; every listed row is a warehouse row |
| WarehouseInventory.ListedFromWarehouse | backend/inventory-market-service/src/main/java/com/supermarket/inventory/service/InventoryService.java:31-77 | a reordering of the warehouse responses lists only products and quantities of WAREHOUSE rows |
| WarehouseInventory.GetQuantity | backend/inventory-market-service/src/main/java/com/supermarket/inventory/service/InventoryService.java:93-96 | a read quantity is 0 or the quantity of a matching row |
| WarehouseInventory.MissingRowIsZero | backend/inventory-market-service/src/main/java/com/supermarket/inventory/service/InventoryService.java:95 | a product without a row there reads as quantity 0 |
| WarehouseInventory.SingleRowQuantity | backend/inventory-market-service/src/main/java/com/supermarket/inventory/service/InventoryService.java:93-96 | with exactly one matching row, its quantity is read |
| WarehouseInventory.DuplicateRowsThrow | backend/inventory-market-service/src/main/java/com/supermarket/inventory/service/InventoryService.java:94 | two matching rows make the lookup throw |
| TransactionService.WholeUnits | backend/transaction-market-service/src/main/java/com/supermarket/transaction_market_service/service/TransactionService.java:103-104 | the whole units of the total always land in the 32-bit int range, as Java's narrowing cast does |
| TransactionService.TierIsHalfReward | backend/transaction-market-service/src/main/java/com/supermarket/transaction_market_service/service/TransactionService.java:103-104 | for a non-negative total that fits, reward points are whole units over 100 000 and tier points are half of them, never more |
| TransactionService.RewardPoints | backend/transaction-market-service/src/main/java/com/supermarket/transaction_market_service/service/TransactionService.java:103 | the reward points stay within what an int total over 100 000 can give |
| TransactionService.TierPoints | backend/transaction-market-service/src/main/java/com/supermarket/transaction_market_service/service/TransactionService.java:104 | the tier points stay within half that range |
| TransactionService.PointsWrapPastIntRange | backend/transaction-market-service/src/main/java/com/supermarket/transaction_market_service/service/TransactionService.java:103-104 | a total of 2^31 whole units wraps in the cast and earns negative reward and tier points |
| TransactionService.TransactionStore.constructor | backend/transaction-market-service/src/main/java/com/supermarket/transaction_market_service/service/TransactionService.java:45-119 | the tables start empty, with ids handed out from zero |
| TransactionService.TransactionStore.CreateTransaction | backend/transaction-market-service/src/main/java/com/supermarket/transaction_market_service/service/TransactionService.java:45-119 | appends one sale under the card's customer or guest id 99999, then sends one stock reduction per line and saves its item row linked to the sale; when the inventory service refuses a line's reduction, the sale and the rows before that line stay stored, nothing later is sent and no points are asked for; otherwise every row is stored and points are asked for exactly when the customer is not the guest |
| TransactionService.HistoryDates | backend/transaction-market-service/src/main/java/com/supermarket/transaction_market_service/service/TransactionService.java:157-158 | lists each date that has a sale exactly once, newest first |
| TransactionService.EmptyHistory | backend/transaction-market-service/src/main/java/com/supermarket/transaction_market_service/service/TransactionService.java:127-129 | no sales in the range give an empty history |
| TransactionService.HistoryAt | backend/transaction-market-service/src/main/java/com/supermarket/transaction_market_service/service/TransactionService.java:157-200 | the history has one group per sale date, in the order of those dates |
| TransactionService.HistoryDatesShown | backend/transaction-market-service/src/main/java/com/supermarket/transaction_market_service/service/TransactionService.java:157-200 | the history's groups carry the history dates, in their order |
| TransactionService.HistoryNewestFirst | backend/transaction-market-service/src/main/java/com/supermarket/transaction_market_service/service/TransactionService.java:199 | group dates are distinct and descending, and each belongs to some sale |
| TransactionService.DayGroupHolds | backend/transaction-market-service/src/main/java/com/supermarket/transaction_market_service/service/TransactionService.java:161-194 | a sale appears under its customer in its own day's group |
| TransactionService.HistoryPlacesEverySale | backend/transaction-market-service/src/main/java/com/supermarket/transaction_market_service/service/TransactionService.java:157-200 | every sale appears in the history under its date and customer, with its own items |
| TransactionService.DayGroupListsOnlyItsSales | backend/transaction-market-service/src/main/java/com/supermarket/transaction_market_service/service/TransactionService.java:161-194 | every sale listed in a day's group is a sale of that day and customer, carrying exactly its own items |
| TransactionService.HistoryListsOnlyItsSales | backend/transaction-market-service/src/main/java/com/supermarket/transaction_market_service/service/TransactionService.java:161-200 | nothing in the history is invented: each listed sale is a real sale of that group's date and customer with its own items |
| TransactionReport.DashboardRange | backend/transaction-market-service/src/main/java/com/supermarket/transaction_market_service/service/TransactionService.java:209-219 | the range is a valid ordered pair of dates; it fails exactly when month mode gets no month or one outside 1..12 |
| TransactionReport.MonthRangeIsTheMonth | backend/transaction-market-service/src/main/java/com/supermarket/transaction_market_service/service/TransactionService.java:212-215 | the month range holds exactly the dates of that month and year |
| TransactionReport.YearRangeIsTheYear | backend/transaction-market-service/src/main/java/com/supermarket/transaction_market_service/service/TransactionService.java:216-219 | any filter other than "month" gives a range holding exactly the dates of the year |
| TransactionReport.GetSummary | backend/transaction-market-service/src/main/java/com/supermarket/transaction_market_service/service/TransactionService.java:229-254 | counts the sales; without sales revenue and average are zero; otherwise the average is the revenue over the count rounded to the nearest cent, with ties away from zero |
| TransactionReport.SummaryAddsUp | backend/transaction-market-service/src/main/java/com/supermarket/transaction_market_service/service/TransactionService.java:232-242 | one more sale adds its total to the revenue, one more item adds its quantity to the products |
| TransactionReport.DayLabelInjective | backend/transaction-market-service/src/main/java/com/supermarket/transaction_market_service/service/TransactionService.java:264-268 | two days with the same "Day n" label are the same day |
| TransactionReport.Periods | backend/transaction-market-service/src/main/java/com/supermarket/transaction_market_service/service/TransactionService.java:261-276 | month mode has one distinct period per day of the month, year mode the twelve month names |
| TransactionReport.PeriodOfInRange | backend/transaction-market-service/src/main/java/com/supermarket/transaction_market_service/service/TransactionService.java:267-281 | a valid sale inside the range is booked under one of the chart's periods |
| TransactionReport.RevenueChart | backend/transaction-market-service/src/main/java/com/supermarket/transaction_market_service/service/TransactionService.java:256-290 | periods are distinct, each period's revenue is the sum of its sales, the revenues add up to all sales, and with every sale in range the periods are exactly the pre-filled ones |
| TransactionReport.FoldedChart | backend/transaction-market-service/src/main/java/com/supermarket/transaction_market_service/service/TransactionService.java:263-290 | merging the sales into the zero buckets gives distinct periods, each holding the revenue of its own sales, adding up to all revenue, and with every sale in a period exactly the periods of the range |
| TransactionReport.ZeroBuckets | backend/transaction-market-service/src/main/java/com/supermarket/transaction_market_service/service/TransactionService.java:263-276 | the pre-filled zero buckets total zero and look up as zero |
| TransactionReport.TopTen | backend/transaction-market-service/src/main/java/com/supermarket/transaction_market_service/service/TransactionService.java:315-318 | keeps min(10, n) candidates, none invented or repeated, in descending revenue; distinct names stay distinct; a candidate left out earns no more than any kept, and is left out only when ten are kept |
| TransactionReport.ByRevenue | backend/transaction-market-service/src/main/java/com/supermarket/transaction_market_service/service/TransactionService.java:315-316 | the same candidates, each as often as before, by descending revenue |
| TransactionReport.TopProducts | backend/transaction-market-service/src/main/java/com/supermarket/transaction_market_service/service/TransactionService.java:292-319 | min(10, number of products sold) distinct products in descending revenue, drawn from the totals, each with the quantity and revenue of all its items; a product left out earns no more than any listed |
| TransactionReport.ProductTotals | backend/transaction-market-service/src/main/java/com/supermarket/transaction_market_service/service/TransactionService.java:297-313 | one product per name sold, names distinct, each carrying the summed quantity and revenue of its items; every name sold is listed |
| TransactionReport.TalliesCombine | backend/transaction-market-service/src/main/java/com/supermarket/transaction_market_service/service/TransactionService.java:297-313 | the quantity map and the revenue map hold the same names in the same order, and read side by side they are the product totals |
| TransactionReport.DrawnFromTotals | backend/transaction-market-service/src/main/java/com/supermarket/transaction_market_service/service/TransactionService.java:315-318 | products taken from the totals carry their names' totals and were sold |
| TransactionReport.PermutationKeepsNames | backend/transaction-market-service/src/main/java/com/supermarket/transaction_market_service/service/TransactionService.java:315-316 | sorting keeps product names distinct |
| TransactionReport.KeepHighest | backend/transaction-market-service/src/main/java/com/supermarket/transaction_market_service/service/TransactionService.java:315-317 | the first n of a list by descending revenue earn at least as much as any product after them |
| TransactionReport.LeftOutAt | backend/transaction-market-service/src/main/java/com/supermarket/transaction_market_service/service/TransactionService.java:315-317 | a sold product missing from the ten earns no more than any product kept |
| TransactionReport.LeftOutEarnsNoMore | backend/transaction-market-service/src/main/java/com/supermarket/transaction_market_service/service/TransactionService.java:315-317 | the same for every item sold |
| TransactionReport.Tally | backend/transaction-market-service/src/main/java/com/supermarket/transaction_market_service/service/TransactionService.java:297-313 | the loop merging item values by product name computes the fold of the items by name |
| TransactionReport.PaymentMethods | backend/transaction-market-service/src/main/java/com/supermarket/transaction_market_service/service/TransactionService.java:321-336 | each payment method once, counted by its sales, counts positive and adding up to the number of sales |
| TransactionReport.PaymentTotal | backend/transaction-market-service/src/main/java/com/supermarket/transaction_market_service/service/TransactionService.java:321-336 | the per-method counts add up to the number of sales |
| TransactionReport.PaymentCount | backend/transaction-market-service/src/main/java/com/supermarket/transaction_market_service/service/TransactionService.java:321-336 | each listed method counts exactly the sales paid with it, and at least one |
| TransactionReport.GetDashboardReport | backend/transaction-market-service/src/main/java/com/supermarket/transaction_market_service/service/TransactionService.java:209-227 | fails exactly when the range does; otherwise the summary, chart, top products and payment counts are those of the sales in range and their items: each bucket holds its period's revenue, the top products are the ten best of those items, the buckets add up to the revenue and the counts to the sales; with valid dates the chart has one bucket per period |
| EmployeeErrors.Handle | backend/employee-market-service/src/main/java/com/supermarket/employee_market_service/exception/GlobalExceptionHandler.java:16-134 | duplicates answer 409, a missing employee 404, invalid role, creation and update failures 400, access denial 403 and everything else 500, always with the request's path; the message is the exception's own except for access denial and the generic handler |
| EmployeeErrors.StatusesAreFixed | backend/employee-market-service/src/main/java/com/supermarket/employee_market_service/exception/GlobalExceptionHandler.java:16-134 | every exception is answered with one of the five statuses |
| EmployeeErrors.GenericHidesDetail | backend/employee-market-service/src/main/java/com/supermarket/employee_market_service/exception/GlobalExceptionHandler.java:124-134 | two unexpected failures with different messages give the same response |
| EmployeeService.SplitName | backend/employee-market-service/src/main/java/com/supermarket/employee_market_service/service/EmployeeService.java:83-85 | the first name has no space; with a space the two parts rejoined by a space give the name back; without one the last name is empty |
| EmployeeService.SplitDisplayName | backend/employee-market-service/src/main/java/com/supermarket/employee_market_service/service/EmployeeService.java:52-85 | splitting the shown "first last" name gives back the first and last names |
| EmployeeService.OneWordNameShownWithSpace | backend/employee-market-service/src/main/java/com/supermarket/employee_market_service/service/EmployeeService.java:52-85 | a one-word name is shown back with a trailing space |
| EmployeeService.ReplaceChars | backend/employee-market-service/src/main/java/com/supermarket/employee_market_service/service/EmployeeService.java:337 | each character of the group becomes the base letter and nothing else changes |
| EmployeeService.ApplyGroups | backend/employee-market-service/src/main/java/com/supermarket/employee_market_service/service/EmployeeService.java:336-338 | the accent replacements keep the length |
| EmployeeService.KeepUsernameChars | backend/employee-market-service/src/main/java/com/supermarket/employee_market_service/service/EmployeeService.java:340 | only lower-case ASCII letters and digits are left |
| EmployeeService.RemoveVietnameseAccents | backend/employee-market-service/src/main/java/com/supermarket/employee_market_service/service/EmployeeService.java:325-341 | the result is the accent replacements followed by dropping other characters, and holds only username characters |
| EmployeeService.Username | backend/employee-market-service/src/main/java/com/supermarket/employee_market_service/service/EmployeeService.java:88 | a username made from a first name holds only lower-case letters and digits |
| EmployeeService.CapitalLowered | backend/employee-market-service/src/main/java/com/supermarket/employee_market_service/service/EmployeeService.java:88 | `toLowerCase` takes every capital form of an accented letter in the accent table to that letter, and leaves the small letters as they are |
| EmployeeService.CapitalInitialSameUsername | backend/employee-market-service/src/main/java/com/supermarket/employee_market_service/service/EmployeeService.java:88 | a first name starting with a capital accented letter gets the same username as the name starting with the small letter (so "Đức" and "đức" agree) |
| EmployeeService.UsernameIgnoresCase | backend/employee-market-service/src/main/java/com/supermarket/employee_market_service/service/EmployeeService.java:88 | a first name and its lower-cased form give the same username |
| EmployeeService.AccentsAreNotUsernameChars | backend/employee-market-service/src/main/java/com/supermarket/employee_market_service/service/EmployeeService.java:326-334 | no accented letter survives as itself in a username |
| EmployeeService.ApplyGroupsKeepsPlain | backend/employee-market-service/src/main/java/com/supermarket/employee_market_service/service/EmployeeService.java:336-338 | replacing accents leaves plain usernames unchanged |
| EmployeeService.KeepPlain | backend/employee-market-service/src/main/java/com/supermarket/employee_market_service/service/EmployeeService.java:340 | dropping characters leaves plain usernames unchanged |
| EmployeeService.RemoveAccentsIdempotent | backend/employee-market-service/src/main/java/com/supermarket/employee_market_service/service/EmployeeService.java:325-341 | removing accents twice is removing them once |
| EmployeeService.UserRole | backend/employee-market-service/src/main/java/com/supermarket/employee_market_service/service/EmployeeService.java:312-322 | "NONE" exactly when no effective role is valid; otherwise the first valid role in the list |
| EmployeeService.GetUserRole | backend/employee-market-service/src/main/java/com/supermarket/employee_market_service/service/EmployeeService.java:312-322 | the loop returns the role the specification picks |
| EmployeeService.WithoutRole | backend/employee-market-service/src/main/java/com/supermarket/employee_market_service/service/EmployeeService.java:298-301 | removing a realm role keeps every other role and drops that one |
| EmployeeService.WithRole | backend/employee-market-service/src/main/java/com/supermarket/employee_market_service/service/EmployeeService.java:303-305 | adding a realm role keeps every role and adds that one |
| EmployeeService.ReassignedRoleReported | backend/employee-market-service/src/main/java/com/supermarket/employee_market_service/service/EmployeeService.java:289-309 | a user with one valid role reassigned to a valid role then reports the new role and holds only it |
| EmployeeService.Reassigned | backend/employee-market-service/src/main/java/com/supermarket/employee_market_service/service/EmployeeService.java:288-306 | the new role is held afterwards; any other role is held exactly when it was held before and is not the valid old role that was removed |
| EmployeeService.SecondRoleHidesReassignment | backend/employee-market-service/src/main/java/com/supermarket/employee_market_service/service/EmployeeService.java:289-322 | a user holding CASHIER and ADMIN reassigned from CASHIER to MARKETING still reports ADMIN |
| EmployeeService.AdminIgnoringCase | backend/employee-market-service/src/main/java/com/supermarket/employee_market_service/service/EmployeeService.java:46 | the case-insensitive ADMIN filter hides exactly the users whose reported role is ADMIN |
| EmployeeService.AllEmployees | backend/employee-market-service/src/main/java/com/supermarket/employee_market_service/service/EmployeeService.java:37-59 | lists no more employees than users and none of them is ADMIN |
| EmployeeService.AllEmployeesStep | backend/employee-market-service/src/main/java/com/supermarket/employee_market_service/service/EmployeeService.java:41-58 | the last user is listed after the others exactly when its role is not ADMIN |
| EmployeeService.AllEmployeesAreUsers | backend/employee-market-service/src/main/java/com/supermarket/employee_market_service/service/EmployeeService.java:37-59 | every listed employee is a non-ADMIN user shown with its full name, email, role and status |
| EmployeeService.AllEmployeesListsUser | backend/employee-market-service/src/main/java/com/supermarket/employee_market_service/service/EmployeeService.java:37-59 | every non-ADMIN user is listed |
| EmployeeService.IndexOfId | backend/employee-market-service/src/main/java/com/supermarket/employee_market_service/service/EmployeeService.java:64 | finds a user carrying the id, or reports that none does |
| EmployeeService.IndexOfDistinctId | backend/employee-market-service/src/main/java/com/supermarket/employee_market_service/service/EmployeeService.java:64 | with distinct ids the lookup finds exactly the user carrying it |
| EmployeeService.EmployeeById | backend/employee-market-service/src/main/java/com/supermarket/employee_market_service/service/EmployeeService.java:62-76 | fails with a remote not-found exactly when no user has the id; otherwise gives that user as an employee |
| EmployeeService.AttributeOr | backend/employee-market-service/src/main/java/com/supermarket/employee_market_service/service/EmployeeService.java:160-165 | the stored attribute when present, the fallback otherwise |
| EmployeeService.EmployeeCredentials | backend/employee-market-service/src/main/java/com/supermarket/employee_market_service/service/EmployeeService.java:149-179 | fails with employee-not-found exactly when no user has the id; otherwise gives that user's credentials |
| EmployeeService.IndexOfEmail | backend/employee-market-service/src/main/java/com/supermarket/employee_market_service/service/EmployeeService.java:97 | the first user the non-exact email search finds (the stored address contains the searched one, ignoring case), or none exactly when it finds nobody |
| EmployeeService.EmailFoundItself | backend/employee-market-service/src/main/java/com/supermarket/employee_market_service/service/EmployeeService.java:97 | a search for an address finds that address |
| EmployeeService.NoHitNoSameEmail | backend/employee-market-service/src/main/java/com/supermarket/employee_market_service/service/EmployeeService.java:96-99 | an empty search means no user has that exact address |
| EmployeeService.Stamped | backend/employee-market-service/src/main/java/com/supermarket/employee_market_service/service/EmployeeService.java:132-136 | after creation the user stores the username and first name as attributes and nothing else changes |
| EmployeeService.Registered | backend/employee-market-service/src/main/java/com/supermarket/employee_market_service/service/EmployeeService.java:118-138 | the created user is kept; the creation fails with an invalid role exactly when a non-empty role is not one of the four |
| EmployeeService.Create | backend/employee-market-service/src/main/java/com/supermarket/employee_market_service/service/EmployeeService.java:78-147 | a taken username is refused first, then a taken email, both leaving the realm unchanged; a status other than 201 fails without a new user; a success returns the employee with its new id, and at most one user is added |
| EmployeeService.CreatedCredentials | backend/employee-market-service/src/main/java/com/supermarket/employee_market_service/service/EmployeeService.java:103-136 | a created user logs in with the username made from the first name and the first name as a permanent password |
| EmployeeService.InvalidRoleKeepsCreatedUser | backend/employee-market-service/src/main/java/com/supermarket/employee_market_service/service/EmployeeService.java:118-127 | an invalid role is reported only after the user was created, and the user stays |
| EmployeeService.CreateKeepsUnique | backend/employee-market-service/src/main/java/com/supermarket/employee_market_service/service/EmployeeService.java:90-100 | unique usernames and emails stay unique after a creation |
| EmployeeService.Renamed | backend/employee-market-service/src/main/java/com/supermarket/employee_market_service/service/EmployeeService.java:200-204 | an update replaces the names and the email and keeps id, username and roles |
| EmployeeService.Update | backend/employee-market-service/src/main/java/com/supermarket/employee_market_service/service/EmployeeService.java:181-220 | a missing id fails as not found, an email held by another user fails as an update error, both without change; only the user with the id changes and ids and usernames are kept |
| EmployeeService.UpdateThenGet | backend/employee-market-service/src/main/java/com/supermarket/employee_market_service/service/EmployeeService.java:181-220 | after a successful update the lookup shows the new name, email and role |
| EmployeeService.DuplicateEmailStatuses | backend/employee-market-service/src/main/java/com/supermarket/employee_market_service/service/EmployeeService.java:91-218 | a taken email answers 409 on creation but 400 on update, because the update wraps the exception |
| EmployeeService.Delete | backend/employee-market-service/src/main/java/com/supermarket/employee_market_service/service/EmployeeService.java:222-229 | always succeeds, since a missing id comes back as a response and not an exception: a missing id changes nothing, and otherwise exactly that user is removed and the others keep their order |
| EmployeeService.RemoveAtIndex | backend/employee-market-service/src/main/java/com/supermarket/employee_market_service/service/EmployeeService.java:225 | where each remaining user sits after a removal |
| EmployeeService.RemoveAtKeepsDistinct | backend/employee-market-service/src/main/java/com/supermarket/employee_market_service/service/EmployeeService.java:225 | removing a user keeps ids distinct |
| EmployeeService.DeleteThenGet | backend/employee-market-service/src/main/java/com/supermarket/employee_market_service/service/EmployeeService.java:222-229 | after a deletion the id is no longer found and every other lookup is unchanged |
| EmployeeService.DeletedIdGone | backend/employee-market-service/src/main/java/com/supermarket/employee_market_service/service/EmployeeService.java:222-229 | after a deletion no remaining user has that id |
| EmployeeService.DeleteKeepsOther | backend/employee-market-service/src/main/java/com/supermarket/employee_market_service/service/EmployeeService.java:222-229 | any other id is looked up after the deletion exactly as before |
| EmployeeService.RemoveAtFindsOther | backend/employee-market-service/src/main/java/com/supermarket/employee_market_service/service/EmployeeService.java:225 | removing one user still finds every other id's same user |
| EmployeeService.ResetPassword | backend/employee-market-service/src/main/java/com/supermarket/employee_market_service/service/EmployeeService.java:231-273 | a missing id fails as not found without change; otherwise only that user changes and the credentials carry its first name as the password |
| EmployeeService.ResetThenCredentials | backend/employee-market-service/src/main/java/com/supermarket/employee_market_service/service/EmployeeService.java:231-273 | after a reset the credentials report the first name as the password |
| EmployeeService.ResetIdempotent | backend/employee-market-service/src/main/java/com/supermarket/employee_market_service/service/EmployeeService.java:231-273 | resetting twice is resetting once |
| EmployeeService.IndexOfIdUnchanged | backend/employee-market-service/src/main/java/com/supermarket/employee_market_service/service/EmployeeService.java:64 | the lookup depends only on the ids |
| EmployeeService.Realm.constructor | backend/employee-market-service/src/main/java/com/supermarket/employee_market_service/service/EmployeeService.java:30-33 | the realm starts with no users |
| EmployeeService.Realm.CreateEmployee | backend/employee-market-service/src/main/java/com/supermarket/employee_market_service/service/EmployeeService.java:78-147 | the step-by-step creation ends in the state and result the specification gives |
| EmployeeService.Realm.UpdateEmployee | backend/employee-market-service/src/main/java/com/supermarket/employee_market_service/service/EmployeeService.java:181-220 | the step-by-step update ends in the state and result the specification gives |
| EmployeeService.Realm.EmailTaken | backend/employee-market-service/src/main/java/com/supermarket/employee_market_service/service/EmployeeService.java:191-197 | the update's email check refuses exactly a changed email that the search finds first on another user |
| EmployeeService.Realm.DeleteEmployee | backend/employee-market-service/src/main/java/com/supermarket/employee_market_service/service/EmployeeService.java:222-229 | the deletion ends in the state and result the specification gives |
| EmployeeService.Realm.ResetUserPassword | backend/employee-market-service/src/main/java/com/supermarket/employee_market_service/service/EmployeeService.java:231-273 | the reset ends in the state and result the specification gives |
| CustomerService.FromRequest | backend/customer-market-service/src/main/java/com/supermarket/customer_market_service/service/CustomerService.java:50 | a new customer copies the request's fields and starts active with no points |
| CustomerService.Updated | backend/customer-market-service/src/main/java/com/supermarket/customer_market_service/service/CustomerService.java:73 | an update replaces the request's fields and keeps points and the active flag |
| CustomerService.AdmissibleKeepsUnique | backend/customer-market-service/src/main/java/com/supermarket/customer_market_service/service/CustomerService.java:40-77 | a row that passes the email and card checks keeps emails and cards unique |
| CustomerService.InadmissibleClashes | backend/customer-market-service/src/main/java/com/supermarket/customer_market_service/service/CustomerService.java:40-77 | a row the checks refuse would share its email or card with another row |
| CustomerService.ListBelow | backend/customer-market-service/src/main/java/com/supermarket/customer_market_service/service/CustomerService.java:22-38 | lists only existing rows that match, in ascending id order |
| CustomerService.ListBelowComplete | backend/customer-market-service/src/main/java/com/supermarket/customer_market_service/service/CustomerService.java:22-38 | every matching row is listed |
| CustomerService.EmptySearchListsAll | backend/customer-market-service/src/main/java/com/supermarket/customer_market_service/service/CustomerService.java:34-38 | an empty search lists the same rows as the full listing |
| CustomerService.CustomerStore.constructor | backend/customer-market-service/src/main/java/com/supermarket/customer_market_service/service/CustomerService.java:17-20 | the table starts empty |
| CustomerService.CustomerStore.List | backend/customer-market-service/src/main/java/com/supermarket/customer_market_service/service/CustomerService.java:22-38 | the loop lists the rows the specification lists |
| CustomerService.CustomerStore.GetAllCustomers | backend/customer-market-service/src/main/java/com/supermarket/customer_market_service/service/CustomerService.java:22-26 | every row is listed exactly once, as stored |
| CustomerService.CustomerStore.SearchByCardNumber | backend/customer-market-service/src/main/java/com/supermarket/customer_market_service/service/CustomerService.java:34-38 | exactly the rows whose card contains the term, ignoring case |
| CustomerService.CustomerStore.GetCustomerById | backend/customer-market-service/src/main/java/com/supermarket/customer_market_service/service/CustomerService.java:28-32 | the row with the id, or not found |
| CustomerService.CustomerStore.CreateCustomer | backend/customer-market-service/src/main/java/com/supermarket/customer_market_service/service/CustomerService.java:40-54 | a taken email is refused first, then a taken card, both without change; otherwise the new row is saved under the next id |
| CustomerService.CustomerStore.UpdateCustomer | backend/customer-market-service/src/main/java/com/supermarket/customer_market_service/service/CustomerService.java:56-77 | a missing id fails; a changed email or card already in use fails; otherwise only that row is updated; a failure changes nothing |
| CustomerService.CustomerStore.DeactivateCustomer | backend/customer-market-service/src/main/java/com/supermarket/customer_market_service/service/CustomerService.java:79-86 | a missing id fails; otherwise only that row's active flag becomes false |
| CustomerService.CustomerStore.DeleteCustomer | backend/customer-market-service/src/main/java/com/supermarket/customer_market_service/service/CustomerService.java:88-94 | a missing id fails; otherwise exactly that row is removed |
| CustomerService.DeactivateIdempotent | backend/customer-market-service/src/main/java/com/supermarket/customer_market_service/service/CustomerService.java:79-86 | `deactivateCustomer` on a present id keeps every id, clears only that customer's active flag, and a second deactivation leaves the table as the first left it |
| Cart.Clipped | frontend/src/pages/cashier/POSCheckout.jsx:199 | the code field keeps a prefix of the typed text of at most six characters, the whole text when it is short enough |
| Cart.Requantified | frontend/src/pages/cashier/POSCheckout.jsx:87-91 | same length; the lines with the code get the new quantity and every other line is unchanged |
| Cart.RequantifiedSubtotal | frontend/src/pages/cashier/POSCheckout.jsx:85-96 | changing the quantity of the one line with the code changes the subtotal by that line's difference |
| Cart.Find | frontend/src/pages/cashier/POSCheckout.jsx:47 | finds a line exactly when one has the code, and then the first such line |
| Cart.Added | frontend/src/pages/cashier/POSCheckout.jsx:47-69 | a code already in the cart gets one more unit; a new code is appended with quantity one; the code is in the cart afterwards |
| Cart.AddedKeepsInvariant | frontend/src/pages/cashier/POSCheckout.jsx:47-69 | adding keeps one line per code and every quantity at least one |
| Cart.AddedSubtotal | frontend/src/pages/cashier/POSCheckout.jsx:47-96 | adding a code raises the subtotal by the price of its line, the captured one for an existing line |
| Cart.BumpSubtotal | frontend/src/pages/cashier/POSCheckout.jsx:50-56 | one more unit adds the line's price to the subtotal |
| Cart.WithQuantity | frontend/src/pages/cashier/POSCheckout.jsx:85-92 | a quantity below one is ignored; otherwise the lines with the code take it |
| Cart.WithQuantityKeepsInvariant | frontend/src/pages/cashier/POSCheckout.jsx:85-92 | a quantity update keeps one line per code and every quantity at least one |
| Cart.WithQuantitySubtotal | frontend/src/pages/cashier/POSCheckout.jsx:85-96 | the subtotal changes by the line's price times the change in quantity, and not at all for a rejected quantity |
| Cart.Removed | frontend/src/pages/cashier/POSCheckout.jsx:81-83 | no line with the code is left and nothing is added |
| Cart.RemovedIsFilter | frontend/src/pages/cashier/POSCheckout.jsx:81-83 | removal is the order-keeping filter of the other codes |
| Cart.RemovedAbsent | frontend/src/pages/cashier/POSCheckout.jsx:81-83 | removing a code that is not in the cart changes nothing |
| Cart.RemovedNoNewCode | frontend/src/pages/cashier/POSCheckout.jsx:81-83 | removal brings in no new code |
| Cart.RemovedKeepsInvariant | frontend/src/pages/cashier/POSCheckout.jsx:81-83 | removal keeps one line per code and every quantity at least one |
| Cart.RemovedSubtotal | frontend/src/pages/cashier/POSCheckout.jsx:81-96 | removing the line with the code takes its total off the subtotal |
| CashierCheckout.ProductIds | frontend/src/pages/cashier/POSCheckout.jsx:107 | the product ids of the lines, in cart order |
| CashierCheckout.PosSession.constructor | frontend/src/pages/cashier/POSCheckout.jsx:12-19 | the page starts with an empty code, an empty cart, no discounts and every dialog closed |
| CashierCheckout.PosSession.TypeCode | frontend/src/pages/cashier/POSCheckout.jsx:197-199 | the code field holds the clipped text |
| CashierCheckout.PosSession.TypeCardNumber | frontend/src/pages/cashier/POSCheckout.jsx:315-316 | the loyalty-code field holds the text as typed |
| CashierCheckout.PosSession.SubmitCode | frontend/src/pages/cashier/POSCheckout.jsx:27-73 | only a six-character code is looked up; a rejected lookup leaves the cart and the field as they were; otherwise the field is cleared, a body without a product leaves the cart alone, and a found product is added with its id |
| CashierCheckout.PosSession.RemoveItem | frontend/src/pages/cashier/POSCheckout.jsx:81-83 | the cart becomes the removal |
| CashierCheckout.PosSession.UpdateQuantity | frontend/src/pages/cashier/POSCheckout.jsx:85-92 | the cart becomes the quantity update |
| CashierCheckout.PosSession.Checkout | frontend/src/pages/cashier/POSCheckout.jsx:98-121 | an empty cart sends nothing; otherwise the coupon request carries the ids, the subtotal and the card; a successful answer is stored and opens the payment dialog, a failure changes nothing |
| CashierCheckout.PosSession.QRPayment | frontend/src/pages/cashier/POSCheckout.jsx:123-127 | the method becomes "qr" and the QR dialog replaces the payment dialog |
| CashierCheckout.PosSession.ProcessPayment | frontend/src/pages/cashier/POSCheckout.jsx:138-152 | the transaction request carries the cart, the discounted total, the method and the card; on success the invoice replaces the QR dialog, on failure no dialog changes |
| CashierCheckout.PosSession.CashPayment | frontend/src/pages/cashier/POSCheckout.jsx:129-132 | the method becomes "cash"; the request carries the cart, the stored final total (absent while no discounts are stored), "cash" and the loyalty card; an accepted sale closes the QR dialog and opens the invoice, a refused one leaves both dialogs as they were |
| CashierCheckout.PosSession.QRConfirm | frontend/src/pages/cashier/POSCheckout.jsx:134-136 | with no check on the customer, the request carries the cart, the stored final total, "qr" and the loyalty card; an accepted sale swaps the QR dialog for the invoice, a refused one leaves both dialogs as they were |
| CashierCheckout.PosSession.Finish | frontend/src/pages/cashier/POSCheckout.jsx:154-161 | the cart, the discounts and the method are cleared and both dialogs close |
| StaffCheckout.MockDiscountTotal | frontend/src/pages/staff/POSCheckout.jsx:110-121 | the fixed discounts take 15000 off every sale |
| StaffCheckout.FinalTotalCanBeNegative | frontend/src/pages/staff/POSCheckout.jsx:119-125 | a cart of 10000 ends with a final total of -5000, since nothing clamps it |
| StaffCheckout.StaffSession.constructor | frontend/src/pages/staff/POSCheckout.jsx:14-21 | the page starts empty, with no customer name and every dialog closed |
| StaffCheckout.StaffSession.TypeCode | frontend/src/pages/staff/POSCheckout.jsx:201-203 | the code field holds the clipped text |
| StaffCheckout.StaffSession.TypeCustomerName | frontend/src/pages/staff/POSCheckout.jsx:455 | the customer-name field holds the text as typed |
| StaffCheckout.StaffSession.SubmitCode | frontend/src/pages/staff/POSCheckout.jsx:29-74 | only a six-character code is looked up; a rejected lookup leaves the cart and the field as they were; otherwise the field is cleared and a found product is added without an id |
| StaffCheckout.StaffSession.RemoveItem | frontend/src/pages/staff/POSCheckout.jsx:82-84 | the cart becomes the removal |
| StaffCheckout.StaffSession.UpdateQuantity | frontend/src/pages/staff/POSCheckout.jsx:86-93 | the cart becomes the quantity update |
| StaffCheckout.StaffSession.Checkout | frontend/src/pages/staff/POSCheckout.jsx:99-117 | an empty cart changes nothing; otherwise the fixed discounts apply, the final total is the subtotal less 15000 and the payment dialog opens |
| StaffCheckout.StaffSession.QRPayment | frontend/src/pages/staff/POSCheckout.jsx:127-131 | the method becomes "qr" and the QR dialog replaces the payment dialog |
| StaffCheckout.StaffSession.ProcessPayment | frontend/src/pages/staff/POSCheckout.jsx:146-161 | nothing is sent; the invoice replaces the QR dialog |
| StaffCheckout.StaffSession.CashPayment | frontend/src/pages/staff/POSCheckout.jsx:133-136 | the method becomes "cash" and the invoice opens without a customer name |
| StaffCheckout.StaffSession.QRConfirm | frontend/src/pages/staff/POSCheckout.jsx:138-144 | the QR sale completes exactly when the trimmed customer name is not empty |
| StaffCheckout.StaffSession.Finish | frontend/src/pages/staff/POSCheckout.jsx:163-170 | the cart, discounts, customer name and method are cleared and the invoice closes, while the payment dialog is left as it was |
| CouponPage.Validate | frontend/src/pages/marketing/Coupon.jsx:139-190 | the form passes exactly when every rule holds; each type's own rule is checked first, then a discount, then both dates, then their order, and the message says which rule failed |
| CouponPage.ProductWithoutCodesRefused | frontend/src/pages/marketing/Coupon.jsx:163-170 | a product coupon with neither codes nor a pattern is refused for that reason |
| CouponPage.DatePart | frontend/src/pages/marketing/Coupon.jsx:97-104 | the date part is the prefix of the text before the first "T" |
| CouponPage.DatePartOfDateTime | frontend/src/pages/marketing/Coupon.jsx:97-104 | a date-time is cut back to its date, and cutting twice is cutting once |
| CouponPage.EditForm | frontend/src/pages/marketing/Coupon.jsx:93-105 | the form shows the coupon with its four dates cut to the day and every other field as stored |
| CouponPage.Replaced | frontend/src/pages/marketing/Coupon.jsx:73 | the rows with the id take the form's fields and keep the id; the others are untouched |
| CouponPage.ReplacedMissing | frontend/src/pages/marketing/Coupon.jsx:73 | updating an id the list does not hold changes nothing |
| CouponPage.Deleted | frontend/src/pages/marketing/Coupon.jsx:86 | no row with the id is left |
| CouponPage.DeletedMissing | frontend/src/pages/marketing/Coupon.jsx:86 | deleting an id the list does not hold changes nothing |
| CouponPage.DeletedAppend | frontend/src/pages/marketing/Coupon.jsx:86 | deletion drops exactly the rows with the id and keeps the others in order |
| CouponPage.Filtered | frontend/src/pages/marketing/Coupon.jsx:209-215 | a coupon is listed exactly when it is in the list and matches the search and the type, as often as in the list and in list order |
| CouponPage.FilteredAppend | frontend/src/pages/marketing/Coupon.jsx:209-215 | filtering a list with one more coupon adds that coupon at the end exactly when it matches |
| CouponPage.FilteredShowsAll | frontend/src/pages/marketing/Coupon.jsx:209-215 | with no search and "ALL" chosen every coupon is listed in order |
| CouponPage.Label | frontend/src/pages/marketing/Coupon.jsx:217-225 | a known type gets its name; any other is shown as itself |
| CouponPage.CustomerTypeUnlabelled | frontend/src/pages/marketing/Coupon.jsx:217-225 | customer coupons have no name of their own |
| CouponPage.CouponList.constructor | frontend/src/pages/marketing/Coupon.jsx:9-43 | the page starts with the loaded coupons, a blank form, no search and "ALL" |
| CouponPage.CouponList.OpenModal | frontend/src/pages/marketing/Coupon.jsx:92-128 | the dialog opens on the coupon's fields with cut dates, or on a blank product coupon |
| CouponPage.CouponList.ChangeForm | frontend/src/pages/marketing/Coupon.jsx:201-207 | the form takes the edited fields |
| CouponPage.CouponList.Submit | frontend/src/pages/marketing/Coupon.jsx:135-199 | a refused form changes nothing but reports why; an accepted one closes the dialog and updates the edited coupon or appends the created one |
| CouponPage.CouponList.Delete | frontend/src/pages/marketing/Coupon.jsx:80-90 | only a confirmed delete removes the rows with the id |
| WarehouseTransferForm.FindStock | frontend/src/components/warehouse/TransactionWarehouse.jsx:68-70 | the first stock entry whose product id or id names the product, or none exactly when none does |
| WarehouseTransferForm.RowCheck | frontend/src/components/warehouse/TransactionWarehouse.jsx:61-88 | a row passes only with a chosen, known product and a positive quantity, and for an export no more than the stock; only exports can fail on stock |
| WarehouseTransferForm.Payload | frontend/src/components/warehouse/TransactionWarehouse.jsx:95-99 | one transfer per row, in row order, with the numeric quantity and the dialog's type |
| WarehouseTransferForm.StockCheckIsPerRow | frontend/src/components/warehouse/TransactionWarehouse.jsx:81-88 | two rows of 3 against a stock of 5 both pass, since each row is checked alone |
| WarehouseTransferForm.TransferDialog.constructor | frontend/src/components/warehouse/TransactionWarehouse.jsx:16-40 | the dialog opens with one empty row and the loaded products |
| WarehouseTransferForm.TransferDialog.AddRow | frontend/src/components/warehouse/TransactionWarehouse.jsx:43-45 | exactly one empty row is appended |
| WarehouseTransferForm.TransferDialog.ChangeProduct | frontend/src/components/warehouse/TransactionWarehouse.jsx:48-52 | only that row's product changes |
| WarehouseTransferForm.TransferDialog.ChangeQuantity | frontend/src/components/warehouse/TransactionWarehouse.jsx:48-52 | only that row's quantity changes |
| WarehouseTransferForm.TransferDialog.FirstRefusal | frontend/src/components/warehouse/TransactionWarehouse.jsx:60-89 | no refusal exactly when every row passes; otherwise the first failing row and its reason |
| WarehouseTransferForm.TransferDialog.Export | frontend/src/components/warehouse/TransactionWarehouse.jsx:55-115 | no rows sends nothing; a refused row sends nothing; otherwise the payload of the rows is sent, and the rows reset to one empty row only when it is accepted |
| Catalog.DeletedStep | frontend/src/pages/warehouse/Catalog.jsx:75-77 | the deleted switch keeps exactly the items the first condition admits |
| Catalog.CategoryStep | frontend/src/pages/warehouse/Catalog.jsx:80-82 | the category filter keeps exactly the items the first two conditions admit |
| Catalog.SearchStep | frontend/src/pages/warehouse/Catalog.jsx:85-89 | the search keeps exactly the items all three conditions admit |
| Catalog.SortsArePreorders | frontend/src/pages/warehouse/Catalog.jsx:92-98 | the three comparators are total preorders |
| Catalog.Narrow | frontend/src/pages/warehouse/Catalog.jsx:72-89 | the three filters together keep exactly the shown items, in order |
| Catalog.SortInPlace | frontend/src/pages/warehouse/Catalog.jsx:91-98 | a known key sorts the list by its comparator, keeping its elements; any other key leaves it as it is |
| Catalog.SortOrder | frontend/src/pages/warehouse/Catalog.jsx:91-98 | a comparator exists exactly for the three known keys, and each is a total preorder |
| Catalog.ViewElements | frontend/src/pages/warehouse/Catalog.jsx:71-101 | the list on screen holds exactly the shown items |
| Catalog.CatalogPage.constructor | frontend/src/pages/warehouse/Catalog.jsx:27-42 | the page opens on non-deleted items of every category, newest first, with nothing loaded |
| Catalog.CatalogPage.Load | frontend/src/pages/warehouse/Catalog.jsx:44-101 | stores the products sent and then shows exactly the items the controls admit, each as often as sent, sorted by the chosen key |
| Catalog.CatalogPage.Reload | frontend/src/pages/warehouse/Catalog.jsx:103-128 | the refetch after a delete, an undelete or a saved product dialog first shows every product sent, deleted ones included, and the effect then narrows and sorts it as for a load |
| Catalog.CatalogPage.Refresh | frontend/src/pages/warehouse/Catalog.jsx:71-101 | the list on screen holds exactly the shown items, each as often as in the products, sorted when the key is known and in product order otherwise |
| Catalog.CatalogPage.ChangeView | frontend/src/pages/warehouse/Catalog.jsx:71-101 | changing a control reruns the effect on the new controls: exactly the items the new controls show, each as often as in the products, sorted by the new key when it is known and otherwise in the products' order |
| InventorySortToggle.NextSort | frontend/src/pages/warehouse/Transaction.jsx:51-56 | the clicked key becomes the key; the direction turns "desc" exactly when the same key was ascending |
| InventorySortToggle.Query | frontend/src/pages/warehouse/Transaction.jsx:35-37 | the request carries the key and the direction |
| InventorySortToggle.ClickCycle | frontend/src/pages/warehouse/Transaction.jsx:51-56 | clicks on a new header go ascending, descending, ascending |
| InventorySortToggle.InitialKeyIsNoColumn | frontend/src/pages/warehouse/Transaction.jsx:21-29 | the initial key "date" is none of the headers' keys |
| InventorySortToggle.InitialQuerySortsByProductId | frontend/src/pages/warehouse/Transaction.jsx:21-37 | the first request sorts the inventory by product id, descending |
| InventorySortToggle.ClickedKeyIsColumn | frontend/src/pages/warehouse/Transaction.jsx:150-156 | after any header click the key is the last one clicked and the direction is "asc" or "desc" |
| TransactionHistory.EntriesOn | frontend/src/pages/warehouse/TransactionHistory.jsx:68 | the records filed under the date, and none for a date the answer does not hold |
| TransactionHistory.CalculateStats | frontend/src/pages/warehouse/TransactionHistory.jsx:63-76 | the count is the number of the date's records; the totals add the quantities of its exports and of its imports |
| TransactionHistory.TotalsSplit | frontend/src/pages/warehouse/TransactionHistory.jsx:63-76 | every record's quantity goes to exactly one of the export total, the import total and the rest |
| TransactionHistory.OtherKindCountsOnly | frontend/src/pages/warehouse/TransactionHistory.jsx:63-76 | a record of another type is counted but adds to neither total |
| TransactionHistory.TotalsBounded | frontend/src/pages/warehouse/TransactionHistory.jsx:63-76 | with non-negative quantities the two totals are non-negative and together no more than all quantities |
| TransactionHistory.Toggled | frontend/src/pages/warehouse/TransactionHistory.jsx:59-61 | the date's flag flips and every other date keeps its flag |
| TransactionHistory.ToggleTwice | frontend/src/pages/warehouse/TransactionHistory.jsx:59-61 | toggling a date twice restores every flag |
| TransactionHistory.Dates | frontend/src/pages/warehouse/TransactionHistory.jsx:181 | the dates of the answer, in its order |
| TransactionHistory.LaterIsPreorder | frontend/src/pages/warehouse/TransactionHistory.jsx:182 | the newest-first comparison is a total preorder |
| TransactionHistory.DisplayOrder | frontend/src/pages/warehouse/TransactionHistory.jsx:181-182 | the dates of the answer, each as often as it occurs there, newest first |
| TransactionHistory.QueryParams | frontend/src/pages/warehouse/TransactionHistory.jsx:34-36 | a date bound is sent exactly when its input is not empty, and then as typed |
| TransactionHistory.HistoryPage.constructor | frontend/src/pages/warehouse/TransactionHistory.jsx:19-26 | the page opens loading, with no records, nothing expanded and no bounds |
| TransactionHistory.HistoryPage.SetRange | frontend/src/pages/warehouse/TransactionHistory.jsx:22-26 | the date inputs hold what was typed |
| TransactionHistory.HistoryPage.Fetch | frontend/src/pages/warehouse/TransactionHistory.jsx:31-53 | the request carries the bounds; a failure keeps the records; an answer replaces them and expands only its first date when it has one; loading ends either way |
| TransactionHistory.HistoryPage.ToggleDate | frontend/src/pages/warehouse/TransactionHistory.jsx:59-61 | the expanded dates become the toggle |
| TransactionHistory.HistoryPage.StatsOf | frontend/src/pages/warehouse/TransactionHistory.jsx:184 | a date's header shows the statistics of its records |
| CategoryPage.AddRequest | frontend/src/pages/warehouse/Category.jsx:29-41 | no request for a blank name; otherwise the trimmed name |
| CategoryPage.Added | frontend/src/pages/warehouse/Category.jsx:29-41 | a blank name or a failed call changes nothing; otherwise the created category is appended and the input cleared |
| CategoryPage.StartEdit | frontend/src/pages/warehouse/Category.jsx:44-47 | the edit starts on the category's id and name, leaving the list alone |
| CategoryPage.Renamed | frontend/src/pages/warehouse/Category.jsx:56-60 | the categories with the id take the name; the others are untouched |
| CategoryPage.RenamedMissing | frontend/src/pages/warehouse/Category.jsx:56-60 | renaming an id the list does not hold changes nothing |
| CategoryPage.SaveRequest | frontend/src/pages/warehouse/Category.jsx:50-55 | no request for a blank edit; otherwise the trimmed name |
| CategoryPage.Saved | frontend/src/pages/warehouse/Category.jsx:50-67 | a blank edit or a refused call changes nothing; otherwise the list shows the untrimmed edit and the edit ends |
| CategoryPage.SavedNameIsUntrimmed | frontend/src/pages/warehouse/Category.jsx:50-60 | a name with leading space is sent trimmed but shown as typed |
| CategoryPage.Cancelled | frontend/src/pages/warehouse/Category.jsx:70-73 | the edit ends and the list is untouched |
| CategoryPage.Deleted | frontend/src/pages/warehouse/Category.jsx:76-85 | an unconfirmed delete changes nothing; a confirmed one keeps exactly the categories with other ids, in order |
| CategoryPage.DeletedMissing | frontend/src/pages/warehouse/Category.jsx:76-85 | deleting an id the list does not hold changes nothing |
| CategoryPage.KeyAdd | frontend/src/pages/warehouse/Category.jsx:88-93 | Enter adds as the button does; any other key does nothing |
| CategoryPage.KeyEdit | frontend/src/pages/warehouse/Category.jsx:95-101 | Enter saves, Escape cancels and any other key does nothing |
| ProductForm.JsParseFloat | frontend/src/components/warehouse/AddProductPopup.jsx:174 | a number is read only from a leading run of digits with at most one point, holding at least one digit |
| ProductForm.ParseFloatOfDecimal | frontend/src/components/warehouse/AddProductPopup.jsx:75 | the printed text of a whole number reads back as that number |
| ProductForm.PriceOfWholeNumber | frontend/src/components/warehouse/AddProductPopup.jsx:174-176 | a price printed from a whole number passes exactly when it is above zero |
| ProductForm.Payload | frontend/src/components/warehouse/AddProductPopup.jsx:202-208 | the texts are sent trimmed, the category as chosen and the price as read |
| ProductForm.AcceptedPayload | frontend/src/components/warehouse/AddProductPopup.jsx:163-208 | an accepted form sends non-empty texts and never a price at or below zero |
| ProductForm.WithField | frontend/src/components/warehouse/AddProductPopup.jsx:113-118 | only the edited field takes the value |
| ProductForm.Message | frontend/src/components/warehouse/AddProductPopup.jsx:166-185 | every failing field gets a message |
| ProductForm.ErrorMessages | frontend/src/components/warehouse/AddProductPopup.jsx:163-185 | a field gets its message exactly when its check fails |
| ProductForm.ErrorsMatchFailures | frontend/src/components/warehouse/AddProductPopup.jsx:163-188 | the messages are empty exactly when the form is acceptable |
| ProductForm.Validate | frontend/src/components/warehouse/AddProductPopup.jsx:163-188 | messages exactly for the failing fields, and success exactly when the form is acceptable |
| ProductForm.ProductPopup.constructor | frontend/src/components/warehouse/AddProductPopup.jsx:25-38 | the dialog opens with an empty form, no image, no messages and no categories |
| ProductForm.ProductPopup.LoadCategories | frontend/src/components/warehouse/AddProductPopup.jsx:41-49 | the categories are what the load returned |
| ProductForm.ProductPopup.DefaultCategory | frontend/src/components/warehouse/AddProductPopup.jsx:103-111 | with categories and no category chosen the first one is taken; otherwise the form is unchanged |
| ProductForm.ProductPopup.LoadProduct | frontend/src/components/warehouse/AddProductPopup.jsx:72-78 | each missing field becomes empty text; a price becomes its printed number and then passes the price check exactly when positive |
| ProductForm.ProductPopup.ChangeField | frontend/src/components/warehouse/AddProductPopup.jsx:113-123 | the field takes the value and its shown message is cleared, no other message changes |
| ProductForm.ProductPopup.ChangeCategory | frontend/src/components/warehouse/AddProductPopup.jsx:113-118 | only the category changes |
| ProductForm.ProductPopup.ChooseImage | frontend/src/components/warehouse/AddProductPopup.jsx:125-153 | an image file within 5 MB is kept and clears the image message; anything else changes nothing |
| ProductForm.ProductPopup.RemoveImage | frontend/src/components/warehouse/AddProductPopup.jsx:155-161 | no image is selected afterwards |
| ProductForm.ProductPopup.ValidateForm | frontend/src/components/warehouse/AddProductPopup.jsx:163-188 | the shown messages are exactly those of the failing fields, and success exactly when the form is acceptable |
| ProductForm.ProductPopup.Submit | frontend/src/components/warehouse/AddProductPopup.jsx:191-243 | the messages become exactly those of the failing fields; an unacceptable form sends nothing; otherwise the payload is sent, and an image is uploaded under the product's id only after a successful save |
| ItemDialog.Clamp | frontend/src/components/warehouse/Item.jsx:87-88 | the value is kept within 0 and 9999 and unchanged inside that range |
| ItemDialog.Decremented | frontend/src/components/warehouse/Item.jsx:258 | one less, never below one |
| ItemDialog.Incremented | frontend/src/components/warehouse/Item.jsx:276 | one more, never above 9999 |
| ItemDialog.PlusThenMinus | frontend/src/components/warehouse/Item.jsx:258-276 | inside the range plus then minus comes back |
| ItemDialog.ItemPopup.constructor | frontend/src/components/warehouse/Item.jsx:21-22 | the dialog opens with quantity one and nothing added |
| ItemDialog.ItemPopup.HandleChange | frontend/src/components/warehouse/Item.jsx:71-91 | empty text gives one; text that is not all digits is ignored; digits are read and clamped, so typing 0 sets a quantity the minus button never reaches |
| ItemDialog.ItemPopup.Minus | frontend/src/components/warehouse/Item.jsx:258 | the quantity decreases but never below one, and 0 becomes 1 |
| ItemDialog.ItemPopup.Plus | frontend/src/components/warehouse/Item.jsx:276 | the quantity increases but never above 9999 |
| ItemDialog.ItemPopup.AddToCart | frontend/src/components/warehouse/Item.jsx:42-67 | a visitor without a signed-in user is sent to sign in and nothing is requested; otherwise the request carries user, product and quantity, and an accepted one marks the item added |
| CustomerPage.ResetFormLacksRewardPoints | frontend/src/pages/marketing/Customer.jsx:113-125 | the reset form writes points instead of rewardPoints, so it differs from the initial form |
| CustomerPage.Filtered | frontend/src/pages/marketing/Customer.jsx:40-45 | exactly the customers whose card contains the search ignoring case, never more than the list |
| CustomerPage.EmptySearchShowsAll | frontend/src/pages/marketing/Customer.jsx:40-45 | an empty search shows every customer in order |
| CustomerPage.Refreshed | frontend/src/pages/marketing/Customer.jsx:40-45 | after the effect the list on screen is the narrowing of the list by the search |
| CustomerPage.Loaded | frontend/src/pages/marketing/Customer.jsx:25-37 | a failed load changes nothing; otherwise the list is the answer and the screen agrees with it |
| CustomerPage.Searched | frontend/src/pages/marketing/Customer.jsx:12 | the search takes the text and the screen agrees with it |
| CustomerPage.Replaced | frontend/src/pages/marketing/Customer.jsx:61-70 | the customers with the id take the returned customer; the others are untouched |
| CustomerPage.Reset | frontend/src/pages/marketing/Customer.jsx:113-125 | the reset form, nothing edited and the dialog closed, the lists untouched |
| CustomerPage.Submitted | frontend/src/pages/marketing/Customer.jsx:55-89 | the form is reset either way; a returned customer replaces the edited one or is appended, and a failure leaves the list alone |
| CustomerPage.Edit | frontend/src/pages/marketing/Customer.jsx:91-103 | the form takes every field of the customer, with its reward points and no points entry, the customer is marked as being edited and the dialog opens; the list, the filtered list and the search stay as they were |
| CustomerPage.Disabled | frontend/src/pages/marketing/Customer.jsx:105-111 | the customers with the id become inactive; the others are untouched |
| CustomerPage.Deactivated | frontend/src/pages/marketing/Customer.jsx:105-111 | an unconfirmed deactivation changes nothing; a confirmed one only disables locally |
| CustomerPage.DisabledIdempotent | frontend/src/pages/marketing/Customer.jsx:105-111 | disabling twice is disabling once, keeping every id in its place |
| CustomerPage.TierColor | frontend/src/pages/marketing/Customer.jsx:127-136 | a listed tier gets its colour and any other tier the gray default |
| CustomerPage.SilverGetsDefault | frontend/src/pages/marketing/Customer.jsx:127-136 | a tier spelled "SILVER" gets the default colour, since the key is spelled "SLIVER" |
| ReportPage.RemoveFirst | frontend/src/pages/marketing/Report.jsx:72-73 | a leading pattern is removed, and text without it is unchanged |
| ReportPage.DayNumberOfLabel | frontend/src/pages/marketing/Report.jsx:69-74 | the report's day labels read back as their day |
| ReportPage.IndexIn | frontend/src/pages/marketing/Report.jsx:91 | the first position of the value, or -1 exactly when it is absent |
| ReportPage.MonthIndex | frontend/src/pages/marketing/Report.jsx:76-91 | the position among the twelve short month names, -1 exactly for any other text |
| ReportPage.MonthIndexOfName | frontend/src/pages/marketing/Report.jsx:76-91 | month m's short name is at position m - 1 |
| ReportPage.ChartOrderIsPreorder | frontend/src/pages/marketing/Report.jsx:69-92 | the chart comparison is a total preorder in both modes |
| ReportPage.DayLabelsComparable | frontend/src/pages/marketing/Report.jsx:69-74 | a chart labelled with the report's day labels can be sorted by day |
| ReportPage.SortChart | frontend/src/pages/marketing/Report.jsx:69-92 | the chart keeps its points, and is sorted whenever its labels can be compared |
| ReportPage.SortedDaysAscend | frontend/src/pages/marketing/Report.jsx:69-74 | a sorted month chart lists its days in calendar order |
| ReportPage.SortedMonthsAscend | frontend/src/pages/marketing/Report.jsx:76-91 | a sorted year chart lists its months in calendar order |
| ReportPage.NotBeforeComesAfter | frontend/src/pages/marketing/Report.jsx:69-92 | in a sorted chart a point not ordered before another comes after it |
| ReportPage.UnknownPeriodsFirst | frontend/src/pages/marketing/Report.jsx:91 | in year mode a label that is not a month name sorts before every month |
| ReportPage.Years | frontend/src/pages/marketing/Report.jsx:130-131 | the five most recent years, current first, strictly descending |
| ReportPage.ReportScreen.CurrentQuery | frontend/src/pages/marketing/Report.jsx:59-63 | the query carries the filter, month and year on screen |
| ReportPage.ReportScreen.constructor | frontend/src/pages/marketing/Report.jsx:25-41 | the page opens on the month view of the current month with an empty chart |
| ReportPage.ReportScreen.SelectFilter | frontend/src/pages/marketing/Report.jsx:52-54 | the filter takes the value, and a refetch happens exactly when it changed |
| ReportPage.ReportScreen.SelectMonth | frontend/src/pages/marketing/Report.jsx:52-54 | the month takes the value, and a refetch happens exactly when it changed |
| ReportPage.ReportScreen.SelectYear | frontend/src/pages/marketing/Report.jsx:52-54 | the year takes the value, and a refetch happens exactly when it changed |
| ReportPage.ReportScreen.Fetch | frontend/src/pages/marketing/Report.jsx:56-103 | the request carries the current query; a failure keeps the chart; an answer's chart is sorted in place and shown; loading ends |
| CustomerHistory.AllPurchases | frontend/src/pages/marketing/CustomerHistory.jsx:216-227 | the purchases of the date are exactly those of its customers |
| CustomerHistory.DailyTotalIsAllPurchases | frontend/src/pages/marketing/CustomerHistory.jsx:216-227 | the daily total is the sum over every purchase of the date |
| CustomerHistory.CustomerTotalAppend | frontend/src/pages/marketing/CustomerHistory.jsx:225-227 | one more purchase adds its total to the customer's total |
| CustomerHistory.CustomerWithinDaily | frontend/src/pages/marketing/CustomerHistory.jsx:216-227 | with non-negative purchases each customer's total is part of the daily total |
| CustomerHistory.CustomerKey | frontend/src/pages/marketing/CustomerHistory.jsx:287 | the key is the date, a dash and the id |
| CustomerHistory.CustomerKeyInjective | frontend/src/pages/marketing/CustomerHistory.jsx:287 | two customer rows get the same key only for the same date and id |
| CustomerHistory.ToggleDate | frontend/src/pages/marketing/CustomerHistory.jsx:186-191 | only the date's flag flips and the customer rows are untouched |
| CustomerHistory.ToggleCustomer | frontend/src/pages/marketing/CustomerHistory.jsx:193-198 | only the row's flag flips and the dates are untouched |
| CustomerHistory.ToggleTwiceRestores | frontend/src/pages/marketing/CustomerHistory.jsx:186-198 | toggling twice restores every flag |
| CustomerHistory.CustomerRowsIndependent | frontend/src/pages/marketing/CustomerHistory.jsx:287-288 | the same customer under two dates expands independently |

## Left out

- Remote calls are not modelled as network traffic. This covers the REST services, Keycloak and the browser's local storage. Each one appears as an input holding its answer, or as a state the caller passes in.
- JSON parsing and serialisation are left out. Records are datatypes, and the key order of a JSON object is not modelled.
- Regular expressions are left out, except the `*` wildcard of coupon card patterns, which is modelled.
- Clocks, timers and the event loop are not modelled. The current time is a parameter. A timer tick, the start of an async call and its completion are separate method calls, so an interleaving is a sequence of such calls.
- Floating point is not modelled: amounts are integers. `parseFloat` exponents, `Infinity`, and JavaScript `Number` on text that is not an integer are not covered.
- Case mapping is ASCII only, except that the username's lower-casing also covers the Vietnamese capitals. There is no Unicode normalisation.
- Exception messages and the text of error toasts and alerts are left out. Each error is a constructor of an error datatype.
- A Java `HashMap`'s iteration order is unspecified. The model uses first-insertion order.
- `findAll` order is the repository's order: the model's sequence, which is ascending id where the model keeps a map.
- Null fields are left out, except the null product name that makes the inventory sort throw.
- The customer mapper is not part of this model. The customer service's conversions are modelled field by field, as the service uses them. The update calls `customerMapper.updateCustomerFromRequest` (CustomerService.java:73), which `CustomerMapper.java` does not declare; `CustomerService.Updated` assumes it copies the request's same-named fields and keeps the points and the active flag.
- A product lookup that throws inside a stream is modelled as the first error of the mapping. The remaining elements are not visited.
- The image preview of the product form (`FileReader`, object URLs) is left out.
- The catalogue's delete and undelete requests themselves are left out: the service's answer arrives as the refetched list that `Reload` takes. The success toasts are left out with the other messages.
- The product dialog's `handleConfirm` is left out. It only closes the dialog.
- Per-field form input is modelled as replacing the whole form with the edited one.
- `new Date(...)` on the history page is modelled as text order. That agrees with the instant order only on ISO `yyyy-mm-dd` dates, which is what the service sends; other date text is not modelled.
- The report page's initial fetch on mount is the same load handler with the default filters.
- The report page stores `summary`, `topProducts` and `paymentMethods`, and only the stored values are modelled.
- The customer-history page uses built-in sample data, so the model takes the groups as input. Customer ids there are natural numbers, and date and money formatting are left out.
- Presentation is left out: styling, layout, icons and the chart drawing.
- InventoryListing.SortListing: Java's `List.sort` is stable, but the model states only sorted order and a permutation, not the relative order of equal rows.
- OrderInventory.GetInventoryBySourceId: does not state stability of the sort, only sorted order and a permutation.
- OrderInventory.SortNewestFirst: does not state stability of the sort for equal creation times.
- WarehouseInventory.GetInventory: does not state stability of the sort, only sorted order and a permutation.
- Catalog.SortInPlace: `Array.prototype.sort` is stable, but the model states only sorted order and a permutation.
- Catalog.CatalogPage.Refresh: does not state stability of the sort.
- TransactionReport.TopTen: does not state which of several products with equal revenue the stable sort keeps first.
- TransactionReport.ByRevenue: does not state the order among products with equal revenue, which Java's stable sort keeps.
- TransactionReport.TopProducts: does not state the order among products with equal revenue.
- TransactionHistory.DisplayOrder: does not state the order of equal dates.
- TransactionService.HistoryDates: does not state the order of equal dates. The dates are distinct, so the list is still fully determined.
- ReportPage.SortChart: when a label does not parse in month mode, the comparator is inconsistent, and the browser's order is unspecified. The model then keeps the order and states only that the points are kept.
- CouponService.HolidayApplicable: the holiday window's bounds are date-time columns, and the source compares today's date with them directly; the model compares their dates.
- Concurrent requests are not interleaved inside the backend. Two first transactions for one product can each create a WAREHOUSE or SHELF row. The ledger can hold the duplicate rows they leave behind, and `InventoryTransactions.Apply` then fails with `NonUniqueResult`, but the race that creates them is not modelled.
- InventoryTransactions.Apply: the not-enough message formats the double quantities with `%d`, which throws a format exception instead of the intended one. Both reject the request with nothing changed, and messages are not modelled, so the model reports `NotEnoughInventory`.
- Routes.Lookup: the router also accepts a path with a trailing slash and ignores letter case; the model matches the path text exactly.
- EmployeeService.EmailFound: the identity provider's search is taken to match the stored address as a case-insensitive substring, which is what its non-exact search does; other attributes it may search on are not modelled.
- EmployeeService.LowerLetter: lower-cases ASCII capitals, the Latin-1 capitals and the capitals of the Vietnamese letters; any other capital keeps its case. The username filter then drops such a character, whereas Java's `toLowerCase` may turn a few of them into an ASCII letter (the Kelvin sign into `k`, the dotted capital I into `i` and a combining dot).

=== FILE: access_gate.dfy ===
/**
 * The route gate (`ProtectedRoute.jsx`): a pure decision over the session values
 * the provider exposes and the role a route asks for.
 */
module AccessGate {
  import opened Wrappers
  import AuthContext

  /** What the gate renders. */
  datatype GateOutcome =
    | Waiting                   // the loading placeholder
    | RedirectTo(path: string)  // `<Navigate to=... replace />`
    | RenderChildren

  /** JavaScript truthiness of the `requiredRole` prop: given and non-empty. */
  predicate RoleRequired(requiredRole: Option<string>)
  {
    requiredRole.Some? && requiredRole.value != ""
  }

  /**
   * The gate's decision. While anything is loading it waits; a loaded session that
   * is signed out, has no profile or lacks the required role (compared exactly) is
   * sent to "/home"; otherwise the protected page renders.
   */
  function Gate(loading: bool, dataLoaded: bool, authenticated: bool, user: Option<AuthContext.Profile>,
                roles: seq<string>, requiredRole: Option<string>): (r: GateOutcome)
    ensures r == Waiting <==> loading || !dataLoaded
    ensures r == RenderChildren <==>
      !loading && dataLoaded && authenticated && user.Some? &&
      (RoleRequired(requiredRole) ==> requiredRole.value in roles)
    ensures r.RedirectTo? ==> r.path == "/home"
    ensures !loading && dataLoaded && !authenticated ==> r == RedirectTo("/home")
    ensures !loading && dataLoaded && user.None? ==> r == RedirectTo("/home")
    ensures !loading && dataLoaded && RoleRequired(requiredRole) && requiredRole.value !in roles ==>
      r == RedirectTo("/home")
  {
    if loading || !dataLoaded then Waiting
    else if !authenticated then RedirectTo("/home")
    else if user.None? then RedirectTo("/home")
    else if RoleRequired(requiredRole) && requiredRole.value !in roles then RedirectTo("/home")
    else RenderChildren
  }

  /**
   * A missing role and a signed-out session look the same to the visitor: both end
   * at "/home", so the redirect does not reveal which check failed.
   */
  lemma RoleMismatchLooksSignedOut(user: Option<AuthContext.Profile>, roles: seq<string>, role: string)
    requires role != "" && role !in roles
    ensures Gate(false, true, true, user, roles, Some(role)) == Gate(false, true, false, user, roles, Some(role))
  {
  }

  /** Without a required role (absent or empty) any signed-in user with a profile passes. */
  lemma NoRoleAdmitsEverySession(user: AuthContext.Profile, roles: seq<string>, requiredRole: Option<string>)
    requires !RoleRequired(requiredRole)
    ensures Gate(false, true, true, Some(user), roles, requiredRole) == RenderChildren
  {
  }
}

=== FILE: auth_context.dfy ===
/**
 * The session provider (`AuthContext.jsx`): the React state of one signed-in
 * browser tab, the two module-level initialisation flags, and the refs for the
 * one-shot redirect and the token-refresh timer. Every asynchronous completion
 * (the provider's `init`, the profile request, the provider's `logout`, a timer
 * tick) is one atomic method; the identity provider's answers are parameters.
 */
module AuthContext {
  import opened Wrappers
  import opened IdentityClient

  /** The profile object `loadUserProfile` resolves with. */
  datatype Profile = Profile(username: string, email: string, firstName: string, lastName: string)

  /** `roles.includes(role)`. */
  predicate HasRole(roles: seq<string>, role: string)
  {
    role in roles
  }

  /** `rolesToCheck.some(role => roles.includes(role))`. */
  function HasAnyRole(roles: seq<string>, wanted: seq<string>): (b: bool)
    ensures b <==> exists i :: 0 <= i < |wanted| && HasRole(roles, wanted[i])
  {
    if wanted == [] then false
    else
      assert forall i :: 1 <= i < |wanted| ==> wanted[i] == wanted[1..][i - 1];
      HasRole(roles, wanted[0]) || HasAnyRole(roles, wanted[1..])
  }

  /** `rolesToCheck.every(role => roles.includes(role))`. */
  function HasAllRoles(roles: seq<string>, wanted: seq<string>): (b: bool)
    ensures b <==> forall i :: 0 <= i < |wanted| ==> HasRole(roles, wanted[i])
  {
    if wanted == [] then true
    else
      assert forall i :: 1 <= i < |wanted| ==> wanted[i] == wanted[1..][i - 1];
      HasRole(roles, wanted[0]) && HasAllRoles(roles, wanted[1..])
  }

  /** Both checks agree with `hasRole` on a single role; `hasAllRoles()` of nothing holds. */
  lemma RoleChecksAgree(roles: seq<string>, role: string)
    ensures HasAnyRole(roles, [role]) == HasRole(roles, role)
    ensures HasAllRoles(roles, [role]) == HasRole(roles, role)
    ensures HasAllRoles(roles, []) && !HasAnyRole(roles, [])
  {
  }

  /** `isCashier()`: the upper- or lower-case role name. */
  predicate IsCashier(roles: seq<string>)
  {
    HasAnyRole(roles, ["CASHIER", "cashier"])
  }

  /** `isManager()`. */
  predicate IsManager(roles: seq<string>)
  {
    HasAnyRole(roles, ["MANAGER", "manager"])
  }

  /** `isWarehouse()`. */
  predicate IsWarehouse(roles: seq<string>)
  {
    HasAnyRole(roles, ["WAREHOUSE", "warehouse"])
  }

  /** Each role check accepts exactly its two spellings and nothing else. */
  lemma RoleChecksBothSpellings(roles: seq<string>)
    ensures IsCashier(roles) <==> "CASHIER" in roles || "cashier" in roles
    ensures IsManager(roles) <==> "MANAGER" in roles || "manager" in roles
    ensures IsWarehouse(roles) <==> "WAREHOUSE" in roles || "warehouse" in roles
  {
    assert ["CASHIER", "cashier"][1] == "cashier";
    assert ["MANAGER", "manager"][1] == "manager";
    assert ["WAREHOUSE", "warehouse"][1] == "warehouse";
  }

  /** The paths from which a signed-in user is sent to a landing page. */
  predicate IsEntryPath(path: string)
  {
    path == "/" || path == "/home" || path == "/login"
  }

  /**
   * The navigation `handleRoleBasedRedirect` performs from `path`: only from an
   * entry path, and the first of cashier, manager, warehouse that the roles hold.
   */
  function RedirectTarget(path: string, roles: seq<string>): (r: Option<string>)
    ensures r.Some? ==> IsEntryPath(path) && r.value in {"/cash", "/admin", "/warehouse"}
    ensures IsEntryPath(path) ==> (r == Some("/cash") <==> IsCashier(roles))
    ensures IsEntryPath(path) ==> (r == Some("/admin") <==> !IsCashier(roles) && IsManager(roles))
    ensures IsEntryPath(path) ==>
      (r == Some("/warehouse") <==> !IsCashier(roles) && !IsManager(roles) && IsWarehouse(roles))
    ensures r == None <==> !IsEntryPath(path) || (!IsCashier(roles) && !IsManager(roles) && !IsWarehouse(roles))
  {
    if !IsEntryPath(path) then None
    else if IsCashier(roles) then Some("/cash")
    else if IsManager(roles) then Some("/admin")
    else if IsWarehouse(roles) then Some("/warehouse")
    else None
  }

  /** `claim?.roles || []`. */
  function ClaimRoles(claim: Option<Access>): seq<string>
  {
    if claim.Some? && claim.value.roles.Some? then claim.value.roles.value else []
  }

  /** `resourceAccess?.[clientId]`. */
  function ClientClaim(resourceAccess: Option<map<string, Access>>, clientId: string): Option<Access>
  {
    if resourceAccess.Some? && clientId in resourceAccess.value then Some(resourceAccess.value[clientId])
    else None
  }

  /**
   * The roles `loadUserRoles` stores: the realm roles followed by the roles of the
   * client's own entry; a missing claim contributes nothing.
   */
  function LoadedRoles(realmAccess: Option<Access>, resourceAccess: Option<map<string, Access>>, clientId: string)
    : (r: seq<string>)
    ensures |r| == |ClaimRoles(realmAccess)| + |ClaimRoles(ClientClaim(resourceAccess, clientId))|
    ensures r[..|ClaimRoles(realmAccess)|] == ClaimRoles(realmAccess)
    ensures r[|ClaimRoles(realmAccess)|..] == ClaimRoles(ClientClaim(resourceAccess, clientId))
    ensures realmAccess.None? ==> r == ClaimRoles(ClientClaim(resourceAccess, clientId))
    ensures resourceAccess.None? || clientId !in resourceAccess.value ==> r == ClaimRoles(realmAccess)
    ensures forall x :: x in r <==> x in ClaimRoles(realmAccess) || x in ClaimRoles(ClientClaim(resourceAccess, clientId))
  {
    ClaimRoles(realmAccess) + ClaimRoles(ClientClaim(resourceAccess, clientId))
  }

  /** The module-level `isInitializing` and `isInitialized`. */
  class ModuleFlags {
    var isInitializing: bool
    var isInitialized: bool

    constructor ()
      ensures !isInitializing && !isInitialized
    {
      isInitializing := false;
      isInitialized := false;
    }
  }

  /** How an awaited `init` call settles: `Some(authenticated)` if it resolves, `None` if it rejects. */
  function InitResult(call: InitCall, outcome: InitOutcome): (r: Option<bool>)
    ensures call.Skipped? ==> r == Some(call.authenticated)
    ensures call.Delegated? ==> (r.None? <==> outcome.InitFailed?)
    ensures call.Delegated? && r.Some? ==> (r.value <==> outcome.SignedIn?)
  {
    match call
    case Skipped(a) => Some(a)
    case Delegated =>
      match outcome
      case SignedIn(_) => Some(true)
      case SignedOut => Some(false)
      case InitFailed => None
  }

  class AuthProvider {
    const kc: Keycloak
    const flags: ModuleFlags

    var authenticated: bool
    var loading: bool
    var user: Option<Profile>
    var roles: seq<string>
    var isLoggingOut: bool
    var dataLoaded: bool
    /** `hasRedirected.current`. */
    var hasRedirected: bool
    /** `intervalRef.current`: the handle of the token-refresh timer, if one is running. */
    var interval: Option<nat>
    /** How many timers `setInterval` has ever been asked for. */
    var timersCreated: nat
    /** `window.location.pathname`, and every path `navigate` has been called with. */
    var location: string
    var navigations: seq<string>
    /** The `init` call an `initKeycloak` is awaiting, and whether a `login` waits on it. */
    var awaitingInit: Option<InitCall>
    var loginAfterInit: bool
    /** Profile requests and provider sign-outs still outstanding. */
    var pendingProfileLoads: nat
    var pendingLogouts: nat
    /** `updateToken` calls the timer started that have not settled yet. */
    var pendingRefreshes: nat
    /** The value of `authenticated` the first effect last ran with. */
    var seenAuthenticated: bool

    /**
     * An initialisation is in flight exactly while `isInitializing` is set; the two
     * flags never hold together; the client's guard is set once either was; at most
     * one refresh timer is ever created, and only after a successful initialisation.
     */
    ghost predicate Valid()
      reads this, flags, kc
    {
      kc.Valid() &&
      (flags.isInitializing <==> awaitingInit.Some?) &&
      !(flags.isInitializing && flags.isInitialized) &&
      (flags.isInitializing || flags.isInitialized ==> kc.initFlag) &&
      (loginAfterInit ==> awaitingInit.Some?) &&
      timersCreated <= 1 &&
      (interval.Some? ==> timersCreated == 1) &&
      (timersCreated == 1 ==> flags.isInitialized)
    }

    /** A fresh page load at `path`: the client singleton and the module flags are created with it. */
    constructor (clientId: string, path: string)
      ensures Valid() && fresh(kc) && fresh(flags)
      ensures !authenticated && loading && user == None && roles == [] && !isLoggingOut && !dataLoaded
      ensures !hasRedirected && interval == None && timersCreated == 0 && location == path && navigations == []
      ensures !flags.isInitializing && !flags.isInitialized && awaitingInit == None && !loginAfterInit
      ensures pendingProfileLoads == 0 && pendingLogouts == 0 && pendingRefreshes == 0 && !seenAuthenticated
      ensures kc.clientId == clientId && !kc.initFlag && !kc.authenticated && kc.token == None
      ensures kc.loginRequests == 0 && kc.logoutRequests == 0
    {
      kc := new Keycloak(clientId);
      flags := new ModuleFlags();
      authenticated := false;
      loading := true;
      user := None;
      roles := [];
      isLoggingOut := false;
      dataLoaded := false;
      hasRedirected := false;
      interval := None;
      timersCreated := 0;
      location := path;
      navigations := [];
      awaitingInit := None;
      loginAfterInit := false;
      pendingProfileLoads := 0;
      pendingLogouts := 0;
      pendingRefreshes := 0;
      seenAuthenticated := false;
    }

    /**
     * `initKeycloak` up to its `await`: nothing happens while an initialisation is in
     * flight or done; otherwise `isInitializing` is set and the guarded `init` is called.
     */
    method StartInit() returns (started: bool)
      requires Valid()
      modifies flags`isInitializing, this`awaitingInit, kc`initFlag, kc`providerInits
      ensures Valid()
      ensures started == !(old(flags.isInitializing) || old(flags.isInitialized))
      ensures !started ==> unchanged(this, flags, kc)
      ensures started ==> flags.isInitializing && kc.initFlag && kc.providerInits == 1
      ensures started ==> awaitingInit == Some(if old(kc.initFlag) then Skipped(kc.authenticated) else Delegated)
    {
      if flags.isInitializing || flags.isInitialized {
        return false;
      }
      flags.isInitializing := true;
      var call := kc.Init();
      awaitingInit := Some(call);
      started := true;
    }

    /**
     * The awaited `init` settles and `initKeycloak` runs to its end. On resolution the
     * session is initialised, `authenticated` takes the resolved value and the refresh
     * timer is created if none exists; on rejection only `isInitializing` is cleared.
     * Either way `loading` ends, and a `login` that was waiting is sent.
     */
    method CompleteInit(outcome: InitOutcome)
      requires Valid() && awaitingInit.Some?
      modifies this`loading, this`authenticated, this`interval, this`timersCreated, this`awaitingInit,
        this`loginAfterInit, flags, kc`authenticated, kc`token, kc`realmAccess, kc`resourceAccess,
        kc`loginRequests
      ensures Valid()
      ensures !loading && !flags.isInitializing && awaitingInit == None && !loginAfterInit
      ensures var result := InitResult(old(awaitingInit.value), outcome);
        flags.isInitialized == result.Some? &&
        authenticated == (if result.Some? then result.value else old(authenticated))
      ensures var created := InitResult(old(awaitingInit.value), outcome).Some? && old(interval).None?;
        interval == (if created then Some(old(timersCreated) + 1) else old(interval)) &&
        timersCreated == old(timersCreated) + (if created then 1 else 0)
      ensures old(awaitingInit.value).Delegated? && outcome.SignedIn? ==>
        (kc.authenticated && kc.token == Some(outcome.grant.token) &&
         kc.realmAccess == outcome.grant.realmAccess && kc.resourceAccess == outcome.grant.resourceAccess)
      ensures old(awaitingInit.value).Delegated? && outcome.SignedOut? ==>
        !kc.authenticated && unchanged(kc`token, kc`realmAccess, kc`resourceAccess)
      ensures old(awaitingInit.value).Skipped? || outcome.InitFailed? ==>
        unchanged(kc`authenticated, kc`token, kc`realmAccess, kc`resourceAccess)
      ensures kc.loginRequests == old(kc.loginRequests) + if old(loginAfterInit) then 1 else 0
    {
      var call := awaitingInit.value;
      if call.Delegated? {
        kc.LibraryInitSettled(outcome);
      }
      assert kc.Valid() && kc.initFlag;
      var result := InitResult(call, outcome);
      SettleInit(result);
      awaitingInit := None;
      if loginAfterInit {
        loginAfterInit := false;
        kc.Login();
      }
    }

    /**
     * The end of `initKeycloak`: a resolved `init` marks the session initialised, sets
     * `authenticated` and creates the refresh timer if none runs; either way
     * `isInitializing` and `loading` end.
     */
    method SettleInit(result: Option<bool>)
      modifies this`loading, this`authenticated, this`interval, this`timersCreated, flags
      ensures !loading && !flags.isInitializing
      ensures flags.isInitialized == (result.Some? || old(flags.isInitialized))
      ensures authenticated == (if result.Some? then result.value else old(authenticated))
      ensures var created := result.Some? && old(interval).None?;
        interval == (if created then Some(old(timersCreated) + 1) else old(interval)) &&
        timersCreated == old(timersCreated) + (if created then 1 else 0)
    {
      if result.Some? {
        flags.isInitialized := true;
        flags.isInitializing := false;
        authenticated := result.value;
        if interval.None? {
          interval := Some(timersCreated + 1);
          timersCreated := timersCreated + 1;
        }
      } else {
        flags.isInitializing := false;
      }
      loading := false;
    }

    /**
     * The effect on `[authenticated]`, run after a render in which `authenticated`
     * changed: when it became true, `loadUserData` starts. Its synchronous part clears
     * `dataLoaded`, sends the profile request and stores the roles from the token.
     */
    method AuthenticatedEffect()
      requires Valid()
      modifies this`seenAuthenticated, this`dataLoaded, this`roles, this`pendingProfileLoads
      ensures Valid()
      ensures seenAuthenticated == authenticated
      ensures var loads := authenticated && !old(seenAuthenticated);
        (loads ==> !dataLoaded && roles == LoadedRoles(kc.realmAccess, kc.resourceAccess, kc.clientId) &&
                   pendingProfileLoads == old(pendingProfileLoads) + 1) &&
        (!loads ==> unchanged(this`dataLoaded, this`roles, this`pendingProfileLoads))
    {
      if authenticated != seenAuthenticated {
        seenAuthenticated := authenticated;
        if authenticated {
          dataLoaded := false;
          pendingProfileLoads := pendingProfileLoads + 1;
          roles := LoadedRoles(kc.realmAccess, kc.resourceAccess, kc.clientId);
        }
      }
    }

    /**
     * A profile request settles and `loadUserData` finishes: the profile is stored if
     * it arrived, and `dataLoaded` is set whether it arrived or not.
     */
    method ProfileSettled(profile: Option<Profile>)
      requires Valid() && pendingProfileLoads > 0
      modifies this`user, this`dataLoaded, this`pendingProfileLoads
      ensures Valid()
      ensures user == (if profile.Some? then profile else old(user))
      ensures dataLoaded && pendingProfileLoads == old(pendingProfileLoads) - 1
    {
      if profile.Some? {
        user := profile;
      }
      dataLoaded := true;
      pendingProfileLoads := pendingProfileLoads - 1;
    }

    /** The redirect's firing condition. */
    predicate RedirectDue()
      reads this
    {
      authenticated && dataLoaded && user.Some? && |roles| > 0 && !hasRedirected
    }

    /**
     * The redirect effect: when due, navigate to the role's landing page (if any)
     * and set `hasRedirected` in the same step, so it cannot fire again until
     * `login` or `logout` clears the flag.
     */
    method RedirectEffect()
      requires Valid()
      modifies this`hasRedirected, this`location, this`navigations
      ensures Valid()
      ensures !old(RedirectDue()) ==> unchanged(this)
      ensures old(RedirectDue()) ==>
        var target := RedirectTarget(old(location), roles);
        hasRedirected &&
        location == (if target.Some? then target.value else old(location)) &&
        navigations == old(navigations) + (if target.Some? then [target.value] else [])
      ensures !RedirectDue()
    {
      if RedirectDue() {
        var target := RedirectTarget(location, roles);
        if target.Some? {
          location := target.value;
          navigations := navigations + [target.value];
        }
        hasRedirected := true;
      }
    }

    /**
     * `login`: clears the redirect flag and `dataLoaded`; before initialisation it
     * starts one and signs in once it settles (at once if another is in flight),
     * afterwards it signs in straight away.
     */
    method Login()
      requires Valid()
      modifies this`hasRedirected, this`dataLoaded, this`awaitingInit, this`loginAfterInit,
        flags`isInitializing, kc`initFlag, kc`providerInits, kc`loginRequests
      ensures Valid()
      ensures !hasRedirected && !dataLoaded
      ensures var deferred := !old(flags.isInitialized) && !old(flags.isInitializing);
        (deferred ==>
          flags.isInitializing && loginAfterInit && kc.initFlag && kc.providerInits == 1 &&
          awaitingInit == Some(if old(kc.initFlag) then Skipped(kc.authenticated) else Delegated) &&
          kc.loginRequests == old(kc.loginRequests)) &&
        (!deferred ==>
          unchanged(flags, kc`initFlag, kc`providerInits, this`awaitingInit, this`loginAfterInit) &&
          kc.loginRequests == old(kc.loginRequests) + 1)
    {
      hasRedirected := false;
      dataLoaded := false;
      if !flags.isInitialized {
        var started := StartInit();
        if started {
          loginAfterInit := true;
        } else {
          kc.Login();
        }
      } else {
        kc.Login();
      }
    }

    /**
     * `logout` up to its `await`: the session is torn down (user, roles, both flags,
     * the redirect ref, the timer) before the provider is asked to sign out.
     */
    method Logout()
      requires Valid()
      modifies this`isLoggingOut, this`user, this`roles, this`authenticated, this`dataLoaded,
        this`hasRedirected, this`interval, this`pendingLogouts, kc`logoutRequests
      ensures Valid()
      ensures isLoggingOut && user == None && roles == [] && !authenticated && !dataLoaded
      ensures !hasRedirected && interval == None
      ensures pendingLogouts == old(pendingLogouts) + 1
      ensures kc.logoutRequests == old(kc.logoutRequests) + 1
    {
      isLoggingOut := true;
      user := None;
      roles := [];
      authenticated := false;
      dataLoaded := false;
      hasRedirected := false;
      if interval.Some? {
        interval := None;
      }
      kc.Logout();
      pendingLogouts := pendingLogouts + 1;
    }

    /** The provider's sign-out settles; `isLoggingOut` is cleared only if it resolved. */
    method LogoutSettled(resolved: bool)
      requires Valid() && pendingLogouts > 0
      modifies this`isLoggingOut, this`pendingLogouts
      ensures Valid()
      ensures isLoggingOut == (if resolved then false else old(isLoggingOut))
      ensures pendingLogouts == old(pendingLogouts) - 1
    {
      if resolved {
        isLoggingOut := false;
      }
      pendingLogouts := pendingLogouts - 1;
    }

    /**
     * A tick of the refresh timer, which only runs while the timer does: it calls
     * `updateToken(70)` and does not wait for it.
     */
    method RefreshTick()
      requires Valid() && interval.Some?
      modifies this`pendingRefreshes
      ensures Valid()
      ensures pendingRefreshes == old(pendingRefreshes) + 1
    {
      pendingRefreshes := pendingRefreshes + 1;
    }

    /**
     * A refresh the timer started settles, whether or not the timer still runs: a new
     * token is stored, and a rejection runs `logout`, even when the session was already
     * signed out after the refresh started.
     */
    method RefreshSettled(outcome: RefreshOutcome)
      requires Valid() && pendingRefreshes > 0
      modifies this`isLoggingOut, this`user, this`roles, this`authenticated, this`dataLoaded,
        this`hasRedirected, this`interval, this`pendingLogouts, this`pendingRefreshes, kc`logoutRequests, kc`token
      ensures Valid()
      ensures pendingRefreshes == old(pendingRefreshes) - 1
      ensures outcome.Refreshed? ==>
        kc.token == Some(outcome.token) && kc.logoutRequests == old(kc.logoutRequests) &&
        unchanged(this`isLoggingOut, this`user, this`roles, this`authenticated, this`dataLoaded,
                  this`hasRedirected, this`interval, this`pendingLogouts)
      ensures outcome.RefreshFailed? ==>
        kc.token == old(kc.token) && isLoggingOut && user == None && roles == [] && !authenticated &&
        !dataLoaded && !hasRedirected && interval == None &&
        pendingLogouts == old(pendingLogouts) + 1 && kc.logoutRequests == old(kc.logoutRequests) + 1
    {
      pendingRefreshes := pendingRefreshes - 1;
      var ok := kc.UpdateToken(outcome);
      if !ok {
        Logout();
      }
    }
  }

  /**
   * A profile request that settles after `logout` still stores the profile and sets
   * `dataLoaded`, so the torn-down session ends with data loaded but not authenticated.
   */
  method ProfileArrivesAfterLogout(clientId: string, grant: Grant, profile: Profile)
    returns (p: AuthProvider)
    ensures p.dataLoaded && !p.authenticated && p.user == Some(profile)
  {
    p := new AuthProvider(clientId, "/home");
    var started := p.StartInit();
    p.CompleteInit(SignedIn(grant));
    p.AuthenticatedEffect();
    p.Logout();
    p.ProfileSettled(Some(profile));
  }

  /**
   * A refresh that starts before `logout` and is rejected after it runs `logout` a
   * second time: the provider is asked to sign out twice, although the timer is gone.
   */
  method RefreshFailsAfterLogout(clientId: string, grant: Grant) returns (p: AuthProvider)
    ensures p.interval == None && p.isLoggingOut && !p.authenticated
    ensures p.kc.logoutRequests == 2 && p.pendingLogouts == 2 && p.pendingRefreshes == 0
  {
    p := new AuthProvider(clientId, "/home");
    var started := p.StartInit();
    p.CompleteInit(SignedIn(grant));
    p.RefreshTick();
    p.Logout();
    p.RefreshSettled(RefreshFailed);
  }

  /**
   * Signing out stops the refresh timer for good: `isInitialized` stays set, so a
   * later `login` never reaches `initKeycloak` again and no new timer is created.
   */
  method NoTimerAfterRelogin(clientId: string, grant: Grant) returns (p: AuthProvider)
    ensures p.interval == None && p.timersCreated == 1 && p.kc.loginRequests == 1
  {
    p := new AuthProvider(clientId, "/login");
    var started := p.StartInit();
    p.CompleteInit(SignedIn(grant));
    p.Logout();
    p.Login();
  }
}

=== FILE: calendar.dfy ===
/**
 * `java.time.LocalDate` as a year-month-day triple in the proleptic Gregorian
 * calendar. ISO `yyyy-MM-dd` strings of four-digit years sort the same way as
 * these dates, so `LocalDate.toString()` order is `DateLe` order.
 */
module Calendar {

  datatype Date = Date(year: int, month: int, day: int)

  predicate IsLeapYear(y: int)
  {
    y % 4 == 0 && (y % 100 != 0 || y % 400 == 0)
  }

  /** `YearMonth.lengthOfMonth()`. */
  function DaysInMonth(y: int, m: int): (n: int)
    requires 1 <= m <= 12
    ensures 28 <= n <= 31
    ensures n == 29 <==> m == 2 && IsLeapYear(y)
  {
    if m == 2 then (if IsLeapYear(y) then 29 else 28)
    else if m == 4 || m == 6 || m == 9 || m == 11 then 30
    else 31
  }

  predicate ValidDate(d: Date)
  {
    1 <= d.month <= 12 && 1 <= d.day <= DaysInMonth(d.year, d.month)
  }

  /** Chronological order: by year, then month, then day (`!a.isAfter(b)`). */
  predicate DateLe(a: Date, b: Date)
  {
    a.year < b.year ||
    (a.year == b.year && (a.month < b.month || (a.month == b.month && a.day <= b.day)))
  }

  lemma DateLeTotalOrder()
    ensures forall a, b :: DateLe(a, b) || DateLe(b, a)
    ensures forall a, b, c :: DateLe(a, b) && DateLe(b, c) ==> DateLe(a, c)
    ensures forall a, b :: DateLe(a, b) && DateLe(b, a) ==> a == b
  {
  }

  /** `a` lies in the inclusive range [`lo`, `hi`] (Spring Data's `Between`). */
  predicate InRange(a: Date, lo: Date, hi: Date)
  {
    DateLe(lo, a) && DateLe(a, hi)
  }

  /** `java.time.LocalDateTime` to the second: a date and the seconds since its midnight. */
  datatype DateTime = DateTime(date: Date, secondOfDay: int)

  /** Chronological order of date-times: by date, then by time of day. */
  predicate DateTimeLe(a: DateTime, b: DateTime)
  {
    (a.date != b.date && DateLe(a.date, b.date)) || (a.date == b.date && a.secondOfDay <= b.secondOfDay)
  }

  /** `LocalDate.atStartOfDay()`: the date-time a date stands for when compared with date-times. */
  function StartOfDay(d: Date): DateTime
  {
    DateTime(d, 0)
  }

  /** `Month.getDisplayName(TextStyle.SHORT, Locale.ENGLISH)` for months 1 to 12. */
  const MONTH_SHORT_NAMES: seq<string> :=
    ["Jan", "Feb", "Mar", "Apr", "May", "Jun", "Jul", "Aug", "Sep", "Oct", "Nov", "Dec"]

  function MonthShortName(m: int): (s: string)
    requires 1 <= m <= 12
    ensures s in MONTH_SHORT_NAMES
  {
    MONTH_SHORT_NAMES[m - 1]
  }

  /** The twelve short names are pairwise distinct, so a name identifies its month. */
  lemma MonthShortNameInjective(m1: int, m2: int)
    requires 1 <= m1 <= 12 && 1 <= m2 <= 12
    requires MonthShortName(m1) == MonthShortName(m2)
    ensures m1 == m2
  {
  }
}

=== FILE: cart.dfy ===
/**
 * The point-of-sale cart shared by the cashier and staff checkout pages: a list of
 * lines, one per product code, each with the price captured when the line was
 * created and a quantity. Prices are whole currency units.
 */
module Cart {
  import opened Wrappers
  import Sequences

  /** The product the code lookup returns. */
  datatype Product = Product(id: int, name: string, price: int, imageUrl: string)

  /**
   * How `GET /products/getByProductCode/{code}` settles: a product, a body with no
   * product, or a rejected request (the product service answers an unknown code with
   * an error status).
   */
  datatype Lookup = Found(product: Product) | NoProduct | LookupRejected

  /** A cart line; the cashier page also keeps the product id, the staff page does not. */
  datatype Line = Line(id: Option<int>, code: string, name: string, price: int, image: string, quantity: int)

  /** Product codes have exactly this many characters. */
  const CODE_LENGTH := 6

  /** The code field keeps at most six characters: `e.target.value.slice(0, 6)`. */
  function Clipped(input: string): (s: string)
    ensures |s| <= CODE_LENGTH && |s| <= |input|
    ensures s == input[..|s|]
    ensures |input| <= CODE_LENGTH ==> s == input
  {
    if |input| <= CODE_LENGTH then input else input[..CODE_LENGTH]
  }

  function LineTotal(l: Line): int
  {
    l.price * l.quantity
  }

  /** `calculateSubtotal`: the sum of price times quantity over the lines. */
  function Subtotal(cart: seq<Line>): int
  {
    Sequences.SumOf(cart, LineTotal)
  }

  predicate HasCode(cart: seq<Line>, code: string)
  {
    exists i :: 0 <= i < |cart| && cart[i].code == code
  }

  /** No two lines share a product code. */
  predicate UniqueCodes(cart: seq<Line>)
  {
    forall i, j :: 0 <= i < j < |cart| ==> cart[i].code != cart[j].code
  }

  predicate PositiveQuantities(cart: seq<Line>)
  {
    forall i :: 0 <= i < |cart| ==> cart[i].quantity >= 1
  }

  /** `cartItems.map(item => item.code === code ? {...item, quantity: q(item)} : item)`. */
  function Requantified(cart: seq<Line>, code: string, q: Line -> int): (r: seq<Line>)
    ensures |r| == |cart|
    ensures forall i :: 0 <= i < |cart| ==> r[i].code == cart[i].code && r[i].price == cart[i].price
    ensures forall i :: 0 <= i < |cart| && cart[i].code != code ==> r[i] == cart[i]
    ensures forall i :: 0 <= i < |cart| && cart[i].code == code ==> r[i] == cart[i].(quantity := q(cart[i]))
  {
    if cart == [] then []
    else
      var last := cart[|cart| - 1];
      Requantified(cart[..|cart| - 1], code, q) + [if last.code == code then last.(quantity := q(last)) else last]
  }

  /** Changing the quantity of the one line with the code changes the subtotal by that line's difference. */
  lemma {:induction false} RequantifiedSubtotal(cart: seq<Line>, code: string, q: Line -> int, k: nat)
    requires UniqueCodes(cart) && k < |cart| && cart[k].code == code
    ensures Subtotal(Requantified(cart, code, q)) ==
      Subtotal(cart) - LineTotal(cart[k]) + LineTotal(cart[k].(quantity := q(cart[k])))
  {
    var init := cart[..|cart| - 1];
    var r := Requantified(cart, code, q);
    assert r[..|r| - 1] == Requantified(init, code, q);
    if k == |cart| - 1 {
      assert Requantified(init, code, q) == init;
    } else {
      RequantifiedSubtotal(init, code, q, k);
    }
  }

  /** `cartItems.find(item => item.code === code)`: the first line with the code. */
  function Find(cart: seq<Line>, code: string): (r: Option<Line>)
    ensures r.Some? <==> HasCode(cart, code)
    ensures r.Some? ==> exists i :: (0 <= i < |cart| && cart[i] == r.value && cart[i].code == code &&
      forall j :: 0 <= j < i ==> cart[j].code != code)
  {
    if cart == [] then None
    else if cart[0].code == code then Some(cart[0])
    else
      var r := Find(cart[1..], code);
      if r.Some? then
        var i :| 0 <= i < |cart[1..]| && cart[1..][i] == r.value && cart[1..][i].code == code &&
          forall j :: 0 <= j < i ==> cart[1..][j].code != code;
        assert cart[i + 1] == r.value;
        r
      else
        assert forall i :: 1 <= i < |cart| ==> cart[i] == cart[1..][i - 1];
        r
  }

  function Bump(l: Line): int
  {
    l.quantity + 1
  }

  /**
   * `handleProductCodeSubmit` once the product is found: a code already in the cart
   * has its quantity raised by one; a new code is appended with quantity one.
   */
  function Added(cart: seq<Line>, code: string, product: Product, id: Option<int>): (r: seq<Line>)
    ensures HasCode(cart, code) ==> r == Requantified(cart, code, Bump)
    ensures !HasCode(cart, code) ==> r == cart + [Line(id, code, product.name, product.price, product.imageUrl, 1)]
    ensures HasCode(r, code)
  {
    if Find(cart, code).Some? then
      var i :| 0 <= i < |cart| && cart[i].code == code;
      var r := Requantified(cart, code, Bump);
      assert r[i].code == code;
      r
    else
      var r := cart + [Line(id, code, product.name, product.price, product.imageUrl, 1)];
      assert r[|cart|].code == code;
      r
  }

  /** Adding keeps one line per code and every quantity at least one. */
  lemma AddedKeepsInvariant(cart: seq<Line>, code: string, product: Product, id: Option<int>)
    requires UniqueCodes(cart) && PositiveQuantities(cart)
    ensures var r := Added(cart, code, product, id);
      UniqueCodes(r) && PositiveQuantities(r)
  {
  }

  /**
   * Adding a code raises the subtotal by one unit of it: the price captured on the
   * existing line, or the product's price for a new line.
   */
  lemma AddedSubtotal(cart: seq<Line>, code: string, product: Product, id: Option<int>)
    requires UniqueCodes(cart)
    ensures Subtotal(Added(cart, code, product, id)) ==
      Subtotal(cart) + if HasCode(cart, code) then Find(cart, code).value.price else product.price
  {
    if HasCode(cart, code) {
      var k :| 0 <= k < |cart| && cart[k] == Find(cart, code).value && cart[k].code == code;
      BumpSubtotal(cart, code, k);
    } else {
      var line := Line(id, code, product.name, product.price, product.imageUrl, 1);
      assert (cart + [line])[..|cart|] == cart;
    }
  }

  /** One more unit on the line with the code adds that line's price. */
  lemma BumpSubtotal(cart: seq<Line>, code: string, k: nat)
    requires UniqueCodes(cart) && k < |cart| && cart[k].code == code
    ensures Subtotal(Requantified(cart, code, Bump)) == Subtotal(cart) + cart[k].price
  {
    var l := cart[k];
    RequantifiedSubtotal(cart, code, Bump, k);
    assert l.price * (l.quantity + 1) == l.price * l.quantity + l.price;
  }

  /** `updateQuantity`: a value below one is ignored; otherwise the lines with the code take it. */
  function WithQuantity(cart: seq<Line>, code: string, quantity: int): (r: seq<Line>)
    ensures quantity < 1 ==> r == cart
    ensures quantity >= 1 ==> r == Requantified(cart, code, (l: Line) => quantity)
  {
    if quantity < 1 then cart else Requantified(cart, code, (l: Line) => quantity)
  }

  /** A quantity update keeps one line per code and every quantity at least one. */
  lemma WithQuantityKeepsInvariant(cart: seq<Line>, code: string, quantity: int)
    requires UniqueCodes(cart) && PositiveQuantities(cart)
    ensures var r := WithQuantity(cart, code, quantity);
      UniqueCodes(r) && PositiveQuantities(r)
  {
  }

  /**
   * Setting the quantity of the one line with the code to an accepted value changes
   * the subtotal by that line's price times the difference; a rejected value
   * changes nothing.
   */
  lemma WithQuantitySubtotal(cart: seq<Line>, code: string, quantity: int, k: nat)
    requires UniqueCodes(cart) && k < |cart| && cart[k].code == code
    ensures quantity < 1 ==> Subtotal(WithQuantity(cart, code, quantity)) == Subtotal(cart)
    ensures quantity >= 1 ==>
      (Subtotal(WithQuantity(cart, code, quantity)) == Subtotal(cart) + cart[k].price * (quantity - cart[k].quantity))
  {
    if quantity >= 1 {
      var l := cart[k];
      RequantifiedSubtotal(cart, code, (l: Line) => quantity, k);
      assert l.price * quantity - l.price * l.quantity == l.price * (quantity - l.quantity);
    }
  }

  /** `removeItem`: the lines with other codes, in their order. */
  function Removed(cart: seq<Line>, code: string): (r: seq<Line>)
    ensures |r| <= |cart|
    ensures forall i :: 0 <= i < |r| ==> r[i].code != code
  {
    if cart == [] then []
    else
      var last := cart[|cart| - 1];
      Removed(cart[..|cart| - 1], code) + (if last.code == code then [] else [last])
  }

  /** `removeItem` is the filter that keeps the lines with other codes. */
  lemma {:induction false} RemovedIsFilter(cart: seq<Line>, code: string)
    ensures Removed(cart, code) == Sequences.Filter(cart, (l: Line) => l.code != code)
  {
    if cart != [] {
      var init := cart[..|cart| - 1];
      var last := cart[|cart| - 1];
      var p := (l: Line) => l.code != code;
      RemovedIsFilter(init, code);
      assert cart == init + [last];
      Sequences.FilterAppend(init, [last], p);
      assert Sequences.Filter([last], p) == if p(last) then [last] else [] by {
        assert [last][1..] == [];
      }
    }
  }

  /** Removing a code absent from the cart changes nothing. */
  lemma {:induction false} RemovedAbsent(cart: seq<Line>, code: string)
    requires !HasCode(cart, code)
    ensures Removed(cart, code) == cart
  {
    if cart != [] {
      RemovedAbsent(cart[..|cart| - 1], code);
    }
  }

  /** Removal brings in no code that was not already there. */
  lemma {:induction false} RemovedNoNewCode(cart: seq<Line>, code: string, c: string)
    requires !HasCode(cart, c)
    ensures !HasCode(Removed(cart, code), c)
  {
    if cart != [] {
      RemovedNoNewCode(cart[..|cart| - 1], code, c);
    }
  }

  /** Removal keeps one line per code and every quantity at least one. */
  lemma {:induction false} RemovedKeepsInvariant(cart: seq<Line>, code: string)
    requires UniqueCodes(cart) && PositiveQuantities(cart)
    ensures var r := Removed(cart, code);
      UniqueCodes(r) && PositiveQuantities(r)
  {
    if cart != [] {
      var init := cart[..|cart| - 1];
      var last := cart[|cart| - 1];
      RemovedKeepsInvariant(init, code);
      RemovedNoNewCode(init, code, last.code);
    }
  }

  /** Removing the one line with the code takes its total off the subtotal. */
  lemma {:induction false} RemovedSubtotal(cart: seq<Line>, code: string, k: nat)
    requires UniqueCodes(cart) && k < |cart| && cart[k].code == code
    ensures Subtotal(Removed(cart, code)) == Subtotal(cart) - LineTotal(cart[k])
  {
    var init := cart[..|cart| - 1];
    var last := cart[|cart| - 1];
    if k == |cart| - 1 {
      RemovedAbsent(init, code);
      assert Removed(cart, code) == init;
      assert cart[..|cart| - 1] == init;
    } else {
      RemovedSubtotal(init, code, k);
      var r := Removed(cart, code);
      assert r == Removed(init, code) + [last];
      assert r[..|r| - 1] == Removed(init, code);
    }
  }
}

=== FILE: cashier_checkout.dfy ===
/**
 * The cashier's point-of-sale page: the page state and its handlers. The product
 * lookup, the coupon service and the transaction service are called over HTTP; their
 * answers are parameters of the handlers, and the requests the page sends are
 * returned.
 */
module CashierCheckout {
  import opened Wrappers
  import opened Cart
  import CouponService

  /** The body of `POST /coupons/apply`: one product id per line, the subtotal and the loyalty card. */
  datatype ApplyRequest = ApplyRequest(productIds: seq<Option<int>>, totalAmount: int, cardNumber: string)

  /**
   * The body of `POST /transactions/create`. `total` reads `finalTotal` from the
   * stored discounts, which is `undefined` while none are stored.
   */
  datatype PaymentRequest = PaymentRequest(items: seq<Line>, total: Option<int>, paymentMethod: string, cardNumber: string)

  /** `cartItems.map(item => item.id)`. */
  function ProductIds(cart: seq<Line>): (ids: seq<Option<int>>)
    ensures |ids| == |cart|
    ensures forall i :: 0 <= i < |cart| ==> ids[i] == cart[i].id
  {
    if cart == [] then [] else ProductIds(cart[..|cart| - 1]) + [cart[|cart| - 1].id]
  }

  class PosSession {
    var productCode: string
    var cart: seq<Line>
    var showPaymentModal: bool
    var showQRModal: bool
    var showInvoiceModal: bool
    /** `appliedDiscounts`: `[]` until the coupon service answers. */
    var discounts: Option<CouponService.ApplyResult>
    var paymentMethod: string
    var cardNumber: string

    /** One line per code, every quantity at least one, and a code no longer than six characters. */
    ghost predicate Valid()
      reads this
    {
      UniqueCodes(cart) && PositiveQuantities(cart) && |productCode| <= CODE_LENGTH
    }

    constructor ()
      ensures Valid()
      ensures productCode == "" && cart == [] && discounts.None? && paymentMethod == "" && cardNumber == ""
      ensures !showPaymentModal && !showQRModal && !showInvoiceModal
    {
      productCode := "";
      cart := [];
      showPaymentModal := false;
      showQRModal := false;
      showInvoiceModal := false;
      discounts := None;
      paymentMethod := "";
      cardNumber := "";
    }

    /** Typing into the code field keeps at most six characters. */
    method TypeCode(input: string)
      requires Valid()
      modifies this`productCode
      ensures Valid() && productCode == Clipped(input)
    {
      productCode := Clipped(input);
    }

    /** Typing into the loyalty-code field stores the text as typed; checkout sends it with the cart. */
    method TypeCardNumber(input: string)
      requires Valid()
      modifies this`cardNumber
      ensures Valid() && cardNumber == input
    {
      cardNumber := input;
    }

    /**
     * `handleProductCodeSubmit`, given how the lookup of the code settles. A code that
     * is not six characters long is refused before any lookup and changes nothing. A
     * rejected lookup ends the handler at its `await`, so the cart and the field stay as
     * they were. Otherwise the field is cleared and a found product is added.
     */
    method SubmitCode(answer: Lookup) returns (lookedUp: bool)
      requires Valid()
      modifies this`cart, this`productCode
      ensures Valid()
      ensures lookedUp <==> |old(productCode)| == CODE_LENGTH
      ensures !lookedUp || answer.LookupRejected? ==> cart == old(cart) && productCode == old(productCode)
      ensures lookedUp && !answer.LookupRejected? ==> productCode == ""
      ensures lookedUp && answer.NoProduct? ==> cart == old(cart)
      ensures lookedUp && answer.Found? ==>
        cart == Added(old(cart), old(productCode), answer.product, Some(answer.product.id))
    {
      if |productCode| != CODE_LENGTH {
        return false;
      }
      lookedUp := true;
      match answer
      case LookupRejected =>
      case NoProduct =>
        productCode := "";
      case Found(product) =>
        AddedKeepsInvariant(cart, productCode, product, Some(product.id));
        cart := Added(cart, productCode, product, Some(product.id));
        productCode := "";
    }

    /** `removeItem`. */
    method RemoveItem(code: string)
      requires Valid()
      modifies this`cart
      ensures Valid() && cart == Removed(old(cart), code)
    {
      RemovedKeepsInvariant(cart, code);
      cart := Removed(cart, code);
    }

    /** `updateQuantity`. */
    method UpdateQuantity(code: string, quantity: int)
      requires Valid()
      modifies this`cart
      ensures Valid() && cart == WithQuantity(old(cart), code, quantity)
    {
      WithQuantityKeepsInvariant(cart, code, quantity);
      cart := WithQuantity(cart, code, quantity);
    }

    /**
     * `handleCheckout`, given the coupon service's answer (`None` when the call
     * fails). An empty cart only alerts and sends nothing; a failed call leaves the
     * page as it was.
     */
    method Checkout(answer: Option<CouponService.ApplyResult>) returns (sent: Option<ApplyRequest>)
      modifies this`discounts, this`showPaymentModal
      ensures cart == [] ==> sent.None? && discounts == old(discounts) && showPaymentModal == old(showPaymentModal)
      ensures cart != [] ==> sent == Some(ApplyRequest(ProductIds(cart), Subtotal(cart), cardNumber))
      ensures cart != [] && answer.Some? ==> discounts == answer && showPaymentModal
      ensures answer.None? ==> discounts == old(discounts) && showPaymentModal == old(showPaymentModal)
    {
      if cart == [] {
        return None;
      }
      sent := Some(ApplyRequest(ProductIds(cart), Subtotal(cart), cardNumber));
      if answer.Some? {
        discounts := answer;
        showPaymentModal := true;
      }
    }

    /** `handleQRPayment`: the QR dialog replaces the payment dialog. */
    method QRPayment()
      modifies this`paymentMethod, this`showPaymentModal, this`showQRModal
      ensures paymentMethod == "qr" && !showPaymentModal && showQRModal
    {
      paymentMethod := "qr";
      showPaymentModal := false;
      showQRModal := true;
    }

    /**
     * `processPayment`, given whether the transaction service accepted it: the
     * request carries the cart and the stored final total; on success the invoice
     * replaces the QR dialog.
     */
    method ProcessPayment(method_: string, accepted: bool) returns (sent: PaymentRequest)
      modifies this`showQRModal, this`showInvoiceModal
      ensures sent == PaymentRequest(cart, if discounts.Some? then Some(discounts.value.finalTotal) else None,
                                     method_, cardNumber)
      ensures accepted ==> !showQRModal && showInvoiceModal
      ensures !accepted ==> showQRModal == old(showQRModal) && showInvoiceModal == old(showInvoiceModal)
    {
      sent := PaymentRequest(cart, if discounts.Some? then Some(discounts.value.finalTotal) else None,
                             method_, cardNumber);
      if accepted {
        showQRModal := false;
        showInvoiceModal := true;
      }
    }

    /** `handleCashPayment`: the payment dialog stays open under the invoice. */
    method CashPayment(accepted: bool) returns (sent: PaymentRequest)
      modifies this`paymentMethod, this`showQRModal, this`showInvoiceModal
      ensures paymentMethod == "cash"
      ensures sent == PaymentRequest(cart, if discounts.Some? then Some(discounts.value.finalTotal) else None,
                                     "cash", cardNumber)
      ensures accepted ==> !showQRModal && showInvoiceModal
      ensures !accepted ==> showQRModal == old(showQRModal) && showInvoiceModal == old(showInvoiceModal)
    {
      paymentMethod := "cash";
      sent := ProcessPayment("cash", accepted);
    }

    /** `handleQRConfirm`: no check on the customer, unlike the staff page. */
    method QRConfirm(accepted: bool) returns (sent: PaymentRequest)
      modifies this`showQRModal, this`showInvoiceModal
      ensures sent == PaymentRequest(cart, if discounts.Some? then Some(discounts.value.finalTotal) else None,
                                     "qr", cardNumber)
      ensures accepted ==> !showQRModal && showInvoiceModal
      ensures !accepted ==> showQRModal == old(showQRModal) && showInvoiceModal == old(showInvoiceModal)
    {
      sent := ProcessPayment("qr", accepted);
    }

    /** `handleFinish`: the sale is over; the cart, the discounts and the method are cleared and both dialogs close. */
    method Finish()
      requires Valid()
      modifies this`showInvoiceModal, this`showPaymentModal, this`cart, this`discounts, this`paymentMethod
      ensures Valid()
      ensures !showInvoiceModal && !showPaymentModal && cart == [] && discounts.None? && paymentMethod == ""
    {
      showInvoiceModal := false;
      showPaymentModal := false;
      cart := [];
      discounts := None;
      paymentMethod := "";
    }
  }
}

=== FILE: catalog.dfy ===
/**
 * The warehouse catalogue page: the loaded products, narrowed by the deleted
 * switch, the category and the name search, then ordered by the chosen sort.
 */
module Catalog {
  import opened Wrappers
  import Text
  import Sequences
  import Ordering

  /**
   * A product as the page holds it. `createdAt` is the creation instant as a count
   * of milliseconds, which is what `new Date(createdAt)` compares; `name` is `None`
   * when the service sent `null`.
   */
  datatype Item = Item(id: string, name: Option<string>, categoryId: string, price: int, createdAt: int, deleted: bool)

  /** The view the page is asked for. */
  datatype View = View(seeDeleted: bool, category: string, query: string, sortBy: string)

  predicate NotDeleted(x: Item)
  {
    !x.deleted
  }

  /** `item.name?.toLowerCase().includes(query.toLowerCase())`. */
  predicate NameMatches(x: Item, query: string)
  {
    x.name.Some? && Text.Contains(Text.Lower(x.name.value), Text.Lower(query))
  }

  /** An item the page shows: not deleted unless deleted items are shown, in the category unless "all", and found by the search unless it is empty. */
  predicate Shown(v: View, x: Item)
  {
    (v.seeDeleted || !x.deleted) &&
    (v.category == "all" || x.categoryId == v.category) &&
    (v.query == "" || NameMatches(x, v.query))
  }

  /** The shown items as a filter condition. */
  function Visible(v: View): Item -> bool
  {
    (x: Item) => Shown(v, x)
  }

  /** The condition after the deleted switch alone. */
  function AfterDeleted(v: View): Item -> bool
  {
    (x: Item) => v.seeDeleted || !x.deleted
  }

  /** The condition after the deleted switch and the category. */
  function AfterCategory(v: View): Item -> bool
  {
    (x: Item) => (v.seeDeleted || !x.deleted) && (v.category == "all" || x.categoryId == v.category)
  }

  function InCategory(category: string): Item -> bool
  {
    (x: Item) => x.categoryId == category
  }

  function Found(query: string): Item -> bool
  {
    (x: Item) => NameMatches(x, query)
  }

  /** The deleted switch narrows the products to the first condition. */
  lemma DeletedStep(items: seq<Item>, v: View)
    ensures (if v.seeDeleted then items else Sequences.Filter(items, NotDeleted)) ==
      Sequences.Filter(items, AfterDeleted(v))
  {
    if v.seeDeleted {
      Sequences.FilterAll(items, AfterDeleted(v));
    } else {
      Sequences.FilterFuse(items, (x: Item) => true, NotDeleted, AfterDeleted(v));
      Sequences.FilterAll(items, (x: Item) => true);
    }
  }

  /** The category filter narrows that to the second condition. */
  lemma CategoryStep(items: seq<Item>, v: View)
    ensures var s := Sequences.Filter(items, AfterDeleted(v));
      (if v.category == "all" then s else Sequences.Filter(s, InCategory(v.category))) ==
      Sequences.Filter(items, AfterCategory(v))
  {
    var s := Sequences.Filter(items, AfterDeleted(v));
    if v.category == "all" {
      Sequences.FilterAll(s, (x: Item) => true);
      Sequences.FilterFuse(items, AfterDeleted(v), (x: Item) => true, AfterCategory(v));
    } else {
      Sequences.FilterFuse(items, AfterDeleted(v), InCategory(v.category), AfterCategory(v));
    }
  }

  /** The search narrows that to the shown items. */
  lemma SearchStep(items: seq<Item>, v: View)
    ensures var s := Sequences.Filter(items, AfterCategory(v));
      (if v.query == "" then s else Sequences.Filter(s, Found(v.query))) == Sequences.Filter(items, Visible(v))
  {
    var s := Sequences.Filter(items, AfterCategory(v));
    if v.query == "" {
      Sequences.FilterAll(s, (x: Item) => true);
      Sequences.FilterFuse(items, AfterCategory(v), (x: Item) => true, Visible(v));
    } else {
      Sequences.FilterFuse(items, AfterCategory(v), Found(v.query), Visible(v));
    }
  }

  /** "newest": later creation first. */
  predicate Newest(a: Item, b: Item)
  {
    b.createdAt <= a.createdAt
  }

  /** "price-low": cheaper first. */
  predicate PriceLow(a: Item, b: Item)
  {
    a.price <= b.price
  }

  /** "price-high": dearer first. */
  predicate PriceHigh(a: Item, b: Item)
  {
    b.price <= a.price
  }

  lemma SortsArePreorders()
    ensures Ordering.TotalPreorder(Newest)
    ensures Ordering.TotalPreorder(PriceLow)
    ensures Ordering.TotalPreorder(PriceHigh)
  {
    Ordering.IntKeyTotalPreorder(Newest, (x: Item) => -x.createdAt);
    Ordering.IntKeyTotalPreorder(PriceLow, (x: Item) => x.price);
    Ordering.IntKeyTotalPreorder(PriceHigh, (x: Item) => -x.price);
  }

  /** The three filters of the effect, each applied only when its control asks for it. */
  method Narrow(items: seq<Item>, v: View) returns (result: seq<Item>)
    ensures result == Sequences.Filter(items, Visible(v))
  {
    result := items;
    if !v.seeDeleted {
      result := Sequences.Filter(result, NotDeleted);
    }
    DeletedStep(items, v);
    if v.category != "all" {
      result := Sequences.Filter(result, InCategory(v.category));
    }
    CategoryStep(items, v);
    if v.query != "" {
      result := Sequences.Filter(result, Found(v.query));
    }
    SearchStep(items, v);
  }

  /** The order a sort key asks for, if it is one the page knows. */
  function SortOrder(sortBy: string): (r: Option<(Item, Item) -> bool>)
    ensures r.Some? <==> sortBy == "newest" || sortBy == "price-low" || sortBy == "price-high"
    ensures r.Some? ==> Ordering.TotalPreorder(r.value)
  {
    SortsArePreorders();
    if sortBy == "newest" then Some(Newest)
    else if sortBy == "price-low" then Some(PriceLow)
    else if sortBy == "price-high" then Some(PriceHigh)
    else None
  }

  /** The effect's `result.sort(...)`: a known key sorts the list, any other keeps it as it is. */
  method SortInPlace(s: seq<Item>, sortBy: string) returns (r: seq<Item>)
    ensures multiset(r) == multiset(s)
    ensures SortOrder(sortBy).Some? ==> Ordering.SortedBy(r, SortOrder(sortBy).value)
    ensures SortOrder(sortBy).None? ==> r == s
  {
    var order := SortOrder(sortBy);
    if order.Some? {
      r := Ordering.SortBy(s, order.value);
    } else {
      r := s;
    }
  }

  /** The list on screen holds exactly the shown products, as often as they occur. */
  lemma ViewElements(items: seq<Item>, v: View, r: seq<Item>)
    requires multiset(r) == multiset(Sequences.Filter(items, Visible(v)))
    ensures forall x :: x in r <==> x in items && Shown(v, x)
    ensures multiset(r) <= multiset(items)
  {
    var f := Sequences.Filter(items, Visible(v));
    forall x
      ensures x in r <==> x in items && Shown(v, x)
    {
      assert x in r <==> x in multiset(r);
      assert x in f <==> x in multiset(f);
    }
  }

  /** The products, the list on screen and the chosen view. */
  class CatalogPage {
    var items: seq<Item>
    var filteredItems: seq<Item>
    var view: View

    /** The page opens on non-deleted items of every category, newest first, before anything is loaded. */
    constructor ()
      ensures items == [] && filteredItems == [] && view == View(false, "all", "", "newest")
    {
      items := [];
      filteredItems := [];
      view := View(false, "all", "", "newest");
    }

    /**
     * The products arrive. The load handler first puts the non-deleted ones on
     * screen; the new product list then reruns the search-and-filter effect, which
     * replaces that list with the current view of the products.
     */
    method Load(loaded: seq<Item>)
      modifies this`items, this`filteredItems
      ensures items == loaded
      ensures multiset(filteredItems) == multiset(Sequences.Filter(loaded, Visible(view)))
      ensures forall x :: x in filteredItems <==> x in loaded && Shown(view, x)
      ensures SortOrder(view.sortBy).Some? ==> Ordering.SortedBy(filteredItems, SortOrder(view.sortBy).value)
      ensures SortOrder(view.sortBy).None? ==> filteredItems == Sequences.Filter(loaded, Visible(view))
    {
      items := loaded;
      filteredItems := Sequences.Filter(loaded, NotDeleted);
      Refresh();
    }

    /**
     * The product list fetched again after a delete, an undelete or a product
     * saved in the product dialog. The handler first puts every product on screen,
     * deleted ones included; the new product list then reruns the search-and-filter
     * effect, so what stays on screen is the current view of the products.
     */
    method Reload(loaded: seq<Item>)
      modifies this`items, this`filteredItems
      ensures items == loaded
      ensures multiset(filteredItems) == multiset(Sequences.Filter(loaded, Visible(view)))
      ensures forall x :: x in filteredItems <==> x in loaded && Shown(view, x)
      ensures SortOrder(view.sortBy).Some? ==> Ordering.SortedBy(filteredItems, SortOrder(view.sortBy).value)
      ensures SortOrder(view.sortBy).None? ==> filteredItems == Sequences.Filter(loaded, Visible(view))
    {
      items := loaded;
      filteredItems := loaded;
      Refresh();
    }

    /**
     * The search-and-filter effect: each filter narrows the list in turn, then the
     * list is sorted. The result holds exactly the shown items, each as often as
     * in the products; a known sort orders it, and any other value keeps the
     * products' order.
     */
    method Refresh()
      modifies this`filteredItems
      ensures multiset(filteredItems) == multiset(Sequences.Filter(items, Visible(view)))
      ensures forall x :: x in filteredItems <==> x in items && Shown(view, x)
      ensures multiset(filteredItems) <= multiset(items)
      ensures SortOrder(view.sortBy).Some? ==> Ordering.SortedBy(filteredItems, SortOrder(view.sortBy).value)
      ensures SortOrder(view.sortBy).None? ==> filteredItems == Sequences.Filter(items, Visible(view))
    {
      var narrowed := Narrow(items, view);
      var result := SortInPlace(narrowed, view.sortBy);
      ViewElements(items, view, result);
      filteredItems := result;
    }

    /** A change of any of the four controls reruns the effect. */
    method ChangeView(v: View)
      modifies this`view, this`filteredItems
      ensures view == v
      ensures multiset(filteredItems) == multiset(Sequences.Filter(items, Visible(v)))
      ensures forall x :: x in filteredItems <==> x in items && Shown(v, x)
      ensures multiset(filteredItems) <= multiset(items)
      ensures SortOrder(v.sortBy).Some? ==> Ordering.SortedBy(filteredItems, SortOrder(v.sortBy).value)
      ensures SortOrder(v.sortBy).None? ==> filteredItems == Sequences.Filter(items, Visible(v))
    {
      view := v;
      Refresh();
    }
  }
}

=== FILE: category_page.dfy ===
/**
 * The warehouse category page: the category list, the name typed for a new
 * category and the category being renamed. Each handler gives the next page state
 * from the current one and the answer of the category service.
 */
module CategoryPage {
  import opened Wrappers
  import Text
  import Sequences

  /** A category as the service returns it; its id is a generated UUID text. */
  datatype Category = Category(id: string, name: string)

  /** The page state: `categories`, `newCategoryName`, `editingId` and `editingName`. */
  datatype Page = Page(categories: seq<Category>, newName: string, editingId: Option<string>, editingName: string)

  /** The keys the two inputs react to. */
  datatype Key = Enter | Escape | OtherKey

  const INITIAL := Page([], "", None, "")

  /** `name.trim()` is empty. */
  predicate Blank(name: string)
  {
    Text.JsTrim(name) == ""
  }

  /** The name `handleAddCategory` posts: the trimmed input, and no request at all for a blank one. */
  function AddRequest(p: Page): (r: Option<string>)
    ensures r.None? <==> Blank(p.newName)
    ensures r.Some? ==> r.value == Text.JsTrim(p.newName)
  {
    if Blank(p.newName) then None else Some(Text.JsTrim(p.newName))
  }

  /**
   * `handleAddCategory`, given the category the service created (`None` when the call
   * fails): the created category is appended and the input cleared; a blank name or
   * a failed call leaves the page as it was.
   */
  function Added(p: Page, created: Option<Category>): (r: Page)
    ensures AddRequest(p).None? || created.None? ==> r == p
    ensures AddRequest(p).Some? && created.Some? ==>
      r == p.(categories := p.categories + [created.value], newName := "")
  {
    if Blank(p.newName) || created.None? then p
    else p.(categories := p.categories + [created.value], newName := "")
  }

  /** `handleStartEdit`. */
  function StartEdit(p: Page, c: Category): (r: Page)
    ensures r.editingId == Some(c.id) && r.editingName == c.name
    ensures r.categories == p.categories && r.newName == p.newName
  {
    p.(editingId := Some(c.id), editingName := c.name)
  }

  /** `categories.map(cat => cat.id === id ? { ...cat, name } : cat)`. */
  function Renamed(cats: seq<Category>, id: string, name: string): (r: seq<Category>)
    ensures |r| == |cats|
    ensures forall i :: 0 <= i < |cats| ==>
      r[i] == (if cats[i].id == id then cats[i].(name := name) else cats[i])
  {
    if cats == [] then []
    else
      var c := cats[|cats| - 1];
      Renamed(cats[..|cats| - 1], id, name) + [if c.id == id then c.(name := name) else c]
  }

  /** Renaming keeps every id in its place, so a missing id changes nothing. */
  lemma RenamedMissing(cats: seq<Category>, id: string, name: string)
    requires forall i :: 0 <= i < |cats| ==> cats[i].id != id
    ensures Renamed(cats, id, name) == cats
  {
  }

  /** The name `handleSaveEdit` sends: the trimmed edit, and no request for a blank one. */
  function SaveRequest(p: Page): (r: Option<string>)
    ensures r.None? <==> Blank(p.editingName)
    ensures r.Some? ==> r.value == Text.JsTrim(p.editingName)
  {
    if Blank(p.editingName) then None else Some(Text.JsTrim(p.editingName))
  }

  /**
   * `handleSaveEdit(id)`, given whether the service accepted the update: the list
   * takes the edit as typed, untrimmed, for that id only, and the edit state is
   * cleared. A blank name or a refused call leaves the page as it was.
   */
  function Saved(p: Page, id: string, accepted: bool): (r: Page)
    ensures SaveRequest(p).None? || !accepted ==> r == p
    ensures SaveRequest(p).Some? && accepted ==>
      r == p.(categories := Renamed(p.categories, id, p.editingName), editingId := None, editingName := "")
  {
    if Blank(p.editingName) || !accepted then p
    else p.(categories := Renamed(p.categories, id, p.editingName), editingId := None, editingName := "")
  }

  /**
   * The list keeps the name as typed while the service receives it trimmed: a
   * name that starts with a space is stored locally with a different text from
   * the one saved.
   */
  lemma SavedNameIsUntrimmed(p: Page)
    requires p.editingName != "" && Text.IsJsSpace(p.editingName[0]) && !Blank(p.editingName)
    ensures SaveRequest(p).Some? && SaveRequest(p).value != p.editingName
  {
    var s := p.editingName;
    var t := Text.TrimStart(s, Text.IsJsSpace);
    assert |Text.JsTrim(s)| <= |t| < |s|;
  }

  /** `handleCancelEdit`. */
  function Cancelled(p: Page): (r: Page)
    ensures r.editingId.None? && r.editingName == ""
    ensures r.categories == p.categories && r.newName == p.newName
  {
    p.(editingId := None, editingName := "")
  }

  /** `cat.id !== id`. */
  function Other(id: string): Category -> bool
  {
    (c: Category) => c.id != id
  }

  /**
   * `handleDelete(id)`, given the confirmation: the category leaves the list at
   * once, whatever the service answers later; without confirmation nothing changes.
   */
  function Deleted(p: Page, id: string, confirmed: bool): (r: Page)
    ensures !confirmed ==> r == p
    ensures confirmed ==> r == p.(categories := Sequences.Filter(p.categories, Other(id)))
    ensures forall c :: c in r.categories ==> c in p.categories && (confirmed ==> c.id != id)
    ensures confirmed ==> forall c :: c in p.categories && c.id != id ==> c in r.categories
  {
    if confirmed then p.(categories := Sequences.Filter(p.categories, Other(id))) else p
  }

  /** Deleting an id that is not listed keeps the list as it was. */
  lemma DeletedMissing(p: Page, id: string)
    requires forall i :: 0 <= i < |p.categories| ==> p.categories[i].id != id
    ensures Deleted(p, id, true) == p
  {
    Sequences.FilterAll(p.categories, Other(id));
  }

  /** `handleKeyPressAdd`: Enter adds; any other key does nothing. */
  function KeyAdd(p: Page, key: Key, created: Option<Category>): (r: Page)
    ensures key != Enter ==> r == p
    ensures key == Enter && Blank(p.newName) ==> r == p
    ensures key == Enter && !Blank(p.newName) && created.Some? ==> r.categories == p.categories + [created.value]
  {
    if key == Enter then Added(p, created) else p
  }

  /** `handleKeyPressEdit`: Enter saves the edit, Escape cancels it, any other key does nothing. */
  function KeyEdit(p: Page, key: Key, id: string, accepted: bool): (r: Page)
    ensures key == OtherKey ==> r == p
    ensures key == Escape ==> r.editingId.None? && r.categories == p.categories
    ensures key == Enter && (Blank(p.editingName) || !accepted) ==> r == p
    ensures key == Enter && !Blank(p.editingName) && accepted ==>
      r.editingId.None? && r.categories == Renamed(p.categories, id, p.editingName)
  {
    match key
    case Enter => Saved(p, id, accepted)
    case Escape => Cancelled(p)
    case OtherKey => p
  }
}

=== FILE: coupon_page.dfy ===
/**
 * The marketing page that lists, creates, edits and deletes coupons. The form is
 * validated in the browser before anything is sent; the coupon service's answer to
 * a create is a parameter.
 */
module CouponPage {
  import opened Wrappers
  import Text
  import Ordering
  import Sequences

  /**
   * `formData`. Number fields hold whole units, `None` when left empty. Date fields
   * hold the text of the date inputs (`YYYY-MM-DD`, or `""`). `description` is
   * `None` when the service sent `null`.
   */
  datatype CouponForm = CouponForm(
    kind: string, name: string, description: Option<string>,
    amount: Option<int>, percentageDiscount: Option<int>,
    comboProductCodes: string, minOrderAmount: Option<int>,
    holidayCode: string, holidayStartDate: string, holidayEndDate: string,
    applicableProductCodes: string, productCodePattern: string,
    isActive: bool, startDate: string, endDate: string, priority: int)

  /** A row of the list: the coupon's id and its fields. */
  datatype Coupon = Coupon(id: int, form: CouponForm)

  /** The form `openModal` shows for a new coupon. */
  const EMPTY_FORM := CouponForm("PRODUCT", "", Some(""), None, None, "", None, "", "", "", "", "", true, "", "", 0)

  /** The alerts `handleSubmit` can stop with, in the order it checks them. */
  datatype FormError =
    | MissingComboCodes
    | MissingMinOrder
    | MissingHolidayCode
    | MissingHolidayDates
    | MissingProductCodes
    | MissingDiscount
    | MissingDates
    | StartAfterEnd

  /** A number field that is filled in and above zero (`!x || x <= 0` fails it). */
  predicate Positive(x: Option<int>)
  {
    x.Some? && x.value > 0
  }

  /** `!s.trim()`. */
  predicate Blank(s: string)
  {
    Text.JsTrim(s) == ""
  }

  /** What each type demands of its own fields; other types demand nothing. */
  predicate TypeRule(f: CouponForm)
  {
    if f.kind == "COMBO" then !Blank(f.comboProductCodes)
    else if f.kind == "TOTAL" then Positive(f.minOrderAmount)
    else if f.kind == "HOLIDAY" then !Blank(f.holidayCode) && f.holidayStartDate != "" && f.holidayEndDate != ""
    else if f.kind == "PRODUCT" then !Blank(f.applicableProductCodes) || !Blank(f.productCodePattern)
    else true
  }

  /** A fixed amount or a percentage above zero. */
  predicate DiscountGiven(f: CouponForm)
  {
    Positive(f.amount) || Positive(f.percentageDiscount)
  }

  /**
   * Both validity dates are filled in and the start is not after the end. The date
   * inputs produce `YYYY-MM-DD`, for which comparing the dates is comparing the text.
   */
  predicate PeriodGiven(f: CouponForm)
  {
    f.startDate != "" && f.endDate != "" && Ordering.StrLe(f.startDate, f.endDate)
  }

  /** A form `handleSubmit` sends. */
  predicate Acceptable(f: CouponForm)
  {
    TypeRule(f) && DiscountGiven(f) && PeriodGiven(f)
  }

  /**
   * `handleSubmit`'s checks, run in order until one fails. The form is refused
   * exactly when it is not acceptable; the type's own check comes first, then the
   * discount, then the dates, and each alert belongs to one type or to all.
   */
  function Validate(f: CouponForm): (r: Option<FormError>)
    ensures r.None? <==> Acceptable(f)
    ensures r == Some(MissingComboCodes) ==> f.kind == "COMBO"
    ensures r == Some(MissingMinOrder) ==> f.kind == "TOTAL"
    ensures r == Some(MissingHolidayCode) || r == Some(MissingHolidayDates) ==> f.kind == "HOLIDAY"
    ensures r == Some(MissingProductCodes) ==> f.kind == "PRODUCT"
    ensures !TypeRule(f) ==> r.Some? && r.value !in {MissingDiscount, MissingDates, StartAfterEnd}
    ensures r == Some(MissingDiscount) ==> TypeRule(f)
    ensures r == Some(MissingDates) || r == Some(StartAfterEnd) ==> TypeRule(f) && DiscountGiven(f)
  {
    if f.kind == "COMBO" && Blank(f.comboProductCodes) then Some(MissingComboCodes)
    else if f.kind == "TOTAL" && !Positive(f.minOrderAmount) then Some(MissingMinOrder)
    else if f.kind == "HOLIDAY" && Blank(f.holidayCode) then Some(MissingHolidayCode)
    else if f.kind == "HOLIDAY" && (f.holidayStartDate == "" || f.holidayEndDate == "") then Some(MissingHolidayDates)
    else if f.kind == "PRODUCT" && Blank(f.applicableProductCodes) && Blank(f.productCodePattern) then
      Some(MissingProductCodes)
    else if !Positive(f.amount) && !Positive(f.percentageDiscount) then Some(MissingDiscount)
    else if f.startDate == "" || f.endDate == "" then Some(MissingDates)
    else if !Ordering.StrLe(f.startDate, f.endDate) then Some(StartAfterEnd)
    else None
  }

  /**
   * A product coupon with neither codes nor a pattern is refused for that, whatever
   * its discount and dates; the blank form of a new coupon is one.
   */
  lemma ProductWithoutCodesRefused(f: CouponForm)
    requires f.kind == "PRODUCT" && Blank(f.applicableProductCodes) && Blank(f.productCodePattern)
    ensures Validate(f) == Some(MissingProductCodes)
  {
    assert f.kind[0] == 'P';
  }

  /** `s.split("T")[0]`: the text before the first `T`, or all of it. */
  function DatePart(s: string): (r: string)
    ensures Text.StartsWith(s, r)
    ensures 'T' !in r
    ensures |r| < |s| ==> s[|r|] == 'T'
  {
    var i := Text.IndexOf(s, 'T');
    if i < 0 then s else s[..i]
  }

  /** A date-time `d` + "T" + `t` whose date has no `T` is cut back to `d`, and cutting twice is cutting once. */
  lemma DatePartOfDateTime(d: string, t: string)
    requires 'T' !in d
    ensures DatePart(d + "T" + t) == d
    ensures DatePart(DatePart(d + "T" + t)) == d
  {
    var s := d + "T" + t;
    assert s[..|d|] == d;
    assert s[|d|] == 'T';
  }

  /** `openModal(coupon)`: the form shows the coupon with its four dates cut to the day; nothing else changes. */
  function EditForm(f: CouponForm): (r: CouponForm)
    ensures r.startDate == DatePart(f.startDate) && r.endDate == DatePart(f.endDate)
    ensures r.holidayStartDate == DatePart(f.holidayStartDate) && r.holidayEndDate == DatePart(f.holidayEndDate)
    ensures r.(startDate := f.startDate, endDate := f.endDate,
               holidayStartDate := f.holidayStartDate, holidayEndDate := f.holidayEndDate) == f
  {
    f.(startDate := DatePart(f.startDate), endDate := DatePart(f.endDate),
       holidayStartDate := DatePart(f.holidayStartDate), holidayEndDate := DatePart(f.holidayEndDate))
  }

  /** `handleUpdate`: the rows with the id take the form's fields and keep the id; the others are untouched. */
  function Replaced(coupons: seq<Coupon>, id: int, data: CouponForm): (r: seq<Coupon>)
    ensures |r| == |coupons|
    ensures forall i :: 0 <= i < |coupons| ==> r[i].id == coupons[i].id
    ensures forall i :: 0 <= i < |coupons| && coupons[i].id == id ==> r[i].form == data
    ensures forall i :: 0 <= i < |coupons| && coupons[i].id != id ==> r[i] == coupons[i]
  {
    if coupons == [] then []
    else
      var last := coupons[|coupons| - 1];
      Replaced(coupons[..|coupons| - 1], id, data) + [if last.id == id then Coupon(id, data) else last]
  }

  /** An update of an id the list does not hold changes nothing. */
  lemma ReplacedMissing(coupons: seq<Coupon>, id: int, data: CouponForm)
    requires forall i :: 0 <= i < |coupons| ==> coupons[i].id != id
    ensures Replaced(coupons, id, data) == coupons
  {
    var r := Replaced(coupons, id, data);
    assert forall i :: 0 <= i < |r| ==> r[i] == coupons[i];
  }

  /** `handleDelete` once confirmed: `coupons.filter(c => c.id !== id)`. */
  function Deleted(coupons: seq<Coupon>, id: int): (r: seq<Coupon>)
    ensures forall i :: 0 <= i < |r| ==> r[i].id != id
  {
    Sequences.Filter(coupons, (c: Coupon) => c.id != id)
  }

  /** Deleting keeps every row with another id, in order: deleting an id the list does not hold changes nothing. */
  lemma DeletedMissing(coupons: seq<Coupon>, id: int)
    requires forall i :: 0 <= i < |coupons| ==> coupons[i].id != id
    ensures Deleted(coupons, id) == coupons
  {
    Sequences.FilterAll(coupons, (c: Coupon) => c.id != id);
  }

  /** Deleting drops exactly the rows with the id: after the rows before it, a row with the id adds nothing. */
  lemma DeletedAppend(coupons: seq<Coupon>, c: Coupon, id: int)
    ensures Deleted(coupons + [c], id) == Deleted(coupons, id) + (if c.id == id then [] else [c])
  {
    var p := (x: Coupon) => x.id != id;
    Sequences.FilterAppend(coupons, [c], p);
    assert [c][1..] == [];
  }

  /**
   * The list filter: the name or the description contains the search, ignoring
   * case, and the type is the chosen one unless "ALL" is chosen.
   */
  predicate Matches(c: Coupon, search: string, filterType: string)
  {
    var term := Text.Lower(search);
    (Text.Contains(Text.Lower(c.form.name), term) ||
     (c.form.description.Some? && Text.Contains(Text.Lower(c.form.description.value), term))) &&
    (filterType == "ALL" || c.form.kind == filterType)
  }

  /**
   * `filteredCoupons`: exactly the coupons that match, each as often as the list
   * holds it.
   */
  function Filtered(coupons: seq<Coupon>, search: string, filterType: string): (r: seq<Coupon>)
    ensures forall i :: 0 <= i < |r| ==> Matches(r[i], search, filterType)
    ensures forall c :: c in r <==> c in coupons && Matches(c, search, filterType)
    ensures forall c :: multiset(r)[c] == if Matches(c, search, filterType) then multiset(coupons)[c] else 0
    ensures multiset(r) <= multiset(coupons)
  {
    var keep := (c: Coupon) => Matches(c, search, filterType);
    Sequences.FilterCounts(coupons, keep);
    Sequences.Filter(coupons, keep)
  }

  /** The filtered list keeps the list's order: a coupon added last is listed last if it matches. */
  lemma FilteredAppend(coupons: seq<Coupon>, c: Coupon, search: string, filterType: string)
    ensures Filtered(coupons + [c], search, filterType) ==
      Filtered(coupons, search, filterType) + (if Matches(c, search, filterType) then [c] else [])
  {
    var keep := (x: Coupon) => Matches(x, search, filterType);
    Sequences.FilterAppend(coupons, [c], keep);
    assert Sequences.Filter([c], keep) == if keep(c) then [c] else [] by {
      assert [c][1..] == [];
    }
  }

  /** With no search and "ALL" chosen, every coupon is listed, in order. */
  lemma FilteredShowsAll(coupons: seq<Coupon>)
    ensures Filtered(coupons, "", "ALL") == coupons
  {
    forall i | 0 <= i < |coupons|
      ensures Matches(coupons[i], "", "ALL")
    {
      Text.ContainsEmpty(Text.Lower(coupons[i].form.name));
    }
    Sequences.FilterAll(coupons, (c: Coupon) => Matches(c, "", "ALL"));
  }

  /** The type names the page shows. */
  const LABELS: map<string, string> := map[
    "PRODUCT" := "Sản phẩm", "COMBO" := "Combo", "TOTAL" := "Tổng đơn", "HOLIDAY" := "Ngày lễ"]

  /** `getCouponTypeLabel`: the name of a known type, or the type itself. */
  function Label(kind: string): (r: string)
    ensures kind in LABELS ==> r == LABELS[kind]
    ensures kind !in LABELS ==> r == kind
  {
    if kind in LABELS then LABELS[kind] else kind
  }

  /** Customer coupons have no name of their own and are shown by their type. */
  lemma CustomerTypeUnlabelled()
    ensures Label("CUSTOMER") == "CUSTOMER"
  {
  }

  /** The page: the loaded list, the dialog and the form, and the list's search and type filter. */
  class CouponList {
    var coupons: seq<Coupon>
    var isModalOpen: bool
    var editing: Option<Coupon>
    var form: CouponForm
    var searchTerm: string
    var filterType: string

    constructor (loaded: seq<Coupon>)
      ensures coupons == loaded && !isModalOpen && editing.None? && form == EMPTY_FORM
      ensures searchTerm == "" && filterType == "ALL"
    {
      coupons := loaded;
      isModalOpen := false;
      editing := None;
      form := EMPTY_FORM;
      searchTerm := "";
      filterType := "ALL";
    }

    /** `openModal`: editing a coupon shows its fields with the dates cut; a new coupon starts blank. */
    method OpenModal(coupon: Option<Coupon>)
      modifies this`editing, this`form, this`isModalOpen
      ensures isModalOpen && editing == coupon
      ensures coupon.Some? ==> form == EditForm(coupon.value.form)
      ensures coupon.None? ==> form == EMPTY_FORM
    {
      editing := coupon;
      form := if coupon.Some? then EditForm(coupon.value.form) else EMPTY_FORM;
      isModalOpen := true;
    }

    /** `handleInputChange`: the form takes the edited fields. */
    method ChangeForm(f: CouponForm)
      modifies this`form
      ensures form == f
    {
      form := f;
    }

    /**
     * `handleSubmit`, given the coupon the service returns for a create (`None` when
     * the call fails). A refused form changes nothing. An accepted one replaces the
     * edited coupon's fields or appends the created coupon, and closes the dialog.
     */
    method Submit(created: Option<Coupon>) returns (error: Option<FormError>)
      modifies this`coupons, this`isModalOpen, this`editing
      ensures error == Validate(form)
      ensures error.Some? ==> coupons == old(coupons) && isModalOpen == old(isModalOpen) && editing == old(editing)
      ensures error.None? ==> !isModalOpen && editing.None?
      ensures error.None? && old(editing).Some? ==> coupons == Replaced(old(coupons), old(editing).value.id, form)
      ensures error.None? && old(editing).None? && created.Some? ==> coupons == old(coupons) + [created.value]
      ensures error.None? && old(editing).None? && created.None? ==> coupons == old(coupons)
    {
      error := Validate(form);
      if error.Some? {
        return;
      }
      if editing.Some? {
        coupons := Replaced(coupons, editing.value.id, form);
      } else if created.Some? {
        coupons := coupons + [created.value];
      }
      isModalOpen := false;
      editing := None;
    }

    /** `handleDelete`: only a confirmed delete removes the rows with the id. */
    method Delete(id: int, confirmed: bool)
      modifies this`coupons
      ensures confirmed ==> coupons == Deleted(old(coupons), id)
      ensures !confirmed ==> coupons == old(coupons)
    {
      if confirmed {
        coupons := Deleted(coupons, id);
      }
    }
  }
}

=== FILE: coupon_repository.dfy ===
/**
 * The coupon entity (`Coupon.java`, `CouponType.java`) and the active-coupon
 * queries of `CouponRepository.java`. Money is in cents; a percentage is in
 * hundredths of a percent (the column's two decimals). The validity bounds are
 * date-times, and the queries bind today's date against them, which compares the
 * bounds with today's midnight.
 */
module CouponRepository {
  import opened Wrappers
  import opened Calendar
  import Sequences

  /**
   * The coupon kinds. `CUSTOMER` is the kind the service selects by card number;
   * the enum as shipped lists only the other four, and the service's use of it is
   * what is modelled.
   */
  datatype CouponType = COMBO | TOTAL | HOLIDAY | CUSTOMER | PRODUCT

  /**
   * A stored coupon. The code lists are taken as already parsed from their JSON
   * columns; `cardPattern` holds the eligible card numbers or patterns.
   */
  datatype Coupon = Coupon(
    ctype: CouponType,
    name: string,
    description: string,
    amount: int,
    percentage: Option<int>,
    comboCodes: seq<string>,
    minOrder: Option<int>,
    holidayStart: Option<Date>,
    holidayEnd: Option<Date>,
    productCodes: seq<string>,
    pattern: Option<string>,
    cardPattern: seq<string>,
    isActive: bool,
    startDate: Option<DateTime>,
    endDate: Option<DateTime>)

  /**
   * The query's condition: active, started (or no start) and not ended (or no end),
   * bounds inclusive, with `now` standing for the start of the day.
   */
  predicate ActiveOn(c: Coupon, now: Date)
  {
    c.isActive &&
    (c.startDate.None? || DateTimeLe(c.startDate.value, StartOfDay(now))) &&
    (c.endDate.None? || DateTimeLe(StartOfDay(now), c.endDate.value))
  }

  /**
   * By days: a coupon is active on a day when its start falls on an earlier day or
   * exactly at that day's midnight, and its end falls on that day or later. A coupon
   * starting later in the day is not active until the next day, and one ending at
   * any time of the day is still active on it.
   */
  lemma ActiveOnDays(c: Coupon, now: Date)
    requires c.startDate.Some? ==> c.startDate.value.secondOfDay >= 0
    requires c.endDate.Some? ==> c.endDate.value.secondOfDay >= 0
    ensures ActiveOn(c, now) <==>
      c.isActive &&
      (c.startDate.None? ||
        (DateLe(c.startDate.value.date, now) && (c.startDate.value.date == now ==> c.startDate.value.secondOfDay == 0))) &&
      (c.endDate.None? || DateLe(now, c.endDate.value.date))
  {
    DateLeTotalOrder();
  }

  /** `findAllActiveCoupons(now)` over the stored rows, in the order the query returns them. */
  function FindAllActiveCoupons(stored: seq<Coupon>, now: Date): (r: seq<Coupon>)
    ensures forall c :: c in r <==> c in stored && ActiveOn(c, now)
    ensures forall i :: 0 <= i < |r| ==> r[i].isActive
    ensures forall i :: 0 <= i < |r| && r[i].startDate.Some? ==> DateTimeLe(r[i].startDate.value, StartOfDay(now))
    ensures forall i :: 0 <= i < |r| && r[i].endDate.Some? ==> DateTimeLe(StartOfDay(now), r[i].endDate.value)
    ensures multiset(r) <= multiset(stored)
  {
    Sequences.Filter(stored, c => ActiveOn(c, now))
  }

  /** `findActiveCouponsByType(type, now)`: the same condition plus the type. */
  function FindActiveCouponsByType(stored: seq<Coupon>, t: CouponType, now: Date): (r: seq<Coupon>)
    ensures forall c :: c in r <==> c in stored && ActiveOn(c, now) && c.ctype == t
  {
    Sequences.Filter(stored, c => ActiveOn(c, now) && c.ctype == t)
  }

  /** The typed query is the general query narrowed to one type, so it returns a sub-list of it. */
  lemma ByTypeNarrowsAll(stored: seq<Coupon>, t: CouponType, now: Date)
    ensures FindActiveCouponsByType(stored, t, now) ==
            Sequences.Filter(FindAllActiveCoupons(stored, now), (c: Coupon) => c.ctype == t)
    ensures multiset(FindActiveCouponsByType(stored, t, now)) <= multiset(FindAllActiveCoupons(stored, now))
  {
    var both := (c: Coupon) => ActiveOn(c, now) && c.ctype == t;
    var active := (c: Coupon) => ActiveOn(c, now);
    var typed := (c: Coupon) => c.ctype == t;
    Sequences.FilterStronger(stored, both, active);
    FilterSame(FindAllActiveCoupons(stored, now), both, typed, now);
  }

  /** On rows that are all active, filtering by activity-and-type is filtering by type. */
  lemma {:induction false} FilterSame(s: seq<Coupon>, both: Coupon -> bool, typed: Coupon -> bool, now: Date)
    requires forall i :: 0 <= i < |s| ==> ActiveOn(s[i], now)
    requires forall c :: both(c) == (ActiveOn(c, now) && typed(c))
    ensures Sequences.Filter(s, both) == Sequences.Filter(s, typed)
  {
    if s != [] {
      FilterSame(s[1..], both, typed, now);
    }
  }
}

=== FILE: coupon_service.dfy ===
/**
 * Coupon selection and discount arithmetic (`CouponService.java`): which active
 * coupons apply to a basket, which one of each kind wins, how much each takes off,
 * and the coupon updates and deletions over the stored coupons.
 */
module CouponService {
  import opened Wrappers
  import opened Calendar
  import opened CouponRepository
  import Sequences
  import Text
  import Numbers

  /** A product as the product service returns it: its code and its price in cents. */
  datatype Product = Product(code: string, price: int)

  /** One applied coupon: its kind in lower case, what it takes off, and for PRODUCT the matched codes. */
  datatype CouponDetail = CouponDetail(
    kind: string, name: string, amount: int, description: string,
    appliedProductCodes: Option<seq<string>>)

  /** The response: the applied coupons and the three totals. */
  datatype ApplyResult = ApplyResult(
    coupons: seq<CouponDetail>, totalDiscount: int, originalTotal: int, finalTotal: int)

  /** `type.name().toLowerCase()`. */
  function KindName(t: CouponType): string
  {
    match t
    case COMBO => "combo"
    case TOTAL => "total"
    case HOLIDAY => "holiday"
    case CUSTOMER => "customer"
    case PRODUCT => "product"
  }

  /** The characters `.` does not match in a Java regular expression. */
  predicate IsLineTerminator(c: char)
  {
    c == '\n' || c == '\r' || c == '\U{0085}' || c == '\U{2028}' || c == '\U{2029}'
  }

  /**
   * `matchesPattern(s, pattern)`: the pattern with each `*` read as `.*`, matched
   * against the whole of `s`. Every other pattern character stands for itself.
   */
  predicate Matches(s: string, pattern: string)
    decreases |s| + |pattern|
  {
    if pattern == [] then s == []
    else if pattern[0] == '*' then
      Matches(s, pattern[1..]) || (s != [] && !IsLineTerminator(s[0]) && Matches(s[1..], pattern))
    else s != [] && s[0] == pattern[0] && Matches(s[1..], pattern[1..])
  }

  /** A pattern without `*` matches exactly itself. */
  lemma {:induction false} MatchesLiteral(s: string, pattern: string)
    requires '*' !in pattern
    ensures Matches(s, pattern) <==> s == pattern
  {
    if pattern != [] && s != [] {
      assert '*' !in pattern[1..] by {
        forall k | 0 <= k < |pattern[1..]| ensures pattern[1..][k] != '*' {
          assert pattern[1..][k] == pattern[k + 1];
        }
      }
      MatchesLiteral(s[1..], pattern[1..]);
      if s[1..] == pattern[1..] && s[0] == pattern[0] {
        assert s == [s[0]] + s[1..] && pattern == [pattern[0]] + pattern[1..];
      }
    }
  }

  /** A lone `*` matches any single-line string. */
  lemma {:induction false} StarMatchesLine(s: string)
    ensures Matches(s, "*") <==> forall k :: 0 <= k < |s| ==> !IsLineTerminator(s[k])
  {
    assert "*"[1..] == [];
    if s != [] {
      StarMatchesLine(s[1..]);
      assert forall k :: 1 <= k < |s| ==> s[k] == s[1..][k - 1];
    }
  }

  /** `"SUA*"` matches exactly the single-line codes that start with `SUA`. */
  lemma {:induction false} PrefixPattern(s: string, prefix: string)
    requires '*' !in prefix
    ensures Matches(s, prefix + "*") <==>
      Text.StartsWith(s, prefix) && forall k :: |prefix| <= k < |s| ==> !IsLineTerminator(s[k])
  {
    if prefix == [] {
      assert prefix + "*" == "*";
      StarMatchesLine(s);
    } else {
      assert (prefix + "*")[1..] == prefix[1..] + "*";
      assert '*' !in prefix[1..] by {
        forall k | 0 <= k < |prefix[1..]| ensures prefix[1..][k] != '*' {
          assert prefix[1..][k] == prefix[k + 1];
        }
      }
      if s != [] {
        PrefixPattern(s[1..], prefix[1..]);
        assert forall k :: |prefix| <= k < |s| ==> s[k] == s[1..][k - 1];
        if Text.StartsWith(s, prefix) {
          assert s[1..][..|prefix| - 1] == s[..|prefix|][1..];
        }
        if s[0] == prefix[0] && Text.StartsWith(s[1..], prefix[1..]) {
          assert s[..|prefix|] == [s[0]] + s[1..][..|prefix| - 1];
          assert prefix == [prefix[0]] + prefix[1..];
        }
      }
    }
  }

  /** `isComboApplicable`: a non-empty code list, each code matched by some product's code. */
  predicate ComboApplicable(products: seq<Product>, c: Coupon)
  {
    |c.comboCodes| > 0 &&
    forall i :: 0 <= i < |c.comboCodes| ==>
      exists j :: 0 <= j < |products| && Matches(products[j].code, c.comboCodes[i])
  }

  /** `isTotalApplicable`: no minimum, or a total that reaches it. */
  predicate TotalApplicable(total: int, c: Coupon)
  {
    c.minOrder.None? || total >= c.minOrder.value
  }

  /** `isHolidayApplicable`: inside the holiday window, both ends inclusive, a missing end unbounded. */
  predicate HolidayApplicable(now: Date, c: Coupon)
  {
    (c.holidayStart.None? || DateLe(c.holidayStart.value, now)) &&
    (c.holidayEnd.None? || DateLe(now, c.holidayEnd.value))
  }

  /** A card number as compared: trimmed and upper-cased. */
  function NormalizeCard(s: string): string
  {
    Text.Upper(Text.JavaTrim(s))
  }

  /**
   * `eligibleCards.stream().anyMatch(...)`: some entry, trimmed and upper-cased, equals
   * the normalised card or matches it as a pattern.
   */
  predicate AnyCardMatches(normalized: string, entries: seq<string>)
  {
    entries != [] &&
    (normalized == NormalizeCard(entries[0]) || Matches(normalized, NormalizeCard(entries[0])) ||
     AnyCardMatches(normalized, entries[1..]))
  }

  /** `isCustomerApplicable`: some eligible entry equals or matches the card, and the minimum is met. */
  predicate CustomerApplicable(card: string, total: int, c: Coupon)
  {
    |c.cardPattern| > 0 &&
    AnyCardMatches(NormalizeCard(card), c.cardPattern) &&
    TotalApplicable(total, c)
  }

  /** `calculateTotalDiscount` / `calculateCustomerDiscount`: the fixed amount, or 0 if it is not positive. */
  function FixedDiscount(c: Coupon): (d: int)
    ensures d >= 0 && (c.amount > 0 ==> d == c.amount)
  {
    if c.amount > 0 then c.amount else 0
  }

  /**
   * What a TOTAL or CUSTOMER coupon takes off `total`: with a positive percentage,
   * that share of the total rounded HALF_UP to the cent; otherwise the fixed amount.
   */
  function CalculatedAmount(c: Coupon, total: int): (a: int)
    ensures c.percentage.Some? && c.percentage.value > 0 ==>
      Numbers.Abs(2 * (total * c.percentage.value - a * 10000)) <= 10000
    ensures !(c.percentage.Some? && c.percentage.value > 0) ==> a == c.amount
  {
    if c.percentage.Some? && c.percentage.value > 0 then Numbers.HalfUpDiv(total * c.percentage.value, 10000)
    else c.amount
  }

  /** `toCouponDetail`: the coupon's own amount, whatever its percentage. */
  function ToDetail(c: Coupon): CouponDetail
  {
    CouponDetail(KindName(c.ctype), c.name, c.amount, c.description, None)
  }

  /** `toCouponDetailWithCalculatedAmount`. */
  function ToDetailWithAmount(c: Coupon, total: int): CouponDetail
  {
    CouponDetail(KindName(c.ctype), c.name, CalculatedAmount(c, total), c.description, None)
  }

  function MapDetail(best: Option<Coupon>, f: Coupon -> CouponDetail): Option<CouponDetail>
  {
    if best.Some? then Some(f(best.value)) else None
  }

  predicate IsApplicableCombo(products: seq<Product>, c: Coupon)
  {
    c.ctype == COMBO && ComboApplicable(products, c)
  }

  /** `findBestComboCoupon`: of the applicable combos, the first with the greatest amount. */
  function BestComboCoupon(products: seq<Product>, active: seq<Coupon>): (r: Option<CouponDetail>)
    ensures r.Some? ==> r.value.kind == "combo" && r.value.appliedProductCodes.None?
  {
    var cands := Sequences.Filter(active, c => IsApplicableCombo(products, c));
    var best := Sequences.MaxBy(cands, (c: Coupon) => c.amount);
    MapDetail(best, ToDetail)
  }

  predicate IsApplicableTotal(total: int, c: Coupon)
  {
    c.ctype == TOTAL && TotalApplicable(total, c)
  }

  /**
   * `findBestTotalCoupon`: of the TOTAL coupons whose minimum the total reaches, the
   * first with the greatest fixed discount, reported with its calculated amount.
   */
  function BestTotalCoupon(total: int, active: seq<Coupon>): (r: Option<CouponDetail>)
    ensures r.Some? ==> r.value.kind == "total" && r.value.appliedProductCodes.None?
  {
    var cands := Sequences.Filter(active, c => IsApplicableTotal(total, c));
    var best := Sequences.MaxBy(cands, FixedDiscount);
    MapDetail(best, c => ToDetailWithAmount(c, total))
  }

  predicate IsApplicableHoliday(now: Date, c: Coupon)
  {
    c.ctype == HOLIDAY && HolidayApplicable(now, c)
  }

  /** `findBestHolidayCoupon`: of the HOLIDAY coupons whose window holds today, the first with the greatest amount. */
  function BestHolidayCoupon(now: Date, active: seq<Coupon>): (r: Option<CouponDetail>)
    ensures r.Some? ==> r.value.kind == "holiday" && r.value.appliedProductCodes.None?
  {
    var cands := Sequences.Filter(active, c => IsApplicableHoliday(now, c));
    var best := Sequences.MaxBy(cands, (c: Coupon) => c.amount);
    MapDetail(best, ToDetail)
  }

  predicate IsApplicableCustomer(card: string, total: int, c: Coupon)
  {
    c.ctype == CUSTOMER && CustomerApplicable(card, total, c)
  }

  /**
   * `findBestCustomerCoupon`: nothing without a non-blank card; otherwise, of the
   * CUSTOMER coupons the card is eligible for, the first with the greatest fixed
   * discount, reported with its calculated amount.
   */
  function BestCustomerCoupon(card: Option<string>, total: int, active: seq<Coupon>): (r: Option<CouponDetail>)
    ensures card.None? || Text.JavaTrim(card.value) == [] ==> r.None?
    ensures r.Some? ==> r.value.kind == "customer" && r.value.appliedProductCodes.None?
  {
    if card.None? || Text.JavaTrim(card.value) == [] then None
    else
      var cands := Sequences.Filter(active, c => IsApplicableCustomer(card.value, total, c));
      MapDetail(Sequences.MaxBy(cands, FixedDiscount), c => ToDetailWithAmount(c, total))
  }

  /**
   * The COMBO winner: present exactly when some active combo applies, and then the
   * detail of an applicable combo whose amount no other applicable combo exceeds.
   */
  lemma BestComboIsMaximal(products: seq<Product>, active: seq<Coupon>)
    ensures var r := BestComboCoupon(products, active);
      (r.None? <==> forall c :: c in active ==> !IsApplicableCombo(products, c)) &&
      (r.Some? ==> exists c :: (c in active && IsApplicableCombo(products, c) && r.value == ToDetail(c) &&
        forall c' :: c' in active && IsApplicableCombo(products, c') ==> c'.amount <= c.amount))
  {
    var cands := Sequences.Filter(active, c => IsApplicableCombo(products, c));
    var best := Sequences.MaxBy(cands, (c: Coupon) => c.amount);
    if best.None? {
      assert forall c :: c in active ==> !IsApplicableCombo(products, c);
    }
  }

  /**
   * The TOTAL winner: present exactly when some TOTAL coupon's minimum is met, and
   * then one whose fixed discount no other such coupon exceeds, with its calculated amount.
   */
  lemma BestTotalIsMaximal(total: int, active: seq<Coupon>)
    ensures var r := BestTotalCoupon(total, active);
      (r.None? <==> forall c :: c in active ==> !IsApplicableTotal(total, c)) &&
      (r.Some? ==> exists c :: (c in active && IsApplicableTotal(total, c) && r.value == ToDetailWithAmount(c, total) &&
        forall c' :: c' in active && IsApplicableTotal(total, c') ==> FixedDiscount(c') <= FixedDiscount(c)))
  {
    var cands := Sequences.Filter(active, c => IsApplicableTotal(total, c));
    var best := Sequences.MaxBy(cands, FixedDiscount);
    if best.None? {
      assert forall c :: c in active ==> !IsApplicableTotal(total, c);
    }
  }

  /** The HOLIDAY winner: present exactly when some holiday window holds today, and then one of greatest amount. */
  lemma BestHolidayIsMaximal(now: Date, active: seq<Coupon>)
    ensures var r := BestHolidayCoupon(now, active);
      (r.None? <==> forall c :: c in active ==> !IsApplicableHoliday(now, c)) &&
      (r.Some? ==> exists c :: (c in active && IsApplicableHoliday(now, c) && r.value == ToDetail(c) &&
        forall c' :: c' in active && IsApplicableHoliday(now, c') ==> c'.amount <= c.amount))
  {
    var cands := Sequences.Filter(active, c => IsApplicableHoliday(now, c));
    var best := Sequences.MaxBy(cands, (c: Coupon) => c.amount);
    if best.None? {
      assert forall c :: c in active ==> !IsApplicableHoliday(now, c);
    }
  }

  /**
   * The CUSTOMER winner for a non-blank card: present exactly when the card is
   * eligible for some CUSTOMER coupon, and then one of greatest fixed discount.
   */
  lemma BestCustomerIsMaximal(card: string, total: int, active: seq<Coupon>)
    requires Text.JavaTrim(card) != []
    ensures var r := BestCustomerCoupon(Some(card), total, active);
      (r.None? <==> forall c :: c in active ==> !IsApplicableCustomer(card, total, c)) &&
      (r.Some? ==> exists c :: (c in active && IsApplicableCustomer(card, total, c) &&
        r.value == ToDetailWithAmount(c, total) &&
        forall c' :: c' in active && IsApplicableCustomer(card, total, c') ==> FixedDiscount(c') <= FixedDiscount(c)))
  {
    var applicable := c => IsApplicableCustomer(card, total, c);
    Sequences.MaxOfFilter(active, applicable, FixedDiscount);
    var best := Sequences.MaxBy(Sequences.Filter(active, applicable), FixedDiscount);
    var r := BestCustomerCoupon(Some(card), total, active);
    assert r == MapDetail(best, c => ToDetailWithAmount(c, total));
    if best.Some? {
      var c := best.value;
      assert r.value == ToDetailWithAmount(c, total);
      assert c in active && IsApplicableCustomer(card, total, c);
    }
  }

  /** `isProductMatch`: the code is listed, or a non-empty pattern matches it. */
  predicate ProductMatch(code: string, c: Coupon)
  {
    code in c.productCodes || (c.pattern.Some? && c.pattern.value != [] && Matches(code, c.pattern.value))
  }

  /** `p -> isProductMatch(p, applicableCodes, pattern)`. */
  function MatchesProduct(c: Coupon): Product -> bool
  {
    (p: Product) => ProductMatch(p.code, c)
  }

  /**
   * The codes of the products a PRODUCT coupon matches: the code of each matching
   * product, one per product and in product order, so a code sold twice is counted
   * twice.
   */
  function MatchedCodes(products: seq<Product>, c: Coupon): (r: seq<string>)
    ensures |r| == |Sequences.Filter(products, MatchesProduct(c))|
    ensures forall k :: 0 <= k < |r| ==> r[k] == Sequences.Filter(products, MatchesProduct(c))[k].code
    ensures forall k :: 0 <= k < |r| ==> ProductMatch(r[k], c)
    ensures forall j :: 0 <= j < |products| && ProductMatch(products[j].code, c) ==> products[j].code in r
  {
    var matching := Sequences.Filter(products, MatchesProduct(c));
    var r := seq(|matching|, k requires 0 <= k < |matching| => matching[k].code);
    MatchedCodesMatch(products, c, r);
    r
  }

  /** The codes of the matching products are codes the coupon matches, and every one is there. */
  lemma MatchedCodesMatch(products: seq<Product>, c: Coupon, r: seq<string>)
    requires |r| == |Sequences.Filter(products, MatchesProduct(c))|
    requires forall k :: 0 <= k < |r| ==> r[k] == Sequences.Filter(products, MatchesProduct(c))[k].code
    ensures forall k :: 0 <= k < |r| ==> ProductMatch(r[k], c)
    ensures forall j :: 0 <= j < |products| && ProductMatch(products[j].code, c) ==> products[j].code in r
  {
    var matching := Sequences.Filter(products, MatchesProduct(c));
    forall k | 0 <= k < |r| ensures ProductMatch(r[k], c) {
      assert MatchesProduct(c)(matching[k]);
    }
    forall j | 0 <= j < |products| && ProductMatch(products[j].code, c) ensures products[j].code in r {
      assert products[j] in matching;
      var i :| 0 <= i < |matching| && matching[i] == products[j];
      assert r[i] == products[j].code;
    }
  }

  /**
   * `applyProductCoupon`: nothing if no product matches; otherwise the coupon's
   * amount once per matched product, with the matched codes.
   */
  function ApplyProductCoupon(products: seq<Product>, c: Coupon): (r: Option<CouponDetail>)
    ensures r.None? <==> MatchedCodes(products, c) == []
    ensures r.Some? ==>
      r.value.kind == KindName(c.ctype) &&
      r.value.name == c.name && r.value.description == c.description &&
      r.value.appliedProductCodes == Some(MatchedCodes(products, c)) &&
      r.value.amount == |MatchedCodes(products, c)| * c.amount
  {
    var matched := MatchedCodes(products, c);
    if matched == [] then None
    else Some(CouponDetail(KindName(c.ctype), c.name, |matched| * c.amount, c.description, Some(matched)))
  }

  /** A product coupon gives nothing exactly when it matches none of the products. */
  lemma NoMatchNoCoupon(products: seq<Product>, c: Coupon)
    ensures ApplyProductCoupon(products, c).None? <==> forall j :: 0 <= j < |products| ==> !ProductMatch(products[j].code, c)
  {
    var matching := Sequences.Filter(products, MatchesProduct(c));
    if matching != [] {
      assert matching[0] in products && MatchesProduct(c)(matching[0]);
    } else {
      forall j | 0 <= j < |products| ensures !ProductMatch(products[j].code, c) {
        assert products[j] in products;
        assert products[j] !in matching;
      }
    }
  }

  /** `c -> c.getType() == PRODUCT` followed by `map(c -> applyProductCoupon(products, c))`. */
  function ProductCouponOf(products: seq<Product>): Coupon -> Option<CouponDetail>
  {
    (c: Coupon) => if c.ctype == PRODUCT then ApplyProductCoupon(products, c) else None
  }

  /** The coupons `findAllProductCoupons` keeps: PRODUCT coupons that match some product. */
  function AppliesToProducts(products: seq<Product>): Coupon -> bool
  {
    Sequences.Defined(ProductCouponOf(products))
  }

  /**
   * `findAllProductCoupons`: the PRODUCT coupons that match some product, in coupon
   * order, each applied to the products.
   */
  function ProductCoupons(products: seq<Product>, active: seq<Coupon>): (r: seq<CouponDetail>)
    ensures |r| == |Sequences.Filter(active, AppliesToProducts(products))|
    ensures forall k :: 0 <= k < |r| ==>
      Sequences.Filter(active, AppliesToProducts(products))[k].ctype == PRODUCT &&
      Some(r[k]) == ApplyProductCoupon(products, Sequences.Filter(active, AppliesToProducts(products))[k])
    ensures forall k :: 0 <= k < |r| ==> r[k].kind == "product"
    ensures forall c :: c in active && c.ctype == PRODUCT && ApplyProductCoupon(products, c).Some? ==>
      ApplyProductCoupon(products, c).value in r
  {
    var r := Sequences.Present(active, ProductCouponOf(products));
    ProductCouponsApplied(products, active, r);
    ProductCouponsComplete(products, active, r);
    r
  }

  /** Each present value is a PRODUCT coupon applied to the products, in coupon order. */
  lemma ProductCouponsApplied(products: seq<Product>, active: seq<Coupon>, r: seq<CouponDetail>)
    requires r == Sequences.Present(active, ProductCouponOf(products))
    ensures forall k :: 0 <= k < |r| ==>
      Sequences.Filter(active, AppliesToProducts(products))[k].ctype == PRODUCT &&
      Some(r[k]) == ApplyProductCoupon(products, Sequences.Filter(active, AppliesToProducts(products))[k])
    ensures forall k :: 0 <= k < |r| ==> r[k].kind == "product"
  {
    var applied := Sequences.Filter(active, AppliesToProducts(products));
    forall k | 0 <= k < |r|
      ensures applied[k].ctype == PRODUCT && Some(r[k]) == ApplyProductCoupon(products, applied[k])
      ensures r[k].kind == "product"
    {
      AppliedProductCoupon(products, applied[k]);
    }
  }

  /** A coupon `findAllProductCoupons` keeps is a PRODUCT coupon whose detail is of kind "product". */
  lemma AppliedProductCoupon(products: seq<Product>, c: Coupon)
    requires AppliesToProducts(products)(c)
    ensures c.ctype == PRODUCT && ProductCouponOf(products)(c) == ApplyProductCoupon(products, c)
    ensures ApplyProductCoupon(products, c).Some? && ApplyProductCoupon(products, c).value.kind == "product"
  {
    assert ProductCouponOf(products)(c).Some?;
  }

  /** Every PRODUCT coupon that matches some product is among the present values. */
  lemma ProductCouponsComplete(products: seq<Product>, active: seq<Coupon>, r: seq<CouponDetail>)
    requires r == Sequences.Present(active, ProductCouponOf(products))
    ensures forall c :: c in active && c.ctype == PRODUCT && ApplyProductCoupon(products, c).Some? ==>
      ApplyProductCoupon(products, c).value in r
  {
    var f := ProductCouponOf(products);
    forall c | c in active && c.ctype == PRODUCT && ApplyProductCoupon(products, c).Some?
      ensures ApplyProductCoupon(products, c).value in r
    {
      assert f(c) == ApplyProductCoupon(products, c);
      Sequences.PresentComplete(active, f, c);
    }
  }

  function OptionList(o: Option<CouponDetail>): (r: seq<CouponDetail>)
    ensures |r| <= 1 && (o.Some? ==> r == [o.value]) && (o.None? ==> r == [])
  {
    if o.Some? then [o.value] else []
  }

  /** The applied coupons: the best COMBO, TOTAL, HOLIDAY and CUSTOMER (each if any), then every PRODUCT. */
  function Selected(products: seq<Product>, total: int, card: Option<string>, active: seq<Coupon>, today: Date)
    : seq<CouponDetail>
  {
    OptionList(BestComboCoupon(products, active)) +
    OptionList(BestTotalCoupon(total, active)) +
    OptionList(BestHolidayCoupon(today, active)) +
    OptionList(BestCustomerCoupon(card, total, active)) +
    ProductCoupons(products, active)
  }

  function Amount(d: CouponDetail): int
  {
    d.amount
  }

  function Price(p: Product): int
  {
    p.price
  }

  /** `optional.ifPresent(applied::add)`: the winner, if any, is appended. */
  method AddIfPresent(applied: seq<CouponDetail>, o: Option<CouponDetail>) returns (r: seq<CouponDetail>)
    ensures r == applied + OptionList(o)
    ensures |r| == |applied| + (if o.Some? then 1 else 0)
  {
    r := applied;
    if o.Some? {
      r := r + [o.value];
    }
  }

  /**
   * `applyCoupons`: an empty product list gives nothing and zero totals. Otherwise the
   * original total is the request's, or the sum of the prices; the applied coupons
   * are collected kind by kind; the discount is their sum; and the final total is
   * the original less the discount, floored at zero.
   */
  method ApplyCoupons(products: seq<Product>, totalAmount: Option<int>, cardNumber: Option<string>,
                      stored: seq<Coupon>, today: Date) returns (r: ApplyResult)
    ensures products == [] ==> r == ApplyResult([], 0, 0, 0)
    ensures products != [] ==>
      r.originalTotal == (if totalAmount.Some? then totalAmount.value else Sequences.SumOf(products, Price)) &&
      r.coupons == Selected(products, r.originalTotal, cardNumber, FindAllActiveCoupons(stored, today), today)
    ensures r.totalDiscount == Sequences.SumOf(r.coupons, Amount)
    ensures r.finalTotal >= 0 && r.finalTotal >= r.originalTotal - r.totalDiscount
    ensures r.finalTotal == 0 || r.finalTotal == r.originalTotal - r.totalDiscount
  {
    if products == [] {
      return ApplyResult([], 0, 0, 0);
    }
    var originalTotal := if totalAmount.Some? then totalAmount.value else Sequences.SumOf(products, Price);
    var active := FindAllActiveCoupons(stored, today);
    var combo := BestComboCoupon(products, active);
    var totalCoupon := BestTotalCoupon(originalTotal, active);
    var holiday := BestHolidayCoupon(today, active);
    var customer := BestCustomerCoupon(cardNumber, originalTotal, active);
    var applied: seq<CouponDetail> := [];
    applied := AddIfPresent(applied, combo);
    assert applied == OptionList(combo);
    applied := AddIfPresent(applied, totalCoupon);
    applied := AddIfPresent(applied, holiday);
    applied := AddIfPresent(applied, customer);
    applied := applied + ProductCoupons(products, active);
    assert applied == Selected(products, originalTotal, cardNumber, active, today);
    var totalDiscount := Sequences.SumOf(applied, Amount);
    var finalTotal := originalTotal - totalDiscount;
    if finalTotal < 0 {
      finalTotal := 0;
    }
    r := ApplyResult(applied, totalDiscount, originalTotal, finalTotal);
  }

  /** The position of a kind in the response: the four single winners in order, then products. */
  function KindRank(kind: string): nat
  {
    if kind == "combo" then 0
    else if kind == "total" then 1
    else if kind == "holiday" then 2
    else if kind == "customer" then 3
    else 4
  }

  /** Entries are in kind order, with only PRODUCT entries allowed to share a position. */
  ghost predicate KindOrdered(s: seq<CouponDetail>)
  {
    forall i, j :: 0 <= i < j < |s| ==>
      KindRank(s[i].kind) < KindRank(s[j].kind) || (s[i].kind == "product" && s[j].kind == "product")
  }

  lemma OrderedAppend(x: seq<CouponDetail>, y: seq<CouponDetail>, n: int)
    requires KindOrdered(x) && KindOrdered(y)
    requires forall k :: 0 <= k < |x| ==> KindRank(x[k].kind) <= n
    requires forall k :: 0 <= k < |y| ==> KindRank(y[k].kind) > n
    ensures KindOrdered(x + y)
  {
    var s := x + y;
    forall i, j | 0 <= i < j < |s|
      ensures KindRank(s[i].kind) < KindRank(s[j].kind) || (s[i].kind == "product" && s[j].kind == "product")
    {
      if j < |x| {
        assert s[i] == x[i] && s[j] == x[j];
      } else if i >= |x| {
        assert s[i] == y[i - |x|] && s[j] == y[j - |x|];
      } else {
        assert s[i] == x[i] && s[j] == y[j - |x|];
      }
    }
  }

  lemma SingleRanked(o: Option<CouponDetail>, kind: string)
    requires o.Some? ==> o.value.kind == kind
    ensures KindOrdered(OptionList(o))
    ensures forall k :: 0 <= k < |OptionList(o)| ==> KindRank(OptionList(o)[k].kind) == KindRank(kind)
  {
  }

  lemma ProductsRanked(p: seq<CouponDetail>)
    requires forall k :: 0 <= k < |p| ==> p[k].kind == "product"
    ensures KindOrdered(p)
    ensures forall k :: 0 <= k < |p| ==> KindRank(p[k].kind) == 4
  {
  }

  /** Four optional entries of ranks 0 to 3, then PRODUCT entries, are in kind order. */
  lemma FiveOrdered(a: seq<CouponDetail>, b: seq<CouponDetail>, c: seq<CouponDetail>, d: seq<CouponDetail>,
                    p: seq<CouponDetail>)
    requires KindOrdered(a) && KindOrdered(b) && KindOrdered(c) && KindOrdered(d) && KindOrdered(p)
    requires forall k :: 0 <= k < |a| ==> KindRank(a[k].kind) == 0
    requires forall k :: 0 <= k < |b| ==> KindRank(b[k].kind) == 1
    requires forall k :: 0 <= k < |c| ==> KindRank(c[k].kind) == 2
    requires forall k :: 0 <= k < |d| ==> KindRank(d[k].kind) == 3
    requires forall k :: 0 <= k < |p| ==> KindRank(p[k].kind) == 4
    ensures KindOrdered(a + b + c + d + p)
  {
    var ab := a + b;
    OrderedAppend(a, b, 0);
    assert forall k :: 0 <= k < |ab| ==> KindRank(ab[k].kind) <= 1 by {
      forall k | 0 <= k < |ab| ensures KindRank(ab[k].kind) <= 1 {
        if k < |a| { assert ab[k] == a[k]; } else { assert ab[k] == b[k - |a|]; }
      }
    }
    var abc := ab + c;
    OrderedAppend(ab, c, 1);
    assert forall k :: 0 <= k < |abc| ==> KindRank(abc[k].kind) <= 2 by {
      forall k | 0 <= k < |abc| ensures KindRank(abc[k].kind) <= 2 {
        if k < |ab| { assert abc[k] == ab[k]; } else { assert abc[k] == c[k - |ab|]; }
      }
    }
    var abcd := abc + d;
    OrderedAppend(abc, d, 2);
    assert forall k :: 0 <= k < |abcd| ==> KindRank(abcd[k].kind) <= 3 by {
      forall k | 0 <= k < |abcd| ensures KindRank(abcd[k].kind) <= 3 {
        if k < |abc| { assert abcd[k] == abc[k]; } else { assert abcd[k] == d[k - |abc|]; }
      }
    }
    OrderedAppend(abcd, p, 3);
  }

  /** The optional winners of each kind, then PRODUCT entries, are in kind order. */
  lemma WinnersOrdered(combo: Option<CouponDetail>, tot: Option<CouponDetail>, holiday: Option<CouponDetail>,
                       customer: Option<CouponDetail>, p: seq<CouponDetail>)
    requires combo.Some? ==> combo.value.kind == "combo"
    requires tot.Some? ==> tot.value.kind == "total"
    requires holiday.Some? ==> holiday.value.kind == "holiday"
    requires customer.Some? ==> customer.value.kind == "customer"
    requires forall k :: 0 <= k < |p| ==> p[k].kind == "product"
    ensures KindOrdered(OptionList(combo) + OptionList(tot) + OptionList(holiday) + OptionList(customer) + p)
  {
    SingleRanked(combo, "combo");
    SingleRanked(tot, "total");
    SingleRanked(holiday, "holiday");
    SingleRanked(customer, "customer");
    ProductsRanked(p);
    FiveOrdered(OptionList(combo), OptionList(tot), OptionList(holiday), OptionList(customer), p);
  }

  /**
   * The applied coupons hold at most one each of COMBO, TOTAL, HOLIDAY and CUSTOMER,
   * in that order, followed only by PRODUCT coupons.
   */
  lemma SelectedOrder(products: seq<Product>, total: int, card: Option<string>, active: seq<Coupon>, today: Date)
    ensures KindOrdered(Selected(products, total, card, active, today))
  {
    WinnersOrdered(BestComboCoupon(products, active), BestTotalCoupon(total, active),
      BestHolidayCoupon(today, active), BestCustomerCoupon(card, total, active), ProductCoupons(products, active));
  }

  /** Why a coupon update or deletion failed: `NoSuchElementException`. */
  datatype CouponError = NoSuchCoupon(id: int)

  /** The coupon table, keyed by id. */
  class CouponStore {
    var coupons: map<int, Coupon>

    constructor (coupons: map<int, Coupon>)
      ensures this.coupons == coupons
    {
      this.coupons := coupons;
    }

    /** `updateCoupon`: a missing id fails and changes nothing; otherwise the request's fields replace the row's. */
    method UpdateCoupon(id: int, request: Coupon) returns (r: Result<Coupon, CouponError>)
      modifies this
      ensures id !in old(coupons) ==> r == Err(NoSuchCoupon(id)) && coupons == old(coupons)
      ensures id in old(coupons) ==> r == Ok(request) && coupons == old(coupons)[id := request]
      ensures coupons.Keys == old(coupons).Keys
    {
      if id !in coupons {
        return Err(NoSuchCoupon(id));
      }
      coupons := coupons[id := request];
      r := Ok(request);
    }

    /** `deleteCoupon`: a missing id fails and changes nothing; otherwise exactly that row is gone. */
    method DeleteCoupon(id: int) returns (r: Result<(), CouponError>)
      modifies this
      ensures id !in old(coupons) ==> r == Err(NoSuchCoupon(id)) && coupons == old(coupons)
      ensures id in old(coupons) ==> r == Ok(()) && coupons == old(coupons) - {id}
      ensures id !in coupons
    {
      if id !in coupons {
        return Err(NoSuchCoupon(id));
      }
      coupons := coupons - {id};
      r := Ok(());
    }
  }
}

=== FILE: customer_history.dfy ===
/**
 * The marketing customer-history page: purchases grouped by date and then by
 * customer, the daily and per-customer totals shown in the headers, and which
 * dates and which customers of a date are expanded. Amounts are whole cents.
 */
module CustomerHistory {
  import Numbers
  import Sequences
  import TransactionHistory

  /** One purchase: its id, the customer's id and its total. */
  datatype Purchase = Purchase(id: int, customerId: int, total: int)

  /** A customer's purchases on one date. */
  datatype CustomerGroup = CustomerGroup(customerId: nat, customerName: string, transactions: seq<Purchase>)

  /** One date and the customers who bought on it. */
  datatype DateGroup = DateGroup(date: string, customers: seq<CustomerGroup>)

  /** The expanded dates and the expanded customer rows, by key; a missing key is collapsed. */
  datatype Page = Page(expandedDates: map<string, bool>, expandedCustomers: map<string, bool>)

  function TotalOf(t: Purchase): int
  {
    t.total
  }

  /** `getCustomerTotal`: the purchase totals summed left to right. */
  function CustomerTotal(ts: seq<Purchase>): int
  {
    Sequences.SumOf(ts, TotalOf)
  }

  function GroupTotal(c: CustomerGroup): int
  {
    CustomerTotal(c.transactions)
  }

  /** `getDailyTotal`: the customer totals of the date summed left to right. */
  function DailyTotal(cs: seq<CustomerGroup>): int
  {
    Sequences.SumOf(cs, GroupTotal)
  }

  /** Every purchase of the date, customer after customer. */
  function AllPurchases(cs: seq<CustomerGroup>): (ts: seq<Purchase>)
    ensures forall t :: t in ts <==> exists i :: 0 <= i < |cs| && t in cs[i].transactions
  {
    if cs == [] then []
    else
      var init := cs[..|cs| - 1];
      assert forall i :: 0 <= i < |init| ==> init[i] == cs[i];
      AllPurchases(init) + cs[|cs| - 1].transactions
  }

  /** The daily total is the sum over every purchase of the date, whoever made it. */
  lemma {:induction false} DailyTotalIsAllPurchases(cs: seq<CustomerGroup>)
    ensures DailyTotal(cs) == CustomerTotal(AllPurchases(cs))
  {
    if cs != [] {
      var init := cs[..|cs| - 1];
      DailyTotalIsAllPurchases(init);
      Sequences.SumOfAppend(AllPurchases(init), cs[|cs| - 1].transactions, TotalOf);
    }
  }

  /** Adding a purchase adds its total to the customer's total. */
  lemma CustomerTotalAppend(ts: seq<Purchase>, t: Purchase)
    ensures CustomerTotal(ts + [t]) == CustomerTotal(ts) + t.total
  {
    assert (ts + [t])[..|ts + [t]| - 1] == ts;
  }

  /** With non-negative purchases, each customer's total is part of the daily total. */
  lemma {:induction false} CustomerWithinDaily(cs: seq<CustomerGroup>, k: int)
    requires 0 <= k < |cs|
    requires forall i, j :: 0 <= i < |cs| && 0 <= j < |cs[i].transactions| ==> cs[i].transactions[j].total >= 0
    ensures 0 <= CustomerTotal(cs[k].transactions) <= DailyTotal(cs)
  {
    var init := cs[..|cs| - 1];
    var last := cs[|cs| - 1];
    Sequences.SumOfNonNegative(last.transactions, TotalOf);
    forall i | 0 <= i < |init| ensures GroupTotal(init[i]) >= 0 {
      assert init[i] == cs[i];
      Sequences.SumOfNonNegative(cs[i].transactions, TotalOf);
    }
    Sequences.SumOfNonNegative(init, GroupTotal);
    if k < |cs| - 1 {
      assert init[k] == cs[k];
      CustomerWithinDaily(init, k);
    }
  }

  /** The text of a customer id in a template string. */
  function IdText(id: nat): string
  {
    Numbers.DecimalString(id)
  }

  /** `${date}-${customerId}`: the key of a customer's row under a date. */
  function CustomerKey(date: string, customerId: nat): (k: string)
    ensures |k| == |date| + 1 + |IdText(customerId)|
    ensures k[..|date|] == date && k[|date|] == '-'
  {
    date + "-" + IdText(customerId)
  }

  /** The id text holds no dash, so a key splits at its last dash into date and id. */
  lemma CustomerKeyInjective(d1: string, id1: nat, d2: string, id2: nat)
    requires CustomerKey(d1, id1) == CustomerKey(d2, id2)
    ensures d1 == d2 && id1 == id2
  {
    var k := CustomerKey(d1, id1);
    var s1, s2 := IdText(id1), IdText(id2);
    assert Numbers.AllDigits(s1) && Numbers.AllDigits(s2);
    assert |d1| == |d2|;
    assert d1 == k[..|d1|] == d2;
    assert s1 == k[|d1| + 1..] == s2;
    Numbers.DecimalRoundTrip(id1);
    Numbers.DecimalRoundTrip(id2);
  }

  /** `toggleDate`: only the date's flag flips. */
  function ToggleDate(p: Page, date: string): (r: Page)
    ensures TransactionHistory.Expanded(r.expandedDates, date) == !TransactionHistory.Expanded(p.expandedDates, date)
    ensures forall d :: d != date ==>
      TransactionHistory.Expanded(r.expandedDates, d) == TransactionHistory.Expanded(p.expandedDates, d)
    ensures r.expandedCustomers == p.expandedCustomers
  {
    p.(expandedDates := TransactionHistory.Toggled(p.expandedDates, date))
  }

  /** `toggleCustomer`: only the customer row's flag flips. */
  function ToggleCustomer(p: Page, key: string): (r: Page)
    ensures TransactionHistory.Expanded(r.expandedCustomers, key) == !TransactionHistory.Expanded(p.expandedCustomers, key)
    ensures forall k :: k != key ==>
      TransactionHistory.Expanded(r.expandedCustomers, k) == TransactionHistory.Expanded(p.expandedCustomers, k)
    ensures r.expandedDates == p.expandedDates
  {
    p.(expandedCustomers := TransactionHistory.Toggled(p.expandedCustomers, key))
  }

  /** Toggling a date or a customer row twice shows the page as before. */
  lemma ToggleTwiceRestores(p: Page, date: string, key: string, d: string, k: string)
    ensures TransactionHistory.Expanded(ToggleDate(ToggleDate(p, date), date).expandedDates, d) ==
      TransactionHistory.Expanded(p.expandedDates, d)
    ensures TransactionHistory.Expanded(ToggleCustomer(ToggleCustomer(p, key), key).expandedCustomers, k) ==
      TransactionHistory.Expanded(p.expandedCustomers, k)
  {
    TransactionHistory.ToggleTwice(p.expandedDates, date, d);
    TransactionHistory.ToggleTwice(p.expandedCustomers, key, k);
  }

  /** The same customer under two dates has two rows that expand independently. */
  lemma CustomerRowsIndependent(p: Page, d1: string, d2: string, id: nat)
    requires d1 != d2
    ensures TransactionHistory.Expanded(ToggleCustomer(p, CustomerKey(d1, id)).expandedCustomers, CustomerKey(d2, id)) ==
      TransactionHistory.Expanded(p.expandedCustomers, CustomerKey(d2, id))
  {
    if CustomerKey(d1, id) == CustomerKey(d2, id) {
      CustomerKeyInjective(d1, id, d2, id);
    }
  }
}

=== FILE: customer_page.dfy ===
/**
 * The marketing page that lists loyalty customers: the loaded list, the list on
 * screen narrowed by card number, the form of the create/edit dialog and the
 * handlers that update them. Each handler gives the next page state from the
 * current one and the customer service's answer; the narrowing effect runs after
 * every change of the list or the search.
 */
module CustomerPage {
  import opened Wrappers
  import Text
  import Sequences

  /** A customer as the service returns it. */
  datatype Customer = Customer(id: int, fullName: string, email: string, cardNumber: string, gender: string,
                               dateOfBirth: string, rewardPoints: int, tierPoints: int, membershipTier: string,
                               active: bool)

  /**
   * `formData`. `rewardPoints` and `points` are `None` when the object has no such
   * key: the form starts with `rewardPoints` but the reset writes `points` instead.
   */
  datatype Form = Form(fullName: string, email: string, cardNumber: string, gender: string, dateOfBirth: string,
                       rewardPoints: Option<int>, points: Option<int>, tierPoints: int)

  const INITIAL_FORM := Form("", "", "", "MALE", "", Some(0), None, 100)

  /** What `resetForm` writes. */
  const RESET_FORM := Form("", "", "", "MALE", "", None, Some(0), 100)

  datatype Page = Page(customers: seq<Customer>, filtered: seq<Customer>, searchTerm: string, showModal: bool,
                       editing: Option<Customer>, form: Form)

  const INITIAL := Page([], [], "", false, None, INITIAL_FORM)

  /** The reset form has no `rewardPoints` key, so it differs from the form the page starts with. */
  lemma ResetFormLacksRewardPoints()
    ensures RESET_FORM.rewardPoints.None? && INITIAL_FORM.rewardPoints == Some(0)
    ensures RESET_FORM != INITIAL_FORM
  {
  }

  /** `customer.cardNumber.toLowerCase().includes(searchTerm.toLowerCase())`. */
  predicate CardMatches(c: Customer, term: string)
  {
    Text.Contains(Text.Lower(c.cardNumber), Text.Lower(term))
  }

  function MatchesTerm(term: string): Customer -> bool
  {
    (c: Customer) => CardMatches(c, term)
  }

  /** The list on screen: the customers whose card number contains the search, in list order. */
  function Filtered(cs: seq<Customer>, term: string): (r: seq<Customer>)
    ensures forall c :: c in r <==> c in cs && CardMatches(c, term)
    ensures |r| <= |cs|
  {
    Sequences.Filter(cs, MatchesTerm(term))
  }

  /** An empty search shows every customer. */
  lemma EmptySearchShowsAll(cs: seq<Customer>)
    ensures Filtered(cs, "") == cs
  {
    forall i | 0 <= i < |cs| ensures CardMatches(cs[i], "") {
      Text.ContainsEmpty(Text.Lower(cs[i].cardNumber));
    }
    Sequences.FilterAll(cs, MatchesTerm(""));
  }

  /** The list on screen is the narrowing of the list by the search. */
  predicate Consistent(p: Page)
  {
    p.filtered == Filtered(p.customers, p.searchTerm)
  }

  /** The narrowing effect, run after the list or the search changes. */
  function Refreshed(p: Page): (r: Page)
    ensures Consistent(r)
    ensures r.customers == p.customers && r.searchTerm == p.searchTerm && r.form == p.form
  {
    p.(filtered := Filtered(p.customers, p.searchTerm))
  }

  /** The customers arrive (`None` when the call fails, which changes nothing). */
  function Loaded(p: Page, answer: Option<seq<Customer>>): (r: Page)
    ensures answer.None? ==> r == p
    ensures answer.Some? ==> r.customers == answer.value && Consistent(r)
  {
    if answer.None? then p else Refreshed(p.(customers := answer.value, filtered := answer.value))
  }

  /** Typing in the search box. */
  function Searched(p: Page, term: string): (r: Page)
    ensures r.searchTerm == term && r.customers == p.customers && Consistent(r)
  {
    Refreshed(p.(searchTerm := term))
  }

  /** `prev.map(c => c.id === id ? replacement : c)`. */
  function Replaced(cs: seq<Customer>, id: int, replacement: Customer): (r: seq<Customer>)
    ensures |r| == |cs|
    ensures forall i :: 0 <= i < |cs| ==> r[i] == (if cs[i].id == id then replacement else cs[i])
  {
    if cs == [] then []
    else
      var c := cs[|cs| - 1];
      Replaced(cs[..|cs| - 1], id, replacement) + [if c.id == id then replacement else c]
  }

  /** `resetForm`: the reset form, no customer being edited, the dialog closed. */
  function Reset(p: Page): (r: Page)
    ensures r.form == RESET_FORM && r.editing.None? && !r.showModal
    ensures r.customers == p.customers && r.filtered == p.filtered && r.searchTerm == p.searchTerm
  {
    p.(form := RESET_FORM, editing := None, showModal := false)
  }

  /**
   * `handleSubmit`, given the customer the service returned (`None` when the call
   * fails). When editing, the returned customer replaces the one with the edited
   * id; otherwise it is appended. Success or failure, the form is reset.
   */
  function Submitted(p: Page, answer: Option<Customer>): (r: Page)
    ensures r.form == RESET_FORM && r.editing.None? && !r.showModal && Consistent(r)
    ensures answer.None? ==> r.customers == p.customers
    ensures answer.Some? && p.editing.Some? ==> r.customers == Replaced(p.customers, p.editing.value.id, answer.value)
    ensures answer.Some? && p.editing.None? ==> r.customers == p.customers + [answer.value]
  {
    var customers :=
      if answer.None? then p.customers
      else if p.editing.Some? then Replaced(p.customers, p.editing.value.id, answer.value)
      else p.customers + [answer.value];
    Refreshed(Reset(p.(customers := customers)))
  }

  /** `handleEdit`: the form takes the customer's fields, with `rewardPoints` and no `points`. */
  function Edit(p: Page, c: Customer): (r: Page)
    ensures r.editing == Some(c) && r.showModal
    ensures r.customers == p.customers && r.filtered == p.filtered && r.searchTerm == p.searchTerm
    ensures r.form.fullName == c.fullName && r.form.email == c.email && r.form.cardNumber == c.cardNumber
    ensures r.form.gender == c.gender && r.form.dateOfBirth == c.dateOfBirth
    ensures r.form.rewardPoints == Some(c.rewardPoints) && r.form.points.None? && r.form.tierPoints == c.tierPoints
  {
    p.(editing := Some(c), showModal := true,
       form := Form(c.fullName, c.email, c.cardNumber, c.gender, c.dateOfBirth, Some(c.rewardPoints), None, c.tierPoints))
  }

  /** `prev.map(c => c.id === id ? { ...c, active: false } : c)`. */
  function Disabled(cs: seq<Customer>, id: int): (r: seq<Customer>)
    ensures |r| == |cs|
    ensures forall i :: 0 <= i < |cs| ==> r[i] == (if cs[i].id == id then cs[i].(active := false) else cs[i])
  {
    if cs == [] then []
    else
      var c := cs[|cs| - 1];
      Disabled(cs[..|cs| - 1], id) + [if c.id == id then c.(active := false) else c]
  }

  /**
   * `handleDeactivate`, given the confirmation: only the customers with that id
   * become inactive, locally; nothing is sent to the service.
   */
  function Deactivated(p: Page, id: int, confirmed: bool): (r: Page)
    ensures !confirmed ==> r == p
    ensures confirmed ==> r.customers == Disabled(p.customers, id) && Consistent(r)
  {
    if confirmed then Refreshed(p.(customers := Disabled(p.customers, id))) else p
  }

  /** Disabling twice is disabling once, and it keeps every id in its place. */
  lemma DisabledIdempotent(cs: seq<Customer>, id: int)
    ensures Disabled(Disabled(cs, id), id) == Disabled(cs, id)
    ensures forall i :: 0 <= i < |cs| ==> Disabled(cs, id)[i].id == cs[i].id
    ensures forall i :: 0 <= i < |cs| && cs[i].id == id ==> !Disabled(cs, id)[i].active
  {
    var once := Disabled(cs, id);
    var twice := Disabled(once, id);
    assert forall i :: 0 <= i < |cs| ==> twice[i] == once[i];
  }

  /** The colour class of each tier; the key is spelled "SLIVER". */
  const TIER_COLORS: map<string, string> := map[
    "COPPER" := "bg-amber-700 text-white",
    "SLIVER" := "bg-gray-200 text-gray-500",
    "GOLD" := "bg-yellow-500 text-gray-800",
    "PLATINUM" := "bg-slate-400 text-gray-800",
    "DIAMOND" := "bg-blue-500 text-white"
  ]

  const DEFAULT_TIER_COLOR := "bg-gray-300 text-gray-800"

  /** `getTierColor`: the tier's colour, or the gray default for any other tier. */
  function TierColor(tier: string): (color: string)
    ensures tier in TIER_COLORS ==> color == TIER_COLORS[tier]
    ensures tier !in TIER_COLORS ==> color == DEFAULT_TIER_COLOR
  {
    if tier in TIER_COLORS then TIER_COLORS[tier] else DEFAULT_TIER_COLOR
  }

  /** A tier spelled "SILVER" is not a key, so it gets the default colour. */
  lemma SilverGetsDefault()
    ensures TierColor("SILVER") == DEFAULT_TIER_COLOR
    ensures TierColor("SLIVER") != DEFAULT_TIER_COLOR
  {
    assert "SILVER" != "SLIVER" by {
      assert "SILVER"[1] != "SLIVER"[1];
    }
    assert "SILVER" != "COPPER" by {
      assert "SILVER"[0] != "COPPER"[0];
    }
    assert "SILVER" != "GOLD" && "SILVER" != "DIAMOND" by {
      assert |"SILVER"| != |"GOLD"| && "SILVER"[0] != "DIAMOND"[0];
    }
    assert "SILVER" != "PLATINUM" by {
      assert "SILVER"[0] != "PLATINUM"[0];
    }
  }
}

=== FILE: customer_service.dfy ===
/**
 * `CustomerService`: loyalty customers kept in a table keyed by a generated id.
 * Emails and card numbers are checked for uniqueness before a row is written, so a
 * table that starts without duplicates never gets one through this service.
 */
module CustomerService {
  import opened Wrappers
  import Text
  import Calendar

  /** A customer row without its id; new rows start with no points and active. */
  datatype Customer = Customer(
    email: string, fullName: string, cardNumber: string, gender: string, dateOfBirth: Calendar.Date,
    rewardPoints: int, tierPoints: int, active: bool)

  /** `CustomerRequest`: `points` and `membershipTier` have no counterpart in the row. */
  datatype CustomerRequest = CustomerRequest(
    fullName: string, email: string, cardNumber: string, gender: string, dateOfBirth: Calendar.Date,
    points: int, membershipTier: string)

  /** `CustomerResponse`: the row and its id. */
  datatype CustomerResponse = CustomerResponse(id: nat, customer: Customer)

  /** The three `RuntimeException`s the service throws. */
  datatype CustomerError = NotFound(id: nat) | EmailExists | CardNumberExists

  /** `toCustomer`: the same-named fields are copied; the points and the flag take their initial values. */
  function FromRequest(request: CustomerRequest): (c: Customer)
    ensures c.rewardPoints == 0 && c.tierPoints == 0 && c.active
    ensures c.email == request.email && c.cardNumber == request.cardNumber
  {
    Customer(request.email, request.fullName, request.cardNumber, request.gender, request.dateOfBirth, 0, 0, true)
  }

  /** `updateCustomerFromRequest`: the same-named fields are replaced; points and the active flag are kept. */
  function Updated(c: Customer, request: CustomerRequest): (u: Customer)
    ensures u.email == request.email && u.cardNumber == request.cardNumber
    ensures u.rewardPoints == c.rewardPoints && u.tierPoints == c.tierPoints && u.active == c.active
  {
    c.(email := request.email, fullName := request.fullName, cardNumber := request.cardNumber,
       gender := request.gender, dateOfBirth := request.dateOfBirth)
  }

  /** `existsByEmail`. */
  predicate EmailTaken(table: map<nat, Customer>, email: string)
  {
    exists id :: id in table && table[id].email == email
  }

  /** `existsByCardNumber`. */
  predicate CardTaken(table: map<nat, Customer>, card: string)
  {
    exists id :: id in table && table[id].cardNumber == card
  }

  /** No two rows share an email, and no two share a card number. */
  predicate Unique(table: map<nat, Customer>)
  {
    forall a, b :: a in table && b in table && a != b ==>
      table[a].email != table[b].email && table[a].cardNumber != table[b].cardNumber
  }

  /** The row a request may write at `id`: each field it changes must be free elsewhere in the table. */
  predicate Admissible(table: map<nat, Customer>, id: nat, c: Customer)
  {
    ((id in table && table[id].email == c.email) || !EmailTaken(table, c.email)) &&
    ((id in table && table[id].cardNumber == c.cardNumber) || !CardTaken(table, c.cardNumber))
  }

  /** Writing an admissible row keeps emails and card numbers unique. */
  lemma AdmissibleKeepsUnique(table: map<nat, Customer>, id: nat, c: Customer)
    requires Unique(table) && Admissible(table, id, c)
    ensures Unique(table[id := c])
  {
    var t := table[id := c];
    forall a, b | a in t && b in t && a != b
      ensures t[a].email != t[b].email && t[a].cardNumber != t[b].cardNumber
    {
      if a == id {
        assert b in table && t[b] == table[b];
      } else if b == id {
        assert a in table && t[a] == table[a];
      }
    }
  }

  /** A row written where an admissible one is refused would share its email or card with another row. */
  lemma InadmissibleClashes(table: map<nat, Customer>, id: nat, c: Customer)
    requires !Admissible(table, id, c)
    ensures exists other :: (other in table && other != id &&
      (table[other].email == c.email || table[other].cardNumber == c.cardNumber))
  {
    if !((id in table && table[id].email == c.email) || !EmailTaken(table, c.email)) {
      var other :| other in table && table[other].email == c.email;
      assert other != id;
    } else {
      var other :| other in table && table[other].cardNumber == c.cardNumber;
      assert other != id;
    }
  }

  /** `findByCardNumberContainingIgnoreCase`, on ASCII letters. */
  predicate CardContains(c: Customer, query: string)
  {
    Text.Contains(Text.Lower(c.cardNumber), Text.Lower(query))
  }

  /** Whether a listing keeps the row: every row for `findAll`, the card match for a search. */
  predicate Keeps(query: Option<string>, c: Customer)
  {
    query.None? || CardContains(c, query.value)
  }

  /** The rows with ids below `n` that the listing keeps, in id order. */
  function ListBelow(table: map<nat, Customer>, n: nat, query: Option<string>): (r: seq<CustomerResponse>)
    ensures |r| <= n
    ensures forall k :: 0 <= k < |r| ==>
      r[k].id < n && r[k].id in table && r[k].customer == table[r[k].id] && Keeps(query, r[k].customer)
    ensures forall j, k :: 0 <= j < k < |r| ==> r[j].id < r[k].id
  {
    if n == 0 then []
    else
      var id := n - 1;
      ListBelow(table, id, query) +
        (if id in table && Keeps(query, table[id]) then [CustomerResponse(id, table[id])] else [])
  }

  /** Every kept row with an id below `n` is listed. */
  lemma {:induction false} ListBelowComplete(table: map<nat, Customer>, n: nat, query: Option<string>, id: nat)
    requires id < n && id in table && Keeps(query, table[id])
    ensures CustomerResponse(id, table[id]) in ListBelow(table, n, query)
  {
    if id < n - 1 {
      ListBelowComplete(table, n - 1, query, id);
    }
  }

  /** An empty search term matches every card, so the search lists the same rows as `findAll`. */
  lemma {:induction false} EmptySearchListsAll(table: map<nat, Customer>, n: nat)
    ensures ListBelow(table, n, Some("")) == ListBelow(table, n, None)
  {
    if n > 0 {
      EmptySearchListsAll(table, n - 1);
      if n - 1 in table {
        Text.ContainsEmpty(Text.Lower(table[n - 1].cardNumber));
      }
    }
  }

  /** The customers table. Every id is below the next id the table hands out. */
  class CustomerStore {
    var customers: map<nat, Customer>
    var nextId: nat

    ghost predicate Valid()
      reads this
    {
      Unique(customers) && forall id :: id in customers ==> id < nextId
    }

    constructor ()
      ensures Valid() && customers == map[] && nextId == 0
    {
      customers := map[];
      nextId := 0;
    }

    /** Lists the kept rows in id order. */
    method List(query: Option<string>) returns (r: seq<CustomerResponse>)
      ensures r == ListBelow(customers, nextId, query)
    {
      r := [];
      var id := 0;
      while id < nextId
        invariant id <= nextId
        invariant r == ListBelow(customers, id, query)
      {
        if id in customers && Keeps(query, customers[id]) {
          r := r + [CustomerResponse(id, customers[id])];
        }
        id := id + 1;
      }
    }

    /** `getAllCustomers`: every row, each exactly once. */
    method GetAllCustomers() returns (r: seq<CustomerResponse>)
      requires Valid()
      ensures forall k :: 0 <= k < |r| ==> r[k].id in customers && r[k].customer == customers[r[k].id]
      ensures forall id :: id in customers ==> CustomerResponse(id, customers[id]) in r
      ensures forall j, k :: 0 <= j < k < |r| ==> r[j].id != r[k].id
    {
      r := List(None);
      forall id | id in customers ensures CustomerResponse(id, customers[id]) in r {
        ListBelowComplete(customers, nextId, None, id);
      }
    }

    /** `searchByCardNumber`: the rows whose card contains the term, ignoring case. */
    method SearchByCardNumber(query: string) returns (r: seq<CustomerResponse>)
      requires Valid()
      ensures forall k :: 0 <= k < |r| ==>
        r[k].id in customers && r[k].customer == customers[r[k].id] && CardContains(r[k].customer, query)
      ensures forall id :: id in customers && CardContains(customers[id], query) ==>
        CustomerResponse(id, customers[id]) in r
    {
      r := List(Some(query));
      forall id | id in customers && CardContains(customers[id], query)
        ensures CustomerResponse(id, customers[id]) in r
      {
        ListBelowComplete(customers, nextId, Some(query), id);
      }
    }

    /** `getCustomerById`. */
    method GetCustomerById(id: nat) returns (r: Result<CustomerResponse, CustomerError>)
      ensures id in customers ==> r == Ok(CustomerResponse(id, customers[id]))
      ensures id !in customers ==> r == Err(NotFound(id))
    {
      if id !in customers {
        return Err(NotFound(id));
      }
      r := Ok(CustomerResponse(id, customers[id]));
    }

    /** `createCustomer`: the email is checked first, then the card number; only then is the row saved. */
    method CreateCustomer(request: CustomerRequest) returns (r: Result<CustomerResponse, CustomerError>)
      requires Valid()
      modifies this
      ensures Valid()
      ensures EmailTaken(old(customers), request.email) ==> r == Err(EmailExists) && customers == old(customers)
      ensures !EmailTaken(old(customers), request.email) && CardTaken(old(customers), request.cardNumber) ==>
        r == Err(CardNumberExists) && customers == old(customers)
      ensures !EmailTaken(old(customers), request.email) && !CardTaken(old(customers), request.cardNumber) ==>
        r == Ok(CustomerResponse(old(nextId), FromRequest(request))) &&
        customers == old(customers)[old(nextId) := FromRequest(request)] && old(nextId) !in old(customers)
      ensures nextId == if r.Ok? then old(nextId) + 1 else old(nextId)
    {
      if EmailTaken(customers, request.email) {
        return Err(EmailExists);
      }
      if CardTaken(customers, request.cardNumber) {
        return Err(CardNumberExists);
      }
      var c := FromRequest(request);
      AdmissibleKeepsUnique(customers, nextId, c);
      customers := customers[nextId := c];
      r := Ok(CustomerResponse(nextId, c));
      nextId := nextId + 1;
    }

    /**
     * `updateCustomer`: the email is checked only when it changes, then the card
     * number only when it changes; the points and the active flag are kept.
     */
    method UpdateCustomer(id: nat, request: CustomerRequest) returns (r: Result<CustomerResponse, CustomerError>)
      requires Valid()
      modifies this`customers
      ensures Valid()
      ensures id !in old(customers) ==> r == Err(NotFound(id)) && customers == old(customers)
      ensures (id in old(customers) && old(customers)[id].email != request.email &&
               EmailTaken(old(customers), request.email)) ==> r == Err(EmailExists) && customers == old(customers)
      ensures r.Ok? <==> id in old(customers) && Admissible(old(customers), id, Updated(old(customers)[id], request))
      ensures r.Ok? ==> var u := Updated(old(customers)[id], request);
        r.value == CustomerResponse(id, u) && customers == old(customers)[id := u]
      ensures r.Err? ==> customers == old(customers)
    {
      if id !in customers {
        return Err(NotFound(id));
      }
      var c := customers[id];
      if c.email != request.email && EmailTaken(customers, request.email) {
        return Err(EmailExists);
      }
      if c.cardNumber != request.cardNumber && CardTaken(customers, request.cardNumber) {
        return Err(CardNumberExists);
      }
      var u := Updated(c, request);
      AdmissibleKeepsUnique(customers, id, u);
      customers := customers[id := u];
      r := Ok(CustomerResponse(id, u));
    }

    /** `deactivateCustomer`: only the active flag changes. */
    method DeactivateCustomer(id: nat) returns (r: Result<(), CustomerError>)
      requires Valid()
      modifies this`customers
      ensures Valid()
      ensures id !in old(customers) ==> r == Err(NotFound(id)) && customers == old(customers)
      ensures id in old(customers) ==> r == Ok(()) && customers == Deactivated(old(customers), id)
    {
      if id !in customers {
        return Err(NotFound(id));
      }
      var c := customers[id].(active := false);
      AdmissibleKeepsUnique(customers, id, c);
      customers := customers[id := c];
      r := Ok(());
    }

    /** `deleteCustomer`: a missing id fails; otherwise exactly that row is gone. */
    method DeleteCustomer(id: nat) returns (r: Result<(), CustomerError>)
      requires Valid()
      modifies this`customers
      ensures Valid()
      ensures id !in old(customers) ==> r == Err(NotFound(id)) && customers == old(customers)
      ensures id in old(customers) ==> r == Ok(()) && customers == old(customers) - {id}
      ensures id !in customers
    {
      if id !in customers {
        return Err(NotFound(id));
      }
      customers := customers - {id};
      r := Ok(());
    }
  }

  /** The table after `deactivateCustomer` of a present id. */
  function Deactivated(table: map<nat, Customer>, id: nat): map<nat, Customer>
    requires id in table
  {
    table[id := table[id].(active := false)]
  }

  /**
   * A deactivation keeps every id, clears that customer's active flag and changes
   * nothing else, so a second `deactivateCustomer` of the same id leaves the table as
   * the first one left it.
   */
  lemma DeactivateIdempotent(table: map<nat, Customer>, id: nat)
    requires id in table
    ensures var once := Deactivated(table, id);
      once.Keys == table.Keys && !once[id].active &&
      once[id] == table[id].(active := false) &&
      (forall k :: k in table && k != id ==> once[k] == table[k]) &&
      Deactivated(once, id) == once
  {
  }
}

=== FILE: employee_errors.dfy ===
/**
 * The employee service's exceptions and `GlobalExceptionHandler`, which turns each
 * of them into an HTTP error response with a fixed status and title.
 */
module EmployeeErrors {

  /**
   * The exceptions a request can end in. `detail` is what the exception was built
   * with (a username, an email, an id, a role or a message). `RemoteNotFound` is
   * the identity provider's `jakarta.ws.rs.NotFoundException` when nothing
   * catches it; `Unexpected` is any other exception.
   */
  datatype EmployeeException =
    | DuplicateUsername(detail: string)
    | DuplicateEmail(detail: string)
    | EmployeeNotFound(detail: string)
    | InvalidRole(detail: string)
    | EmployeeCreation(detail: string)
    | EmployeeUpdate(detail: string)
    | PasswordReset(detail: string)
    | AccessDenied(detail: string)
    | EmployeeServiceFailure(detail: string)
    | RemoteNotFound(detail: string)
    | Unexpected(detail: string)

  /** `ErrorResponse`. */
  datatype ErrorResponse = ErrorResponse(status: int, error: string, message: string, path: string)

  const CONFLICT := 409
  const NOT_FOUND := 404
  const BAD_REQUEST := 400
  const FORBIDDEN := 403
  const INTERNAL_SERVER_ERROR := 500

  const ACCESS_DENIED_MESSAGE := "Bạn không có quyền truy cập chức năng này"
  const GENERIC_MESSAGE := "Đã xảy ra lỗi không xác định. Vui lòng thử lại sau."

  /** The handler Spring selects for each exception, with the request's URI. */
  function Handle(e: EmployeeException, uri: string): (r: ErrorResponse)
    ensures r.path == uri
    ensures r.status == CONFLICT <==> e.DuplicateUsername? || e.DuplicateEmail?
    ensures r.status == NOT_FOUND <==> e.EmployeeNotFound?
    ensures r.status == BAD_REQUEST <==> e.InvalidRole? || e.EmployeeCreation? || e.EmployeeUpdate?
    ensures r.status == FORBIDDEN <==> e.AccessDenied?
    ensures r.status == INTERNAL_SERVER_ERROR <==>
      e.PasswordReset? || e.EmployeeServiceFailure? || e.RemoteNotFound? || e.Unexpected?
    ensures !e.AccessDenied? && !e.RemoteNotFound? && !e.Unexpected? ==> r.message == e.detail
    ensures e.AccessDenied? ==> r.message == ACCESS_DENIED_MESSAGE
    ensures e.RemoteNotFound? || e.Unexpected? ==>
      r.message == GENERIC_MESSAGE && r.error == "Internal Server Error"
  {
    match e
    case DuplicateUsername(m) => ErrorResponse(CONFLICT, "Duplicate Username", m, uri)
    case DuplicateEmail(m) => ErrorResponse(CONFLICT, "Duplicate Email", m, uri)
    case EmployeeNotFound(m) => ErrorResponse(NOT_FOUND, "Employee Not Found", m, uri)
    case InvalidRole(m) => ErrorResponse(BAD_REQUEST, "Invalid Role", m, uri)
    case EmployeeCreation(m) => ErrorResponse(BAD_REQUEST, "Employee Creation Failed", m, uri)
    case EmployeeUpdate(m) => ErrorResponse(BAD_REQUEST, "Employee Update Failed", m, uri)
    case PasswordReset(m) => ErrorResponse(INTERNAL_SERVER_ERROR, "Password Reset Failed", m, uri)
    case AccessDenied(_) => ErrorResponse(FORBIDDEN, "Access Denied", ACCESS_DENIED_MESSAGE, uri)
    case EmployeeServiceFailure(m) => ErrorResponse(INTERNAL_SERVER_ERROR, "Service Error", m, uri)
    case RemoteNotFound(_) => ErrorResponse(INTERNAL_SERVER_ERROR, "Internal Server Error", GENERIC_MESSAGE, uri)
    case Unexpected(_) => ErrorResponse(INTERNAL_SERVER_ERROR, "Internal Server Error", GENERIC_MESSAGE, uri)
  }

  /** Every response carries one of five statuses, and the body repeats the status it is sent with. */
  lemma StatusesAreFixed(e: EmployeeException, uri: string)
    ensures Handle(e, uri).status in {CONFLICT, NOT_FOUND, BAD_REQUEST, FORBIDDEN, INTERNAL_SERVER_ERROR}
  {
  }

  /** The generic handler hides the exception: two unexpected failures are indistinguishable to the client. */
  lemma GenericHidesDetail(a: string, b: string, uri: string)
    ensures Handle(Unexpected(a), uri) == Handle(Unexpected(b), uri)
    ensures Handle(RemoteNotFound(a), uri) == Handle(Unexpected(b), uri)
  {
  }
}

=== FILE: employee_service.dfy ===
/**
 * `EmployeeService`: employees are users of the identity provider's realm. The
 * realm is modelled as a list of user records with a counter for fresh ids; the
 * provider's answer to a create request (its HTTP status and reason phrase) is an
 * input. Each operation is a pure outcome function over the users (the result and
 * the users afterwards), and the `Realm` class carries out the same steps on its
 * fields.
 */
module EmployeeService {
  import opened Wrappers
  import Text
  import Numbers
  import Sequences
  import opened EmployeeErrors

  /** `VALID_ROLES`, in the order the list declares them. */
  const VALID_ROLES: seq<string> := ["CASHIER", "WAREHOUSE", "MARKETING", "ADMIN"]

  /** The role reported for a user holding none of the valid roles. */
  const NO_ROLE := "NONE"

  /** A user of the realm, as the provider stores it. */
  datatype User = User(
    id: nat, username: string, email: string, firstName: string, lastName: string,
    enabled: bool, emailVerified: bool, password: string, temporaryPassword: bool,
    roles: seq<string>, attributes: map<string, string>)

  /** `Employee`: the request and response shape; a request carries no id yet. */
  datatype Employee = Employee(id: Option<nat>, name: string, email: string, role: Option<string>, enabled: bool)

  /** `EmployeeCredentials`. */
  datatype Credentials = Credentials(
    id: nat, name: string, email: string, role: string, enabled: bool, username: string, password: string)

  /** What an operation returns and the realm's users afterwards. */
  datatype Outcome<T> = Outcome(result: Result<T, EmployeeException>, users: seq<User>)

  // ---------------------------------------------------------------- names

  /**
   * `name.split(" ", 2)`: the first name is the text before the first space and the
   * last name everything after it, or "" when the name has no space.
   */
  function SplitName(name: string): (r: (string, string))
    ensures ' ' !in r.0
    ensures ' ' in name ==> r.0 + " " + r.1 == name
    ensures ' ' !in name ==> r == (name, "")
  {
    var i := Text.IndexOf(name, ' ');
    if i < 0 then (name, "")
    else
      assert name == name[..i] + " " + name[i + 1..];
      (name[..i], name[i + 1..])
  }

  /** `firstName + " " + lastName`, the name shown for a user. */
  function DisplayName(first: string, last: string): string
  {
    first + " " + last
  }

  /** Splitting the shown name of a user gives back its first and last names. */
  lemma SplitDisplayName(first: string, last: string)
    requires ' ' !in first
    ensures SplitName(DisplayName(first, last)) == (first, last)
  {
    var s := DisplayName(first, last);
    assert s[|first|] == ' ';
    var i := Text.IndexOf(s, ' ');
    assert i == |first|;
    assert s[..i] == first;
    assert s[i + 1..] == last;
  }

  /** A one-word name comes back with a trailing space: it is split into (name, ""). */
  lemma OneWordNameShownWithSpace(name: string)
    requires ' ' !in name
    ensures DisplayName(SplitName(name).0, SplitName(name).1) == name + " "
  {
  }

  // ---------------------------------------------------------------- usernames

  /** The accent groups of `removeVietnameseAccents`, each with the letter it becomes. */
  const ACCENTS: seq<(string, char)> := [
    ("àáạảãâầấậẩẫăằắặẳẵ", 'a'),
    ("èéẹẻẽêềếệểễ", 'e'),
    ("ìíịỉĩ", 'i'),
    ("òóọỏõôồốộổỗơờớợởỡ", 'o'),
    ("ùúụủũưừứựửữ", 'u'),
    ("ỳýỵỷỹ", 'y'),
    ("đ", 'd')
  ]

  /** The capital forms of the accent groups' letters, letter for letter. */
  const CAPITALS: seq<string> := [
    "ÀÁẠẢÃÂẦẤẬẨẪĂẰẮẶẲẴ",
    "ÈÉẸẺẼÊỀẾỆỂỄ",
    "ÌÍỊỈĨ",
    "ÒÓỌỎÕÔỒỐỘỔỖƠỜỚỢỞỠ",
    "ÙÚỤỦŨƯỪỨỰỬỮ",
    "ỲÝỴỶỸ",
    "Đ"
  ]

  /**
   * Java's `toLowerCase` on one character, for the capitals a Vietnamese name can
   * hold: ASCII A to Z and the Latin-1 capitals move down by 32; Ă, Đ, Ĩ, Ũ, Ơ, Ư
   * and the capitals of the Latin Extended Additional block (the even code points
   * from Ạ to Ỹ) move down by one. Every other character is kept.
   */
  function LowerLetter(c: char): char
  {
    var n := c as int;
    if 'A' <= c <= 'Z' || (0xC0 <= n <= 0xDE && n != 0xD7) then (n + 32) as char
    else if n == 0x102 || n == 0x110 || n == 0x128 || n == 0x168 || n == 0x1A0 || n == 0x1AF then (n + 1) as char
    else if 0x1EA0 <= n <= 0x1EF8 && n % 2 == 0 then (n + 1) as char
    else c
  }

  /** `firstName.toLowerCase()`, letter by letter. */
  function LowerName(s: string): string
  {
    seq(|s|, i requires 0 <= i < |s| => LowerLetter(s[i]))
  }

  /** `str.replaceAll("x|y|…", base)` for an alternation of single characters. */
  function ReplaceChars(s: string, group: string, base: char): (r: string)
    ensures |r| == |s|
    ensures forall i :: 0 <= i < |s| ==> r[i] == if s[i] in group then base else s[i]
  {
    seq(|s|, i requires 0 <= i < |s| => if s[i] in group then base else s[i])
  }

  /** The replacements of the given groups, applied in order. */
  function ApplyGroups(s: string, groups: seq<(string, char)>): (r: string)
    ensures |r| == |s|
  {
    if groups == [] then s
    else ReplaceChars(ApplyGroups(s, groups[..|groups| - 1]), groups[|groups| - 1].0, groups[|groups| - 1].1)
  }

  predicate IsUsernameChar(c: char)
  {
    'a' <= c <= 'z' || '0' <= c <= '9'
  }

  /** `replaceAll("[^a-z0-9]", "")`. */
  function KeepUsernameChars(s: string): (r: string)
    ensures forall i :: 0 <= i < |r| ==> IsUsernameChar(r[i])
  {
    Sequences.Filter(s, IsUsernameChar)
  }

  /**
   * `removeVietnameseAccents`: each accent group replaced in turn, then every
   * character other than a lower-case ASCII letter or digit dropped.
   */
  method RemoveVietnameseAccents(str: string) returns (r: string)
    ensures r == KeepUsernameChars(ApplyGroups(str, ACCENTS))
    ensures forall i :: 0 <= i < |r| ==> IsUsernameChar(r[i])
  {
    var s := str;
    for k := 0 to |ACCENTS|
      invariant s == ApplyGroups(str, ACCENTS[..k])
    {
      assert ACCENTS[..k + 1][..k] == ACCENTS[..k];
      s := ReplaceChars(s, ACCENTS[k].0, ACCENTS[k].1);
    }
    assert ACCENTS[..|ACCENTS|] == ACCENTS;
    r := KeepUsernameChars(s);
  }

  /** The username made from a first name: lower-cased, capitals of accented letters included, then accents removed. */
  function Username(first: string): (u: string)
    ensures forall i :: 0 <= i < |u| ==> IsUsernameChar(u[i])
  {
    KeepUsernameChars(ApplyGroups(LowerName(first), ACCENTS))
  }

  /** Position `i` of group `g`: the capital lower-cases to the small letter, which lower-cases to itself. */
  predicate LowersAt(g: nat, i: nat)
    requires g < |CAPITALS| && g < |ACCENTS| && i < |CAPITALS[g]| && i < |ACCENTS[g].0|
  {
    LowerLetter(CAPITALS[g][i]) == ACCENTS[g].0[i] && LowerLetter(ACCENTS[g].0[i]) == ACCENTS[g].0[i]
  }

  /** The capitals of the `a` group. */
  lemma CapitalsOfA(i: nat)
    requires i < |CAPITALS[0]|
    ensures i < |ACCENTS[0].0| && LowersAt(0, i)
  {
  }

  /** The capitals of the `o` group. */
  lemma CapitalsOfO(i: nat)
    requires i < |CAPITALS[3]|
    ensures i < |ACCENTS[3].0| && LowersAt(3, i)
  {
  }

  /** The capitals of the `e` and `u` groups. */
  lemma CapitalsOfEU(g: nat, i: nat)
    requires (g == 1 || g == 4) && i < |CAPITALS[g]|
    ensures i < |ACCENTS[g].0| && LowersAt(g, i)
  {
    if g == 1 {
    } else {
    }
  }

  /** The capitals of the `i`, `y` and `d` groups. */
  lemma CapitalsOfIYD(g: nat, i: nat)
    requires (g == 2 || g == 5 || g == 6) && i < |CAPITALS[g]|
    ensures i < |ACCENTS[g].0| && LowersAt(g, i)
  {
    if g == 2 {
    } else if g == 5 {
    } else {
    }
  }

  /** Each capital accented letter lower-cases to its small form, and a small one stays as it is. */
  lemma CapitalLowered(g: nat, i: nat)
    requires g < |ACCENTS| && i < |CAPITALS[g]|
    ensures |ACCENTS[g].0| == |CAPITALS[g]|
    ensures LowerLetter(CAPITALS[g][i]) == ACCENTS[g].0[i]
    ensures LowerLetter(ACCENTS[g].0[i]) == ACCENTS[g].0[i]
  {
    if g == 0 {
      CapitalsOfA(i);
    } else if g == 3 {
      CapitalsOfO(i);
    } else if g == 1 || g == 4 {
      CapitalsOfEU(g, i);
    } else {
      CapitalsOfIYD(g, i);
    }
  }

  /** Lower-casing twice is lower-casing once. */
  lemma LowerLetterIdempotent(c: char)
    ensures LowerLetter(LowerLetter(c)) == LowerLetter(c)
  {
  }

  /** A name and its lower-cased form give the same username. */
  lemma UsernameIgnoresCase(first: string)
    ensures Username(LowerName(first)) == Username(first)
  {
    forall i | 0 <= i < |first| ensures LowerName(LowerName(first))[i] == LowerName(first)[i] {
      LowerLetterIdempotent(first[i]);
    }
    assert LowerName(LowerName(first)) == LowerName(first);
  }

  /** A name starting with a capital accented letter gets the username of the same name starting small. */
  lemma CapitalInitialSameUsername(g: nat, i: nat, rest: string)
    requires g < |ACCENTS| && i < |CAPITALS[g]|
    ensures |ACCENTS[g].0| == |CAPITALS[g]|
    ensures Username([CAPITALS[g][i]] + rest) == Username([ACCENTS[g].0[i]] + rest)
  {
    CapitalLowered(g, i);
    assert LowerName([CAPITALS[g][i]] + rest) == LowerName([ACCENTS[g].0[i]] + rest);
  }

  /** No accented character is a username character. */
  lemma AccentsAreNotUsernameChars(g: nat, c: char)
    requires g < |ACCENTS| && c in ACCENTS[g].0
    ensures !IsUsernameChar(c)
  {
  }

  /** Replacing accents leaves a string of username characters unchanged. */
  lemma {:induction false} ApplyGroupsKeepsPlain(s: string, n: nat)
    requires n <= |ACCENTS|
    requires forall i :: 0 <= i < |s| ==> IsUsernameChar(s[i])
    ensures ApplyGroups(s, ACCENTS[..n]) == s
  {
    if n > 0 {
      assert ACCENTS[..n][..n - 1] == ACCENTS[..n - 1];
      ApplyGroupsKeepsPlain(s, n - 1);
      forall i | 0 <= i < |s| ensures s[i] !in ACCENTS[n - 1].0 {
        if s[i] in ACCENTS[n - 1].0 {
          AccentsAreNotUsernameChars(n - 1, s[i]);
        }
      }
    }
  }

  /** Dropping non-username characters leaves a string of username characters unchanged. */
  lemma {:induction false} KeepPlain(s: string)
    requires forall i :: 0 <= i < |s| ==> IsUsernameChar(s[i])
    ensures KeepUsernameChars(s) == s
  {
    if s != [] {
      KeepPlain(s[1..]);
    }
  }

  /** `removeVietnameseAccents` is idempotent. */
  lemma RemoveAccentsIdempotent(s: string)
    ensures var once := KeepUsernameChars(ApplyGroups(s, ACCENTS));
      KeepUsernameChars(ApplyGroups(once, ACCENTS)) == once
  {
    var once := KeepUsernameChars(ApplyGroups(s, ACCENTS));
    ApplyGroupsKeepsPlain(once, |ACCENTS|);
    assert ACCENTS[..|ACCENTS|] == ACCENTS;
    KeepPlain(once);
  }

  // ---------------------------------------------------------------- roles

  /**
   * The role `getUserRole` reports: the first of the user's roles that is a valid
   * role, or "NONE".
   */
  function UserRole(roles: seq<string>): (r: string)
    ensures r == NO_ROLE <==> forall i :: 0 <= i < |roles| ==> roles[i] !in VALID_ROLES
    ensures r != NO_ROLE ==> (r in VALID_ROLES &&
      exists i :: 0 <= i < |roles| && roles[i] == r && forall j :: 0 <= j < i ==> roles[j] !in VALID_ROLES)
  {
    if roles == [] then NO_ROLE
    else if roles[0] in VALID_ROLES then roles[0]
    else
      var r := UserRole(roles[1..]);
      assert forall i :: 1 <= i < |roles| ==> roles[i] == roles[1..][i - 1];
      r
  }

  /** `getUserRole`: the loop over the effective roles, returning at the first valid one. */
  method GetUserRole(roles: seq<string>) returns (r: string)
    ensures r == UserRole(roles)
  {
    var k := 0;
    while k < |roles|
      invariant 0 <= k <= |roles|
      invariant forall j :: 0 <= j < k ==> roles[j] !in VALID_ROLES
      invariant UserRole(roles[k..]) == UserRole(roles)
    {
      if roles[k] in VALID_ROLES {
        return roles[k];
      }
      assert roles[k..][1..] == roles[k + 1..];
      k := k + 1;
    }
    return NO_ROLE;
  }

  /** `VALID_ROLES.contains(role)` for a role that may be null. */
  predicate IsValidRole(role: Option<string>)
  {
    role.Some? && role.value in VALID_ROLES
  }

  /** The text an `InvalidRoleException` carries: the role, or "null". */
  function RoleText(role: Option<string>): string
  {
    role.GetOr("null")
  }

  /** The roles without every occurrence of `role` (a realm-level role removal). */
  function WithoutRole(roles: seq<string>, role: string): (r: seq<string>)
    ensures forall x :: x in r <==> x in roles && x != role
  {
    Sequences.Filter(roles, (x: string) => x != role)
  }

  /** A realm-level role added; a role already held is not repeated. */
  function WithRole(roles: seq<string>, role: string): (r: seq<string>)
    ensures forall x :: x in r <==> x in roles || x == role
  {
    if role in roles then roles else roles + [role]
  }

  /**
   * `updateUserRole` once the new role is valid: the old role removed when it is a
   * valid role, then the new role added.
   */
  function Reassigned(roles: seq<string>, oldRole: string, newRole: string): (r: seq<string>)
    ensures newRole in r
    ensures forall x :: x != newRole ==> (x in r <==> x in roles && !(oldRole in VALID_ROLES && x == oldRole))
  {
    WithRole(if oldRole in VALID_ROLES then WithoutRole(roles, oldRole) else roles, newRole)
  }

  /** The users holding at most one valid role. */
  predicate SingleRole(roles: seq<string>)
  {
    forall i, j :: 0 <= i < j < |roles| && roles[i] in VALID_ROLES ==> roles[j] !in VALID_ROLES
  }

  /**
   * For a user with at most one valid role, reassigning to a valid role makes it the
   * reported role and keeps the user at one valid role.
   */
  lemma ReassignedRoleReported(roles: seq<string>, newRole: string)
    requires SingleRole(roles) && newRole in VALID_ROLES
    ensures UserRole(Reassigned(roles, UserRole(roles), newRole)) == newRole
    ensures SingleRole(Reassigned(roles, UserRole(roles), newRole))
  {
    var previous := UserRole(roles);
    var kept := if previous in VALID_ROLES then WithoutRole(roles, previous) else roles;
    assert forall x :: x in kept ==> x !in VALID_ROLES;
    var r := Reassigned(roles, previous, newRole);
    assert newRole !in kept;
    assert r == kept + [newRole];
    forall i | 0 <= i < |kept| ensures r[i] !in VALID_ROLES {
      assert r[i] == kept[i] && kept[i] in kept;
    }
    assert r[|kept|] == newRole;
  }

  /** A user holding two valid roles keeps reporting the first after being reassigned to another. */
  lemma SecondRoleHidesReassignment()
    ensures UserRole(Reassigned(["CASHIER", "ADMIN"], "CASHIER", "MARKETING")) == "ADMIN"
  {
    var r := Reassigned(["CASHIER", "ADMIN"], "CASHIER", "MARKETING");
    assert WithoutRole(["CASHIER", "ADMIN"], "CASHIER") == ["ADMIN"];
    assert r == ["ADMIN", "MARKETING"];
  }

  // ---------------------------------------------------------------- queries

  /** The user shown as an employee: its display name and reported role. */
  function EmployeeOf(u: User): Employee
  {
    Employee(Some(u.id), DisplayName(u.firstName, u.lastName), u.email, Some(UserRole(u.roles)), u.enabled)
  }

  /** `!"ADMIN".equalsIgnoreCase(role)` on the user's reported role. */
  predicate NotAdmin(u: User)
  {
    Text.Lower(UserRole(u.roles)) != Text.Lower("ADMIN")
  }

  /** Reported roles are upper-case, so comparing them to ADMIN ignoring case is plain equality. */
  lemma AdminIgnoringCase(u: User)
    ensures NotAdmin(u) <==> UserRole(u.roles) != "ADMIN"
  {
    assert Text.Lower("ADMIN") == "admin";
  }

  /**
   * `getAllEmployees`: the users whose reported role is not ADMIN (ignoring case),
   * in the realm's order, each shown as an employee.
   */
  function AllEmployees(users: seq<User>): (es: seq<Employee>)
    ensures |es| <= |users|
    ensures forall k :: 0 <= k < |es| ==> es[k].role != Some("ADMIN")
  {
    if users == [] then []
    else
      var last := users[|users| - 1];
      AdminIgnoringCase(last);
      AllEmployees(users[..|users| - 1]) + (if NotAdmin(last) then [EmployeeOf(last)] else [])
  }

  /** One step of the listing: the last user is listed exactly when its reported role is not ADMIN. */
  lemma AllEmployeesStep(users: seq<User>)
    requires users != []
    ensures var last := users[|users| - 1];
      AllEmployees(users) ==
        AllEmployees(users[..|users| - 1]) + (if UserRole(last.roles) != "ADMIN" then [EmployeeOf(last)] else [])
  {
    AdminIgnoringCase(users[|users| - 1]);
  }

  /** Every listed employee is some user of the realm whose reported role is not ADMIN. */
  lemma {:induction false} AllEmployeesAreUsers(users: seq<User>, k: nat)
    requires k < |AllEmployees(users)|
    ensures exists i :: (0 <= i < |users| && UserRole(users[i].roles) != "ADMIN" &&
      AllEmployees(users)[k] == EmployeeOf(users[i]))
  {
    var init := users[..|users| - 1];
    var last := users[|users| - 1];
    var es, prev := AllEmployees(users), AllEmployees(init);
    AllEmployeesStep(users);
    if k < |prev| {
      assert es[k] == prev[k];
      AllEmployeesAreUsers(init, k);
      var i :| 0 <= i < |init| && UserRole(init[i].roles) != "ADMIN" && prev[k] == EmployeeOf(init[i]);
      assert init[i] == users[i];
    } else {
      assert UserRole(last.roles) != "ADMIN" && es[k] == EmployeeOf(last);
    }
  }

  /** Every user whose reported role is not ADMIN is listed. */
  lemma {:induction false} AllEmployeesListsUser(users: seq<User>, i: nat)
    requires i < |users| && UserRole(users[i].roles) != "ADMIN"
    ensures exists k :: 0 <= k < |AllEmployees(users)| && AllEmployees(users)[k] == EmployeeOf(users[i])
  {
    var init := users[..|users| - 1];
    var es := AllEmployees(users);
    AllEmployeesStep(users);
    if i < |init| {
      assert init[i] == users[i];
      AllEmployeesListsUser(init, i);
      var k :| 0 <= k < |AllEmployees(init)| && AllEmployees(init)[k] == EmployeeOf(init[i]);
      assert es[k] == AllEmployees(init)[k];
    } else {
      assert i == |users| - 1;
      var shown := [EmployeeOf(users[i])];
      assert es == AllEmployees(init) + shown;
      assert es[|AllEmployees(init)|] == EmployeeOf(users[i]);
    }
  }

  /** The index of the user with that id, or -1 (`users().get(id)`). */
  function IndexOfId(users: seq<User>, id: nat): (r: int)
    ensures -1 <= r < |users|
    ensures r >= 0 ==> users[r].id == id
    ensures r < 0 <==> forall i :: 0 <= i < |users| ==> users[i].id != id
  {
    if users == [] then -1
    else if users[|users| - 1].id == id then |users| - 1
    else IndexOfId(users[..|users| - 1], id)
  }

  /** No two users share an id. */
  predicate DistinctIds(users: seq<User>)
  {
    forall i, j :: 0 <= i < j < |users| ==> users[i].id != users[j].id
  }

  /** With distinct ids, the lookup finds exactly the user carrying the id. */
  lemma IndexOfDistinctId(users: seq<User>, k: nat)
    requires DistinctIds(users) && k < |users|
    ensures IndexOfId(users, users[k].id) == k
  {
  }

  function IdText(id: nat): string
  {
    Numbers.DecimalString(id)
  }

  /**
   * `getEmployeeById`: the provider's not-found error is not caught here, so a
   * missing id ends in the generic handler.
   */
  function EmployeeById(users: seq<User>, id: nat): (r: Result<Employee, EmployeeException>)
    ensures r.Err? <==> forall i :: 0 <= i < |users| ==> users[i].id != id
    ensures r.Err? ==> r.error.RemoteNotFound?
    ensures r.Ok? ==> exists i :: 0 <= i < |users| && users[i].id == id && r.value == EmployeeOf(users[i])
  {
    var i := IndexOfId(users, id);
    if i < 0 then Err(RemoteNotFound(IdText(id))) else Ok(EmployeeOf(users[i]))
  }

  /** The stored attribute, or the fallback when it is absent. */
  function AttributeOr(u: User, name: string, fallback: string): (v: string)
    ensures name in u.attributes ==> v == u.attributes[name]
    ensures name !in u.attributes ==> v == fallback
  {
    if name in u.attributes then u.attributes[name] else fallback
  }

  /** The credentials reported for a user. */
  function CredentialsOf(u: User): Credentials
  {
    Credentials(u.id, DisplayName(u.firstName, u.lastName), u.email, UserRole(u.roles), u.enabled,
                AttributeOr(u, "original_username", u.username), AttributeOr(u, "original_password", "********"))
  }

  /**
   * `getEmployeeCredentials`: the username and password stored as attributes at
   * creation, falling back to the login name and a masked password.
   */
  function EmployeeCredentials(users: seq<User>, id: nat): (r: Result<Credentials, EmployeeException>)
    ensures r.Err? <==> forall i :: 0 <= i < |users| ==> users[i].id != id
    ensures r.Err? ==> r.error == EmployeeNotFound(IdText(id))
    ensures r.Ok? ==> exists i :: 0 <= i < |users| && users[i].id == id && r.value == CredentialsOf(users[i])
  {
    var i := IndexOfId(users, id);
    if i < 0 then Err(EmployeeNotFound(IdText(id))) else Ok(CredentialsOf(users[i]))
  }

  // ---------------------------------------------------------------- create

  /** `usersResource.search(username, true)` finds someone. */
  predicate HasUsername(users: seq<User>, username: string)
  {
    exists i :: 0 <= i < |users| && users[i].username == username
  }

  /**
   * A hit of the provider's email search as called, without the exact flag: the
   * stored address contains the searched text, ignoring case.
   */
  predicate EmailFound(stored: string, query: string)
  {
    Text.Contains(Text.Lower(stored), Text.Lower(query))
  }

  /** Every address is a hit of a search for itself. */
  lemma EmailFoundItself(email: string)
    ensures EmailFound(email, email)
  {
    assert Text.OccursAt(Text.Lower(email), Text.Lower(email), 0);
    Text.ContainsAt(Text.Lower(email), Text.Lower(email), 0);
  }

  /**
   * The first user the provider's email search returns, as an index, or -1 when
   * the search comes back empty.
   */
  function IndexOfEmail(users: seq<User>, email: string): (r: int)
    ensures -1 <= r < |users|
    ensures r >= 0 ==> EmailFound(users[r].email, email) && forall k :: 0 <= k < r ==> !EmailFound(users[k].email, email)
    ensures r < 0 <==> forall k :: 0 <= k < |users| ==> !EmailFound(users[k].email, email)
  {
    if users == [] then -1
    else if EmailFound(users[0].email, email) then 0
    else
      var r := IndexOfEmail(users[1..], email);
      if r < 0 then -1 else r + 1
  }

  /** A search that comes back empty means no user has exactly that address either. */
  lemma NoHitNoSameEmail(users: seq<User>, email: string)
    requires IndexOfEmail(users, email) < 0
    ensures forall k :: 0 <= k < |users| ==> users[k].email != email
  {
    EmailFoundItself(email);
  }

  /** The user `createEmployee` sends: enabled, email verified, password = first name, not temporary. */
  function NewUser(id: nat, username: string, email: string, first: string, last: string): User
  {
    User(id, username, email, first, last, true, true, first, false, [], map[])
  }

  /** The attributes stored after a successful creation. */
  function Stamped(u: User, username: string, first: string): (s: User)
    ensures "original_username" in s.attributes && s.attributes["original_username"] == username
    ensures "original_password" in s.attributes && s.attributes["original_password"] == first
    ensures s.(attributes := u.attributes) == u
  {
    u.(attributes := u.attributes["original_username" := username]["original_password" := first])
  }

  /**
   * The steps after the provider answered 201 for the user `created`: the role is
   * assigned (an invalid role fails with the user already in the realm), then the
   * creation attributes are stored.
   */
  function Registered(users: seq<User>, created: User, employee: Employee, first: string): (o: Outcome<Employee>)
    ensures |o.users| == |users| + 1 && o.users[..|users|] == users
    ensures var u := o.users[|users|];
      u.id == created.id && u.username == created.username && u.email == created.email &&
      u.password == created.password && u.firstName == created.firstName && u.lastName == created.lastName
    ensures o.result.Ok? <==> !(employee.role.Some? && employee.role.value != "" && employee.role.value !in VALID_ROLES)
    ensures o.result.Err? ==> o.result == Err(InvalidRole(employee.role.value)) && o.users[|users|] == created
  {
    if employee.role.Some? && employee.role.value != "" then
      if employee.role.value !in VALID_ROLES then
        Outcome(Err(InvalidRole(employee.role.value)), users + [created])
      else
        var withRole := created.(roles := WithRole(created.roles, employee.role.value));
        Outcome(Ok(employee.(id := Some(created.id))), users + [Stamped(withRole, created.username, first)])
    else
      Outcome(Ok(employee.(id := Some(created.id))), users + [Stamped(created, created.username, first)])
  }

  /**
   * `createEmployee`: the username is checked first, then the email, both before
   * the provider is asked to create anything. On status 201 the user is created and
   * registered; 409 reports the username as taken; any other status is a creation
   * failure with the provider's reason.
   */
  function Create(users: seq<User>, nextId: nat, employee: Employee, status: int, reason: string): (o: Outcome<Employee>)
    ensures var username := Username(SplitName(employee.name).0);
      HasUsername(users, username) ==> o == Outcome(Err(DuplicateUsername(username)), users)
    ensures var username := Username(SplitName(employee.name).0);
      !HasUsername(users, username) && IndexOfEmail(users, employee.email) >= 0 ==>
        o == Outcome(Err(DuplicateEmail(employee.email)), users)
    ensures status != 201 ==> o.users == users && o.result.Err?
    ensures var username := Username(SplitName(employee.name).0);
      !HasUsername(users, username) && IndexOfEmail(users, employee.email) < 0 && status != 201 ==>
        o.result.error == if status == 409 then DuplicateUsername(username) else EmployeeCreation(reason)
    ensures o.result.Ok? ==> o.result.value == employee.(id := Some(nextId))
    ensures o.users == users || (|o.users| == |users| + 1 && o.users[..|users|] == users && o.users[|users|].id == nextId)
  {
    var (first, last) := SplitName(employee.name);
    var username := Username(first);
    if HasUsername(users, username) then Outcome(Err(DuplicateUsername(username)), users)
    else if IndexOfEmail(users, employee.email) >= 0 then Outcome(Err(DuplicateEmail(employee.email)), users)
    else if status == 201 then Registered(users, NewUser(nextId, username, employee.email, first, last), employee, first)
    else if status == 409 then Outcome(Err(DuplicateUsername(username)), users)
    else Outcome(Err(EmployeeCreation(reason)), users)
  }

  /**
   * A successful creation adds one user whose username is made from the first name,
   * whose password is the first name and not temporary, and whose credentials report
   * that username and password.
   */
  lemma CreatedCredentials(users: seq<User>, nextId: nat, employee: Employee, status: int, reason: string)
    requires Create(users, nextId, employee, status, reason).result.Ok?
    ensures var o := Create(users, nextId, employee, status, reason);
      var (first, last) := SplitName(employee.name);
      var u := o.users[|users|];
      u.id == nextId && u.username == Username(first) && u.password == first && !u.temporaryPassword &&
      u.email == employee.email && u.enabled &&
      EmployeeCredentials(o.users, nextId) ==
        Ok(Credentials(nextId, DisplayName(first, last), employee.email, UserRole(u.roles), true, Username(first), first))
  {
    var (first, last) := SplitName(employee.name);
    var created := NewUser(nextId, Username(first), employee.email, first, last);
    var o := Registered(users, created, employee, first);
    assert Create(users, nextId, employee, status, reason) == o;
    var u := o.users[|users|];
    assert u == Stamped(u.(attributes := created.attributes), created.username, first);
    assert IndexOfId(o.users, nextId) == |users|;
  }

  /** An invalid role is found only after the user was created, and the user is not removed. */
  lemma InvalidRoleKeepsCreatedUser(users: seq<User>, nextId: nat, employee: Employee, reason: string)
    requires !HasUsername(users, Username(SplitName(employee.name).0))
    requires IndexOfEmail(users, employee.email) < 0
    requires employee.role.Some? && employee.role.value != "" && employee.role.value !in VALID_ROLES
    ensures var o := Create(users, nextId, employee, 201, reason);
      o.result == Err(InvalidRole(employee.role.value)) && |o.users| == |users| + 1 &&
      o.users[|users|].password == SplitName(employee.name).0 && o.users[|users|].attributes == map[]
  {
  }

  /** No two users share a username, and no two share an email. */
  predicate UniqueLogins(users: seq<User>)
  {
    (forall i, j :: 0 <= i < j < |users| ==> users[i].username != users[j].username) &&
    (forall i, j :: 0 <= i < j < |users| ==> users[i].email != users[j].email)
  }

  /** Usernames and emails unique in the realm stay unique after a creation. */
  lemma CreateKeepsUnique(users: seq<User>, nextId: nat, employee: Employee, status: int, reason: string)
    requires UniqueLogins(users)
    ensures UniqueLogins(Create(users, nextId, employee, status, reason).users)
  {
    var o := Create(users, nextId, employee, status, reason);
    if o.users != users {
      var (first, last) := SplitName(employee.name);
      var u := o.users[|users|];
      assert u.username == Username(first) && u.email == employee.email;
      assert !HasUsername(users, u.username);
      NoHitNoSameEmail(users, u.email);
      assert o.users == users + [u];
    }
  }

  // ---------------------------------------------------------------- update

  /** A changed email that the provider's search finds on another user first. */
  predicate EmailTakenByOther(users: seq<User>, i: nat, id: nat, email: string)
    requires i < |users|
  {
    var j := IndexOfEmail(users, email);
    users[i].email != email && j >= 0 && users[j].id != id
  }

  /** The user with its names and email replaced from the request. */
  function Renamed(u: User, employee: Employee): (v: User)
    ensures v.id == u.id && v.username == u.username && v.roles == u.roles && v.email == employee.email
    ensures DisplayName(v.firstName, v.lastName) ==
      (if ' ' in employee.name then employee.name else employee.name + " ")
  {
    var (first, last) := SplitName(employee.name);
    SplitDisplayName(first, last);
    u.(firstName := first, lastName := last, email := employee.email)
  }

  /**
   * `updateEmployee`: a changed email must not belong to another user; then the
   * names and email are written, and then the role is changed if it differs from the
   * reported one. Every failure except the provider's not-found error is reported
   * as an update failure, and a role failure comes after the names and email were
   * written.
   */
  function Update(users: seq<User>, id: nat, employee: Employee): (o: Outcome<Employee>)
    ensures IndexOfId(users, id) < 0 ==> o == Outcome(Err(EmployeeNotFound(IdText(id))), users)
    ensures var i := IndexOfId(users, id);
      i >= 0 && EmailTakenByOther(users, i, id, employee.email) ==>
        o == Outcome(Err(EmployeeUpdate(employee.email)), users)
    ensures o.result.Err? ==> o.result.error.EmployeeNotFound? || o.result.error.EmployeeUpdate?
    ensures o.result.Ok? ==> o.result.value == employee
    ensures |o.users| == |users|
    ensures forall i :: 0 <= i < |users| && users[i].id != id ==> o.users[i] == users[i]
    ensures forall i :: 0 <= i < |users| ==> o.users[i].id == users[i].id && o.users[i].username == users[i].username
  {
    var i := IndexOfId(users, id);
    if i < 0 then Outcome(Err(EmployeeNotFound(IdText(id))), users)
    else if EmailTakenByOther(users, i, id, employee.email) then Outcome(Err(EmployeeUpdate(employee.email)), users)
    else
      var u := users[i];
      var renamed := Renamed(u, employee);
      var current := UserRole(u.roles);
      if Some(current) == employee.role then Outcome(Ok(employee), users[i := renamed])
      else if !IsValidRole(employee.role) then
        Outcome(Err(EmployeeUpdate(RoleText(employee.role))), users[i := renamed])
      else
        Outcome(Ok(employee), users[i := renamed.(roles := Reassigned(u.roles, current, employee.role.value))])
  }

  /** Once the id is found and the email is free, the update writes the names and email and then the role. */
  lemma UpdateWritten(users: seq<User>, id: nat, employee: Employee, i: nat)
    requires i == IndexOfId(users, id) && !EmailTakenByOther(users, i, id, employee.email)
    ensures var renamed := Renamed(users[i], employee);
      var current := UserRole(users[i].roles);
      Update(users, id, employee) ==
        if Some(current) == employee.role then Outcome(Ok(employee), users[i := renamed])
        else if !IsValidRole(employee.role) then Outcome(Err(EmployeeUpdate(RoleText(employee.role))), users[i := renamed])
        else Outcome(Ok(employee), users[i := renamed.(roles := Reassigned(users[i].roles, current, employee.role.value))])
  {
  }

  /** A successful update is visible to the next lookup: the new display name and email, and the requested role. */
  lemma UpdateThenGet(users: seq<User>, id: nat, employee: Employee)
    requires DistinctIds(users)
    requires Update(users, id, employee).result.Ok?
    requires employee.role.Some? && SingleRole(users[IndexOfId(users, id)].roles)
    ensures var e := EmployeeById(Update(users, id, employee).users, id);
      e.Ok? && e.value.email == employee.email && e.value.role == employee.role &&
      e.value.name == (if ' ' in employee.name then employee.name else employee.name + " ")
  {
    var i := IndexOfId(users, id);
    var o := Update(users, id, employee);
    IndexOfIdUnchanged(users, o.users, id);
    var u := users[i];
    if Some(UserRole(u.roles)) != employee.role {
      ReassignedRoleReported(u.roles, employee.role.value);
    }
  }

  /**
   * The same email is a conflict (409) when creating but, rewrapped by the update's
   * catch-all, a bad request (400) when updating.
   */
  lemma DuplicateEmailStatuses(users: seq<User>, nextId: nat, employee: Employee, status: int, reason: string,
                               id: nat, uri: string)
    requires !HasUsername(users, Username(SplitName(employee.name).0))
    requires IndexOfId(users, id) >= 0 && EmailTakenByOther(users, IndexOfId(users, id), id, employee.email)
    ensures Handle(Create(users, nextId, employee, status, reason).result.error, uri).status == CONFLICT
    ensures Handle(Update(users, id, employee).result.error, uri).status == BAD_REQUEST
  {
  }

  // ---------------------------------------------------------------- delete and reset

  /**
   * `deleteEmployee`: the user with that id is removed. The admin client's `delete`
   * answers a missing id with a not-found response instead of an exception, and the
   * response is dropped, so the catch is never reached: a missing id succeeds and
   * changes nothing.
   */
  function Delete(users: seq<User>, id: nat): (o: Outcome<()>)
    ensures o.result.Ok?
    ensures o.users == users <==> forall i :: 0 <= i < |users| ==> users[i].id != id
    ensures IndexOfId(users, id) >= 0 ==> |o.users| == |users| - 1
    ensures IndexOfId(users, id) >= 0 ==> var i := IndexOfId(users, id);
      (forall k :: 0 <= k < i ==> o.users[k] == users[k]) &&
      (forall k :: i < k < |users| ==> o.users[k - 1] == users[k])
  {
    var i := IndexOfId(users, id);
    if i < 0 then Outcome(Ok(()), users)
    else
      RemoveAtLength(users, i);
      Outcome(Ok(()), users[..i] + users[i + 1..])
  }

  /** Where each remaining user sits after removing the one at `i`. */
  lemma RemoveAtIndex(users: seq<User>, i: nat, k: nat)
    requires i < |users| && k < |users| - 1
    ensures (users[..i] + users[i + 1..])[k] == users[if k < i then k else k + 1]
  {
  }

  /** Removing one user leaves one fewer, the earlier ones in place and the later ones moved down by one. */
  lemma RemoveAtLength(users: seq<User>, i: nat)
    requires i < |users|
    ensures |users[..i] + users[i + 1..]| == |users| - 1
    ensures forall k :: 0 <= k < i ==> (users[..i] + users[i + 1..])[k] == users[k]
    ensures forall k :: i < k < |users| ==> (users[..i] + users[i + 1..])[k - 1] == users[k]
  {
  }

  /** Removing a user keeps the remaining ids distinct. */
  lemma RemoveAtKeepsDistinct(users: seq<User>, i: nat)
    requires i < |users| && DistinctIds(users)
    ensures DistinctIds(users[..i] + users[i + 1..])
  {
    var after := users[..i] + users[i + 1..];
    forall a, b | 0 <= a < b < |after| ensures after[a].id != after[b].id {
      RemoveAtIndex(users, i, a);
      RemoveAtIndex(users, i, b);
    }
  }

  /**
   * With distinct ids, after a deletion the id is no longer found and every other
   * employee is still found as before.
   */
  lemma DeleteThenGet(users: seq<User>, id: nat, other: nat)
    requires DistinctIds(users)
    ensures var after := Delete(users, id).users;
      EmployeeById(after, id).Err? &&
      (other != id ==> EmployeeById(after, other) == EmployeeById(users, other))
  {
    DeletedIdGone(users, id);
    if other != id {
      DeleteKeepsOther(users, id, other);
    }
  }

  /** Only the user with the id is removed, so the id is absent afterwards. */
  lemma DeletedIdGone(users: seq<User>, id: nat)
    requires DistinctIds(users)
    ensures forall k :: 0 <= k < |Delete(users, id).users| ==> Delete(users, id).users[k].id != id
  {
    var i := IndexOfId(users, id);
    var after := Delete(users, id).users;
    if i >= 0 {
      forall k | 0 <= k < |after| ensures after[k].id != id {
        RemoveAtIndex(users, i, k);
      }
    }
  }

  /** Another id is found after the deletion exactly as before. */
  lemma DeleteKeepsOther(users: seq<User>, id: nat, other: nat)
    requires DistinctIds(users)
    requires other != id
    ensures EmployeeById(Delete(users, id).users, other) == EmployeeById(users, other)
  {
    var i := IndexOfId(users, id);
    if i >= 0 {
      RemoveAtFindsOther(users, i, other);
    }
  }

  /** Removing the user at `i` moves another id's user but still finds that same user. */
  lemma RemoveAtFindsOther(users: seq<User>, i: nat, other: nat)
    requires DistinctIds(users) && i < |users| && users[i].id != other
    ensures var after := users[..i] + users[i + 1..];
      var j := IndexOfId(users, other);
      var m := IndexOfId(after, other);
      (j < 0 <==> m < 0) && (j >= 0 ==> after[m] == users[j])
  {
    var after := users[..i] + users[i + 1..];
    var j := IndexOfId(users, other);
    if j >= 0 {
      var m := if j < i then j else j - 1;
      RemoveAtIndex(users, i, m);
      RemoveAtKeepsDistinct(users, i);
      IndexOfDistinctId(after, m);
    } else {
      forall k | 0 <= k < |after| ensures after[k].id != other {
        RemoveAtIndex(users, i, k);
      }
    }
  }

  /**
   * `resetPassword`: the password becomes the first name again, not temporary, and
   * the stored password attribute follows; the credentials returned report the
   * login name and that password.
   */
  function ResetPassword(users: seq<User>, id: nat): (o: Outcome<Credentials>)
    ensures o.result.Err? <==> forall i :: 0 <= i < |users| ==> users[i].id != id
    ensures o.result.Err? ==> o == Outcome(Err(EmployeeNotFound(IdText(id))), users)
    ensures |o.users| == |users|
    ensures forall i :: 0 <= i < |users| && users[i].id != id ==> o.users[i] == users[i]
    ensures forall i :: 0 <= i < |users| ==> o.users[i].id == users[i].id
    ensures o.result.Ok? ==> var u := users[IndexOfId(users, id)];
      o.result.value == Credentials(id, DisplayName(u.firstName, u.lastName), u.email, UserRole(u.roles),
                                    u.enabled, u.username, u.firstName)
  {
    var i := IndexOfId(users, id);
    if i < 0 then Outcome(Err(EmployeeNotFound(IdText(id))), users)
    else
      var u := users[i];
      var reset := u.(password := u.firstName, temporaryPassword := false,
                      attributes := u.attributes["original_password" := u.firstName]);
      Outcome(Ok(Credentials(u.id, DisplayName(u.firstName, u.lastName), u.email, UserRole(u.roles), u.enabled,
                             u.username, u.firstName)),
              users[i := reset])
  }

  /** After a reset, the credentials query reports the login name and the first name as the password. */
  lemma ResetThenCredentials(users: seq<User>, id: nat)
    requires IndexOfId(users, id) >= 0
    ensures var u := users[IndexOfId(users, id)];
      EmployeeCredentials(ResetPassword(users, id).users, id).Ok? &&
      EmployeeCredentials(ResetPassword(users, id).users, id).value.password == u.firstName &&
      EmployeeCredentials(ResetPassword(users, id).users, id).value.username ==
        AttributeOr(u, "original_username", u.username)
  {
    var i := IndexOfId(users, id);
    var after := ResetPassword(users, id).users;
    IndexOfIdUnchanged(users, after, id);
    assert EmployeeCredentials(after, id) == Ok(CredentialsOf(after[i]));
  }

  /** Resetting twice is the same as resetting once. */
  lemma ResetIdempotent(users: seq<User>, id: nat)
    ensures var after := ResetPassword(users, id).users;
      ResetPassword(after, id).users == after
  {
    var i := IndexOfId(users, id);
    if i >= 0 {
      var after := ResetPassword(users, id).users;
      IndexOfIdUnchanged(users, after, id);
      var v := after[i];
      assert v.attributes["original_password" := v.firstName] == v.attributes;
      assert v.(password := v.firstName, temporaryPassword := false,
                attributes := v.attributes["original_password" := v.firstName]) == v;
    }
  }

  /** The lookup by id only depends on the ids. */
  lemma {:induction false} IndexOfIdUnchanged(a: seq<User>, b: seq<User>, id: nat)
    requires |a| == |b| && forall i :: 0 <= i < |a| ==> a[i].id == b[i].id
    ensures IndexOfId(a, id) == IndexOfId(b, id)
  {
    if a != [] {
      IndexOfIdUnchanged(a[..|a| - 1], b[..|b| - 1], id);
    }
  }

  // ---------------------------------------------------------------- the realm

  /** Distinct ids, all below the next id the provider hands out. */
  predicate IdsBelow(users: seq<User>, nextId: nat)
  {
    DistinctIds(users) && forall i :: 0 <= i < |users| ==> users[i].id < nextId
  }

  /** A user with the next id, added at the end, keeps the ids distinct and below the next one. */
  lemma AppendKeepsIdsBelow(users: seq<User>, nextId: nat, u: User)
    requires IdsBelow(users, nextId) && u.id == nextId
    ensures IdsBelow(users + [u], nextId + 1)
  {
  }

  /** The realm's users, changed in place by the service's operations. */
  class Realm {
    var users: seq<User>
    var nextId: nat

    ghost predicate Valid()
      reads this
    {
      IdsBelow(users, nextId)
    }

    constructor()
      ensures Valid() && users == [] && nextId == 0
    {
      users := [];
      nextId := 0;
    }

    /** `createEmployee`, in the order the service does its steps. */
    method CreateEmployee(employee: Employee, status: int, reason: string) returns (r: Result<Employee, EmployeeException>)
      requires Valid()
      modifies this`users, this`nextId
      ensures Valid()
      ensures Outcome(r, users) == Create(old(users), old(nextId), employee, status, reason)
      ensures nextId == if users == old(users) then old(nextId) else old(nextId) + 1
    {
      var (first, last) := SplitName(employee.name);
      var username := RemoveVietnameseAccents(LowerName(first));
      if HasUsername(users, username) {
        return Err(DuplicateUsername(username));
      }
      if IndexOfEmail(users, employee.email) >= 0 {
        return Err(DuplicateEmail(employee.email));
      }
      if status != 201 {
        if status == 409 {
          return Err(DuplicateUsername(username));
        }
        return Err(EmployeeCreation(reason));
      }
      var user := NewUser(nextId, username, employee.email, first, last);
      var before := users;
      AppendKeepsIdsBelow(before, nextId, user);
      users := users + [user];
      nextId := nextId + 1;
      if employee.role.Some? && employee.role.value != "" {
        if employee.role.value !in VALID_ROLES {
          return Err(InvalidRole(employee.role.value));
        }
        user := user.(roles := WithRole(user.roles, employee.role.value));
      }
      user := Stamped(user, username, first);
      AppendKeepsIdsBelow(before, nextId - 1, user);
      users := before + [user];
      r := Ok(employee.(id := Some(user.id)));
    }

    /** `updateEmployee`, in the order the service does its steps. */
    method UpdateEmployee(id: nat, employee: Employee) returns (r: Result<Employee, EmployeeException>)
      requires Valid()
      modifies this`users
      ensures Valid()
      ensures Outcome(r, users) == Update(old(users), id, employee)
    {
      var i := IndexOfId(users, id);
      if i < 0 {
        return Err(EmployeeNotFound(IdText(id)));
      }
      var user := users[i];
      var taken := EmailTaken(i, id, employee.email);
      if taken {
        return Err(EmployeeUpdate(employee.email));
      }
      UpdateWritten(users, id, employee, i);
      var renamed := Renamed(user, employee);
      users := users[i := renamed];
      var current := GetUserRole(user.roles);
      if Some(current) != employee.role {
        if !IsValidRole(employee.role) {
          return Err(EmployeeUpdate(RoleText(employee.role)));
        }
        users := users[i := renamed.(roles := Reassigned(user.roles, current, employee.role.value))];
      }
      r := Ok(employee);
    }

    /** The update's email check: a changed email that the search finds on another user first. */
    method EmailTaken(i: nat, id: nat, email: string) returns (taken: bool)
      requires i < |users|
      ensures taken == EmailTakenByOther(users, i, id, email)
    {
      taken := false;
      if users[i].email != email {
        var j := IndexOfEmail(users, email);
        taken := j >= 0 && users[j].id != id;
      }
    }

    /** `deleteEmployee`. */
    method DeleteEmployee(id: nat) returns (r: Result<(), EmployeeException>)
      requires Valid()
      modifies this`users
      ensures Valid()
      ensures Outcome(r, users) == Delete(old(users), id)
    {
      var i := IndexOfId(users, id);
      if i < 0 {
        return Ok(());
      }
      RemoveAtKeepsDistinct(users, i);
      ghost var before := users;
      users := users[..i] + users[i + 1..];
      r := Ok(());
      forall k | 0 <= k < |users| ensures users[k].id < nextId {
        RemoveAtIndex(before, i, k);
      }
    }

    /** `resetPassword`. */
    method ResetUserPassword(id: nat) returns (r: Result<Credentials, EmployeeException>)
      requires Valid()
      modifies this`users
      ensures Valid()
      ensures Outcome(r, users) == ResetPassword(old(users), id)
    {
      var i := IndexOfId(users, id);
      if i < 0 {
        return Err(EmployeeNotFound(IdText(id)));
      }
      var user := users[i];
      var reset := user.(password := user.firstName, temporaryPassword := false);
      reset := reset.(attributes := reset.attributes["original_password" := user.firstName]);
      users := users[i := reset];
      var role := GetUserRole(user.roles);
      r := Ok(Credentials(user.id, DisplayName(user.firstName, user.lastName), user.email, role, user.enabled,
                          user.username, user.firstName));
    }
  }
}

=== FILE: grouping.dfy ===
/**
 * Keyed running totals: Java's `HashMap.merge(key, value, add)` and
 * `Collectors.groupingBy(key, counting())`. A map is modelled as a list of entries
 * with distinct keys, kept in the order the keys were first inserted.
 */
module Grouping {
  import Sequences

  datatype Entry<K> = Entry(key: K, value: int)

  function Keys<K>(b: seq<Entry<K>>): (ks: seq<K>)
    ensures |ks| == |b|
    ensures forall i :: 0 <= i < |b| ==> ks[i] == b[i].key
  {
    if b == [] then [] else [b[0].key] + Keys(b[1..])
  }

  predicate Distinct<K(==,!new)>(ks: seq<K>)
  {
    forall i, j :: 0 <= i < j < |ks| ==> ks[i] != ks[j]
  }

  /** `map.getOrDefault(k, 0)`. */
  function Lookup<K(==,!new)>(b: seq<Entry<K>>, k: K): int
  {
    if b == [] then 0 else if b[0].key == k then b[0].value else Lookup(b[1..], k)
  }

  /** The sum of all values. */
  function Total<K>(b: seq<Entry<K>>): int
  {
    if b == [] then 0 else b[0].value + Total(b[1..])
  }

  /**
   * `map.merge(k, a, add)`: adds `a` to the value under `k`, or inserts `k` with
   * value `a` when it is absent.
   */
  function MergeInto<K(==,!new)>(b: seq<Entry<K>>, k: K, a: int): (r: seq<Entry<K>>)
    ensures Keys(r) == if k in Keys(b) then Keys(b) else Keys(b) + [k]
  {
    if b == [] then [Entry(k, a)]
    else if b[0].key == k then [Entry(k, b[0].value + a)] + b[1..]
    else [b[0]] + MergeInto(b[1..], k, a)
  }

  /** A merge adds `a` under `k` and to the total, and leaves every other key's value alone. */
  lemma {:induction false} MergeValues<K(!new)>(b: seq<Entry<K>>, k: K, a: int)
    ensures Total(MergeInto(b, k, a)) == Total(b) + a
    ensures forall j :: Lookup(MergeInto(b, k, a), j) == Lookup(b, j) + (if j == k then a else 0)
  {
    if b != [] && b[0].key != k {
      MergeValues(b[1..], k, a);
    }
  }

  /** Appending a new key keeps the keys distinct. */
  lemma DistinctAppend<K(!new)>(ks: seq<K>, k: K)
    requires Distinct(ks) && k !in ks
    ensures Distinct(ks + [k])
  {
  }

  /** Merging every element of `s`, in order, into `b`. */
  function Fold<T, K(==,!new)>(b: seq<Entry<K>>, s: seq<T>, key: T -> K, val: T -> int): seq<Entry<K>>
  {
    if s == [] then b
    else MergeInto(Fold(b, s[..|s| - 1], key, val), key(s[|s| - 1]), val(s[|s| - 1]))
  }

  predicate HasKey<T, K(==,!new)>(key: K, f: T -> K, x: T)
  {
    f(x) == key
  }

  /**
   * After the merges, the value under each key is its starting value plus the sum
   * over the elements with that key, and all values together grew by the sum over
   * all elements.
   */
  lemma {:induction false} FoldValues<T(!new), K(!new)>(b: seq<Entry<K>>, s: seq<T>, key: T -> K, val: T -> int)
    ensures Total(Fold(b, s, key, val)) == Total(b) + Sequences.SumOf(s, val)
    ensures forall j :: (Lookup(Fold(b, s, key, val), j) ==
      Lookup(b, j) + Sequences.SumOf(Sequences.Filter(s, (x: T) => HasKey(j, key, x)), val))
  {
    if s != [] {
      var init := s[..|s| - 1];
      var last := s[|s| - 1];
      assert s == init + [last];
      FoldValues(b, init, key, val);
      MergeValues(Fold(b, init, key, val), key(last), val(last));
      forall j
        ensures Lookup(Fold(b, s, key, val), j) ==
          Lookup(b, j) + Sequences.SumOf(Sequences.Filter(s, (x: T) => HasKey(j, key, x)), val)
      {
        var p := (x: T) => HasKey(j, key, x);
        Sequences.FilterAppend(init, [last], p);
        Sequences.SumOfAppend(Sequences.Filter(init, p), Sequences.Filter([last], p), val);
        assert Sequences.Filter([last], p) == if p(last) then [last] else [];
      }
    }
  }

  /** The keys of the result: the starting keys and the keys of the merged elements. */
  lemma {:induction false} FoldKeySet<T(!new), K(!new)>(b: seq<Entry<K>>, s: seq<T>, key: T -> K, val: T -> int)
    ensures forall j :: j in Keys(Fold(b, s, key, val)) <==> j in Keys(b) || exists i :: 0 <= i < |s| && key(s[i]) == j
  {
    if s != [] {
      FoldKeySet(b, s[..|s| - 1], key, val);
      assert forall i :: 0 <= i < |s| - 1 ==> s[..|s| - 1][i] == s[i];
    }
  }

  /** Merging never repeats a key. */
  lemma {:induction false} FoldDistinct<T, K(!new)>(b: seq<Entry<K>>, s: seq<T>, key: T -> K, val: T -> int)
    requires Distinct(Keys(b))
    ensures Distinct(Keys(Fold(b, s, key, val)))
  {
    if s != [] {
      var prev := Fold(b, s[..|s| - 1], key, val);
      FoldDistinct(b, s[..|s| - 1], key, val);
      if key(s[|s| - 1]) !in Keys(prev) {
        DistinctAppend(Keys(prev), key(s[|s| - 1]));
      }
    }
  }

  /** When every merged key is already present, the keys stay exactly as they were. */
  lemma {:induction false} FoldKeepsKeys<T(!new), K(!new)>(b: seq<Entry<K>>, s: seq<T>, key: T -> K, val: T -> int)
    requires forall i :: 0 <= i < |s| ==> key(s[i]) in Keys(b)
    ensures Keys(Fold(b, s, key, val)) == Keys(b)
  {
    if s != [] {
      FoldKeepsKeys(b, s[..|s| - 1], key, val);
    }
  }

  /** The keys do not depend on the values merged. */
  lemma {:induction false} FoldKeysIgnoreValues<T, K(!new)>(b: seq<Entry<K>>, s: seq<T>, key: T -> K, v1: T -> int, v2: T -> int)
    ensures Keys(Fold(b, s, key, v1)) == Keys(Fold(b, s, key, v2))
  {
    if s != [] {
      FoldKeysIgnoreValues(b, s[..|s| - 1], key, v1, v2);
    }
  }

  /** With distinct keys, the value stored at an entry is what a lookup of its key returns. */
  lemma {:induction false} LookupAt<K(!new)>(b: seq<Entry<K>>, i: nat)
    requires i < |b| && Distinct(Keys(b))
    ensures Lookup(b, b[i].key) == b[i].value
  {
    if i > 0 {
      assert Keys(b)[0] != Keys(b)[i];
      assert Keys(b[1..]) == Keys(b)[1..];
      LookupAt(b[1..], i - 1);
    }
  }

  /** The entries' values in order: the same total as `Total`. */
  lemma {:induction false} TotalIsSum<K>(b: seq<Entry<K>>)
    ensures Total(b) == Sequences.SumOf(b, (e: Entry<K>) => e.value)
  {
    if b != [] {
      TotalIsSum(b[1..]);
      assert b == [b[0]] + b[1..];
      Sequences.SumOfAppend([b[0]], b[1..], (e: Entry<K>) => e.value);
      assert Sequences.SumOf([b[0]], (e: Entry<K>) => e.value) == b[0].value by {
        assert [b[0]][..0] == [];
      }
    }
  }

  /** Counting: a sum of ones is the length. */
  lemma {:induction false} SumOfOnes<T(!new)>(s: seq<T>, one: T -> int)
    requires forall x :: one(x) == 1
    ensures Sequences.SumOf(s, one) == |s|
  {
    if s != [] {
      SumOfOnes(s[..|s| - 1], one);
    }
  }

  /**
   * Grouping from nothing: each entry holds the sum over the elements with its key,
   * and its key is the key of some element.
   */
  lemma TallyAt<T(!new), K(!new)>(s: seq<T>, key: T -> K, val: T -> int, i: nat)
    requires i < |Fold([], s, key, val)|
    ensures var b := Fold([], s, key, val);
      b[i].value == Sequences.SumOf(Sequences.Filter(s, (x: T) => HasKey(b[i].key, key, x)), val) &&
      exists k :: 0 <= k < |s| && key(s[k]) == b[i].key
  {
    var b := Fold([], s, key, val);
    FoldDistinct([], s, key, val);
    FoldValues([], s, key, val);
    FoldKeySet([], s, key, val);
    LookupAt(b, i);
    assert Keys(b)[i] in Keys(b);
  }

  /** Grouping from nothing gives every element's key an entry. */
  lemma TallyCovers<T(!new), K(!new)>(s: seq<T>, key: T -> K, val: T -> int, k: nat)
    requires k < |s|
    ensures key(s[k]) in Keys(Fold([], s, key, val))
  {
    FoldKeySet([], s, key, val);
  }

  /** Grouping from nothing lists the keys in the order they are first met. */
  lemma {:induction false} FoldKeysFirstSeen<T, K(!new)>(s: seq<T>, key: T -> K, val: T -> int)
    ensures Keys(Fold([], s, key, val)) == DistinctKeys(s, key)
  {
    if s != [] {
      FoldKeysFirstSeen(s[..|s| - 1], key, val);
    }
  }

  /** A list with no repeated element holds each value at most once. */
  lemma {:induction false} DistinctCount<K(!new)>(s: seq<K>, x: K)
    requires Distinct(s)
    ensures multiset(s)[x] <= 1
  {
    if s != [] {
      assert s == [s[0]] + s[1..];
      DistinctCount(s[1..], x);
      if s[0] == x {
        assert x !in s[1..];
      }
    }
  }

  /** Reordering a list with no repeated element gives one with no repeated element. */
  lemma DistinctPermutation<K(!new)>(a: seq<K>, b: seq<K>)
    requires Distinct(a) && multiset(a) == multiset(b)
    ensures Distinct(b)
  {
    forall i, j | 0 <= i < j < |b| ensures b[i] != b[j] {
      if b[i] == b[j] {
        var x := b[i];
        assert b == b[..j] + [b[j]] + b[j + 1..];
        assert x in b[..j];
        assert multiset(b)[x] >= 2 by {
          assert multiset(b) == multiset(b[..j]) + multiset{x} + multiset(b[j + 1..]);
        }
        DistinctCount(a, x);
      }
    }
  }

  /** The distinct values of `key` over `s`, in order of first appearance. */
  function DistinctKeys<T, K(==,!new)>(s: seq<T>, key: T -> K): (ks: seq<K>)
    ensures Distinct(ks)
    ensures forall k :: k in ks <==> exists i :: 0 <= i < |s| && key(s[i]) == k
  {
    if s == [] then []
    else
      var init := DistinctKeys(s[..|s| - 1], key);
      assert forall i :: 0 <= i < |s| - 1 ==> s[..|s| - 1][i] == s[i];
      if key(s[|s| - 1]) in init then init else init + [key(s[|s| - 1])]
  }
}

=== FILE: http_client.dfy ===
/**
 * The shared HTTP client (`axios.js`): a request interceptor that attaches the
 * bearer token, and a response interceptor that refreshes the token and replays a
 * request once after a 401. The server is an oracle giving the reply to each attempt.
 */
module HttpClient {
  import opened Wrappers
  import opened IdentityClient

  /** A server reply: a success, or an error with the status of its response (`None`: no response). */
  datatype Reply = Success(code: int) | Failure(status: Option<int>)

  /** How a call settles: with a reply, or rejected with the reply's error or the refresh error. */
  datatype Outcome = Resolved(reply: Reply) | Rejected(error: CallError)

  datatype CallError = ResponseError(reply: Reply) | RefreshError

  /** `error.response?.status === 401`. */
  predicate IsUnauthorized(reply: Reply)
  {
    reply.Failure? && reply.status == Some(401)
  }

  /** `Bearer ${token}`: a missing token prints as `undefined`. */
  function BearerValue(token: Option<string>): (v: string)
    ensures token.Some? ==> v == "Bearer " + token.value
  {
    "Bearer " + (if token.Some? then token.value else "undefined")
  }

  /** The headers after the request interceptor: the bearer header only when the token is truthy. */
  function WithToken(headers: map<string, string>, token: Option<string>): (h: map<string, string>)
    ensures TokenTruthy(token) ==> h == headers["Authorization" := "Bearer " + token.value]
    ensures !TokenTruthy(token) ==> h == headers
    ensures forall k :: k != "Authorization" ==> (k in h <==> k in headers)
  {
    if TokenTruthy(token) then headers["Authorization" := BearerValue(token)] else headers
  }

  /** A request's config object, which the interceptors change in place. */
  class RequestConfig {
    var headers: map<string, string>
    /** `_retry`. */
    var retry: bool

    constructor (headers: map<string, string>)
      ensures this.headers == headers && !retry
    {
      this.headers := headers;
      retry := false;
    }
  }

  /** The client instance, bound to the identity client, with the headers of every request sent. */
  class Api {
    const kc: Keycloak
    var sent: seq<map<string, string>>

    constructor (kc: Keycloak)
      ensures this.kc == kc && sent == []
    {
      this.kc := kc;
      sent := [];
    }

    /** The request interceptor. */
    method AttachToken(config: RequestConfig)
      modifies config`headers
      ensures config.headers == WithToken(old(config.headers), kc.token)
    {
      if TokenTruthy(kc.token) {
        config.headers := config.headers["Authorization" := BearerValue(kc.token)];
      }
    }

    /**
     * `api(config)` as attempt number `attempt`: the request goes out through the
     * request interceptor and its reply through the response interceptor. A success
     * resolves; a 401 on a request not yet retried marks it retried and refreshes the
     * token, replaying once with the new header, or signing out and rejecting with
     * the refresh error; any other error rejects with itself.
     */
    method Send(config: RequestConfig, server: nat -> Reply, refresh: RefreshOutcome, attempt: nat)
      returns (r: Outcome, attempts: nat)
      modifies this`sent, config, kc`token, kc`logoutRequests
      decreases if config.retry then 0 else 1
      ensures 1 <= attempts <= 2
      ensures |sent| == |old(sent)| + attempts && sent[..|old(sent)|] == old(sent)
      ensures sent[|old(sent)|] == WithToken(old(config.headers), old(kc.token))
      ensures config.retry == (old(config.retry) || IsUnauthorized(server(attempt)))
      ensures var first := server(attempt);
        first.Success? ==> r == Resolved(first) && attempts == 1 && unchanged(kc)
      ensures var first := server(attempt);
        first.Failure? && (!IsUnauthorized(first) || old(config.retry)) ==>
          r == Rejected(ResponseError(first)) && attempts == 1 && unchanged(kc)
      ensures IsUnauthorized(server(attempt)) && !old(config.retry) && refresh.RefreshFailed? ==>
        r == Rejected(RefreshError) && attempts == 1 &&
        kc.token == old(kc.token) && kc.logoutRequests == old(kc.logoutRequests) + 1
      ensures IsUnauthorized(server(attempt)) && !old(config.retry) && refresh.Refreshed? ==>
        var replay := server(attempt + 1);
        attempts == 2 && kc.token == Some(refresh.token) && kc.logoutRequests == old(kc.logoutRequests) &&
        "Authorization" in sent[|old(sent)| + 1] &&
        sent[|old(sent)| + 1]["Authorization"] == "Bearer " + refresh.token &&
        r == (if replay.Success? then Resolved(replay) else Rejected(ResponseError(replay)))
    {
      AttachToken(config);
      sent := sent + [config.headers];
      var reply := server(attempt);
      if reply.Success? {
        return Resolved(reply), 1;
      }
      if IsUnauthorized(reply) && !config.retry {
        config.retry := true;
        var ok := kc.UpdateToken(refresh);
        if ok {
          config.headers := config.headers["Authorization" := BearerValue(kc.token)];
          ghost var before := sent;
          var replayed;
          r, replayed := Send(config, server, refresh, attempt + 1);
          assert sent[|before|] == sent[|old(sent)| + 1];
          attempts := 2;
        } else {
          kc.Logout();
          r, attempts := Rejected(RefreshError), 1;
        }
        return;
      }
      r, attempts := Rejected(ResponseError(reply)), 1;
    }
  }

  /**
   * However the server and the refresh answer, one call sends at most two requests;
   * a second 401 is rejected as it is, without another refresh.
   */
  method AtMostOneReplay(kc: Keycloak, headers: map<string, string>, server: nat -> Reply,
                         refresh: RefreshOutcome) returns (api: Api, r: Outcome)
    modifies kc`token, kc`logoutRequests
    ensures |api.sent| <= 2
    ensures IsUnauthorized(server(0)) && IsUnauthorized(server(1)) && refresh.Refreshed? ==>
      r == Rejected(ResponseError(server(1)))
  {
    api := new Api(kc);
    var config := new RequestConfig(headers);
    var attempts;
    r, attempts := api.Send(config, server, refresh, 0);
  }
}

=== FILE: identity_client.dfy ===
/**
 * The shared identity-provider client (`keycloak.js`): a library singleton whose
 * `init` is wrapped by a guard flag so that the library's own initialisation runs
 * at most once per page load. The library internals (token issuance, the login
 * redirect, the logout redirect) are left to oracle outcomes passed in.
 */
module IdentityClient {
  import opened Wrappers

  /** A role claim (`realm_access` or one `resource_access` entry); `roles` may be missing. */
  datatype Access = Access(roles: Option<seq<string>>)

  /** What a successful sign-in hands the client: the token and its role claims. */
  datatype Grant = Grant(token: string, realmAccess: Option<Access>, resourceAccess: Option<map<string, Access>>)

  /** How the library's own `init` settles: resolved signed in, resolved signed out, or rejected. */
  datatype InitOutcome = SignedIn(grant: Grant) | SignedOut | InitFailed

  /** What a call to the guarded `init` returns at once. */
  datatype InitCall =
    | Delegated                      // the library's `init` was entered; its outcome arrives later
    | Skipped(authenticated: bool)   // already initialised: resolves to the current `authenticated`

  /** How `updateToken` settles. */
  datatype RefreshOutcome = Refreshed(token: string) | RefreshFailed

  /** JavaScript truthiness of the `token` property: present and non-empty. */
  predicate TokenTruthy(token: Option<string>)
  {
    token.Some? && token.value != ""
  }

  class Keycloak {
    const clientId: string
    /** `_isInitialized`. */
    var initFlag: bool
    /** How many times the library's own `init` has been entered. */
    var providerInits: nat
    var authenticated: bool
    var token: Option<string>
    var realmAccess: Option<Access>
    var resourceAccess: Option<map<string, Access>>
    /** Calls of `login()` and `logout()`, each of which sends the browser to the provider. */
    var loginRequests: nat
    var logoutRequests: nat

    /** The library is entered exactly once the guard flag is set, never more. */
    ghost predicate Valid()
      reads this
    {
      providerInits == (if initFlag then 1 else 0)
    }

    /** The singleton as the module creates it: `_isInitialized` starts false. */
    constructor (clientId: string)
      ensures Valid()
      ensures this.clientId == clientId && !initFlag && providerInits == 0
      ensures !authenticated && token == None && realmAccess == None && resourceAccess == None
      ensures loginRequests == 0 && logoutRequests == 0
    {
      this.clientId := clientId;
      initFlag := false;
      providerInits := 0;
      authenticated := false;
      token := None;
      realmAccess := None;
      resourceAccess := None;
      loginRequests := 0;
      logoutRequests := 0;
    }

    /**
     * The overridden `init`. The first call sets the flag and then enters the
     * library; every later call skips the library and resolves to `authenticated`.
     */
    method Init() returns (r: InitCall)
      requires Valid()
      modifies this`initFlag, this`providerInits
      ensures Valid()
      ensures r == (if old(initFlag) then Skipped(authenticated) else Delegated)
      ensures initFlag && providerInits == 1
    {
      if initFlag {
        r := Skipped(authenticated);
      } else {
        initFlag := true;
        providerInits := providerInits + 1;
        r := Delegated;
      }
    }

    /** The library's own `init` settles; on a rejection the client state and the flag stay as they are. */
    method LibraryInitSettled(outcome: InitOutcome)
      modifies this`authenticated, this`token, this`realmAccess, this`resourceAccess
      ensures outcome.InitFailed? ==> unchanged(this)
      ensures outcome.SignedOut? ==>
        (!authenticated && token == old(token) &&
         realmAccess == old(realmAccess) && resourceAccess == old(resourceAccess))
      ensures outcome.SignedIn? ==>
        (authenticated && token == Some(outcome.grant.token) &&
         realmAccess == outcome.grant.realmAccess && resourceAccess == outcome.grant.resourceAccess)
    {
      match outcome {
        case SignedIn(g) =>
          authenticated := true;
          token := Some(g.token);
          realmAccess := g.realmAccess;
          resourceAccess := g.resourceAccess;
        case SignedOut =>
          authenticated := false;
        case InitFailed =>
      }
    }

    /** `updateToken(minValidity)`: resolves with a fresh token, or rejects leaving the token as it was. */
    method UpdateToken(outcome: RefreshOutcome) returns (ok: bool)
      modifies this`token
      ensures ok == outcome.Refreshed?
      ensures token == (if ok then Some(outcome.token) else old(token))
    {
      ok := outcome.Refreshed?;
      if ok {
        token := Some(outcome.token);
      }
    }

    /** `login()`: a redirect to the provider's sign-in page. */
    method Login()
      modifies this`loginRequests
      ensures loginRequests == old(loginRequests) + 1
    {
      loginRequests := loginRequests + 1;
    }

    /** `logout()`: a redirect to the provider's sign-out endpoint. */
    method Logout()
      modifies this`logoutRequests
      ensures logoutRequests == old(logoutRequests) + 1
    {
      logoutRequests := logoutRequests + 1;
    }
  }

  /**
   * However many times `init` is called, and however the library's own `init`
   * settles, the library is entered at most once: a retry after a rejected
   * initialisation resolves to the current `authenticated` without reaching it.
   */
  method InitTwiceAfterFailure(clientId: string) returns (kc: Keycloak, first: InitCall, second: InitCall)
    ensures first == Delegated && second == Skipped(false)
    ensures kc.providerInits == 1 && kc.initFlag && !kc.authenticated
  {
    kc := new Keycloak(clientId);
    first := kc.Init();
    kc.LibraryInitSettled(InitFailed);
    second := kc.Init();
  }
}

=== FILE: inventory_listing.dfy ===
/**
 * The inventory listing both inventory services build: one response per stored row,
 * named and priced from the product service when it answers, then sorted by the
 * requested key (`name` case-insensitively, `quantity`, or product id) and reversed
 * when the direction is `desc` in any letter case. The comparator switch is written
 * the same way in both `InventoryService.java` files.
 */
module InventoryListing {
  import opened Wrappers
  import Text
  import Ordering

  /** `InventoryResponse`; name and price stay missing when the product service answers nothing. */
  datatype InventoryResponse = InventoryResponse(
    productId: string, productName: Option<string>, price: Option<int>, quantity: int)

  /** What the product service returns for one product id. */
  datatype ProductInfo = ProductInfo(name: Option<string>, price: Option<int>)

  /** The comparator the `switch (sortBy)` selects. */
  datatype SortKey = ByName | ByQuantity | ByProductId

  /** Sorting by a name that is missing: `String.CASE_INSENSITIVE_ORDER` throws. */
  datatype ListingError = NullProductName

  function KeyFor(sortBy: string): (k: SortKey)
    ensures k == ByName <==> sortBy == "name"
    ensures k == ByQuantity <==> sortBy == "quantity"
    ensures k == ByProductId <==> sortBy != "name" && sortBy != "quantity"
  {
    if sortBy == "name" then ByName
    else if sortBy == "quantity" then ByQuantity
    else ByProductId
  }

  /** `"desc".equalsIgnoreCase(direction)`; a missing direction is not `desc`. */
  predicate IsDesc(direction: Option<string>)
  {
    direction.Some? && Text.Lower(direction.value) == "desc"
  }

  function NameKey(r: InventoryResponse): string
  {
    Text.Lower(r.productName.GetOr(""))
  }

  /** The ascending order of each key. */
  function KeyLe(k: SortKey): (InventoryResponse, InventoryResponse) -> bool
  {
    match k
    case ByName => (a: InventoryResponse, b: InventoryResponse) => Ordering.StrLe(NameKey(a), NameKey(b))
    case ByQuantity => (a: InventoryResponse, b: InventoryResponse) => a.quantity <= b.quantity
    case ByProductId => (a: InventoryResponse, b: InventoryResponse) => Ordering.StrLe(a.productId, b.productId)
  }

  /** The comparator after the optional `reversed()`. */
  function Comparator(k: SortKey, desc: bool): (InventoryResponse, InventoryResponse) -> bool
  {
    if desc then Ordering.Reversed(KeyLe(k)) else KeyLe(k)
  }

  lemma ComparatorTotal(k: SortKey, desc: bool)
    ensures Ordering.TotalPreorder(Comparator(k, desc))
  {
    match k
    case ByName => Ordering.StrKeyTotalPreorder(KeyLe(k), NameKey);
    case ByQuantity => Ordering.IntKeyTotalPreorder(KeyLe(k), (r: InventoryResponse) => r.quantity);
    case ByProductId => Ordering.StrKeyTotalPreorder(KeyLe(k), (r: InventoryResponse) => r.productId);
    if desc {
      Ordering.ReversedTotalPreorder(KeyLe(k));
    }
  }

  /**
   * A sort compares every element when there are two or more, so a name sort throws
   * exactly when two or more rows are listed and one of them has no name.
   */
  predicate SortThrows(rows: seq<InventoryResponse>, sortBy: string)
  {
    KeyFor(sortBy) == ByName && |rows| >= 2 && exists i :: 0 <= i < |rows| && rows[i].productName.None?
  }

  /** `responses.stream().sorted(comparator).toList()`. */
  function SortListing(rows: seq<InventoryResponse>, sortBy: string, direction: Option<string>)
    : (r: Result<seq<InventoryResponse>, ListingError>)
    ensures r.Err? <==> SortThrows(rows, sortBy)
    ensures r.Ok? ==> multiset(r.value) == multiset(rows)
    ensures r.Ok? ==> Ordering.SortedBy(r.value, Comparator(KeyFor(sortBy), IsDesc(direction)))
  {
    if SortThrows(rows, sortBy) then Err(NullProductName)
    else
      ComparatorTotal(KeyFor(sortBy), IsDesc(direction));
      Ok(Ordering.SortBy(rows, Comparator(KeyFor(sortBy), IsDesc(direction))))
  }

  /** Sorting by quantity lists ascending quantities, or descending ones for `desc`. */
  lemma QuantityOrder(rows: seq<InventoryResponse>, direction: Option<string>)
    ensures var r := SortListing(rows, "quantity", direction);
      r.Ok? &&
      forall i, j :: 0 <= i < j < |r.value| ==>
        if IsDesc(direction) then r.value[i].quantity >= r.value[j].quantity
        else r.value[i].quantity <= r.value[j].quantity
  {
  }

  /**
   * Only `desc`, in any letter case, reverses: every other direction, a missing one
   * included, gives the same listing as no direction at all.
   */
  lemma OnlyDescReverses(rows: seq<InventoryResponse>, sortBy: string, direction: Option<string>)
    requires !IsDesc(direction)
    ensures SortListing(rows, sortBy, direction) == SortListing(rows, sortBy, None)
  {
  }

  /** `equalsIgnoreCase("desc")`: any letter case of "desc" reverses. */
  lemma DescInAnyCase()
    ensures IsDesc(Some("desc")) && IsDesc(Some("DESC")) && IsDesc(Some("Desc"))
  {
    assert Text.Lower("desc") == "desc";
    assert Text.Lower("DESC") == "desc";
    assert Text.Lower("Desc") == "desc";
  }

  /** Any other direction, or none, does not reverse. */
  lemma OtherDirectionsAscend()
    ensures !IsDesc(Some("asc")) && !IsDesc(Some("descending")) && !IsDesc(None)
  {
    assert |Text.Lower("asc")| == 3;
    assert |Text.Lower("descending")| == 10;
  }

  /** The response built for one row: the product's name and price when the lookup answered. */
  function Fill(productId: string, quantity: int, product: Option<ProductInfo>): (r: InventoryResponse)
    ensures r.productId == productId && r.quantity == quantity
    ensures product.None? ==> r.productName.None? && r.price.None?
    ensures product.Some? ==> r.productName == product.value.name && r.price == product.value.price
  {
    match product
    case None => InventoryResponse(productId, None, None, quantity)
    case Some(p) => InventoryResponse(productId, p.name, p.price, quantity)
  }

  /** What a stored inventory row contributes to a listing. */
  datatype StockItem = StockItem(productId: string, quantity: int)

  /** The `map` step of the stream: one response per row, in row order. */
  function Listing(items: seq<StockItem>, lookup: string -> Option<ProductInfo>): (r: seq<InventoryResponse>)
    ensures |r| == |items|
    ensures forall i :: 0 <= i < |items| ==>
      r[i].productId == items[i].productId && r[i].quantity == items[i].quantity &&
      (lookup(items[i].productId).None? ==> r[i].productName.None? && r[i].price.None?)
  {
    if items == [] then []
    else
      var last := items[|items| - 1];
      Listing(items[..|items| - 1], lookup) + [Fill(last.productId, last.quantity, lookup(last.productId))]
  }

  /**
   * The `map` step as the source runs it: each row's response is built, then named
   * and priced when the product service answered.
   */
  method BuildListing(items: seq<StockItem>, lookup: string -> Option<ProductInfo>) returns (rs: seq<InventoryResponse>)
    ensures rs == Listing(items, lookup)
  {
    rs := [];
    for i := 0 to |items|
      invariant rs == Listing(items[..i], lookup)
    {
      assert items[..i + 1][..i] == items[..i];
      var response := InventoryResponse(items[i].productId, None, None, items[i].quantity);
      var product := lookup(items[i].productId);
      if product.Some? {
        response := response.(productName := product.value.name, price := product.value.price);
      }
      rs := rs + [response];
    }
    assert items[..|items|] == items;
  }
}

=== FILE: inventory_sort_toggle.dfy ===
/**
 * The sortable warehouse stock table: which column the table is sorted by, in
 * which direction, and what the page asks the inventory service for.
 */
module InventorySortToggle {
  import opened Wrappers
  import Text
  import InventoryListing

  /** `sortConfig`. */
  datatype SortConfig = SortConfig(key: string, direction: string)

  /** The page opens sorted by "date", descending. */
  const INITIAL := SortConfig("date", "desc")

  /** `colKeyMap`: the key each clickable header sorts by. */
  const COLUMN_KEYS: seq<string> := ["id", "name", "quantity"]

  /**
   * `handleSort`: the clicked key becomes the key; the direction turns to
   * descending exactly when the same key was already ascending.
   */
  function NextSort(prev: SortConfig, key: string): (next: SortConfig)
    ensures next.key == key
    ensures next.direction == "desc" <==> prev.key == key && prev.direction == "asc"
    ensures next.direction == "asc" <==> !(prev.key == key && prev.direction == "asc")
  {
    SortConfig(key, if prev.key == key && prev.direction == "asc" then "desc" else "asc")
  }

  /** The query of `fetchInventory`: `sortBy` and `direction` as they stand. */
  datatype InventoryQuery = InventoryQuery(sortBy: string, direction: Option<string>)

  function Query(c: SortConfig): (q: InventoryQuery)
    ensures q.sortBy == c.key && q.direction == Some(c.direction)
  {
    InventoryQuery(c.key, Some(c.direction))
  }

  /** The clicks on headers, in order, starting from the initial config. */
  function AfterClicks(start: SortConfig, clicks: seq<string>): SortConfig
  {
    if clicks == [] then start else NextSort(AfterClicks(start, clicks[..|clicks| - 1]), clicks[|clicks| - 1])
  }

  /** A first click on a header sorts it ascending; a second click on it sorts descending; a third ascending again. */
  lemma ClickCycle(prev: SortConfig, key: string)
    requires prev.key != key
    ensures NextSort(prev, key).direction == "asc"
    ensures NextSort(NextSort(prev, key), key).direction == "desc"
    ensures NextSort(NextSort(NextSort(prev, key), key), key) == NextSort(prev, key)
  {
  }

  /** The initial key is not one the headers use, and no header highlights it. */
  lemma InitialKeyIsNoColumn()
    ensures INITIAL.key !in COLUMN_KEYS
  {
  }

  /**
   * The first fetch asks for "date": the inventory service knows no such key and
   * sorts by product id, descending.
   */
  lemma InitialQuerySortsByProductId()
    ensures InventoryListing.KeyFor(Query(INITIAL).sortBy) == InventoryListing.ByProductId
    ensures InventoryListing.IsDesc(Query(INITIAL).direction)
  {
    assert Text.Lower("desc") == "desc";
  }

  /** Once any header has been clicked, the key is the last one clicked and the direction is "asc" or "desc". */
  lemma ClickedKeyIsColumn(start: SortConfig, clicks: seq<string>)
    requires clicks != [] && clicks[|clicks| - 1] in COLUMN_KEYS
    ensures AfterClicks(start, clicks).key == clicks[|clicks| - 1]
    ensures AfterClicks(start, clicks).key in COLUMN_KEYS
    ensures AfterClicks(start, clicks).direction in {"asc", "desc"}
  {
  }
}

=== FILE: inventory_transactions.dfy ===
/**
 * Warehouse and shelf stock transfers (`InventoryTransactionService.java`): an IMPORT
 * adds to the warehouse row of a product, an EXPORT moves stock from the warehouse
 * row to the shelf row, each success is logged in the transaction history, and a
 * batch is all-or-nothing because the whole call runs in one database transaction.
 * Quantities are whole units. A product may have more than one WAREHOUSE or SHELF
 * row (two first transactions for it running at once each create one); the service
 * reads the row through a single-result query, which then throws.
 */
module InventoryTransactions {
  import opened Wrappers
  import opened Calendar
  import Sequences

  /** `TransactionType`: the two kinds the service handles, and any other constant of the enum. */
  datatype TransactionType = IMPORT | EXPORT | OtherType(name: string)

  /** `InventoryTransactionRequest`; every field may be missing. */
  datatype Request = Request(
    orderId: Option<string>, productId: Option<string>, quantity: Option<int>, ttype: Option<TransactionType>)

  /** An `InventoryTransaction` history row; `createdAt` is kept as its date. */
  datatype Record = Record(orderId: Option<string>, productId: string, quantity: int, ttype: TransactionType, createdAt: Date)

  /** `InventoryTransactionResponse`: the history row without its timestamp. */
  datatype Response = Response(orderId: Option<string>, productId: string, quantity: int, ttype: TransactionType)

  /** The exception a single transaction raises. */
  datatype TxError =
    | ProductIdRequired
    | QuantityNotPositive
    | TypeRequired
    | InvalidType(name: string)
    | NonUniqueResult
    | NotEnoughInventory(productId: string, available: int, required: int)

  /** The batch's wrapping exception: the product of the failing request, and its cause. */
  datatype BatchError = BatchFailed(productId: Option<string>, cause: TxError)

  /**
   * The inventory table's WAREHOUSE rows and SHELF rows: for each product the quantities
   * of its rows of that kind, in table order; and the history table.
   */
  datatype Ledger = Ledger(warehouse: map<string, seq<int>>, shelf: map<string, seq<int>>, history: seq<Record>)

  /** The quantities of the product's rows in one table; none when it has no row. */
  function Rows(table: map<string, seq<int>>, productId: string): seq<int>
  {
    if productId in table then table[productId] else []
  }

  /**
   * The quantity the service reads for a product that has at most one row: that row's,
   * or 0 for the row `getOrCreateInventory` creates when there is none.
   */
  function Quantity(table: map<string, seq<int>>, productId: string): int
  {
    if Rows(table, productId) == [] then 0 else Rows(table, productId)[0]
  }

  /**
   * `getOrCreateInventory`: `findBySourceTypeAndProductId` returns an Optional, so a
   * second row for the product makes the query throw.
   */
  function FindRow(table: map<string, seq<int>>, productId: string): (r: Result<int, TxError>)
    ensures r.Ok? <==> |Rows(table, productId)| <= 1
    ensures r.Ok? && r.value != 0 ==> r.value in Rows(table, productId)
    ensures r.Err? ==> r.error == NonUniqueResult
  {
    if |Rows(table, productId)| > 1 then Err(NonUniqueResult) else Ok(Quantity(table, productId))
  }

  /** The product has at most one row in each table, so both lookups succeed. */
  predicate SingleRows(l: Ledger, productId: string)
  {
    |Rows(l.warehouse, productId)| <= 1 && |Rows(l.shelf, productId)| <= 1
  }

  /** `validateRequest`: the first failed check, in the order product id, quantity, type. */
  function Validate(req: Request): (r: Option<TxError>)
    ensures r.None? <==>
      req.productId.Some? && req.productId.value != [] && req.quantity.Some? && req.quantity.value > 0 &&
      req.ttype.Some?
    ensures r == Some(ProductIdRequired) <==> req.productId.None? || req.productId.value == []
    ensures r == Some(QuantityNotPositive) <==>
      req.productId.Some? && req.productId.value != [] && (req.quantity.None? || req.quantity.value <= 0)
    ensures r.Some? ==> r.value.ProductIdRequired? || r.value.QuantityNotPositive? || r.value.TypeRequired?
  {
    if req.productId.None? || req.productId.value == [] then Some(ProductIdRequired)
    else if req.quantity.None? || req.quantity.value <= 0 then Some(QuantityNotPositive)
    else if req.ttype.None? then Some(TypeRequired)
    else None
  }

  /** `calculateNewQuantityForWarehouse`. */
  function NewWarehouseQuantity(current: int, q: int, t: TransactionType): Result<int, TxError>
  {
    match t
    case EXPORT => Ok(current - q)
    case IMPORT => Ok(current + q)
    case OtherType(name) => Err(InvalidType(name))
  }

  /** `calculateNewQuantityForShelf`. */
  function NewShelfQuantity(current: int, q: int, t: TransactionType): Result<int, TxError>
  {
    match t
    case EXPORT => Ok(current + q)
    case IMPORT => Ok(current)
    case OtherType(name) => Err(InvalidType(name))
  }

  function ToResponse(r: Record): Response
  {
    Response(r.orderId, r.productId, r.quantity, r.ttype)
  }

  /**
   * `transactionInventory` as a step on the ledger: validation, the two row lookups,
   * the two new quantities, the stock check, then both rows written and one history row
   * appended. A failure leaves the ledger as it was, since the transaction rolls back
   * the created rows too.
   */
  function Apply(l: Ledger, req: Request, today: Date): Result<Ledger, TxError>
  {
    match Validate(req)
    case Some(e) => Err(e)
    case None =>
      var p := req.productId.value;
      var q := req.quantity.value;
      var t := req.ttype.value;
      match FindRow(l.warehouse, p)
      case Err(e) => Err(e)
      case Ok(w) =>
        match FindRow(l.shelf, p)
        case Err(e) => Err(e)
        case Ok(s) =>
          match NewWarehouseQuantity(w, q, t)
          case Err(e) => Err(e)
          case Ok(w') =>
            match NewShelfQuantity(s, q, t)
            case Err(e) => Err(e)
            case Ok(s') =>
              if w' < 0 then Err(NotEnoughInventory(p, w, q))
              else Ok(Ledger(l.warehouse[p := [w']], l.shelf[p := [s']],
                             l.history + [Record(req.orderId, p, q, t, today)]))
  }

  /** Every stored quantity is non-negative. */
  predicate NonNegative(l: Ledger)
  {
    (forall p, i :: p in l.warehouse && 0 <= i < |l.warehouse[p]| ==> l.warehouse[p][i] >= 0) &&
    (forall p, i :: p in l.shelf && 0 <= i < |l.shelf[p]| ==> l.shelf[p][i] >= 0)
  }

  /**
   * A transaction succeeds exactly when the request is valid, the product has at most
   * one WAREHOUSE and one SHELF row, its type is IMPORT or EXPORT, and the new warehouse
   * quantity is not negative; otherwise the error is the first check that failed. The
   * stock check applies to both types, so an IMPORT onto a row already below zero by
   * more than the quantity fails too.
   */
  lemma ApplySucceedsIff(l: Ledger, req: Request, today: Date)
    ensures Apply(l, req, today).Ok? <==>
      Validate(req).None? && SingleRows(l, req.productId.value) && !req.ttype.value.OtherType? &&
      (req.ttype.value == EXPORT ==> req.quantity.value <= Quantity(l.warehouse, req.productId.value)) &&
      (req.ttype.value == IMPORT ==> Quantity(l.warehouse, req.productId.value) + req.quantity.value >= 0)
    ensures Validate(req).Some? ==> Apply(l, req, today) == Err(Validate(req).value)
    ensures Validate(req).None? && !SingleRows(l, req.productId.value) ==>
      Apply(l, req, today) == Err(NonUniqueResult)
    ensures Validate(req).None? && SingleRows(l, req.productId.value) && req.ttype.value.OtherType? ==>
      Apply(l, req, today) == Err(InvalidType(req.ttype.value.name))
    ensures (Validate(req).None? && SingleRows(l, req.productId.value) && req.ttype.value == EXPORT &&
      req.quantity.value > Quantity(l.warehouse, req.productId.value)) ==>
      Apply(l, req, today) ==
        Err(NotEnoughInventory(req.productId.value, Quantity(l.warehouse, req.productId.value), req.quantity.value))
  {
    if Validate(req).None? {
      var p := req.productId.value;
      var w := Quantity(l.warehouse, p);
      var s := Quantity(l.shelf, p);
      match req.ttype.value
      case IMPORT =>
        assert NewWarehouseQuantity(w, req.quantity.value, IMPORT) == Ok(w + req.quantity.value);
      case EXPORT =>
        assert NewWarehouseQuantity(w, req.quantity.value, EXPORT) == Ok(w - req.quantity.value);
      case OtherType(name) =>
    }
  }

  /**
   * On non-negative stock an IMPORT succeeds exactly when the product has at most one
   * row of each kind: it adds the quantity to the warehouse row and leaves the shelf
   * quantity as it was, creating missing rows, so the product then has one row of each.
   */
  lemma ImportAddsToWarehouse(l: Ledger, req: Request, today: Date)
    requires NonNegative(l) && Validate(req).None? && req.ttype.value == IMPORT
    ensures Apply(l, req, today).Ok? <==> SingleRows(l, req.productId.value)
    ensures Apply(l, req, today).Ok? ==>
      var l' := Apply(l, req, today).value; var p := req.productId.value;
      Rows(l'.warehouse, p) == [Quantity(l.warehouse, p) + req.quantity.value] &&
      Rows(l'.shelf, p) == [Quantity(l.shelf, p)]
  {
    ApplySucceedsIff(l, req, today);
  }

  /**
   * EXPORT moves the quantity from the warehouse row to the shelf row: the product's
   * warehouse plus shelf stock is conserved.
   */
  lemma ExportConserves(l: Ledger, req: Request, today: Date)
    requires Apply(l, req, today).Ok? && req.ttype.value == EXPORT
    ensures var l' := Apply(l, req, today).value; var p := req.productId.value;
      Quantity(l'.warehouse, p) == Quantity(l.warehouse, p) - req.quantity.value &&
      Quantity(l'.shelf, p) == Quantity(l.shelf, p) + req.quantity.value &&
      Quantity(l'.warehouse, p) + Quantity(l'.shelf, p) == Quantity(l.warehouse, p) + Quantity(l.shelf, p)
  {
  }

  /** A success touches only the requested product's rows and appends exactly one history row. */
  lemma ApplyFrame(l: Ledger, req: Request, today: Date)
    requires Apply(l, req, today).Ok?
    ensures var l' := Apply(l, req, today).value; var p := req.productId.value;
      SingleRows(l, p) && |Rows(l'.warehouse, p)| == 1 && |Rows(l'.shelf, p)| == 1 &&
      (forall x :: x != p ==> Rows(l'.warehouse, x) == Rows(l.warehouse, x) &&
                              Rows(l'.shelf, x) == Rows(l.shelf, x)) &&
      l'.history == l.history + [Record(req.orderId, p, req.quantity.value, req.ttype.value, today)]
  {
  }

  /** No transaction makes a quantity negative. */
  lemma ApplyKeepsNonNegative(l: Ledger, req: Request, today: Date)
    requires NonNegative(l) && Apply(l, req, today).Ok?
    ensures NonNegative(Apply(l, req, today).value)
  {
  }

  /**
   * The batch as one database transaction: the requests in order, each on the ledger
   * the previous ones left; the first failure aborts everything.
   */
  function RunBatch(l: Ledger, reqs: seq<Request>, today: Date): Result<(Ledger, seq<Response>), BatchError>
  {
    if reqs == [] then Ok((l, []))
    else
      match RunBatch(l, reqs[..|reqs| - 1], today)
      case Err(e) => Err(e)
      case Ok(done) =>
        var req := reqs[|reqs| - 1];
        match Apply(done.0, req, today)
        case Err(e) => Err(BatchFailed(req.productId, e))
        case Ok(l') => Ok((l', done.1 + [ToResponse(l'.history[|l'.history| - 1])]))
  }

  /**
   * A successful batch answers every request, in order, with that request's product,
   * quantity and type, and appends exactly one history row per request.
   */
  lemma {:induction false} BatchResponses(l: Ledger, reqs: seq<Request>, today: Date)
    requires RunBatch(l, reqs, today).Ok?
    ensures var (l', rs) := RunBatch(l, reqs, today).value;
      |rs| == |reqs| && |l'.history| == |l.history| + |reqs| && l'.history[..|l.history|] == l.history &&
      forall i :: 0 <= i < |reqs| ==>
        Validate(reqs[i]).None? &&
        rs[i] == Response(reqs[i].orderId, reqs[i].productId.value, reqs[i].quantity.value, reqs[i].ttype.value) &&
        l'.history[|l.history| + i] == Record(reqs[i].orderId, reqs[i].productId.value, reqs[i].quantity.value,
                                              reqs[i].ttype.value, today)
  {
    if reqs != [] {
      var init := reqs[..|reqs| - 1];
      BatchResponses(l, init, today);
      var done := RunBatch(l, init, today).value;
      var req := reqs[|reqs| - 1];
      ApplyFrame(done.0, req, today);
      ApplySucceedsIff(done.0, req, today);
      forall i | 0 <= i < |init| ensures reqs[i] == init[i] {
      }
    }
  }

  /**
   * A failed batch names the first request that fails: every earlier request succeeds
   * in turn, and that one fails on the ledger they leave.
   */
  lemma {:induction false} BatchFailsAtFirstError(l: Ledger, reqs: seq<Request>, today: Date)
    requires RunBatch(l, reqs, today).Err?
    ensures exists i :: (0 <= i < |reqs| && RunBatch(l, reqs[..i], today).Ok? &&
      Apply(RunBatch(l, reqs[..i], today).value.0, reqs[i], today).Err? &&
      RunBatch(l, reqs, today).error ==
        BatchFailed(reqs[i].productId, Apply(RunBatch(l, reqs[..i], today).value.0, reqs[i], today).error))
  {
    var init := reqs[..|reqs| - 1];
    assert reqs[..|reqs| - 1] == init;
    if RunBatch(l, init, today).Err? {
      BatchFailsAtFirstError(l, init, today);
      var i :| 0 <= i < |init| && RunBatch(l, init[..i], today).Ok? &&
        Apply(RunBatch(l, init[..i], today).value.0, init[i], today).Err? &&
        RunBatch(l, init, today).error ==
          BatchFailed(init[i].productId, Apply(RunBatch(l, init[..i], today).value.0, init[i], today).error);
      assert init[..i] == reqs[..i] && init[i] == reqs[i];
    } else {
      assert reqs[..|reqs| - 1] == init;
    }
  }

  /** A batch never makes a quantity negative. */
  lemma {:induction false} BatchKeepsNonNegative(l: Ledger, reqs: seq<Request>, today: Date)
    requires NonNegative(l) && RunBatch(l, reqs, today).Ok?
    ensures NonNegative(RunBatch(l, reqs, today).value.0)
  {
    if reqs != [] {
      var init := reqs[..|reqs| - 1];
      BatchKeepsNonNegative(l, init, today);
      ApplyKeepsNonNegative(RunBatch(l, init, today).value.0, reqs[|reqs| - 1], today);
    }
  }

  /** The stock and history tables behind the service. */
  class StockService {
    var warehouse: map<string, seq<int>>
    var shelf: map<string, seq<int>>
    var history: seq<Record>

    function Snapshot(): Ledger
      reads this
    {
      Ledger(warehouse, shelf, history)
    }

    constructor (warehouse: map<string, seq<int>>, shelf: map<string, seq<int>>, history: seq<Record>)
      ensures Snapshot() == Ledger(warehouse, shelf, history)
    {
      this.warehouse := warehouse;
      this.shelf := shelf;
      this.history := history;
    }

    /**
     * `transactionInventory`: on success the rows and the history are those `Apply`
     * gives and the response echoes the new history row; on failure nothing changes.
     */
    method TransactionInventory(req: Request, today: Date) returns (r: Result<Response, TxError>)
      modifies this
      ensures var out := Apply(old(Snapshot()), req, today);
        r.Ok? == out.Ok? &&
        (r.Ok? ==> Snapshot() == out.value && r.value == ToResponse(history[|history| - 1])) &&
        (r.Err? ==> Snapshot() == old(Snapshot()) && r.error == out.error)
    {
      var v := Validate(req);
      if v.Some? {
        return Err(v.value);
      }
      var p := req.productId.value;
      var q := req.quantity.value;
      var t := req.ttype.value;
      var warehouseRow := FindRow(warehouse, p);
      if warehouseRow.Err? {
        return Err(warehouseRow.error);
      }
      var shelfRow := FindRow(shelf, p);
      if shelfRow.Err? {
        return Err(shelfRow.error);
      }
      var oldWarehouse := warehouseRow.value;
      var newWarehouse := NewWarehouseQuantity(oldWarehouse, q, t);
      if newWarehouse.Err? {
        return Err(newWarehouse.error);
      }
      var newShelf := NewShelfQuantity(shelfRow.value, q, t);
      if newShelf.Err? {
        return Err(newShelf.error);
      }
      if newWarehouse.value < 0 {
        return Err(NotEnoughInventory(p, oldWarehouse, q));
      }
      warehouse := warehouse[p := [newWarehouse.value]];
      shelf := shelf[p := [newShelf.value]];
      var record := Record(req.orderId, p, q, t, today);
      history := history + [record];
      r := Ok(ToResponse(record));
    }

    /**
     * `batchTransactionInventory`: the requests in order; the first failure rolls the
     * whole batch back and is reported with its product id.
     */
    method BatchTransactionInventory(reqs: seq<Request>, today: Date) returns (r: Result<seq<Response>, BatchError>)
      modifies this
      ensures var out := RunBatch(old(Snapshot()), reqs, today);
        r.Ok? == out.Ok? &&
        (r.Ok? ==> Snapshot() == out.value.0 && r.value == out.value.1) &&
        (r.Err? ==> Snapshot() == old(Snapshot()) && r.error == out.error)
    {
      var saved := Snapshot();
      var responses: seq<Response> := [];
      for i := 0 to |reqs|
        invariant RunBatch(saved, reqs[..i], today).Ok?
        invariant RunBatch(saved, reqs[..i], today).value == (Snapshot(), responses)
      {
        assert reqs[..i + 1][..i] == reqs[..i];
        var one := TransactionInventory(reqs[i], today);
        if one.Err? {
          warehouse, shelf, history := saved.warehouse, saved.shelf, saved.history;
          assert RunBatch(saved, reqs[..i + 1], today).Err?;
          BatchStopsAtFailure(saved, reqs, i, today);
          return Err(BatchFailed(reqs[i].productId, one.error));
        }
        responses := responses + [one.value];
      }
      assert reqs[..|reqs|] == reqs;
      r := Ok(responses);
    }
  }

  /** Once a prefix fails, the whole batch fails with that prefix's error. */
  lemma {:induction false} BatchStopsAtFailure(l: Ledger, reqs: seq<Request>, i: nat, today: Date)
    requires i < |reqs| && RunBatch(l, reqs[..i + 1], today).Err?
    ensures RunBatch(l, reqs, today) == RunBatch(l, reqs[..i + 1], today)
    decreases |reqs|
  {
    if |reqs| > i + 1 {
      var init := reqs[..|reqs| - 1];
      assert init[..i + 1] == reqs[..i + 1];
      BatchStopsAtFailure(l, init, i, today);
    } else {
      assert reqs[..i + 1] == reqs;
    }
  }

  /**
   * `groupingBy(createdAt date)` over records in order: each date maps to the records
   * of that date, in their original order.
   */
  function GroupByDate(records: seq<Record>): (g: map<Date, seq<Record>>)
    ensures forall d :: d in g <==> exists i :: 0 <= i < |records| && records[i].createdAt == d
  {
    if records == [] then map[]
    else
      var init := records[..|records| - 1];
      var last := records[|records| - 1];
      var g := GroupByDate(init);
      assert forall i :: 0 <= i < |init| ==> records[i] == init[i];
      g[last.createdAt := (if last.createdAt in g then g[last.createdAt] else []) + [last]]
  }

  predicate OnDate(d: Date, r: Record)
  {
    r.createdAt == d
  }

  /** Each group is exactly the records of its date, in their original order. */
  lemma {:induction false} GroupIsFilter(records: seq<Record>, d: Date)
    requires d in GroupByDate(records)
    ensures GroupByDate(records)[d] == Sequences.Filter(records, (x: Record) => OnDate(d, x))
  {
    var f := (x: Record) => OnDate(d, x);
    var init := records[..|records| - 1];
    var last := records[|records| - 1];
    assert records == init + [last];
    Sequences.FilterAppend(init, [last], f);
    if last.createdAt == d {
      assert Sequences.Filter([last], f) == [last];
      if d in GroupByDate(init) {
        GroupIsFilter(init, d);
      } else {
        Sequences.FilterNone(init, f);
      }
    } else {
      assert Sequences.Filter([last], f) == [];
      GroupIsFilter(init, d);
    }
  }

  /** The requested window: a missing bound is unbounded, both bounds inclusive. */
  predicate InWindow(start: Option<Date>, end: Option<Date>, r: Record)
  {
    (start.None? || DateLe(start.value, r.createdAt)) && (end.None? || DateLe(r.createdAt, end.value))
  }

  /** `groupTransactionsByDate`: the history records inside the window, grouped by date. */
  function GroupTransactionsByDate(records: seq<Record>, start: Option<Date>, end: Option<Date>): map<Date, seq<Record>>
  {
    GroupByDate(Sequences.Filter(records, x => InWindow(start, end, x)))
  }

  /** Every record in the window is filed under its own date. */
  lemma WindowRecordsFiled(records: seq<Record>, start: Option<Date>, end: Option<Date>, r: Record)
    requires r in records && InWindow(start, end, r)
    ensures var g := GroupTransactionsByDate(records, start, end);
      r.createdAt in g && r in g[r.createdAt]
  {
    var kept := Sequences.Filter(records, x => InWindow(start, end, x));
    assert r in kept;
    var k :| 0 <= k < |kept| && kept[k] == r;
    GroupIsFilter(kept, r.createdAt);
  }

  /** Every filed record is in the window and carries the date it is filed under. */
  lemma FiledRecordsInWindow(records: seq<Record>, start: Option<Date>, end: Option<Date>, d: Date, r: Record)
    requires var g := GroupTransactionsByDate(records, start, end); d in g && r in g[d]
    ensures r in records && InWindow(start, end, r) && r.createdAt == d
  {
    var kept := Sequences.Filter(records, x => InWindow(start, end, x));
    GroupIsFilter(kept, d);
  }
}

=== FILE: item_dialog.dfy ===
/**
 * The product dialog of the warehouse catalogue: the quantity field with its
 * typing rules and its minus and plus buttons, and the add-to-cart guard for a
 * visitor who is not signed in.
 */
module ItemDialog {
  import opened Wrappers
  import Numbers

  /** The largest quantity the dialog holds. */
  const MAX_QUANTITY := 9999

  /** The signed-in user as the session holds it; `id` is `None` when missing. */
  datatype User = User(id: Option<string>)

  /** The body of `POST /inventory/addToCart`. */
  datatype CartRequest = CartRequest(userId: string, productId: string, quantity: int)

  /** `n` kept within `[0, 9999]`. */
  function Clamp(n: int): (r: int)
    ensures 0 <= r <= MAX_QUANTITY
    ensures 0 <= n <= MAX_QUANTITY ==> r == n
    ensures n > MAX_QUANTITY ==> r == MAX_QUANTITY
    ensures n < 0 ==> r == 0
  {
    if n < 0 then 0 else if n > MAX_QUANTITY then MAX_QUANTITY else n
  }

  /** The minus button: one less, never below one. */
  function Decremented(q: int): (r: int)
    ensures r >= 1
    ensures q > 1 ==> r == q - 1
    ensures q <= 1 ==> r == 1
  {
    if q - 1 > 1 then q - 1 else 1
  }

  /** The plus button: one more, never above 9999. */
  function Incremented(q: int): (r: int)
    ensures r <= MAX_QUANTITY
    ensures q < MAX_QUANTITY ==> r == q + 1
    ensures q >= MAX_QUANTITY ==> r == MAX_QUANTITY
  {
    if q + 1 < MAX_QUANTITY then q + 1 else MAX_QUANTITY
  }

  /** Within the range, plus then minus comes back, except that minus never goes below one. */
  lemma PlusThenMinus(q: int)
    requires 1 <= q < MAX_QUANTITY
    ensures Decremented(Incremented(q)) == q
  {
  }

  /** A signed-in user with an id: `storedUser && storedUser.id`. */
  predicate SignedIn(user: Option<User>)
  {
    user.Some? && user.value.id.Some? && user.value.id.value != ""
  }

  class ItemPopup {
    const productId: string
    var quantity: int
    var addedToCart: bool

    /** The quantity stays within `[0, 9999]`. */
    ghost predicate Valid()
      reads this
    {
      0 <= quantity <= MAX_QUANTITY
    }

    /** The dialog opens with a quantity of one. */
    constructor (productId: string)
      ensures Valid() && this.productId == productId && quantity == 1 && !addedToCart
    {
      this.productId := productId;
      quantity := 1;
      addedToCart := false;
    }

    /**
     * `handleChange`: empty text sets the quantity to one; text that is not all
     * ASCII digits is ignored; digits are read and clamped to `[0, 9999]`, so
     * typing "0" sets a quantity the minus button never reaches.
     */
    method HandleChange(value: string)
      requires Valid()
      modifies this`quantity
      ensures Valid()
      ensures value == "" ==> quantity == 1
      ensures value != "" && !Numbers.AllDigits(value) ==> quantity == old(quantity)
      ensures Numbers.AllDigits(value) ==> quantity == Clamp(Numbers.DigitsValue(value))
      ensures Numbers.AllDigits(value) && Numbers.DigitsValue(value) <= MAX_QUANTITY ==>
        quantity == Numbers.DigitsValue(value)
    {
      if value == "" {
        quantity := 1;
        return;
      }
      if !Numbers.AllDigits(value) {
        return;
      }
      var number: int := Numbers.DigitsValue(value);
      if number < 0 {
        number := 0;
      }
      if number > MAX_QUANTITY {
        number := MAX_QUANTITY;
      }
      quantity := number;
    }

    /** The minus button. */
    method Minus()
      requires Valid()
      modifies this`quantity
      ensures Valid() && quantity == Decremented(old(quantity))
      ensures old(quantity) == 0 ==> quantity == 1
    {
      quantity := Decremented(quantity);
    }

    /** The plus button. */
    method Plus()
      requires Valid()
      modifies this`quantity
      ensures Valid() && quantity == Incremented(old(quantity))
    {
      quantity := Incremented(quantity);
    }

    /**
     * `handleAddToCart`, given the session's user and whether the inventory service
     * accepted the request. Without a signed-in user the visitor is sent to the
     * sign-in page and nothing is requested.
     */
    method AddToCart(user: Option<User>, accepted: bool) returns (navigateTo: Option<string>, request: Option<CartRequest>)
      modifies this`addedToCart
      ensures !SignedIn(user) ==> navigateTo == Some("/profile/signin") && request.None? && addedToCart == old(addedToCart)
      ensures SignedIn(user) ==> navigateTo.None? && request == Some(CartRequest(user.value.id.value, productId, quantity))
      ensures SignedIn(user) && accepted ==> addedToCart
      ensures SignedIn(user) && !accepted ==> addedToCart == old(addedToCart)
    {
      if user.None? || user.value.id.None? || user.value.id.value == "" {
        return Some("/profile/signin"), None;
      }
      request := Some(CartRequest(user.value.id.value, productId, quantity));
      navigateTo := None;
      if accepted {
        addedToCart := true;
      }
    }
  }
}

=== FILE: numbers.dfy ===
/**
 * Integer arithmetic as the two runtimes perform it: Java's 32-bit `int` cast and
 * truncating division, `BigDecimal` HALF_UP rounding, and decimal digit strings
 * as produced by string concatenation and read back by JavaScript's `parseInt`.
 */
module Numbers {
  import opened Wrappers
  import Text

  const TWO_32: int := 0x1_0000_0000
  const INT_MIN: int := -0x8000_0000
  const INT_MAX: int := 0x7FFF_FFFF

  /** Java's narrowing `(int)` of a long: keep the low 32 bits, read them as signed. */
  function Int32(x: int): (r: int)
    ensures INT_MIN <= r <= INT_MAX
    ensures (r - x) % TWO_32 == 0
  {
    (x - INT_MIN) % TWO_32 + INT_MIN
  }

  lemma Int32InRange(x: int)
    requires INT_MIN <= x <= INT_MAX
    ensures Int32(x) == x
  {
  }

  /** Java's `/` on integers: the quotient of the magnitudes, truncated toward zero, then signed. */
  function TruncDiv(a: int, b: int): int
    requires b != 0
  {
    if (a < 0) == (b < 0) then Abs(a) / Abs(b) else -(Abs(a) / Abs(b))
  }

  /** On a non-negative dividend and positive divisor Java's division is Dafny's. */
  lemma TruncDivNonNegative(a: nat, b: int)
    requires b > 0
    ensures TruncDiv(a, b) == a / b
  {
  }

  function Abs(x: int): nat
  {
    if x < 0 then -x else x
  }

  /**
   * `BigDecimal` division of `a` by `b` rounded HALF_UP to an integer: the nearest
   * integer, with exact halves rounded away from zero.
   */
  function HalfUpDiv(a: int, b: int): (q: int)
    requires b > 0
    ensures Abs(2 * (a - q * b)) <= b
    ensures 2 * Abs(a - q * b) == b ==> Abs(q * b) > Abs(a)
  {
    if a >= 0 then (2 * a + b) / (2 * b) else -((2 * -a + b) / (2 * b))
  }

  /**
   * Dividing by 200000 is dividing by 100000 and then by 2, for any non-negative
   * value: ⌊x / 200000⌋ = ⌊⌊x / 100000⌋ / 2⌋.
   */
  lemma NestedDivision(x: nat, m: nat)
    requires m > 0
    ensures x / (2 * m) == (x / m) / 2
  {
    var q := x / m;
    var r := x % m;
    var h := q / 2;
    var e := q % 2;
    assert x == m * q + r;
    assert q == 2 * h + e;
    assert x == (2 * m) * h + (m * e + r) by {
      calc {
        x;
        m * (2 * h + e) + r;
        { assert m * (2 * h + e) == (2 * m) * h + m * e; }
        (2 * m) * h + (m * e + r);
      }
    }
    assert 0 <= m * e + r < 2 * m;
    DivisionUnique(x, 2 * m, h, m * e + r);
  }

  /** A quotient and remainder that reconstruct `x` are the Euclidean ones. */
  lemma DivisionUnique(x: int, d: int, q: int, r: int)
    requires d > 0 && x == d * q + r && 0 <= r < d
    ensures x / d == q
  {
    var q' := x / d;
    var r' := x % d;
    assert x == d * q' + r';
    if q' > q {
      assert d * q' >= d * (q + 1) by { MulMonotone(d, q + 1, q'); }
    } else if q' < q {
      assert d * q >= d * (q' + 1) by { MulMonotone(d, q' + 1, q); }
    }
  }

  lemma MulMonotone(d: nat, a: int, b: int)
    requires a <= b
    ensures d * a <= d * b
  {
    assert d * b - d * a == d * (b - a);
  }

  predicate IsDigit(c: char)
  {
    '0' <= c <= '9'
  }

  /** The regular expression `^\d+$`: a non-empty run of ASCII digits. */
  predicate AllDigits(s: string)
  {
    s != [] && forall i :: 0 <= i < |s| ==> IsDigit(s[i])
  }

  /** The number a run of decimal digits denotes. */
  function DigitsValue(s: string): nat
    requires forall i :: 0 <= i < |s| ==> IsDigit(s[i])
  {
    if s == [] then 0
    else
      assert IsDigit(s[|s| - 1]);
      10 * DigitsValue(s[..|s| - 1]) + (s[|s| - 1] as int - '0' as int)
  }

  function DigitChar(d: nat): (c: char)
    requires d < 10
    ensures IsDigit(c) && c as int - '0' as int == d
  {
    ('0' as int + d) as char
  }

  /** How Java and JavaScript print a non-negative integer: decimal digits, no leading zero. */
  function DecimalString(n: nat): (s: string)
    ensures AllDigits(s)
    ensures s[0] != '0' || n == 0
  {
    if n < 10 then [DigitChar(n)] else DecimalString(n / 10) + [DigitChar(n % 10)]
  }

  /** Printing then reading back decimal digits gives the number again. */
  lemma {:induction false} DecimalRoundTrip(n: nat)
    ensures DigitsValue(DecimalString(n)) == n
  {
    var s := DecimalString(n);
    if n >= 10 {
      DecimalRoundTrip(n / 10);
      assert s[..|s| - 1] == DecimalString(n / 10);
    }
  }

  /** The longest run of digits at the start of `s`. */
  function DigitPrefix(s: string): (p: string)
    ensures |p| <= |s| && p == s[..|p|]
    ensures forall i :: 0 <= i < |p| ==> IsDigit(p[i])
    ensures |p| < |s| ==> !IsDigit(s[|p|])
  {
    if s != [] && IsDigit(s[0]) then [s[0]] + DigitPrefix(s[1..]) else []
  }

  lemma {:induction false} DigitPrefixOfDigits(s: string)
    requires forall i :: 0 <= i < |s| ==> IsDigit(s[i])
    ensures DigitPrefix(s) == s
  {
    if s != [] {
      DigitPrefixOfDigits(s[1..]);
      assert s == [s[0]] + s[1..];
    }
  }

  /**
   * JavaScript's `parseInt(s)` on base-10 input: leading white space is skipped, an
   * optional sign is read, then the longest run of digits; `None` stands for `NaN`.
   */
  function JsParseInt(s: string): (r: Option<int>)
  {
    var t := Text.TrimStart(s, Text.IsJsSpace);
    var neg := t != [] && t[0] == '-';
    var body := if t != [] && (t[0] == '-' || t[0] == '+') then t[1..] else t;
    var digits := DigitPrefix(body);
    if digits == [] then None
    else
      var v: int := DigitsValue(digits);
      Some(if neg then -v else v)
  }

  /** `parseInt` reads back every printed non-negative integer. */
  lemma ParseIntOfDecimal(n: nat)
    ensures JsParseInt(DecimalString(n)) == Some(n)
  {
    var s := DecimalString(n);
    assert Text.TrimStart(s, Text.IsJsSpace) == s;
    DigitPrefixOfDigits(s);
    DecimalRoundTrip(n);
  }

  /**
   * JavaScript's `Number(s)` on text holding a whole number: surrounding white space
   * is ignored, blank text is 0, and an optional minus sign may lead the digits;
   * `None` stands for `NaN`.
   */
  function JsNumber(s: string): Option<int>
  {
    var t := Text.JsTrim(s);
    if t == [] then Some(0)
    else if AllDigits(t) then Some(DigitsValue(t))
    else if t[0] == '-' && AllDigits(t[1..]) then Some(-(DigitsValue(t[1..]) as int))
    else None
  }

  /** `Number` reads a run of digits as the number it denotes. */
  lemma JsNumberOfDigits(s: string)
    requires AllDigits(s)
    ensures JsNumber(s) == Some(DigitsValue(s))
  {
    assert IsDigit(s[0]) && IsDigit(s[|s| - 1]);
    assert !Text.IsJsSpace(s[0]) && !Text.IsJsSpace(s[|s| - 1]);
    assert Text.TrimStart(s, Text.IsJsSpace) == s;
    assert Text.TrimEnd(s, Text.IsJsSpace) == s;
  }
}

=== FILE: order_inventory.dfy ===
/**
 * The order-side inventory service (`com.transportation.inventory.service.InventoryService`):
 * inventory rows keyed by a source id (an order or a warehouse) and a product id, the
 * sorted listing of one source, the add-to-cart upsert, the rows of a new pending
 * order, the bulk quantity update, and the orders listed newest first. The order
 * service's answers (the cart's order id, the new order's id, the user's orders) are
 * inputs.
 */
module OrderInventory {
  import opened Wrappers
  import Sequences
  import Ordering
  import opened InventoryListing

  /** A stored `Inventory` row; `id` stands for the generated UUID. */
  datatype Row = Row(id: nat, sourceId: string, productId: string, quantity: int)

  /** `ConfirmRequest`: a product and its quantity. */
  datatype ConfirmRequest = ConfirmRequest(productId: string, quantity: int)

  /** An order as the order service returns it; `createdAt` is a timestamp. */
  datatype Order = Order(id: string, createdAt: int)

  /** `OrderStatusResponse`. */
  datatype OrderStatus = OrderStatus(orderId: string, listInventory: seq<InventoryResponse>, createdAt: int)

  /** `findBySourceIdAndProductId` finding more than one row. */
  datatype CartError = NonUniqueResult

  predicate IsPair(r: Row, sourceId: string, productId: string)
  {
    r.sourceId == sourceId && r.productId == productId
  }

  /** The positions of the rows for one (source, product) pair, in increasing order. */
  function PairIndices(rows: seq<Row>, sourceId: string, productId: string): (r: seq<nat>)
    ensures forall k :: 0 <= k < |r| ==> r[k] < |rows| && IsPair(rows[r[k]], sourceId, productId)
    ensures forall i :: 0 <= i < |rows| && IsPair(rows[i], sourceId, productId) ==> i in r
    ensures forall k, m :: 0 <= k < m < |r| ==> r[k] < r[m]
  {
    if rows == [] then []
    else
      var init := PairIndices(rows[..|rows| - 1], sourceId, productId);
      if IsPair(rows[|rows| - 1], sourceId, productId) then init + [|rows| - 1] else init
  }

  function Items(rows: seq<Row>): (items: seq<StockItem>)
    ensures |items| == |rows|
    ensures forall i :: 0 <= i < |rows| ==> items[i] == StockItem(rows[i].productId, rows[i].quantity)
  {
    if rows == [] then [] else Items(rows[..|rows| - 1]) + [StockItem(rows[|rows| - 1].productId, rows[|rows| - 1].quantity)]
  }

  predicate OfSource(sourceId: string, r: Row)
  {
    r.sourceId == sourceId
  }

  /** `findBySourceId`'s condition. */
  function InSource(sourceId: string): Row -> bool
  {
    (r: Row) => OfSource(sourceId, r)
  }

  /** The listing of one source: `findBySourceId`, one response per row, then sorted. */
  function SourceListing(rows: seq<Row>, sourceId: string, sortBy: string, direction: Option<string>,
                         lookup: string -> Option<ProductInfo>): Result<seq<InventoryResponse>, ListingError>
  {
    SortListing(Listing(Items(Sequences.Filter(rows, InSource(sourceId))), lookup), sortBy, direction)
  }

  /**
   * `getInventoryBySourceId`: the rows of the source, one response each, sorted. The
   * result holds exactly those rows' responses, in the requested order; a name sort
   * over a row the product service could not name throws.
   */
  method GetInventoryBySourceId(rows: seq<Row>, sourceId: string, sortBy: string, direction: Option<string>,
                                lookup: string -> Option<ProductInfo>)
    returns (r: Result<seq<InventoryResponse>, ListingError>)
    ensures r == SourceListing(rows, sourceId, sortBy, direction, lookup)
    ensures var listed := Listing(Items(Sequences.Filter(rows, InSource(sourceId))), lookup);
      (r.Err? <==> SortThrows(listed, sortBy)) &&
      (r.Ok? ==> multiset(r.value) == multiset(listed) &&
                 Ordering.SortedBy(r.value, Comparator(KeyFor(sortBy), IsDesc(direction))))
    ensures r.Ok? ==> forall x :: x in r.value ==>
      exists i :: 0 <= i < |rows| && rows[i].sourceId == sourceId &&
                  rows[i].productId == x.productId && rows[i].quantity == x.quantity
  {
    var sourceRows := Sequences.Filter(rows, InSource(sourceId));
    var responses := BuildListing(Items(sourceRows), lookup);
    r := SortListing(responses, sortBy, direction);
    SourceListingFromRows(rows, sourceId, sortBy, direction, lookup);
  }

  /** Every response of the source's listing comes from a row of that source. */
  lemma SourceListingFromRows(rows: seq<Row>, sourceId: string, sortBy: string, direction: Option<string>,
                              lookup: string -> Option<ProductInfo>)
    ensures var r := SourceListing(rows, sourceId, sortBy, direction, lookup);
      r.Ok? ==> forall x :: x in r.value ==>
        exists i :: 0 <= i < |rows| && rows[i].sourceId == sourceId &&
                    rows[i].productId == x.productId && rows[i].quantity == x.quantity
  {
    var sourceRows := Sequences.Filter(rows, InSource(sourceId));
    var responses := Listing(Items(sourceRows), lookup);
    var r := SortListing(responses, sortBy, direction);
    if r.Ok? {
      SourceResponses(rows, sourceId, lookup);
      ListedFromSource(rows, sourceId, sourceRows, responses, r.value);
    }
  }

  /** The source's responses are its rows' responses, position by position, and those rows belong to the source. */
  lemma SourceResponses(rows: seq<Row>, sourceId: string, lookup: string -> Option<ProductInfo>)
    ensures var sourceRows := Sequences.Filter(rows, InSource(sourceId));
      var responses := Listing(Items(sourceRows), lookup);
      |responses| == |sourceRows| &&
      (forall k :: 0 <= k < |responses| ==>
        responses[k].productId == sourceRows[k].productId && responses[k].quantity == sourceRows[k].quantity) &&
      (forall w :: w in sourceRows ==> w in rows && w.sourceId == sourceId)
  {
  }

  /** Responses made row by row from rows of the source, in any order, each come from such a row. */
  lemma ListedFromSource(rows: seq<Row>, sourceId: string, sourceRows: seq<Row>, responses: seq<InventoryResponse>,
                         out: seq<InventoryResponse>)
    requires |responses| == |sourceRows|
    requires forall k :: 0 <= k < |responses| ==>
      responses[k].productId == sourceRows[k].productId && responses[k].quantity == sourceRows[k].quantity
    requires forall w :: w in sourceRows ==> w in rows && w.sourceId == sourceId
    requires multiset(out) == multiset(responses)
    ensures forall x :: x in out ==>
      exists i :: 0 <= i < |rows| && rows[i].sourceId == sourceId &&
                  rows[i].productId == x.productId && rows[i].quantity == x.quantity
  {
    forall x | x in out
      ensures exists i :: 0 <= i < |rows| && rows[i].sourceId == sourceId &&
                          rows[i].productId == x.productId && rows[i].quantity == x.quantity
    {
      assert x in multiset(responses);
      var k :| 0 <= k < |responses| && responses[k] == x;
      var w := sourceRows[k];
      assert w in rows;
      var i :| 0 <= i < |rows| && rows[i] == w;
    }
  }

  /** The sum of the quantities of a pair's rows. */
  function PairQuantity(rows: seq<Row>, sourceId: string, productId: string): int
  {
    if rows == [] then 0
    else
      var last := rows[|rows| - 1];
      PairQuantity(rows[..|rows| - 1], sourceId, productId) + (if IsPair(last, sourceId, productId) then last.quantity else 0)
  }

  /** Changing one row's quantity changes its pair's total by the difference and no other pair's. */
  lemma {:induction false} PairQuantityUpdate(rows: seq<Row>, i: nat, q: int, sourceId: string, productId: string)
    requires i < |rows|
    ensures PairQuantity(rows[i := rows[i].(quantity := q)], sourceId, productId) ==
      PairQuantity(rows, sourceId, productId) +
      (if IsPair(rows[i], sourceId, productId) then q - rows[i].quantity else 0)
  {
    var rows' := rows[i := rows[i].(quantity := q)];
    if i < |rows| - 1 {
      assert rows'[..|rows'| - 1] == rows[..|rows| - 1][i := rows[i].(quantity := q)];
      PairQuantityUpdate(rows[..|rows| - 1], i, q, sourceId, productId);
    } else {
      assert rows'[..|rows'| - 1] == rows[..|rows| - 1];
    }
  }

  /** The inventory table. */
  class InventoryTable {
    var rows: seq<Row>
    /** The next generated row id. */
    var nextId: nat

    /** Generated ids are below `nextId` and distinct. */
    ghost predicate Valid()
      reads this
    {
      (forall i :: 0 <= i < |rows| ==> rows[i].id < nextId) &&
      (forall i, j :: 0 <= i < j < |rows| ==> rows[i].id != rows[j].id)
    }

    constructor ()
      ensures Valid() && rows == [] && nextId == 0
    {
      rows := [];
      nextId := 0;
    }

    /** Saves a new row with a fresh id. */
    method Insert(sourceId: string, productId: string, quantity: int) returns (row: Row)
      requires Valid()
      modifies this
      ensures Valid()
      ensures row == Row(old(nextId), sourceId, productId, quantity)
      ensures rows == old(rows) + [row] && nextId == old(nextId) + 1
    {
      row := Row(nextId, sourceId, productId, quantity);
      rows := rows + [row];
      nextId := nextId + 1;
    }

    /**
     * `addProductToCart`: adds the quantity to the cart order's row for the product,
     * or saves a new row with that quantity when there is none. A pair stored twice
     * makes the lookup throw and nothing changes.
     */
    method AddProductToCart(orderId: string, productId: string, quantity: int) returns (r: Result<Row, CartError>)
      requires Valid()
      modifies this
      ensures Valid()
      ensures var found := PairIndices(old(rows), orderId, productId);
        (|found| > 1 ==> r == Err(NonUniqueResult) && rows == old(rows) && nextId == old(nextId)) &&
        (|found| == 1 ==> r.Ok? && r.value == old(rows)[found[0]].(quantity := old(rows)[found[0]].quantity + quantity) &&
                          rows == old(rows)[found[0] := r.value] && nextId == old(nextId)) &&
        (|found| == 0 ==> r == Ok(Row(old(nextId), orderId, productId, quantity)) && rows == old(rows) + [r.value] &&
                          nextId == old(nextId) + 1)
      ensures r.Ok? ==> PairQuantity(rows, orderId, productId) == PairQuantity(old(rows), orderId, productId) + quantity
      ensures r.Ok? ==> |PairIndices(rows, orderId, productId)| == 1
    {
      var found := PairIndices(rows, orderId, productId);
      if |found| > 1 {
        return Err(NonUniqueResult);
      }
      if |found| == 1 {
        var i := found[0];
        var row := rows[i].(quantity := rows[i].quantity + quantity);
        PairQuantityUpdate(rows, i, row.quantity, orderId, productId);
        PairIndicesIgnoreQuantity(rows, i, row.quantity, orderId, productId);
        rows := rows[i := row];
        r := Ok(row);
      } else {
        var row := Insert(orderId, productId, quantity);
        PairAppend(old(rows), row, orderId, productId);
        r := Ok(row);
      }
    }

    /** `createInventoryWithSourceId`: a new row for the source with the request's product and quantity. */
    method CreateInventoryWithSourceId(sourceId: string, request: ConfirmRequest) returns (row: Row)
      requires Valid()
      modifies this
      ensures Valid()
      ensures row == Row(old(nextId), sourceId, request.productId, request.quantity)
      ensures rows == old(rows) + [row] && nextId == old(nextId) + 1
    {
      row := Insert(sourceId, request.productId, request.quantity);
    }

    /**
     * `createPendingOrderWithInventory`: one new row per request, in request order,
     * each carrying the new order's id.
     */
    method CreatePendingOrderWithInventory(orderId: string, requests: seq<ConfirmRequest>)
      requires Valid()
      modifies this
      ensures Valid()
      ensures |rows| == |old(rows)| + |requests| && rows[..|old(rows)|] == old(rows)
      ensures nextId == old(nextId) + |requests|
      ensures forall k :: 0 <= k < |requests| ==>
        rows[|old(rows)| + k] == Row(old(nextId) + k, orderId, requests[k].productId, requests[k].quantity)
    {
      for k := 0 to |requests|
        invariant Valid()
        invariant |rows| == |old(rows)| + k && rows[..|old(rows)|] == old(rows)
        invariant nextId == old(nextId) + k
        invariant forall m :: 0 <= m < k ==>
          rows[|old(rows)| + m] == Row(old(nextId) + m, orderId, requests[m].productId, requests[m].quantity)
      {
        var _ := CreateInventoryWithSourceId(orderId, requests[k]);
      }
    }

    /**
     * `updateInventoryQuantityByProductIdAndSourceId`: for each request in order, every
     * row of the source and that product gets the request's quantity.
     */
    method UpdateQuantities(sourceId: string, requests: seq<ConfirmRequest>)
      requires Valid()
      modifies this`rows
      ensures Valid()
      ensures rows == UpdateAll(old(rows), sourceId, requests)
    {
      for k := 0 to |requests|
        invariant rows == UpdateAll(old(rows), sourceId, requests[..k])
        invariant |rows| == |old(rows)| && forall i :: 0 <= i < |rows| ==> rows[i].id == old(rows)[i].id
      {
        assert requests[..k + 1][..k] == requests[..k];
        rows := SetQuantity(rows, sourceId, requests[k].productId, requests[k].quantity);
      }
      assert requests[..|requests|] == requests;
    }
  }

  /** A new row for a pair that had none leaves exactly one row for it. */
  lemma PairAppend(rows: seq<Row>, row: Row, sourceId: string, productId: string)
    requires |PairIndices(rows, sourceId, productId)| == 0 && IsPair(row, sourceId, productId)
    ensures PairQuantity(rows + [row], sourceId, productId) == PairQuantity(rows, sourceId, productId) + row.quantity
    ensures |PairIndices(rows + [row], sourceId, productId)| == 1
  {
    assert (rows + [row])[..|rows|] == rows;
  }

  /** Quantities do not decide which rows belong to a pair. */
  lemma PairIndicesIgnoreQuantity(rows: seq<Row>, i: nat, q: int, sourceId: string, productId: string)
    requires i < |rows|
    ensures PairIndices(rows[i := rows[i].(quantity := q)], sourceId, productId) == PairIndices(rows, sourceId, productId)
  {
    PairIndicesAgree(rows[i := rows[i].(quantity := q)], rows, sourceId, productId);
  }

  /** Two lists whose rows belong to the pair at the same positions have the same pair positions. */
  lemma {:induction false} PairIndicesAgree(a: seq<Row>, b: seq<Row>, sourceId: string, productId: string)
    requires |a| == |b|
    requires forall i :: 0 <= i < |a| ==> (IsPair(a[i], sourceId, productId) <==> IsPair(b[i], sourceId, productId))
    ensures PairIndices(a, sourceId, productId) == PairIndices(b, sourceId, productId)
  {
    if a != [] {
      var a0, b0 := a[..|a| - 1], b[..|b| - 1];
      forall i | 0 <= i < |a0| ensures IsPair(a0[i], sourceId, productId) <==> IsPair(b0[i], sourceId, productId) {
        assert a0[i] == a[i] && b0[i] == b[i];
      }
      PairIndicesAgree(a0, b0, sourceId, productId);
    }
  }

  /** The JPQL update: every row of the source and product gets the quantity. */
  function SetQuantity(rows: seq<Row>, sourceId: string, productId: string, q: int): (r: seq<Row>)
    ensures |r| == |rows|
    ensures forall i :: 0 <= i < |rows| ==>
      r[i] == if IsPair(rows[i], sourceId, productId) then rows[i].(quantity := q) else rows[i]
  {
    seq(|rows|, i requires 0 <= i < |rows| =>
      if IsPair(rows[i], sourceId, productId) then rows[i].(quantity := q) else rows[i])
  }

  /** The requests applied one after another. */
  function UpdateAll(rows: seq<Row>, sourceId: string, requests: seq<ConfirmRequest>): (r: seq<Row>)
    ensures |r| == |rows|
  {
    if requests == [] then rows
    else
      var last := requests[|requests| - 1];
      SetQuantity(UpdateAll(rows, sourceId, requests[..|requests| - 1]), sourceId, last.productId, last.quantity)
  }

  /** The quantity of the last request for the product, if any. */
  function LastQuantity(requests: seq<ConfirmRequest>, productId: string): Option<int>
  {
    if requests == [] then None
    else if requests[|requests| - 1].productId == productId then Some(requests[|requests| - 1].quantity)
    else LastQuantity(requests[..|requests| - 1], productId)
  }

  /**
   * The update sets rather than adds: a row of the source ends with the quantity of
   * the last request for its product, and every other row is unchanged.
   */
  lemma {:induction false} UpdateSetsLastQuantity(rows: seq<Row>, sourceId: string, requests: seq<ConfirmRequest>)
    ensures var r := UpdateAll(rows, sourceId, requests);
      forall i :: 0 <= i < |rows| ==>
        r[i] == if rows[i].sourceId == sourceId && LastQuantity(requests, rows[i].productId).Some?
                then rows[i].(quantity := LastQuantity(requests, rows[i].productId).value)
                else rows[i]
  {
    if requests != [] {
      UpdateSetsLastQuantity(rows, sourceId, requests[..|requests| - 1]);
    }
  }

  /** Sending the same update twice leaves the rows as sending it once. */
  lemma UpdateIdempotent(rows: seq<Row>, sourceId: string, requests: seq<ConfirmRequest>)
    ensures UpdateAll(UpdateAll(rows, sourceId, requests), sourceId, requests) == UpdateAll(rows, sourceId, requests)
  {
    var once := UpdateAll(rows, sourceId, requests);
    UpdateSetsLastQuantity(rows, sourceId, requests);
    UpdateSetsLastQuantity(once, sourceId, requests);
  }

  /**
   * `Comparator.comparing(OrderStatusResponse::getCreatedAt).reversed()`: a total
   * preorder, so the sort below is defined.
   */
  function NewestFirst(): (le: (OrderStatus, OrderStatus) -> bool)
    ensures Ordering.TotalPreorder(le)
    ensures forall a, b :: le(a, b) <==> a.createdAt >= b.createdAt
  {
    var le := (a: OrderStatus, b: OrderStatus) => a.createdAt >= b.createdAt;
    Ordering.IntKeyTotalPreorder(le, (s: OrderStatus) => -s.createdAt);
    le
  }

  /**
   * One order with its rows listed by name, ascending: the listing of the source
   * whose id is the order's id, failing exactly when that listing fails.
   */
  function OrderListing(rows: seq<Row>, order: Order, lookup: string -> Option<ProductInfo>): (r: Result<OrderStatus, ListingError>)
    ensures r.Err? <==> SourceListing(rows, order.id, "name", Some("asc"), lookup).Err?
    ensures r.Ok? ==>
      r.value.orderId == order.id && r.value.createdAt == order.createdAt &&
      r.value.listInventory == SourceListing(rows, order.id, "name", Some("asc"), lookup).value
  {
    match SourceListing(rows, order.id, "name", Some("asc"), lookup)
    case Err(e) => Err(e)
    case Ok(listing) => Ok(OrderStatus(order.id, listing, order.createdAt))
  }

  /**
   * `getInventoryWithUserIdAndStatus`: each order with its rows listed by name
   * ascending, the orders newest first. A name sort that throws for one order
   * fails the whole call.
   */
  method OrdersWithInventory(orders: seq<Order>, rows: seq<Row>, lookup: string -> Option<ProductInfo>)
    returns (r: Result<seq<OrderStatus>, ListingError>)
    ensures r.Err? <==> exists k :: 0 <= k < |orders| && OrderListing(rows, orders[k], lookup).Err?
    ensures r.Ok? ==> |r.value| == |orders|
    ensures r.Ok? ==> forall i, j :: 0 <= i < j < |r.value| ==> r.value[i].createdAt >= r.value[j].createdAt
    ensures r.Ok? ==> forall s :: s in r.value <==>
      (exists k :: 0 <= k < |orders| && OrderListing(rows, orders[k], lookup) == Ok(s))
    ensures r.Ok? ==> multiset(r.value) == multiset(Statuses(rows, orders, lookup))
  {
    var listed := MapUntilError(orders, (o: Order) => OrderListing(rows, o, lookup));
    if listed.Err? {
      return Err(listed.error);
    }
    var statuses := listed.value;
    assert statuses == Statuses(rows, orders, lookup);
    r := Ok(SortNewestFirst(statuses));
  }

  /** The orders' listings, in order, when none of them fails. */
  function Statuses(rows: seq<Row>, orders: seq<Order>, lookup: string -> Option<ProductInfo>): (r: seq<OrderStatus>)
    requires forall k :: 0 <= k < |orders| ==> OrderListing(rows, orders[k], lookup).Ok?
    ensures |r| == |orders| && forall k :: 0 <= k < |orders| ==> OrderListing(rows, orders[k], lookup) == Ok(r[k])
  {
    seq(|orders|, k requires 0 <= k < |orders| => OrderListing(rows, orders[k], lookup).value)
  }

  /** A stream `map` whose mapper may throw: the first failure ends it. */
  method MapUntilError<A, B, E>(xs: seq<A>, f: A -> Result<B, E>) returns (r: Result<seq<B>, E>)
    ensures r.Err? <==> exists k :: 0 <= k < |xs| && f(xs[k]).Err?
    ensures r.Ok? ==> |r.value| == |xs| && forall k :: 0 <= k < |xs| ==> f(xs[k]) == Ok(r.value[k])
  {
    var ys: seq<B> := [];
    for k := 0 to |xs|
      invariant |ys| == k
      invariant forall m :: 0 <= m < k ==> f(xs[m]) == Ok(ys[m])
    {
      var y := f(xs[k]);
      if y.Err? {
        return Err(y.error);
      }
      ys := ys + [y.value];
    }
    r := Ok(ys);
  }

  /** The orders sorted by creation time, newest first. */
  function SortNewestFirst(statuses: seq<OrderStatus>): (r: seq<OrderStatus>)
    ensures |r| == |statuses|
    ensures multiset(r) == multiset(statuses)
    ensures forall s :: s in r <==> s in statuses
    ensures forall i, j :: 0 <= i < j < |r| ==> r[i].createdAt >= r[j].createdAt
  {
    Ordering.SortByKeepsElements(statuses, NewestFirst());
    Ordering.SortBy(statuses, NewestFirst())
  }
}

=== FILE: ordering.dfy ===
/**
 * Orderings and sorting shared by the services and pages that sort lists:
 * Java's `List.sort`/`Stream.sorted` with a `Comparator`, and JavaScript's
 * `Array.prototype.sort` with a consistent comparator. A comparator is modelled
 * by its "less than or equal" relation, which must be a total preorder.
 */
module Ordering {

  /** `le` is total and transitive: it is what a consistent comparator induces. */
  ghost predicate TotalPreorder<T(!new)>(le: (T, T) -> bool)
  {
    (forall a, b :: le(a, b) || le(b, a)) &&
    (forall a, b, c :: le(a, b) && le(b, c) ==> le(a, c))
  }

  /** Every earlier element is `le` every later one. */
  ghost predicate SortedBy<T>(s: seq<T>, le: (T, T) -> bool)
  {
    forall i, j :: 0 <= i < j < |s| ==> le(s[i], s[j])
  }

  /** `le` read backwards: the comparator's `reversed()`. */
  function Reversed<T>(le: (T, T) -> bool): (T, T) -> bool
  {
    (a, b) => le(b, a)
  }

  lemma ReversedTotalPreorder<T(!new)>(le: (T, T) -> bool)
    requires TotalPreorder(le)
    ensures TotalPreorder(Reversed(le))
  {
  }

  /** Inserts `x` before the first element it is `le`. */
  function Insert<T(!new)>(x: T, s: seq<T>, le: (T, T) -> bool): (r: seq<T>)
    requires TotalPreorder(le) && SortedBy(s, le)
    ensures multiset(r) == multiset(s) + multiset{x}
    ensures SortedBy(r, le)
  {
    if s == [] then [x]
    else if le(x, s[0]) then [x] + s
    else
      var t := Insert(x, s[1..], le);
      assert s == [s[0]] + s[1..];
      HeadBelowRest(x, s, t, le);
      [s[0]] + t
  }

  /** When `x` goes after the head, the head is `le` everything the rest becomes. */
  lemma HeadBelowRest<T(!new)>(x: T, s: seq<T>, t: seq<T>, le: (T, T) -> bool)
    requires TotalPreorder(le) && SortedBy(s, le) && s != [] && !le(x, s[0])
    requires multiset(t) == multiset(s[1..]) + multiset{x}
    ensures forall k :: 0 <= k < |t| ==> le(s[0], t[k])
  {
    forall k | 0 <= k < |t| ensures le(s[0], t[k]) {
      assert t[k] in multiset(t);
      if t[k] != x {
        assert t[k] in multiset(s[1..]);
        var m :| 0 <= m < |s[1..]| && s[1..][m] == t[k];
        assert s[m + 1] == t[k];
      }
    }
  }

  /**
   * A sort of `s` under `le`: the same elements, in an order where each is `le`
   * the next. Insertion sort; stability is not part of the contract.
   */
  function SortBy<T(!new)>(s: seq<T>, le: (T, T) -> bool): (r: seq<T>)
    requires TotalPreorder(le)
    ensures multiset(r) == multiset(s)
    ensures SortedBy(r, le)
  {
    if s == [] then []
    else
      assert s == [s[0]] + s[1..];
      Insert(s[0], SortBy(s[1..], le), le)
  }

  /** Sorting preserves the length and keeps exactly the input's elements. */
  lemma SortByKeepsElements<T(!new)>(s: seq<T>, le: (T, T) -> bool)
    requires TotalPreorder(le)
    ensures |SortBy(s, le)| == |s|
    ensures forall x :: x in SortBy(s, le) <==> x in s
  {
    var r := SortBy(s, le);
    assert |r| == |multiset(r)| == |multiset(s)| == |s|;
    forall x ensures x in r <==> x in s {
      assert x in r <==> x in multiset(r);
      assert x in s <==> x in multiset(s);
    }
  }

  /** Java's `String.compareTo`: code-unit lexicographic order, a proper prefix first. */
  predicate StrLe(a: string, b: string)
  {
    if a == [] then true
    else if b == [] then false
    else if a[0] != b[0] then a[0] < b[0]
    else StrLe(a[1..], b[1..])
  }

  lemma {:induction false} StrLeTotal(a: string, b: string)
    ensures StrLe(a, b) || StrLe(b, a)
  {
    if a != [] && b != [] && a[0] == b[0] {
      StrLeTotal(a[1..], b[1..]);
    }
  }

  lemma {:induction false} StrLeTrans(a: string, b: string, c: string)
    requires StrLe(a, b) && StrLe(b, c)
    ensures StrLe(a, c)
  {
    if a != [] && b != [] && c != [] && a[0] == b[0] && b[0] == c[0] {
      StrLeTrans(a[1..], b[1..], c[1..]);
    }
  }

  lemma {:induction false} StrLeAntisym(a: string, b: string)
    requires StrLe(a, b) && StrLe(b, a)
    ensures a == b
  {
    if a != [] && b != [] {
      StrLeAntisym(a[1..], b[1..]);
      assert a == [a[0]] + a[1..];
      assert b == [b[0]] + b[1..];
    }
  }

  /** A relation that orders values by a string key is a total preorder. */
  lemma StrKeyTotalPreorder<T(!new)>(le: (T, T) -> bool, key: T -> string)
    requires forall a, b :: le(a, b) == StrLe(key(a), key(b))
    ensures TotalPreorder(le)
  {
    forall a, b ensures le(a, b) || le(b, a) {
      StrLeTotal(key(a), key(b));
    }
    forall a, b, c | le(a, b) && le(b, c) ensures le(a, c) {
      StrLeTrans(key(a), key(b), key(c));
    }
  }

  /** A relation that orders values by an integer key is a total preorder. */
  lemma IntKeyTotalPreorder<T(!new)>(le: (T, T) -> bool, key: T -> int)
    requires forall a, b :: le(a, b) == (key(a) <= key(b))
    ensures TotalPreorder(le)
  {
  }
}

=== FILE: product_form.dfy ===
/**
 * The warehouse dialog that creates or edits a product: the form fields, the
 * per-field error messages, the chosen image and the requests a submit sends.
 * The product, category and image services are called over HTTP; their answers are
 * parameters and the requests are returned.
 */
module ProductForm {
  import opened Wrappers
  import Text
  import Numbers

  /** A number `parseFloat` reads: its sign, its integer digits and its fraction digits. */
  datatype Decimal = Decimal(negative: bool, whole: string, fraction: string)

  /**
   * JavaScript's `parseFloat(s)` up to an exponent: leading white space is skipped,
   * an optional sign is read, then the longest run of digits and, after a point,
   * the longest run of fraction digits. No digit at all is `NaN`, here `None`.
   */
  function JsParseFloat(s: string): (r: Option<Decimal>)
    ensures r.Some? ==> r.value.whole != [] || r.value.fraction != []
    ensures r.Some? ==> forall i :: 0 <= i < |r.value.whole| ==> Numbers.IsDigit(r.value.whole[i])
    ensures r.Some? ==> forall i :: 0 <= i < |r.value.fraction| ==> Numbers.IsDigit(r.value.fraction[i])
  {
    var t := Text.TrimStart(s, Text.IsJsSpace);
    var neg := t != [] && t[0] == '-';
    var body := if t != [] && (t[0] == '-' || t[0] == '+') then t[1..] else t;
    var whole := Numbers.DigitPrefix(body);
    var rest := body[|whole|..];
    var fraction := if rest != [] && rest[0] == '.' then Numbers.DigitPrefix(rest[1..]) else [];
    if whole == [] && fraction == [] then None else Some(Decimal(neg, whole, fraction))
  }

  /** Some digit is not zero. */
  predicate NonZeroDigits(s: string)
  {
    exists i :: 0 <= i < |s| && s[i] != '0'
  }

  /** The number is greater than zero. */
  predicate Positive(d: Decimal)
  {
    !d.negative && NonZeroDigits(d.whole + d.fraction)
  }

  /** `parseFloat` reads back the text of a printed whole number. */
  lemma ParseFloatOfDecimal(n: nat)
    ensures JsParseFloat(Numbers.DecimalString(n)) == Some(Decimal(false, Numbers.DecimalString(n), []))
  {
    var s := Numbers.DecimalString(n);
    assert Numbers.IsDigit(s[0]);
    assert !Text.IsJsSpace(s[0]);
    var t := Text.TrimStart(s, Text.IsJsSpace);
    assert t == s;
    assert t[0] != '-' && t[0] != '+';
    Numbers.DigitPrefixOfDigits(s);
    var whole := Numbers.DigitPrefix(s);
    assert whole == s;
    assert s[|whole|..] == [];
  }

  /** The fields that can carry an error message. */
  datatype Field = NameField | DescriptionField | PriceField | CodeField | ImageField

  /** `formData`. */
  datatype FormData = FormData(name: string, description: string, price: string, productCode: string, categoryId: string)

  const EMPTY_FORM := FormData("", "", "", "", "")

  /** A chosen file: its MIME type and its size in bytes. */
  datatype ImageFile = ImageFile(mimeType: string, size: int)

  /** A category offered by the select. */
  datatype CategoryRef = CategoryRef(id: string, name: string)

  /** A product as the edit mode loads it; `None` for a missing field. `price` is the number's text. */
  datatype LoadedProduct = LoadedProduct(name: Option<string>, description: Option<string>, price: Option<nat>,
                                         productCode: Option<string>, categoryId: Option<string>)

  /** The body of the create or update request. `price` is `None` where `parseFloat` gives `NaN`. */
  datatype ProductRequest = ProductRequest(name: string, description: string, price: Option<Decimal>,
                                           productCode: string, categoryId: string)

  /** The largest image accepted: 5 MB. */
  const MAX_IMAGE_SIZE := 5 * 1024 * 1024

  predicate Blank(s: string)
  {
    Text.JsTrim(s) == ""
  }

  /**
   * `!price || parseFloat(price) <= 0`. Text `parseFloat` cannot read gives `NaN`,
   * and `NaN <= 0` is false, so it raises no error; the number input never holds
   * such text.
   */
  predicate PriceError(price: string)
  {
    price == "" || (JsParseFloat(price).Some? && !Positive(JsParseFloat(price).value))
  }

  /** Whether `validateForm` puts a message on the field. */
  predicate Fails(form: FormData, editMode: bool, image: Option<ImageFile>, f: Field)
  {
    match f
    case NameField => Blank(form.name)
    case DescriptionField => Blank(form.description)
    case PriceField => PriceError(form.price)
    case CodeField => Blank(form.productCode)
    case ImageField => !editMode && image.None?
  }

  /** The form the dialog submits: named, described, priced, coded and, when creating, with an image. */
  predicate Acceptable(form: FormData, editMode: bool, image: Option<ImageFile>)
  {
    !Blank(form.name) && !Blank(form.description) && !PriceError(form.price) && !Blank(form.productCode) &&
    (editMode || image.Some?)
  }

  /** A price printed from a whole number passes the price check exactly when it is above zero. */
  lemma PriceOfWholeNumber(n: nat)
    ensures !PriceError(Numbers.DecimalString(n)) <==> n > 0
  {
    var s := Numbers.DecimalString(n);
    ParseFloatOfDecimal(n);
    assert s + [] == s;
    if n > 0 {
      assert s[0] != '0';
    } else {
      assert s == ['0'];
    }
  }

  /** The request body: the texts trimmed, the price read by `parseFloat`. */
  function Payload(form: FormData): (r: ProductRequest)
    ensures r.name == Text.JsTrim(form.name) && r.description == Text.JsTrim(form.description)
    ensures r.productCode == Text.JsTrim(form.productCode) && r.categoryId == form.categoryId
    ensures r.price == JsParseFloat(form.price)
  {
    ProductRequest(Text.JsTrim(form.name), Text.JsTrim(form.description), JsParseFloat(form.price),
                   Text.JsTrim(form.productCode), form.categoryId)
  }

  /** An accepted form sends non-empty texts and never a price at or below zero. */
  lemma AcceptedPayload(form: FormData, editMode: bool, image: Option<ImageFile>)
    requires Acceptable(form, editMode, image)
    ensures var r := Payload(form);
      r.name != "" && r.description != "" && r.productCode != "" &&
      (r.price.Some? ==> Positive(r.price.value))
  {
  }

  /** `handleInputChange` on one of the text inputs: only that field takes the value. */
  function WithField(form: FormData, f: Field, value: string): (r: FormData)
    requires f != ImageField
    ensures f == NameField ==> r == form.(name := value)
    ensures f == DescriptionField ==> r == form.(description := value)
    ensures f == PriceField ==> r == form.(price := value)
    ensures f == CodeField ==> r == form.(productCode := value)
  {
    match f
    case NameField => form.(name := value)
    case DescriptionField => form.(description := value)
    case PriceField => form.(price := value)
    case CodeField => form.(productCode := value)
  }

  /** The message `validateForm` puts on a failing field. */
  function Message(f: Field): (m: string)
    ensures m != ""
  {
    match f
    case NameField => "Product name is required"
    case DescriptionField => "Description is required"
    case PriceField => "Please enter a valid price"
    case CodeField => "Product code is required"
    case ImageField => "Product image is required"
  }

  /** `if (errors[name])`: the field shows a message. */
  predicate Shows(errors: map<Field, string>, f: Field)
  {
    f in errors && errors[f] != ""
  }

  /** A file `handleImageChange` keeps: an image type, at most 5 MB. */
  predicate ImageAllowed(file: ImageFile)
  {
    Text.StartsWith(file.mimeType, "image/") && file.size <= MAX_IMAGE_SIZE
  }

  /** `validateForm`'s `newErrors`, filled one check at a time from the outcome of each check. */
  method ErrorMessages(nameBad: bool, descriptionBad: bool, priceBad: bool, codeBad: bool, imageBad: bool)
    returns (newErrors: map<Field, string>)
    ensures NameField in newErrors <==> nameBad
    ensures DescriptionField in newErrors <==> descriptionBad
    ensures PriceField in newErrors <==> priceBad
    ensures CodeField in newErrors <==> codeBad
    ensures ImageField in newErrors <==> imageBad
    ensures forall f :: f in newErrors ==> newErrors[f] == Message(f)
  {
    newErrors := map[];
    if nameBad {
      newErrors := newErrors[NameField := Message(NameField)];
    }
    if descriptionBad {
      newErrors := newErrors[DescriptionField := Message(DescriptionField)];
    }
    if priceBad {
      newErrors := newErrors[PriceField := Message(PriceField)];
    }
    if codeBad {
      newErrors := newErrors[CodeField := Message(CodeField)];
    }
    if imageBad {
      newErrors := newErrors[ImageField := Message(ImageField)];
    }
  }

  /** A map holding a message exactly for the failing fields is empty exactly when the form is acceptable. */
  lemma ErrorsMatchFailures(form: FormData, editMode: bool, image: Option<ImageFile>, m: map<Field, string>)
    requires NameField in m <==> Blank(form.name)
    requires DescriptionField in m <==> Blank(form.description)
    requires PriceField in m <==> PriceError(form.price)
    requires CodeField in m <==> Blank(form.productCode)
    requires ImageField in m <==> !editMode && image.None?
    ensures forall f :: f in m <==> Fails(form, editMode, image, f)
    ensures m == map[] <==> Acceptable(form, editMode, image)
  {
    forall f
      ensures f in m <==> Fails(form, editMode, image, f)
    {
      match f
      case NameField =>
      case DescriptionField =>
      case PriceField =>
      case CodeField =>
      case ImageField =>
    }
    if !Acceptable(form, editMode, image) {
      assert exists f :: f in m;
    } else {
      assert forall f :: f !in m;
    }
  }

  /**
   * The checks of `validateForm` on a form: each failing field gets its message,
   * and the form passes exactly when no message was set.
   */
  method Validate(form: FormData, editMode: bool, image: Option<ImageFile>) returns (newErrors: map<Field, string>, ok: bool)
    ensures forall f :: f in newErrors <==> Fails(form, editMode, image, f)
    ensures forall f :: f in newErrors ==> newErrors[f] == Message(f)
    ensures ok <==> Acceptable(form, editMode, image)
  {
    newErrors := ErrorMessages(Blank(form.name), Blank(form.description), PriceError(form.price),
                               Blank(form.productCode), !editMode && image.None?);
    ErrorsMatchFailures(form, editMode, image, newErrors);
    ok := newErrors == map[];
  }

  class ProductPopup {
    /** `productId`: `None` (or empty) in create mode. */
    const productId: Option<string>
    var form: FormData
    var imageFile: Option<ImageFile>
    var errors: map<Field, string>
    var categories: seq<CategoryRef>

    /** `isEditMode = !!productId`. */
    predicate EditMode()
    {
      productId.Some? && productId.value != ""
    }

    constructor (productId: Option<string>)
      ensures this.productId == productId
      ensures form == EMPTY_FORM && imageFile.None? && errors == map[] && categories == []
    {
      this.productId := productId;
      form := EMPTY_FORM;
      imageFile := None;
      errors := map[];
      categories := [];
    }

    /** The categories arrive; `fetchCategories`. */
    method LoadCategories(loaded: seq<CategoryRef>)
      modifies this`categories
      ensures categories == loaded
    {
      categories := loaded;
    }

    /** The default-category effect: with categories loaded and none chosen, the first one is taken. */
    method DefaultCategory()
      modifies this`form
      ensures |categories| > 0 && old(form).categoryId == "" ==> form == old(form).(categoryId := categories[0].id)
      ensures !(|categories| > 0 && old(form).categoryId == "") ==> form == old(form)
    {
      if |categories| > 0 && form.categoryId == "" {
        form := form.(categoryId := categories[0].id);
      }
    }

    /** The edit mode's load: each missing field becomes empty text; the price is its printed number. */
    method LoadProduct(data: LoadedProduct)
      modifies this`form
      ensures form.name == data.name.GetOr("") && form.description == data.description.GetOr("")
      ensures form.productCode == data.productCode.GetOr("") && form.categoryId == data.categoryId.GetOr("")
      ensures data.price.None? ==> form.price == ""
      ensures data.price.Some? ==> form.price == Numbers.DecimalString(data.price.value)
      ensures data.price.Some? ==> (!PriceError(form.price) <==> data.price.value > 0)
    {
      var price := if data.price.Some? then Numbers.DecimalString(data.price.value) else "";
      form := FormData(data.name.GetOr(""), data.description.GetOr(""), price,
                       data.productCode.GetOr(""), data.categoryId.GetOr(""));
      if data.price.Some? {
        PriceOfWholeNumber(data.price.value);
      }
    }

    /** `handleInputChange`: the field takes the value, and its message, if shown, is cleared; no other message changes. */
    method ChangeField(f: Field, value: string)
      requires f != ImageField
      modifies this`form, this`errors
      ensures form == WithField(old(form), f, value)
      ensures Shows(old(errors), f) ==> errors == old(errors)[f := ""]
      ensures !Shows(old(errors), f) ==> errors == old(errors)
      ensures !Shows(errors, f)
      ensures forall g :: g != f ==> (g in errors <==> g in old(errors)) && (g in errors ==> errors[g] == old(errors)[g])
    {
      form := WithField(form, f, value);
      if Shows(errors, f) {
        errors := errors[f := ""];
      }
    }

    /** The category select: no message is touched. */
    method ChangeCategory(id: string)
      modifies this`form
      ensures form == old(form).(categoryId := id)
    {
      form := form.(categoryId := id);
    }

    /**
     * `handleImageChange`: a file is kept only when it is an image of at most 5 MB,
     * and then the image message, if shown, is cleared. Nothing chosen, or a file
     * refused, changes nothing.
     */
    method ChooseImage(file: Option<ImageFile>) returns (kept: bool)
      modifies this`imageFile, this`errors
      ensures kept <==> file.Some? && ImageAllowed(file.value)
      ensures kept ==> imageFile == file
      ensures kept && Shows(old(errors), ImageField) ==> errors == old(errors)[ImageField := ""]
      ensures kept && !Shows(old(errors), ImageField) ==> errors == old(errors)
      ensures !kept ==> imageFile == old(imageFile) && errors == old(errors)
    {
      if file.None? {
        return false;
      }
      if !Text.StartsWith(file.value.mimeType, "image/") {
        return false;
      }
      if file.value.size > MAX_IMAGE_SIZE {
        return false;
      }
      imageFile := file;
      if Shows(errors, ImageField) {
        errors := errors[ImageField := ""];
      }
      kept := true;
    }

    /** `removeImage`. */
    method RemoveImage()
      modifies this`imageFile
      ensures imageFile.None?
    {
      imageFile := None;
    }

    /**
     * `validateForm`: each failing field gets its message, the others none, and the
     * form passes exactly when no message was set.
     */
    method ValidateForm() returns (ok: bool)
      modifies this`errors
      ensures ok <==> Acceptable(form, EditMode(), imageFile)
      ensures forall f :: f in errors <==> Fails(form, EditMode(), imageFile, f)
      ensures forall f :: f in errors ==> errors[f] == Message(f)
    {
      var newErrors;
      newErrors, ok := Validate(form, EditMode(), imageFile);
      errors := newErrors;
    }

    /**
     * `handleSubmit`, given whether the create or update call succeeded and the id a
     * create returned. An invalid form sends nothing. A valid one sends the payload;
     * after a successful call the chosen image, if any, is uploaded for the product
     * being edited or the one just created.
     */
    method Submit(saved: bool, createdId: string) returns (valid: bool, request: Option<ProductRequest>, upload: Option<string>)
      modifies this`errors
      ensures valid <==> Acceptable(form, EditMode(), imageFile)
      ensures forall f :: f in errors <==> Fails(form, EditMode(), imageFile, f)
      ensures forall f :: f in errors ==> errors[f] == Message(f)
      ensures !valid ==> request.None? && upload.None?
      ensures valid ==> request == Some(Payload(form))
      ensures upload.Some? <==> valid && saved && imageFile.Some?
      ensures upload.Some? ==> upload.value == (if EditMode() then productId.value else createdId)
    {
      valid := ValidateForm();
      if !valid {
        return valid, None, None;
      }
      request := Some(Payload(form));
      if !saved {
        return valid, request, None;
      }
      var responseProductId := if EditMode() then productId.value else createdId;
      if imageFile.Some? {
        upload := Some(responseProductId);
      } else {
        upload := None;
      }
    }
  }
}

=== FILE: report_page.dfy ===
/**
 * The marketing report page: the period filter, month and year it asks the
 * dashboard for, the refetch that follows any change of those three, and the
 * in-place sort of the revenue chart into calendar order before it is stored.
 */
module ReportPage {
  import opened Wrappers
  import Text
  import Numbers
  import Ordering
  import Calendar
  import TransactionReport

  /** One bar of the revenue chart: its period label and the revenue booked under it. */
  datatype ChartPoint = ChartPoint(period: string, revenue: int)

  /** The query of `GET /transactions/dashboard`. */
  datatype Query = Query(filterType: string, month: int, year: int)

  /** The dashboard's answer as far as the chart goes; `revenueChart` is `None` when absent. */
  datatype Response = Response(revenueChart: Option<array<ChartPoint>>)

  /** `s.replace(sub, "")` with a text pattern: the first occurrence of `sub` is removed. */
  function RemoveFirst(s: string, sub: string): (r: string)
    ensures Text.StartsWith(s, sub) ==> r == s[|sub|..]
    ensures !Text.Contains(s, sub) ==> r == s
    decreases |s|
  {
    if Text.StartsWith(s, sub) then s[|sub|..]
    else if s == [] then []
    else [s[0]] + RemoveFirst(s[1..], sub)
  }

  /** `parseInt(period.replace("Day ", ""))`; `None` stands for `NaN`. */
  function DayNumber(period: string): Option<int>
  {
    Numbers.JsParseInt(RemoveFirst(period, "Day "))
  }

  /** The day labels the transaction report produces read back as their day. */
  lemma DayNumberOfLabel(d: nat)
    ensures DayNumber(TransactionReport.DayLabel(d)) == Some(d)
  {
    var s := TransactionReport.DayLabel(d);
    assert Text.StartsWith(s, "Day ");
    assert s[4..] == Numbers.DecimalString(d);
    Numbers.ParseIntOfDecimal(d);
  }

  /** The first position of `x` in `xs`, or -1 (`indexOf`). */
  function IndexIn<T(==)>(xs: seq<T>, x: T): (r: int)
    ensures -1 <= r < |xs|
    ensures r == -1 <==> x !in xs
    ensures r >= 0 ==> xs[r] == x && forall j :: 0 <= j < r ==> xs[j] != x
  {
    if xs == [] then -1
    else if xs[0] == x then 0
    else
      var k := IndexIn(xs[1..], x);
      assert forall j :: 1 <= j < |xs| ==> xs[j] == xs[1..][j - 1];
      if k < 0 then -1 else k + 1
  }

  /** `months.indexOf(period)`: the position among the twelve short names, -1 for any other text. */
  function MonthIndex(period: string): (r: int)
    ensures -1 <= r < 12
    ensures r == -1 <==> period !in Calendar.MONTH_SHORT_NAMES
    ensures r >= 0 ==> Calendar.MONTH_SHORT_NAMES[r] == period
  {
    IndexIn(Calendar.MONTH_SHORT_NAMES, period)
  }

  /** The short name of month `m` is at position `m - 1`. */
  lemma MonthIndexOfName(m: int)
    requires 1 <= m <= 12
    ensures MonthIndex(Calendar.MonthShortName(m)) == m - 1
  {
    var r := MonthIndex(Calendar.MonthShortName(m));
    assert Calendar.MonthShortName(r + 1) == Calendar.MonthShortName(m);
    Calendar.MonthShortNameInjective(r + 1, m);
  }

  /** The day a point is compared by when its label parses. */
  function DayKey(p: ChartPoint): int
  {
    DayNumber(p.period).GetOr(0)
  }

  function MonthKey(p: ChartPoint): int
  {
    MonthIndex(p.period)
  }

  /** The comparator's "not after" relation: by day in month mode, by month otherwise. */
  function ChartOrder(timeFilter: string): (ChartPoint, ChartPoint) -> bool
  {
    if timeFilter == "month" then (a: ChartPoint, b: ChartPoint) => DayKey(a) <= DayKey(b)
    else (a: ChartPoint, b: ChartPoint) => MonthKey(a) <= MonthKey(b)
  }

  lemma ChartOrderIsPreorder(timeFilter: string)
    ensures Ordering.TotalPreorder(ChartOrder(timeFilter))
  {
    if timeFilter == "month" {
      Ordering.IntKeyTotalPreorder(ChartOrder(timeFilter), DayKey);
    } else {
      Ordering.IntKeyTotalPreorder(ChartOrder(timeFilter), MonthKey);
    }
  }

  /**
   * The comparator is consistent: always in year mode, and in month mode when
   * every label's day parses (`dayA - dayB` is `NaN` otherwise).
   */
  predicate Comparable(timeFilter: string, chart: seq<ChartPoint>)
  {
    timeFilter != "month" || forall i :: 0 <= i < |chart| ==> DayNumber(chart[i].period).Some?
  }

  /** A month-mode chart labelled by the transaction report's day labels is comparable. */
  lemma DayLabelsComparable(chart: seq<ChartPoint>, days: seq<nat>)
    requires |days| == |chart|
    requires forall i :: 0 <= i < |chart| ==> chart[i].period == TransactionReport.DayLabel(days[i])
    ensures Comparable("month", chart)
  {
    forall i | 0 <= i < |chart| ensures DayNumber(chart[i].period).Some? {
      DayNumberOfLabel(days[i]);
    }
  }

  /**
   * `data.revenueChart.sort(...)`: the chart is rearranged in place, keeping its
   * points, into the comparator's order whenever that comparator is consistent.
   */
  method SortChart(chart: array<ChartPoint>, timeFilter: string)
    modifies chart
    ensures multiset(chart[..]) == multiset(old(chart[..]))
    ensures Comparable(timeFilter, old(chart[..])) ==> Ordering.SortedBy(chart[..], ChartOrder(timeFilter))
  {
    if !Comparable(timeFilter, chart[..]) {
      return;
    }
    ChartOrderIsPreorder(timeFilter);
    var sorted := Ordering.SortBy(chart[..], ChartOrder(timeFilter));
    Ordering.SortByKeepsElements(chart[..], ChartOrder(timeFilter));
    forall i | 0 <= i < chart.Length {
      chart[i] := sorted[i];
    }
    assert chart[..] == sorted;
  }

  /** A sorted month-mode chart of day labels lists its days in calendar order. */
  lemma SortedDaysAscend(chart: seq<ChartPoint>, days: seq<nat>)
    requires |days| == |chart|
    requires forall i :: 0 <= i < |chart| ==> chart[i].period == TransactionReport.DayLabel(days[i])
    requires Ordering.SortedBy(chart, ChartOrder("month"))
    ensures forall i, j :: 0 <= i < j < |chart| ==> days[i] <= days[j]
  {
    forall i, j | 0 <= i < j < |chart| ensures days[i] <= days[j] {
      DayNumberOfLabel(days[i]);
      DayNumberOfLabel(days[j]);
      assert ChartOrder("month")(chart[i], chart[j]);
    }
  }

  /** A sorted year-mode chart of month names lists its months in calendar order. */
  lemma SortedMonthsAscend(chart: seq<ChartPoint>, months: seq<int>, timeFilter: string)
    requires timeFilter != "month"
    requires |months| == |chart|
    requires forall i :: 0 <= i < |months| ==> 1 <= months[i] <= 12
    requires forall i :: 0 <= i < |chart| ==> chart[i].period == Calendar.MonthShortName(months[i])
    requires Ordering.SortedBy(chart, ChartOrder(timeFilter))
    ensures forall i, j :: 0 <= i < j < |chart| ==> months[i] <= months[j]
  {
    forall i, j | 0 <= i < j < |chart| ensures months[i] <= months[j] {
      MonthIndexOfName(months[i]);
      MonthIndexOfName(months[j]);
      assert ChartOrder(timeFilter)(chart[i], chart[j]);
    }
  }

  /** In a sorted sequence, a point that is not `le` another comes after it. */
  lemma NotBeforeComesAfter<T>(s: seq<T>, le: (T, T) -> bool, i: int, j: int)
    requires Ordering.SortedBy(s, le)
    requires 0 <= i < |s| && 0 <= j < |s| && i != j && !le(s[i], s[j])
    ensures j < i
  {
  }

  /** In year mode a label that is not a month name sorts before every month. */
  lemma UnknownPeriodsFirst(chart: seq<ChartPoint>, timeFilter: string, i: int, j: int)
    requires timeFilter != "month"
    requires Ordering.SortedBy(chart, ChartOrder(timeFilter))
    requires 0 <= i < |chart| && 0 <= j < |chart|
    requires chart[i].period in Calendar.MONTH_SHORT_NAMES && chart[j].period !in Calendar.MONTH_SHORT_NAMES
    ensures j < i
  {
    assert MonthKey(chart[j]) == -1 && MonthKey(chart[i]) >= 0;
    assert !ChartOrder(timeFilter)(chart[i], chart[j]);
    NotBeforeComesAfter(chart, ChartOrder(timeFilter), i, j);
  }

  /** The year choices: the five most recent years, the current one first. */
  function Years(currentYear: int): (ys: seq<int>)
    ensures |ys| == 5 && ys[0] == currentYear && ys[4] == currentYear - 4
    ensures forall i, j :: 0 <= i < j < |ys| ==> ys[i] > ys[j]
    ensures forall y :: y in ys <==> currentYear - 4 <= y <= currentYear
  {
    var ys := seq(5, i requires 0 <= i => currentYear - i);
    forall y | currentYear - 4 <= y <= currentYear ensures y in ys {
      assert ys[currentYear - y] == y;
    }
    ys
  }

  class ReportScreen {
    var timeFilter: string
    var selectedMonth: int
    var selectedYear: int
    var loading: bool
    /** `reportData.revenueChart`; `None` once an answer without a chart is stored. */
    var revenueChart: Option<seq<ChartPoint>>

    /** The query built from the current filter, month and year. */
    function CurrentQuery(): (q: Query)
      reads this
      ensures q.filterType == timeFilter && q.month == selectedMonth && q.year == selectedYear
    {
      Query(timeFilter, selectedMonth, selectedYear)
    }

    /** The page opens on the month view of the current month, with an empty chart. */
    constructor (today: Calendar.Date)
      ensures timeFilter == "month" && selectedMonth == today.month && selectedYear == today.year
      ensures !loading && revenueChart == Some([])
    {
      timeFilter := "month";
      selectedMonth := today.month;
      selectedYear := today.year;
      loading := false;
      revenueChart := Some([]);
    }

    /** The filter select; the effect refetches only when the value changes. */
    method SelectFilter(f: string) returns (refetch: Option<Query>)
      modifies this`timeFilter
      ensures timeFilter == f
      ensures refetch.Some? <==> f != old(timeFilter)
      ensures refetch.Some? ==> refetch.value == CurrentQuery()
    {
      refetch := if f != timeFilter then Some(Query(f, selectedMonth, selectedYear)) else None;
      timeFilter := f;
    }

    /** The month select. */
    method SelectMonth(m: int) returns (refetch: Option<Query>)
      modifies this`selectedMonth
      ensures selectedMonth == m
      ensures refetch.Some? <==> m != old(selectedMonth)
      ensures refetch.Some? ==> refetch.value == CurrentQuery()
    {
      refetch := if m != selectedMonth then Some(Query(timeFilter, m, selectedYear)) else None;
      selectedMonth := m;
    }

    /** The year select. */
    method SelectYear(y: int) returns (refetch: Option<Query>)
      modifies this`selectedYear
      ensures selectedYear == y
      ensures refetch.Some? <==> y != old(selectedYear)
      ensures refetch.Some? ==> refetch.value == CurrentQuery()
    {
      refetch := if y != selectedYear then Some(Query(timeFilter, selectedMonth, y)) else None;
      selectedYear := y;
    }

    /**
     * `fetchReportData`, given the dashboard's answer (`None` when the call fails,
     * which keeps the stored report). The chart of the answer is sorted in place
     * under the current filter and then stored.
     */
    method Fetch(answer: Option<Response>) returns (query: Query)
      modifies this`loading, this`revenueChart
      modifies if answer.Some? && answer.value.revenueChart.Some? then {answer.value.revenueChart.value} else {}
      ensures query == CurrentQuery() && !loading
      ensures answer.None? ==> revenueChart == old(revenueChart)
      ensures answer.Some? && answer.value.revenueChart.None? ==> revenueChart.None?
      ensures answer.Some? && answer.value.revenueChart.Some? ==>
        var chart := answer.value.revenueChart.value;
        revenueChart == Some(chart[..]) &&
        multiset(chart[..]) == multiset(old(chart[..])) &&
        (Comparable(timeFilter, old(chart[..])) ==> Ordering.SortedBy(chart[..], ChartOrder(timeFilter)))
    {
      loading := true;
      query := Query(timeFilter, selectedMonth, selectedYear);
      if answer.Some? {
        if answer.value.revenueChart.Some? {
          var chart := answer.value.revenueChart.value;
          SortChart(chart, timeFilter);
          revenueChart := Some(chart[..]);
        } else {
          revenueChart := None;
        }
      }
      loading := false;
    }
  }
}

=== FILE: routes.dfy ===
/**
 * The route table (`App.jsx`) and how it fits the landing pages the provider
 * chooses after sign-in.
 */
module Routes {
  import opened Wrappers
  import AuthContext
  import AccessGate

  /** What a route renders: a plain redirect, an ungated page, or a page behind the gate. */
  datatype Element =
    | NavigateTo(path: string)
    | Open
    | Guarded(requiredRole: string)

  datatype Route = Route(path: string, element: Element)

  const ROUTES: seq<Route> := [
    Route("/", NavigateTo("/home")),
    Route("/home", Open),
    Route("/cash", Guarded("CASHIER")),
    Route("/warehouse", Guarded("WAREHOUSE")),
    Route("/admin", Guarded("MANAGER"))
  ]

  /** The element the table gives `path`, if any route matches it. */
  function Lookup(path: string): (r: Option<Element>)
    ensures r.Some? <==> exists i :: 0 <= i < |ROUTES| && ROUTES[i].path == path
    ensures r.Some? ==> exists i :: 0 <= i < |ROUTES| && ROUTES[i] == Route(path, r.value)
  {
    if path == "/" then Some(ROUTES[0].element)
    else if path == "/home" then Some(ROUTES[1].element)
    else if path == "/cash" then Some(ROUTES[2].element)
    else if path == "/warehouse" then Some(ROUTES[3].element)
    else if path == "/admin" then Some(ROUTES[4].element)
    else None
  }

  /** The table as a whole: five distinct paths, "/" forwards to "/home", and only "/home" is open. */
  lemma RouteTable()
    ensures |ROUTES| == 5
    ensures forall i, j :: 0 <= i < j < |ROUTES| ==> ROUTES[i].path != ROUTES[j].path
    ensures Lookup("/") == Some(NavigateTo("/home"))
    ensures Lookup("/home") == Some(Open)
    ensures Lookup("/cash") == Some(Guarded("CASHIER"))
    ensures Lookup("/warehouse") == Some(Guarded("WAREHOUSE"))
    ensures Lookup("/admin") == Some(Guarded("MANAGER"))
  {
  }

  /** What the visitor of `path` sees, given the session the gate reads. */
  function Visit(path: string, loading: bool, dataLoaded: bool, authenticated: bool,
                 user: Option<AuthContext.Profile>, roles: seq<string>): (r: Option<AccessGate.GateOutcome>)
    ensures Lookup(path).None? <==> r.None?
    ensures Lookup(path) == Some(Open) ==> r == Some(AccessGate.RenderChildren)
  {
    match Lookup(path)
    case None => None
    case Some(NavigateTo(p)) => Some(AccessGate.RedirectTo(p))
    case Some(Open) => Some(AccessGate.RenderChildren)
    case Some(Guarded(role)) =>
      Some(AccessGate.Gate(loading, dataLoaded, authenticated, user, roles, Some(role)))
  }

  /**
   * Every landing page the provider navigates to is a guarded route, and when the
   * user holds the upper-case form of the role that chose it, its gate lets them in.
   */
  lemma RedirectTargetAdmitted(from: string, roles: seq<string>, user: AuthContext.Profile)
    requires AuthContext.RedirectTarget(from, roles).Some?
    requires var t := AuthContext.RedirectTarget(from, roles).value;
      (t == "/cash" ==> "CASHIER" in roles) &&
      (t == "/admin" ==> "MANAGER" in roles) &&
      (t == "/warehouse" ==> "WAREHOUSE" in roles)
    ensures var t := AuthContext.RedirectTarget(from, roles).value;
      Lookup(t).Some? && Lookup(t).value.Guarded? &&
      Visit(t, false, true, true, Some(user), roles) == Some(AccessGate.RenderChildren)
  {
  }

  /**
   * A cashier whose token carries only the lower-case role is sent to "/cash" and
   * then turned away by its gate, which compares the role exactly.
   */
  lemma LowerCaseRoleRedirectedThenDenied(user: AuthContext.Profile)
    ensures AuthContext.RedirectTarget("/home", ["cashier"]) == Some("/cash")
    ensures Visit("/cash", false, true, true, Some(user), ["cashier"]) == Some(AccessGate.RedirectTo("/home"))
  {
    AuthContext.RoleChecksBothSpellings(["cashier"]);
  }
}

=== FILE: sequences.dfy ===
/**
 * List operations shared by the services and pages: an order-keeping filter
 * (Java's `stream().filter`, JavaScript's `Array.prototype.filter`) and sums.
 */
module Sequences {
  import opened Wrappers

  /** The elements of `s` that satisfy `p`, in their original order. */
  function Filter<T(!new)>(s: seq<T>, p: T -> bool): (r: seq<T>)
    ensures |r| <= |s|
    ensures forall x :: x in r <==> x in s && p(x)
    ensures multiset(r) <= multiset(s)
    ensures forall i :: 0 <= i < |r| ==> p(r[i])
  {
    if s == [] then []
    else
      assert s == [s[0]] + s[1..];
      (if p(s[0]) then [s[0]] else []) + Filter(s[1..], p)
  }

  /** Filtering distributes over concatenation. */
  lemma {:induction false} FilterAppend<T(!new)>(a: seq<T>, b: seq<T>, p: T -> bool)
    ensures Filter(a + b, p) == Filter(a, p) + Filter(b, p)
  {
    if a == [] {
      assert a + b == b;
    } else {
      assert (a + b)[1..] == a[1..] + b;
      FilterAppend(a[1..], b, p);
    }
  }

  /** A filter keeps each passing element as often as the list holds it, and no other. */
  lemma {:induction false} FilterCount<T(!new)>(s: seq<T>, p: T -> bool, x: T)
    ensures multiset(Filter(s, p))[x] == if p(x) then multiset(s)[x] else 0
  {
    if s != [] {
      assert s == [s[0]] + s[1..];
      FilterCount(s[1..], p, x);
    }
  }

  /** `FilterCount` for every element at once. */
  lemma FilterCounts<T(!new)>(s: seq<T>, p: T -> bool)
    ensures forall x :: multiset(Filter(s, p))[x] == if p(x) then multiset(s)[x] else 0
  {
    forall x {
      FilterCount(s, p, x);
    }
  }

  /** A filter that no element passes leaves nothing. */
  lemma {:induction false} FilterNone<T(!new)>(s: seq<T>, p: T -> bool)
    requires forall i :: 0 <= i < |s| ==> !p(s[i])
    ensures Filter(s, p) == []
  {
    if s != [] {
      FilterNone(s[1..], p);
    }
  }

  /** A filter that every element passes keeps the whole list. */
  lemma {:induction false} FilterAll<T(!new)>(s: seq<T>, p: T -> bool)
    requires forall i :: 0 <= i < |s| ==> p(s[i])
    ensures Filter(s, p) == s
  {
    if s != [] {
      FilterAll(s[1..], p);
    }
  }

  /** Two filters in a row are one filter by both conditions. */
  lemma {:induction false} FilterFuse<T(!new)>(s: seq<T>, p: T -> bool, q: T -> bool, r: T -> bool)
    requires forall x :: r(x) == (p(x) && q(x))
    ensures Filter(Filter(s, p), q) == Filter(s, r)
  {
    if s != [] {
      FilterFuse(s[1..], p, q, r);
      var head := if p(s[0]) then [s[0]] else [];
      FilterAppend(head, Filter(s[1..], p), q);
      assert Filter(head, q) == if r(s[0]) then [s[0]] else [] by {
        if p(s[0]) {
          assert head[1..] == [];
        }
      }
    }
  }

  /** A stricter filter keeps a sub-list of a looser one. */
  lemma {:induction false} FilterStronger<T(!new)>(s: seq<T>, p: T -> bool, q: T -> bool)
    requires forall x :: p(x) ==> q(x)
    ensures Filter(s, p) == Filter(Filter(s, q), p)
  {
    if s != [] {
      var head := if q(s[0]) then [s[0]] else [];
      assert Filter(s, q) == head + Filter(s[1..], q);
      FilterAppend(head, Filter(s[1..], q), p);
      FilterStronger(s[1..], p, q);
      assert Filter(head, p) == if p(s[0]) then [s[0]] else [] by {
        if q(s[0]) {
          assert head[1..] == [];
        }
      }
    }
  }

  /** The sum of `f` over the elements of `s`. */
  function SumOf<T>(s: seq<T>, f: T -> int): int
  {
    if s == [] then 0 else SumOf(s[..|s| - 1], f) + f(s[|s| - 1])
  }

  /** Sums distribute over concatenation. */
  lemma {:induction false} SumOfAppend<T>(a: seq<T>, b: seq<T>, f: T -> int)
    ensures SumOf(a + b, f) == SumOf(a, f) + SumOf(b, f)
  {
    if b == [] {
      assert a + b == a;
    } else {
      assert (a + b)[..|a + b| - 1] == a + b[..|b| - 1];
      SumOfAppend(a, b[..|b| - 1], f);
    }
  }

  /** A sum of non-negative terms is non-negative. */
  lemma {:induction false} SumOfNonNegative<T>(s: seq<T>, f: T -> int)
    requires forall i :: 0 <= i < |s| ==> f(s[i]) >= 0
    ensures SumOf(s, f) >= 0
  {
    if s != [] {
      SumOfNonNegative(s[..|s| - 1], f);
    }
  }

  /**
   * Java's `stream().max(Comparator.comparing(key))`: a left fold that keeps the
   * accumulated element on a tie, so the result is the first element of greatest key.
   */
  function MaxBy<T(==,!new)>(s: seq<T>, key: T -> int): (r: Option<T>)
    ensures r.None? <==> s == []
    ensures r.Some? ==> r.value in s
    ensures r.Some? ==> forall x :: x in s ==> key(x) <= key(r.value)
    ensures r.Some? ==> exists i :: 0 <= i < |s| && s[i] == r.value && FirstOfKey(s, key, i)
  {
    if s == [] then None
    else if |s| == 1 then Some(s[0])
    else
      var m := MaxBy(s[..|s| - 1], key);
      var last := s[|s| - 1];
      var i :| 0 <= i < |s| - 1 && s[..|s| - 1][i] == m.value && FirstOfKey(s[..|s| - 1], key, i);
      assert FirstOfKey(s, key, i);
      if key(m.value) >= key(last) then m else
        assert FirstOfKey(s, key, |s| - 1);
        Some(last)
  }

  /** Every element before index `i` has a strictly smaller key than `s[i]`. */
  predicate FirstOfKey<T>(s: seq<T>, key: T -> int, i: int)
    requires 0 <= i < |s|
  {
    forall j :: 0 <= j < i ==> key(s[j]) < key(s[i])
  }

  /** The elements for which `f` gives a value. */
  /**
   * The first greatest element among those passing `p`: present exactly when some
   * element passes, and then a passing element no passing element exceeds.
   */
  lemma MaxOfFilter<T(!new)>(s: seq<T>, p: T -> bool, key: T -> int)
    ensures var best := MaxBy(Filter(s, p), key);
      (best.None? <==> forall x :: x in s ==> !p(x)) &&
      (best.Some? ==> best.value in s && p(best.value) && forall x :: x in s && p(x) ==> key(x) <= key(best.value))
  {
    var kept := Filter(s, p);
    if MaxBy(kept, key).None? {
      forall x | x in s ensures !p(x) {
        assert x in kept <==> p(x);
      }
    }
  }

  function Defined<T, U>(f: T -> Option<U>): T -> bool
  {
    (x: T) => f(x).Some?
  }

  /**
   * Java's `map(f).filter(Optional::isPresent).map(Optional::get)`: the values `f`
   * gives over `s`, in order, one per element it gives a value for.
   */
  function Present<T(!new), U>(s: seq<T>, f: T -> Option<U>): (r: seq<U>)
    ensures |r| == |Filter(s, Defined(f))|
    ensures forall k :: 0 <= k < |r| ==> Some(r[k]) == f(Filter(s, Defined(f))[k])
  {
    var kept := Filter(s, Defined(f));
    assert forall k :: 0 <= k < |kept| ==> f(kept[k]).Some? by {
      forall k | 0 <= k < |kept| ensures f(kept[k]).Some? {
        assert Defined(f)(kept[k]);
      }
    }
    seq(|kept|, k requires 0 <= k < |kept| => f(kept[k]).value)
  }

  /** Every value `f` gives over `s` is among the present values. */
  lemma PresentComplete<T(!new), U>(s: seq<T>, f: T -> Option<U>, x: T)
    requires x in s && f(x).Some?
    ensures f(x).value in Present(s, f)
  {
    var kept := Filter(s, Defined(f));
    assert Defined(f)(x);
    var i :| 0 <= i < |kept| && kept[i] == x;
    assert Some(Present(s, f)[i]) == f(x);
  }
}

=== FILE: staff_checkout.dfy ===
/**
 * The staff point-of-sale page. It shares the cart handlers with the cashier page
 * (its lines carry no product id), but computes the discounts locally from a fixed
 * list and sends no payment request.
 */
module StaffCheckout {
  import opened Wrappers
  import opened Cart
  import Text
  import Sequences

  /** One entry of `appliedDiscounts`. */
  datatype Discount = Discount(kind: string, name: string, amount: int)

  /** The discounts every checkout applies, whatever the cart holds. */
  const MOCK_DISCOUNTS: seq<Discount> := [
    Discount("combo", "Combo sữa + bánh mì", 5000),
    Discount("total", "Giảm 10% hóa đơn trên 100k", 10000)
  ]

  function Amount(d: Discount): int
  {
    d.amount
  }

  /** `getTotalDiscount`: the sum of the amounts. */
  function TotalDiscount(ds: seq<Discount>): int
  {
    Sequences.SumOf(ds, Amount)
  }

  /** `getFinalTotal`: the subtotal less the discounts, with no floor at zero. */
  function FinalTotal(cart: seq<Line>, ds: seq<Discount>): int
  {
    Subtotal(cart) - TotalDiscount(ds)
  }

  /** The fixed discounts take 15000 off every sale. */
  lemma MockDiscountTotal()
    ensures TotalDiscount(MOCK_DISCOUNTS) == 15000
  {
    var ds := MOCK_DISCOUNTS;
    var first := ds[..1];
    assert first[..0] == [];
    assert Sequences.SumOf(first, Amount) == Sequences.SumOf(first[..0], Amount) + Amount(first[0]);
    assert ds[..|ds| - 1] == first;
  }

  /** A one-line cart of 10000 ends with a final total of -5000: nothing clamps it. */
  lemma FinalTotalCanBeNegative()
    ensures FinalTotal([Line(None, "000001", "Milk", 10000, "", 1)], MOCK_DISCOUNTS) == -5000
  {
    var cart := [Line(None, "000001", "Milk", 10000, "", 1)];
    assert cart[..0] == [];
    MockDiscountTotal();
  }

  class StaffSession {
    var productCode: string
    var cart: seq<Line>
    var showPaymentModal: bool
    var showQRModal: bool
    var showInvoiceModal: bool
    var customerName: string
    var discounts: seq<Discount>
    var paymentMethod: string

    /** One line per code, every quantity at least one, and a code no longer than six characters. */
    ghost predicate Valid()
      reads this
    {
      UniqueCodes(cart) && PositiveQuantities(cart) && |productCode| <= CODE_LENGTH
    }

    constructor ()
      ensures Valid()
      ensures productCode == "" && cart == [] && discounts == [] && customerName == "" && paymentMethod == ""
      ensures !showPaymentModal && !showQRModal && !showInvoiceModal
    {
      productCode := "";
      cart := [];
      showPaymentModal := false;
      showQRModal := false;
      showInvoiceModal := false;
      customerName := "";
      discounts := [];
      paymentMethod := "";
    }

    /** Typing into the code field keeps at most six characters. */
    method TypeCode(input: string)
      requires Valid()
      modifies this`productCode
      ensures Valid() && productCode == Clipped(input)
    {
      productCode := Clipped(input);
    }

    /** Typing into the customer-name field stores the text as typed. */
    method TypeCustomerName(input: string)
      requires Valid()
      modifies this`customerName
      ensures Valid() && customerName == input
    {
      customerName := input;
    }

    /**
     * `handleProductCodeSubmit`, given how the lookup of the code settles: the same as
     * on the cashier page (a rejected lookup changes nothing), except that a new line
     * has no product id.
     */
    method SubmitCode(answer: Lookup) returns (lookedUp: bool)
      requires Valid()
      modifies this`cart, this`productCode
      ensures Valid()
      ensures lookedUp <==> |old(productCode)| == CODE_LENGTH
      ensures !lookedUp || answer.LookupRejected? ==> cart == old(cart) && productCode == old(productCode)
      ensures lookedUp && !answer.LookupRejected? ==> productCode == ""
      ensures lookedUp && answer.NoProduct? ==> cart == old(cart)
      ensures lookedUp && answer.Found? ==> cart == Added(old(cart), old(productCode), answer.product, None)
    {
      if |productCode| != CODE_LENGTH {
        return false;
      }
      lookedUp := true;
      match answer
      case LookupRejected =>
      case NoProduct =>
        productCode := "";
      case Found(product) =>
        AddedKeepsInvariant(cart, productCode, product, None);
        cart := Added(cart, productCode, product, None);
        productCode := "";
    }

    /** `removeItem`. */
    method RemoveItem(code: string)
      requires Valid()
      modifies this`cart
      ensures Valid() && cart == Removed(old(cart), code)
    {
      RemovedKeepsInvariant(cart, code);
      cart := Removed(cart, code);
    }

    /** `updateQuantity`. */
    method UpdateQuantity(code: string, quantity: int)
      requires Valid()
      modifies this`cart
      ensures Valid() && cart == WithQuantity(old(cart), code, quantity)
    {
      WithQuantityKeepsInvariant(cart, code, quantity);
      cart := WithQuantity(cart, code, quantity);
    }

    /** `handleCheckout`: an empty cart changes nothing; otherwise the fixed discounts apply and the payment dialog opens. */
    method Checkout()
      modifies this`discounts, this`showPaymentModal
      ensures cart == [] ==> discounts == old(discounts) && showPaymentModal == old(showPaymentModal)
      ensures cart != [] ==> discounts == MOCK_DISCOUNTS && showPaymentModal
      ensures cart != [] ==> FinalTotal(cart, discounts) == Subtotal(cart) - 15000
    {
      if cart == [] {
        return;
      }
      discounts := MOCK_DISCOUNTS;
      showPaymentModal := true;
      MockDiscountTotal();
    }

    /** `handleQRPayment`: the QR dialog replaces the payment dialog. */
    method QRPayment()
      modifies this`paymentMethod, this`showPaymentModal, this`showQRModal
      ensures paymentMethod == "qr" && !showPaymentModal && showQRModal
    {
      paymentMethod := "qr";
      showPaymentModal := false;
      showQRModal := true;
    }

    /** `processPayment`: nothing is sent; the invoice replaces the QR dialog. */
    method ProcessPayment()
      modifies this`showQRModal, this`showInvoiceModal
      ensures !showQRModal && showInvoiceModal
    {
      showQRModal := false;
      showInvoiceModal := true;
    }

    /** `handleCashPayment`: no customer name is needed. */
    method CashPayment()
      modifies this`paymentMethod, this`showQRModal, this`showInvoiceModal
      ensures paymentMethod == "cash" && !showQRModal && showInvoiceModal
    {
      paymentMethod := "cash";
      ProcessPayment();
    }

    /**
     * `handleQRConfirm`: a customer name that is blank after trimming stops the
     * payment and changes nothing.
     */
    method QRConfirm() returns (paid: bool)
      modifies this`showQRModal, this`showInvoiceModal
      ensures paid <==> Text.JsTrim(customerName) != ""
      ensures paid ==> !showQRModal && showInvoiceModal
      ensures !paid ==> showQRModal == old(showQRModal) && showInvoiceModal == old(showInvoiceModal)
    {
      if Text.JsTrim(customerName) == "" {
        return false;
      }
      ProcessPayment();
      paid := true;
    }

    /**
     * `handleFinish`: the cart, the discounts, the customer name and the method are
     * cleared and the invoice closes. The payment dialog is left as it was, so after
     * a cash payment it is still open over the empty cart.
     */
    method Finish()
      requires Valid()
      modifies this`cart, this`discounts, this`customerName, this`paymentMethod, this`showInvoiceModal
      ensures Valid()
      ensures cart == [] && discounts == [] && customerName == "" && paymentMethod == "" && !showInvoiceModal
      ensures showPaymentModal == old(showPaymentModal)
    {
      cart := [];
      discounts := [];
      customerName := "";
      paymentMethod := "";
      showInvoiceModal := false;
    }
  }
}

=== FILE: text.dfy ===
/**
 * String helpers shared by the backend (Java) and the frontend (JavaScript) models.
 * Case mapping covers ASCII letters only; trimming follows each runtime's own
 * notion of white space.
 */
module Text {

  /** The characters Java's `String.trim` removes: every code point up to U+0020. */
  predicate IsJavaSpace(c: char)
  {
    c <= ' '
  }

  /** The characters JavaScript's `String.prototype.trim` removes (white space and line terminators). */
  predicate IsJsSpace(c: char)
  {
    c == '\t' || c == '\n' || c == '\U{0B}' || c == '\U{0C}' || c == '\r' || c == ' ' ||
    c == '\U{A0}' || c == '\U{1680}' || ('\U{2000}' <= c <= '\U{200A}') ||
    c == '\U{2028}' || c == '\U{2029}' || c == '\U{202F}' || c == '\U{205F}' ||
    c == '\U{3000}' || c == '\U{FEFF}'
  }

  function TrimStart(s: string, isSpace: char -> bool): (r: string)
    ensures |r| <= |s| && r == s[|s| - |r|..]
    ensures forall i :: 0 <= i < |s| - |r| ==> isSpace(s[i])
    ensures r != [] ==> !isSpace(r[0])
  {
    if s != [] && isSpace(s[0]) then TrimStart(s[1..], isSpace) else s
  }

  function TrimEnd(s: string, isSpace: char -> bool): (r: string)
    ensures |r| <= |s| && r == s[..|r|]
    ensures forall i :: |r| <= i < |s| ==> isSpace(s[i])
    ensures r != [] ==> !isSpace(r[|r| - 1])
  {
    if s != [] && isSpace(s[|s| - 1]) then TrimEnd(s[..|s| - 1], isSpace) else s
  }

  /** Removes leading and trailing characters satisfying `isSpace`. */
  function Trim(s: string, isSpace: char -> bool): string
  {
    TrimEnd(TrimStart(s, isSpace), isSpace)
  }

  /** Java `s.trim()`. */
  function JavaTrim(s: string): string
  {
    Trim(s, IsJavaSpace)
  }

  /** JavaScript `s.trim()`. */
  function JsTrim(s: string): string
  {
    Trim(s, IsJsSpace)
  }

  /** A string is blank when trimming leaves nothing, that is, when it holds only spaces. */
  predicate IsBlank(s: string, isSpace: char -> bool)
  {
    Trim(s, isSpace) == []
  }

  lemma {:induction false} TrimStartAllSpace(s: string, isSpace: char -> bool)
    requires forall k :: 0 <= k < |s| ==> isSpace(s[k])
    ensures TrimStart(s, isSpace) == []
  {
    if s != [] {
      TrimStartAllSpace(s[1..], isSpace);
    }
  }

  lemma BlankIffAllSpace(s: string, isSpace: char -> bool)
    ensures IsBlank(s, isSpace) <==> forall k :: 0 <= k < |s| ==> isSpace(s[k])
  {
    if forall k :: 0 <= k < |s| ==> isSpace(s[k]) {
      TrimStartAllSpace(s, isSpace);
    }
  }

  function LowerChar(c: char): char
  {
    if 'A' <= c <= 'Z' then (c as int + 32) as char else c
  }

  function UpperChar(c: char): char
  {
    if 'a' <= c <= 'z' then (c as int - 32) as char else c
  }

  /** `toLowerCase` on the ASCII letters; every other character is kept. */
  function Lower(s: string): (r: string)
    ensures |r| == |s|
    ensures forall i :: 0 <= i < |s| ==> r[i] == LowerChar(s[i])
  {
    if s == [] then [] else [LowerChar(s[0])] + Lower(s[1..])
  }

  /** `toUpperCase` on the ASCII letters; every other character is kept. */
  function Upper(s: string): (r: string)
    ensures |r| == |s|
    ensures forall i :: 0 <= i < |s| ==> r[i] == UpperChar(s[i])
  {
    seq(|s|, i requires 0 <= i < |s| => UpperChar(s[i]))
  }

  predicate StartsWith(s: string, prefix: string)
  {
    |prefix| <= |s| && s[..|prefix|] == prefix
  }

  /** `sub` occurs in `s` starting at index `i`. */
  predicate OccursAt(s: string, sub: string, i: int)
  {
    0 <= i && i + |sub| <= |s| && s[i..i + |sub|] == sub
  }

  /** `s.includes(sub)` / `s.contains(sub)`: `sub` occurs somewhere in `s`. */
  predicate Contains(s: string, sub: string)
    decreases |s|
  {
    StartsWith(s, sub) || (s != [] && Contains(s[1..], sub))
  }

  /** An occurrence at a known position is found by `Contains`. */
  lemma {:induction false} ContainsAt(s: string, sub: string, i: int)
    requires OccursAt(s, sub, i)
    ensures Contains(s, sub)
    decreases i
  {
    if i > 0 {
      assert s[1..][i - 1..i - 1 + |sub|] == s[i..i + |sub|];
      ContainsAt(s[1..], sub, i - 1);
    }
  }

  /** `Contains` finds exactly the occurrences: it holds only if `sub` starts at some index of `s`. */
  lemma {:induction false} ContainsWitness(s: string, sub: string)
    requires Contains(s, sub)
    ensures exists i :: OccursAt(s, sub, i)
    decreases |s|
  {
    if StartsWith(s, sub) {
      assert OccursAt(s, sub, 0);
    } else {
      ContainsWitness(s[1..], sub);
      var i :| OccursAt(s[1..], sub, i);
      assert s[1..][i..i + |sub|] == s[i + 1..i + 1 + |sub|];
      assert OccursAt(s, sub, i + 1);
    }
  }

  lemma ContainsEmpty(s: string)
    ensures Contains(s, [])
  {
    assert StartsWith(s, []);
  }

  /** The first index of `c` in `s`, if any (`indexOf`). */
  function IndexOf(s: string, c: char): (r: int)
    ensures -1 <= r < |s|
    ensures r == -1 <==> c !in s
    ensures r >= 0 ==> s[r] == c && c !in s[..r]
  {
    if s == [] then -1
    else if s[0] == c then 0
    else var k := IndexOf(s[1..], c);
      assert s[1..][..if k < 0 then 0 else k] == s[1..if k < 0 then 1 else k + 1];
      if k < 0 then -1 else k + 1
  }
}

=== FILE: transaction_history.dfy ===
/**
 * The warehouse transaction-history page: the records grouped by date as the
 * inventory service sends them, the per-date statistics, which dates are
 * expanded, and the order the dates are shown in.
 */
module TransactionHistory {
  import opened Wrappers
  import Ordering

  /** One stock movement of a date: its type ("IMPORT", "EXPORT" or another) and quantity. */
  datatype Entry = Entry(kind: string, quantity: int)

  /** One key of the response object and the records filed under it, in the order the keys arrive. */
  datatype DateGroup = DateGroup(date: string, entries: seq<Entry>)

  /** What `calculateStats` returns. */
  datatype Stats = Stats(totalExport: int, totalImport: int, transactionCount: int)

  /** The optional query parameters of the fetch. */
  datatype Params = Params(startDate: Option<string>, endDate: Option<string>)

  /** `transactions[date] || []`: the records filed under the date, none for an unknown date. */
  function EntriesOn(groups: seq<DateGroup>, date: string): (r: seq<Entry>)
    ensures (forall i :: 0 <= i < |groups| ==> groups[i].date != date) ==> r == []
    ensures forall i :: (0 <= i < |groups| && groups[i].date == date &&
      (forall j :: 0 <= j < i ==> groups[j].date != date)) ==> r == groups[i].entries
  {
    if groups == [] then []
    else if groups[0].date == date then groups[0].entries
    else
      assert forall i :: 1 <= i < |groups| ==> groups[i] == groups[1..][i - 1];
      EntriesOn(groups[1..], date)
  }

  /** The summed quantity of the records of one type. */
  function QuantityOf(es: seq<Entry>, kind: string): int
  {
    if es == [] then 0
    else QuantityOf(es[..|es| - 1], kind) + (if es[|es| - 1].kind == kind then es[|es| - 1].quantity else 0)
  }

  /** The summed quantity of the records that are neither imports nor exports. */
  function OtherQuantity(es: seq<Entry>): int
  {
    if es == [] then 0
    else
      var e := es[|es| - 1];
      OtherQuantity(es[..|es| - 1]) + (if e.kind != "EXPORT" && e.kind != "IMPORT" then e.quantity else 0)
  }

  /** The summed quantity of all records. */
  function AllQuantity(es: seq<Entry>): int
  {
    if es == [] then 0 else AllQuantity(es[..|es| - 1]) + es[|es| - 1].quantity
  }

  /** `calculateStats`: the export total, the import total and the number of records of the date. */
  method CalculateStats(groups: seq<DateGroup>, date: string) returns (s: Stats)
    ensures s.transactionCount == |EntriesOn(groups, date)|
    ensures s.totalExport == QuantityOf(EntriesOn(groups, date), "EXPORT")
    ensures s.totalImport == QuantityOf(EntriesOn(groups, date), "IMPORT")
  {
    var totalExport := 0;
    var totalImport := 0;
    var transactionCount := 0;
    var es := EntriesOn(groups, date);
    var i := 0;
    while i < |es|
      invariant i <= |es|
      invariant transactionCount == i
      invariant totalExport == QuantityOf(es[..i], "EXPORT")
      invariant totalImport == QuantityOf(es[..i], "IMPORT")
    {
      assert es[..i + 1][..i] == es[..i];
      if es[i].kind == "EXPORT" {
        totalExport := totalExport + es[i].quantity;
      }
      if es[i].kind == "IMPORT" {
        totalImport := totalImport + es[i].quantity;
      }
      transactionCount := transactionCount + 1;
      i := i + 1;
    }
    assert es[..i] == es;
    return Stats(totalExport, totalImport, transactionCount);
  }

  /** Every record's quantity goes to exactly one of the export total, the import total and the rest. */
  lemma {:induction false} TotalsSplit(es: seq<Entry>)
    ensures QuantityOf(es, "EXPORT") + QuantityOf(es, "IMPORT") + OtherQuantity(es) == AllQuantity(es)
  {
    if es != [] {
      TotalsSplit(es[..|es| - 1]);
    }
  }

  /** Records of another type are counted but add to neither total. */
  lemma OtherKindCountsOnly(es: seq<Entry>, e: Entry)
    requires e.kind != "EXPORT" && e.kind != "IMPORT"
    ensures QuantityOf(es + [e], "EXPORT") == QuantityOf(es, "EXPORT")
    ensures QuantityOf(es + [e], "IMPORT") == QuantityOf(es, "IMPORT")
    ensures |es + [e]| == |es| + 1
  {
    assert (es + [e])[..|es + [e]| - 1] == es;
  }

  /** With non-negative quantities, the two totals together never exceed the quantity of all records. */
  lemma {:induction false} TotalsBounded(es: seq<Entry>)
    requires forall i :: 0 <= i < |es| ==> es[i].quantity >= 0
    ensures 0 <= QuantityOf(es, "EXPORT") + QuantityOf(es, "IMPORT") <= AllQuantity(es)
    ensures 0 <= QuantityOf(es, "EXPORT") && 0 <= QuantityOf(es, "IMPORT")
  {
    TotalsSplit(es);
    if es != [] {
      TotalsBounded(es[..|es| - 1]);
    }
  }

  /** `!!expandedDates[date]`: a date never toggled counts as collapsed. */
  predicate Expanded(m: map<string, bool>, d: string)
  {
    d in m && m[d]
  }

  /** `toggleDate`: the date's flag flips; every other entry stays as it was. */
  function Toggled(m: map<string, bool>, d: string): (r: map<string, bool>)
    ensures r.Keys == m.Keys + {d}
    ensures Expanded(r, d) == !Expanded(m, d)
    ensures forall k :: k in m && k != d ==> r[k] == m[k]
  {
    m[d := !Expanded(m, d)]
  }

  /** Toggling a date twice leaves every date expanded or collapsed as before. */
  lemma ToggleTwice(m: map<string, bool>, d: string, k: string)
    ensures Expanded(Toggled(Toggled(m, d), d), k) == Expanded(m, k)
  {
    if k != d {
      assert k in Toggled(Toggled(m, d), d) <==> k in m;
    }
  }

  /** `Object.keys(transactions)`. */
  function Dates(groups: seq<DateGroup>): (ds: seq<string>)
    ensures |ds| == |groups|
    ensures forall i :: 0 <= i < |groups| ==> ds[i] == groups[i].date
  {
    if groups == [] then [] else Dates(groups[..|groups| - 1]) + [groups[|groups| - 1].date]
  }

  /**
   * The comparator `new Date(b) - new Date(a)` on ISO dates ("YYYY-MM-DD"), where
   * the instant order is the text order: a later date first.
   */
  predicate Later(a: string, b: string)
  {
    Ordering.StrLe(b, a)
  }

  lemma LaterIsPreorder()
    ensures Ordering.TotalPreorder(Later)
  {
    forall a, b ensures Later(a, b) || Later(b, a) {
      Ordering.StrLeTotal(a, b);
    }
    forall a, b, c | Later(a, b) && Later(b, c) ensures Later(a, c) {
      Ordering.StrLeTrans(c, b, a);
    }
  }

  /** The dates in the order the page lists them: every date once, the newest first. */
  function DisplayOrder(groups: seq<DateGroup>): (ds: seq<string>)
    ensures multiset(ds) == multiset(Dates(groups))
    ensures forall i, j :: 0 <= i < j < |ds| ==> Ordering.StrLe(ds[j], ds[i])
  {
    LaterIsPreorder();
    Ordering.SortBy(Dates(groups), Later)
  }

  /** `if (dateRange.startDate)`: a bound is sent only when it is not empty. */
  function QueryParams(startDate: string, endDate: string): (p: Params)
    ensures p.startDate.Some? <==> startDate != ""
    ensures p.endDate.Some? <==> endDate != ""
    ensures p.startDate.Some? ==> p.startDate.value == startDate
    ensures p.endDate.Some? ==> p.endDate.value == endDate
  {
    Params(if startDate != "" then Some(startDate) else None, if endDate != "" then Some(endDate) else None)
  }

  class HistoryPage {
    var transactions: seq<DateGroup>
    var expandedDates: map<string, bool>
    var startDate: string
    var endDate: string
    var loading: bool

    /** The page opens loading, with no records, nothing expanded and no date bounds. */
    constructor ()
      ensures transactions == [] && expandedDates == map[] && startDate == "" && endDate == "" && loading
    {
      transactions := [];
      expandedDates := map[];
      startDate := "";
      endDate := "";
      loading := true;
    }

    /** The date inputs. */
    method SetRange(start: string, end: string)
      modifies this`startDate, this`endDate
      ensures startDate == start && endDate == end
    {
      startDate := start;
      endDate := end;
    }

    /**
     * `fetchTransactions` (also `handleApplyFilter`), given the service's answer
     * (`None` when the call fails). The records are replaced; when the first key is
     * not empty, it becomes the only expanded date. A failed call keeps the page.
     */
    method Fetch(answer: Option<seq<DateGroup>>) returns (params: Params)
      modifies this`transactions, this`expandedDates, this`loading
      ensures params == QueryParams(startDate, endDate)
      ensures answer.None? ==> transactions == old(transactions) && expandedDates == old(expandedDates)
      ensures answer.Some? ==> transactions == answer.value
      ensures answer.Some? && answer.value != [] && answer.value[0].date != "" ==>
        expandedDates == map[answer.value[0].date := true]
      ensures answer.Some? && (answer.value == [] || answer.value[0].date == "") ==>
        expandedDates == old(expandedDates)
      ensures !loading
    {
      loading := true;
      params := QueryParams(startDate, endDate);
      if answer.Some? {
        transactions := answer.value;
        if answer.value != [] && answer.value[0].date != "" {
          expandedDates := map[answer.value[0].date := true];
        }
      }
      loading := false;
    }

    /** `toggleDate`. */
    method ToggleDate(date: string)
      modifies this`expandedDates
      ensures expandedDates == Toggled(old(expandedDates), date)
    {
      expandedDates := Toggled(expandedDates, date);
    }

    /** The statistics shown in a date's header. */
    method StatsOf(date: string) returns (s: Stats)
      ensures s.transactionCount == |EntriesOn(transactions, date)|
      ensures s.totalExport == QuantityOf(EntriesOn(transactions, date), "EXPORT")
      ensures s.totalImport == QuantityOf(EntriesOn(transactions, date), "IMPORT")
    {
      s := CalculateStats(transactions, date);
    }
  }
}

=== FILE: transaction_report.dfy ===
/**
 * The dashboard side of `TransactionService`: the date range of a report, the
 * summary figures, the revenue chart, the ten best-selling products and the
 * payment-method counts. Money is in cents. Java's `HashMap` results are lists of
 * entries in first-insertion order.
 */
module TransactionReport {
  import opened Wrappers
  import opened Calendar
  import Numbers
  import Sequences
  import Ordering
  import Grouping
  import opened TransactionService

  datatype RangeError = MonthRequired | InvalidMonth(month: int)

  /**
   * `getDashboardReport`'s range: the whole month for the "month" filter, which
   * needs a month from 1 to 12 (`YearMonth.of` throws otherwise), and the whole year
   * for any other filter.
   */
  function DashboardRange(filterType: string, month: Option<int>, year: int): (r: Result<(Date, Date), RangeError>)
    ensures r.Ok? ==> ValidDate(r.value.0) && ValidDate(r.value.1) && DateLe(r.value.0, r.value.1)
    ensures r.Err? <==> filterType == "month" && (month.None? || !(1 <= month.value <= 12))
  {
    if filterType == "month" then
      if month.None? then Err(MonthRequired)
      else if !(1 <= month.value <= 12) then Err(InvalidMonth(month.value))
      else Ok((Date(year, month.value, 1), Date(year, month.value, DaysInMonth(year, month.value))))
    else Ok((Date(year, 1, 1), Date(year, 12, 31)))
  }

  /** The month range holds exactly the dates of that month. */
  lemma MonthRangeIsTheMonth(year: int, month: int, d: Date)
    requires 1 <= month <= 12 && ValidDate(d)
    ensures var r := DashboardRange("month", Some(month), year);
      r.Ok? && (InRange(d, r.value.0, r.value.1) <==> d.year == year && d.month == month)
  {
  }

  /** The year range holds exactly the dates of that year. */
  lemma YearRangeIsTheYear(filterType: string, month: Option<int>, year: int, d: Date)
    requires filterType != "month" && ValidDate(d)
    ensures var r := DashboardRange(filterType, month, year);
      r.Ok? && (InRange(d, r.value.0, r.value.1) <==> d.year == year)
  {
  }

  /** `Summary`. */
  datatype Summary = Summary(totalRevenue: int, totalTransactions: int, totalProducts: int, averageOrderValue: int)

  function Amount(t: Transaction): int
  {
    t.total
  }

  function Quantity(item: TransactionItem): int
  {
    item.quantity
  }

  /** `getSummary` over the sales in the range and the items the repository found for them. */
  function GetSummary(txs: seq<Transaction>, items: seq<TransactionItem>): (s: Summary)
    ensures s.totalTransactions == |txs|
    ensures s.totalTransactions == 0 ==> s.totalRevenue == 0 && s.averageOrderValue == 0
    ensures s.totalTransactions > 0 ==>
      Numbers.Abs(2 * (s.totalRevenue - s.averageOrderValue * s.totalTransactions)) <= s.totalTransactions
    ensures s.totalTransactions > 0 && 2 * Numbers.Abs(s.totalRevenue - s.averageOrderValue * s.totalTransactions) == s.totalTransactions ==>
      Numbers.Abs(s.averageOrderValue * s.totalTransactions) > Numbers.Abs(s.totalRevenue)
  {
    var revenue := Sequences.SumOf(txs, Amount);
    var count := |txs|;
    Summary(revenue, count, Sequences.SumOf(items, Quantity),
            if count > 0 then Numbers.HalfUpDiv(revenue, count) else 0)
  }

  /** The summary's revenue adds up the totals of the sales and its products the quantities of the items. */
  lemma SummaryAddsUp(txs: seq<Transaction>, items: seq<TransactionItem>, t: Transaction, item: TransactionItem)
    ensures GetSummary(txs + [t], items).totalRevenue == GetSummary(txs, items).totalRevenue + t.total
    ensures GetSummary(txs, items + [item]).totalProducts == GetSummary(txs, items).totalProducts + item.quantity
  {
    assert (txs + [t])[..|txs|] == txs;
    assert (items + [item])[..|items|] == items;
  }

  /** `"Day " + date.getDayOfMonth()`. */
  function DayLabel(day: nat): string
  {
    "Day " + Numbers.DecimalString(day)
  }

  /** Different days get different labels. */
  lemma DayLabelInjective(a: nat, b: nat)
    requires DayLabel(a) == DayLabel(b)
    ensures a == b
  {
    assert DayLabel(a)[4..] == Numbers.DecimalString(a);
    assert DayLabel(b)[4..] == Numbers.DecimalString(b);
    Numbers.DecimalRoundTrip(a);
    Numbers.DecimalRoundTrip(b);
  }

  /** The chart's periods: every day of the month in month mode, the twelve months otherwise. */
  function Periods(filterType: string, year: int, month: int): (ps: seq<string>)
    requires filterType == "month" ==> 1 <= month <= 12
    ensures filterType == "month" ==> |ps| == DaysInMonth(year, month)
    ensures filterType != "month" ==> |ps| == 12
    ensures Grouping.Distinct(ps)
  {
    if filterType == "month" then
      var ps := seq(DaysInMonth(year, month), i requires 0 <= i => DayLabel(i + 1));
      forall i, j | 0 <= i < j < |ps| ensures ps[i] != ps[j] {
        if ps[i] == ps[j] {
          DayLabelInjective(i + 1, j + 1);
        }
      }
      ps
    else
      forall i, j | 0 <= i < j < 12 ensures MONTH_SHORT_NAMES[i] != MONTH_SHORT_NAMES[j] {
        if MONTH_SHORT_NAMES[i] == MONTH_SHORT_NAMES[j] {
          MonthShortNameInjective(i + 1, j + 1);
        }
      }
      MONTH_SHORT_NAMES
  }

  /**
   * The period a sale is booked under: its day of the month, or its month's short
   * name. A `LocalDate` is always a valid date; the empty label is never reached
   * for one.
   */
  function PeriodOf(filterType: string, t: Transaction): string
  {
    if !ValidDate(t.createdAt) then ""
    else if filterType == "month" then DayLabel(t.createdAt.day)
    else MonthShortName(t.createdAt.month)
  }

  /** A valid sale inside the dashboard range is booked under one of the chart's periods. */
  lemma PeriodOfInRange(filterType: string, year: int, month: int, t: Transaction)
    requires ValidDate(t.createdAt)
    requires filterType == "month" ==> 1 <= month <= 12 && t.createdAt.year == year && t.createdAt.month == month
    ensures PeriodOf(filterType, t) in Periods(filterType, year, month)
  {
    if filterType == "month" {
      assert Periods(filterType, year, month)[t.createdAt.day - 1] == DayLabel(t.createdAt.day);
    }
  }

  /** The bucket a sale is booked under. */
  function PeriodKey(filterType: string): Transaction -> string
  {
    (x: Transaction) => PeriodOf(filterType, x)
  }

  /**
   * `getRevenueChart`: a zero bucket per period, then each sale's total merged into
   * its period's bucket. Each bucket holds the sum of the totals booked under it,
   * the buckets together hold the total revenue, and when every sale falls inside
   * the periods no other bucket appears.
   */
  method RevenueChart(filterType: string, year: int, month: int, txs: seq<Transaction>)
    returns (chart: seq<Grouping.Entry<string>>)
    requires filterType == "month" ==> 1 <= month <= 12
    ensures Grouping.Distinct(Grouping.Keys(chart))
    ensures Grouping.Total(chart) == Sequences.SumOf(txs, Amount)
    ensures forall p :: (Grouping.Lookup(chart, p) ==
      Sequences.SumOf(Sequences.Filter(txs, (t: Transaction) => Grouping.HasKey(p, PeriodKey(filterType), t)), Amount))
    ensures (forall k :: 0 <= k < |txs| ==> PeriodOf(filterType, txs[k]) in Periods(filterType, year, month)) ==>
      Grouping.Keys(chart) == Periods(filterType, year, month)
  {
    var periods := Periods(filterType, year, month);
    var buckets: seq<Grouping.Entry<string>> := [];
    for i := 0 to |periods|
      invariant |buckets| == i
      invariant forall m :: 0 <= m < i ==> buckets[m] == Grouping.Entry(periods[m], 0)
    {
      buckets := buckets + [Grouping.Entry(periods[i], 0)];
    }
    assert Grouping.Keys(buckets) == periods;
    var key := PeriodKey(filterType);
    chart := buckets;
    for k := 0 to |txs|
      invariant chart == Grouping.Fold(buckets, txs[..k], key, Amount)
    {
      assert txs[..k + 1][..k] == txs[..k];
      chart := Grouping.MergeInto(chart, key(txs[k]), txs[k].total);
    }
    assert txs[..|txs|] == txs;
    FoldedChart(filterType, year, month, buckets, txs);
  }

  /** Merging the sales into the zero buckets of the periods gives the chart's properties. */
  lemma FoldedChart(filterType: string, year: int, month: int, buckets: seq<Grouping.Entry<string>>, txs: seq<Transaction>)
    requires filterType == "month" ==> 1 <= month <= 12
    requires Grouping.Keys(buckets) == Periods(filterType, year, month)
    requires forall m :: 0 <= m < |buckets| ==> buckets[m].value == 0
    ensures var chart := Grouping.Fold(buckets, txs, PeriodKey(filterType), Amount);
      Grouping.Distinct(Grouping.Keys(chart)) &&
      Grouping.Total(chart) == Sequences.SumOf(txs, Amount) &&
      (forall p :: (Grouping.Lookup(chart, p) ==
        Sequences.SumOf(Sequences.Filter(txs, (t: Transaction) => Grouping.HasKey(p, PeriodKey(filterType), t)), Amount))) &&
      ((forall k :: 0 <= k < |txs| ==> PeriodOf(filterType, txs[k]) in Periods(filterType, year, month)) ==>
        Grouping.Keys(chart) == Periods(filterType, year, month))
  {
    var key := PeriodKey(filterType);
    ZeroBuckets(buckets);
    Grouping.FoldDistinct(buckets, txs, key, Amount);
    Grouping.FoldValues(buckets, txs, key, Amount);
    if forall k :: 0 <= k < |txs| ==> key(txs[k]) in Periods(filterType, year, month) {
      Grouping.FoldKeepsKeys(buckets, txs, key, Amount);
    }
  }

  /** Buckets that all start at zero total zero and look up as zero. */
  lemma {:induction false} ZeroBuckets(b: seq<Grouping.Entry<string>>)
    requires forall m :: 0 <= m < |b| ==> b[m].value == 0
    ensures Grouping.Total(b) == 0
    ensures forall p :: Grouping.Lookup(b, p) == 0
  {
    if b != [] {
      ZeroBuckets(b[1..]);
    }
  }

  /** `TopProduct`. */
  datatype TopProduct = TopProduct(productName: string, totalQuantity: int, totalRevenue: int)

  function NameOf(item: TransactionItem): string
  {
    item.productName
  }

  /** `priceAtTime × quantity`. */
  function LineRevenue(item: TransactionItem): int
  {
    item.priceAtTime * item.quantity
  }

  function ProductItems(items: seq<TransactionItem>, name: string): seq<TransactionItem>
  {
    Sequences.Filter(items, (x: TransactionItem) => Grouping.HasKey(name, NameOf, x))
  }

  /** The quantity sold of one product, over all its items. */
  function ProductQuantity(items: seq<TransactionItem>, name: string): int
  {
    Sequences.SumOf(ProductItems(items, name), Quantity)
  }

  /** The revenue of one product, over all its items. */
  function ProductRevenue(items: seq<TransactionItem>, name: string): int
  {
    Sequences.SumOf(ProductItems(items, name), LineRevenue)
  }

  /** `(a, b) -> b.getTotalRevenue().compareTo(a.getTotalRevenue())`: highest revenue first. */
  function HighestRevenueFirst(): (TopProduct, TopProduct) -> bool
  {
    (a: TopProduct, b: TopProduct) => a.totalRevenue >= b.totalRevenue
  }

  /** Whether a product of that name is among those listed. */
  predicate Listed(top: seq<TopProduct>, name: string)
  {
    exists i :: 0 <= i < |top| && top[i].productName == name
  }

  /** No product name is listed twice: `productMap` has one value per key. */
  predicate DistinctNames(ps: seq<TopProduct>)
  {
    forall i, j :: 0 <= i < j < |ps| ==> ps[i].productName != ps[j].productName
  }

  function Min(a: int, b: int): int
  {
    if a <= b then a else b
  }

  /**
   * `productMap.values()` once every item is merged: one product per name sold, in
   * order of first sale, each carrying the quantity and the revenue of all its items.
   */
  function ProductTotals(items: seq<TransactionItem>): (ps: seq<TopProduct>)
    ensures DistinctNames(ps)
    ensures forall i :: 0 <= i < |ps| ==>
      ps[i].totalQuantity == ProductQuantity(items, ps[i].productName) &&
      ps[i].totalRevenue == ProductRevenue(items, ps[i].productName) &&
      exists k :: 0 <= k < |items| && items[k].productName == ps[i].productName
    ensures forall k :: 0 <= k < |items| ==> Listed(ps, items[k].productName)
  {
    var names := Grouping.DistinctKeys(items, NameOf);
    var ps := seq(|names|, i requires 0 <= i < |names| =>
      TopProduct(names[i], ProductQuantity(items, names[i]), ProductRevenue(items, names[i])));
    assert forall i :: 0 <= i < |ps| ==> ps[i].productName == names[i];
    forall i | 0 <= i < |ps| ensures exists k :: 0 <= k < |items| && items[k].productName == ps[i].productName {
      assert names[i] in names;
    }
    forall k | 0 <= k < |items| ensures Listed(ps, items[k].productName) {
      assert NameOf(items[k]) in names;
      var i :| 0 <= i < |names| && names[i] == items[k].productName;
      assert ps[i].productName == items[k].productName;
    }
    ps
  }

  /**
   * The two running tallies of `getTopProducts`, read side by side, are the products'
   * totals: the same names in the same order, with each name's quantity and revenue.
   */
  lemma TalliesCombine(items: seq<TransactionItem>)
    ensures var quantities := Grouping.Fold([], items, NameOf, Quantity);
      var revenues := Grouping.Fold([], items, NameOf, LineRevenue);
      |quantities| == |revenues| == |ProductTotals(items)| &&
      forall i :: 0 <= i < |quantities| ==>
        TopProduct(quantities[i].key, quantities[i].value, revenues[i].value) == ProductTotals(items)[i]
  {
    var quantities := Grouping.Fold([], items, NameOf, Quantity);
    var revenues := Grouping.Fold([], items, NameOf, LineRevenue);
    var names := Grouping.DistinctKeys(items, NameOf);
    Grouping.FoldKeysFirstSeen(items, NameOf, Quantity);
    Grouping.FoldKeysFirstSeen(items, NameOf, LineRevenue);
    forall i | 0 <= i < |quantities|
      ensures TopProduct(quantities[i].key, quantities[i].value, revenues[i].value) == ProductTotals(items)[i]
    {
      assert Grouping.Keys(quantities)[i] == names[i] == Grouping.Keys(revenues)[i];
      Grouping.TallyAt(items, NameOf, Quantity, i);
      Grouping.TallyAt(items, NameOf, LineRevenue, i);
    }
  }

  /**
   * `sorted(...).limit(10)`: at most ten products, highest revenue first, taken from
   * the candidates without repeating one; names distinct among the candidates stay
   * distinct; a candidate left out earns no more than any product kept, and is only
   * left out when ten are kept.
   */
  function TopTen(candidates: seq<TopProduct>): (top: seq<TopProduct>)
    ensures |top| == Min(10, |candidates|)
    ensures forall i, j :: 0 <= i < j < |top| ==> top[i].totalRevenue >= top[j].totalRevenue
    ensures multiset(top) <= multiset(candidates)
    ensures DistinctNames(candidates) ==> DistinctNames(top)
    ensures forall x :: x in candidates && x !in top ==>
      |top| == 10 && forall i :: 0 <= i < |top| ==> x.totalRevenue <= top[i].totalRevenue
  {
    var sorted := ByRevenue(candidates);
    var n := Min(10, |sorted|);
    KeepHighest(sorted, n);
    assert sorted == sorted[..n] + sorted[n..];
    PermutationKeepsNames(candidates, sorted);
    sorted[..n]
  }

  /** The candidates sorted by the comparator: the same products, highest revenue first. */
  function ByRevenue(candidates: seq<TopProduct>): (sorted: seq<TopProduct>)
    ensures multiset(sorted) == multiset(candidates)
    ensures |sorted| == |candidates|
    ensures forall x :: x in sorted <==> x in candidates
    ensures forall i, j :: 0 <= i < j < |sorted| ==> sorted[i].totalRevenue >= sorted[j].totalRevenue
  {
    Ordering.IntKeyTotalPreorder(HighestRevenueFirst(), (p: TopProduct) => -p.totalRevenue);
    Ordering.SortByKeepsElements(candidates, HighestRevenueFirst());
    Ordering.SortBy(candidates, HighestRevenueFirst())
  }

  /** Reordering products keeps their names distinct. */
  lemma PermutationKeepsNames(a: seq<TopProduct>, b: seq<TopProduct>)
    requires multiset(a) == multiset(b)
    ensures DistinctNames(a) ==> DistinctNames(b)
  {
    if DistinctNames(a) {
      Grouping.DistinctPermutation(a, b);
      forall i, j | 0 <= i < j < |b| ensures b[i].productName != b[j].productName {
        assert b[i] in multiset(a) && b[j] in multiset(a);
        var p :| 0 <= p < |a| && a[p] == b[i];
        var q :| 0 <= q < |a| && a[q] == b[j];
        assert p != q;
      }
    }
  }

  /** A prefix of a list in descending revenue holds the highest earners. */
  lemma KeepHighest(sorted: seq<TopProduct>, n: nat)
    requires n <= |sorted|
    requires forall i, j :: 0 <= i < j < |sorted| ==> sorted[i].totalRevenue >= sorted[j].totalRevenue
    ensures forall x :: x in sorted && x !in sorted[..n] ==>
      forall i :: 0 <= i < n ==> x.totalRevenue <= sorted[..n][i].totalRevenue
  {
    forall x | x in sorted && x !in sorted[..n]
      ensures forall i :: 0 <= i < n ==> x.totalRevenue <= sorted[..n][i].totalRevenue
    {
      var p :| 0 <= p < |sorted| && sorted[p] == x;
      assert p >= n;
    }
  }

  /**
   * `getTopProducts`: each item merged into its product's quantity and revenue,
   * then the ten products of highest revenue. The products listed are distinct
   * products drawn from the totals, as many as there are products up to ten, each
   * carrying the totals of all its items, and a product left out earns no more than
   * any listed.
   */
  method TopProducts(items: seq<TransactionItem>) returns (top: seq<TopProduct>)
    ensures |top| == Min(10, |ProductTotals(items)|)
    ensures forall i, j :: 0 <= i < j < |top| ==> top[i].totalRevenue >= top[j].totalRevenue
    ensures DistinctNames(top)
    ensures multiset(top) <= multiset(ProductTotals(items))
    ensures forall i :: 0 <= i < |top| ==>
      top[i].totalQuantity == ProductQuantity(items, top[i].productName) &&
      top[i].totalRevenue == ProductRevenue(items, top[i].productName) &&
      exists k :: 0 <= k < |items| && items[k].productName == top[i].productName
    ensures forall k :: 0 <= k < |items| && !Listed(top, items[k].productName) ==>
      |top| == 10 && forall i :: 0 <= i < |top| ==> ProductRevenue(items, items[k].productName) <= top[i].totalRevenue
  {
    var quantities := Tally(items, Quantity);
    var revenues := Tally(items, LineRevenue);
    TalliesCombine(items);
    var candidates := seq(|quantities|, i requires 0 <= i < |quantities| =>
      TopProduct(quantities[i].key, quantities[i].value, revenues[i].value));
    assert candidates == ProductTotals(items);
    top := TopTen(candidates);
    DrawnFromTotals(items, top);
    LeftOutEarnsNoMore(items, candidates, top);
  }

  /** Products drawn from the totals carry their names' totals. */
  lemma DrawnFromTotals(items: seq<TransactionItem>, top: seq<TopProduct>)
    requires multiset(top) <= multiset(ProductTotals(items))
    ensures forall i :: 0 <= i < |top| ==>
      top[i].totalQuantity == ProductQuantity(items, top[i].productName) &&
      top[i].totalRevenue == ProductRevenue(items, top[i].productName) &&
      exists k :: 0 <= k < |items| && items[k].productName == top[i].productName
  {
    var ps := ProductTotals(items);
    forall i | 0 <= i < |top|
      ensures top[i].totalQuantity == ProductQuantity(items, top[i].productName)
      ensures top[i].totalRevenue == ProductRevenue(items, top[i].productName)
      ensures exists k :: 0 <= k < |items| && items[k].productName == top[i].productName
    {
      assert top[i] in multiset(top);
      assert top[i] in ps;
      var p :| 0 <= p < |ps| && ps[p] == top[i];
    }
  }

  /** A product with no entry among the kept candidates earns no more than any kept one. */
  lemma LeftOutAt(items: seq<TransactionItem>, candidates: seq<TopProduct>, top: seq<TopProduct>, k: nat)
    requires forall i :: 0 <= i < |candidates| ==> candidates[i].totalRevenue == ProductRevenue(items, candidates[i].productName)
    requires forall x :: x in candidates && x !in top ==>
      |top| == 10 && forall i :: 0 <= i < |top| ==> x.totalRevenue <= top[i].totalRevenue
    requires k < |items| && Listed(candidates, items[k].productName)
    requires !Listed(top, items[k].productName)
    ensures |top| == 10
    ensures forall i :: 0 <= i < |top| ==> ProductRevenue(items, items[k].productName) <= top[i].totalRevenue
  {
    var p :| 0 <= p < |candidates| && candidates[p].productName == items[k].productName;
    var c := candidates[p];
    assert c in candidates;
    assert c !in top;
  }

  /** `LeftOutAt` for every item. */
  lemma LeftOutEarnsNoMore(items: seq<TransactionItem>, candidates: seq<TopProduct>, top: seq<TopProduct>)
    requires forall i :: 0 <= i < |candidates| ==> candidates[i].totalRevenue == ProductRevenue(items, candidates[i].productName)
    requires forall x :: x in candidates && x !in top ==>
      |top| == 10 && forall i :: 0 <= i < |top| ==> x.totalRevenue <= top[i].totalRevenue
    requires forall k :: 0 <= k < |items| ==> Listed(candidates, items[k].productName)
    ensures forall k :: 0 <= k < |items| && !Listed(top, items[k].productName) ==>
      |top| == 10 && forall i :: 0 <= i < |top| ==> ProductRevenue(items, items[k].productName) <= top[i].totalRevenue
  {
    forall k | 0 <= k < |items| && !Listed(top, items[k].productName)
      ensures |top| == 10
      ensures forall i :: 0 <= i < |top| ==> ProductRevenue(items, items[k].productName) <= top[i].totalRevenue
    {
      LeftOutAt(items, candidates, top, k);
    }
  }

  /**
   * The loop of `getTopProducts` for one measure: each item merged, in order, into
   * its product's running total.
   */
  method Tally(items: seq<TransactionItem>, val: TransactionItem -> int) returns (totals: seq<Grouping.Entry<string>>)
    ensures totals == Grouping.Fold([], items, NameOf, val)
  {
    totals := [];
    for k := 0 to |items|
      invariant totals == Grouping.Fold([], items[..k], NameOf, val)
    {
      assert items[..k + 1][..k] == items[..k] && items[..k + 1][k] == items[k];
      totals := Grouping.MergeInto(totals, NameOf(items[k]), val(items[k]));
    }
    assert items[..|items|] == items;
  }

  function MethodOf(t: Transaction): string
  {
    t.paymentMethod
  }

  function One(t: Transaction): int
  {
    1
  }

  /**
   * `getPaymentMethods`: one entry per payment method used (key: the method,
   * value: how many sales used it). Each count is the number of sales with that
   * method, every method used is listed once, and the counts add up to the number
   * of sales.
   */
  function PaymentMethods(txs: seq<Transaction>): (r: seq<Grouping.Entry<string>>)
    ensures Grouping.Distinct(Grouping.Keys(r))
    ensures forall i :: 0 <= i < |r| ==>
      r[i].value == |Sequences.Filter(txs, (t: Transaction) => Grouping.HasKey(r[i].key, MethodOf, t))| && r[i].value > 0
    ensures forall k :: 0 <= k < |txs| ==> txs[k].paymentMethod in Grouping.Keys(r)
    ensures Grouping.Total(r) == |txs|
  {
    var r := Grouping.Fold([], txs, MethodOf, One);
    Grouping.FoldDistinct([], txs, MethodOf, One);
    PaymentTotal(txs);
    forall i | 0 <= i < |r|
      ensures r[i].value == |Sequences.Filter(txs, (t: Transaction) => Grouping.HasKey(r[i].key, MethodOf, t))|
      ensures r[i].value > 0
    {
      PaymentCount(txs, i);
    }
    forall k | 0 <= k < |txs| ensures txs[k].paymentMethod in Grouping.Keys(r) {
      Grouping.TallyCovers(txs, MethodOf, One, k);
    }
    r
  }

  /** The counts of all payment methods add up to the number of sales. */
  lemma PaymentTotal(txs: seq<Transaction>)
    ensures Grouping.Total(Grouping.Fold([], txs, MethodOf, One)) == |txs|
  {
    Grouping.FoldValues([], txs, MethodOf, One);
    Grouping.SumOfOnes(txs, One);
  }

  /** Each payment method counts the sales that used it, at least one. */
  lemma PaymentCount(txs: seq<Transaction>, i: nat)
    requires i < |Grouping.Fold([], txs, MethodOf, One)|
    ensures var r := Grouping.Fold([], txs, MethodOf, One);
      r[i].value == |Sequences.Filter(txs, (t: Transaction) => Grouping.HasKey(r[i].key, MethodOf, t))| && r[i].value > 0
  {
    var r := Grouping.Fold([], txs, MethodOf, One);
    var used := Sequences.Filter(txs, (t: Transaction) => Grouping.HasKey(r[i].key, MethodOf, t));
    Grouping.TallyAt(txs, MethodOf, One, i);
    Grouping.SumOfOnes(used, One);
    var k :| 0 <= k < |txs| && MethodOf(txs[k]) == r[i].key;
    assert txs[k] in used;
  }

  /** `DashboardReport`. */
  datatype Report = Report(summary: Summary, revenueChart: seq<Grouping.Entry<string>>,
                           topProducts: seq<TopProduct>, paymentMethods: seq<Grouping.Entry<string>>)

  /** `findByCreatedAtBetween(start, end)`: the sales dated from `start` to `end`, both included. */
  function SalesBetween(txs: seq<Transaction>, start: Date, end: Date): seq<Transaction>
  {
    Sequences.Filter(txs, (t: Transaction) => InRange(t.createdAt, start, end))
  }

  predicate AmongSales(sales: seq<Transaction>, item: TransactionItem)
  {
    exists k :: 0 <= k < |sales| && sales[k].id == item.transactionId
  }

  /** `findByTransactionIdIn(ids)`: the items of the given sales. */
  function ItemsOfSales(items: seq<TransactionItem>, sales: seq<Transaction>): seq<TransactionItem>
  {
    Sequences.Filter(items, (x: TransactionItem) => AmongSales(sales, x))
  }

  /** What `getRevenueChart` promises of a chart over the sales `txs`. */
  ghost predicate ChartOf(filterType: string, txs: seq<Transaction>, chart: seq<Grouping.Entry<string>>)
  {
    Grouping.Distinct(Grouping.Keys(chart)) &&
    Grouping.Total(chart) == Sequences.SumOf(txs, Amount) &&
    forall p :: (Grouping.Lookup(chart, p) ==
      Sequences.SumOf(Sequences.Filter(txs, (t: Transaction) => Grouping.HasKey(p, PeriodKey(filterType), t)), Amount))
  }

  /** What `getTopProducts` promises of the products listed for the items `items`. */
  ghost predicate TopOf(items: seq<TransactionItem>, top: seq<TopProduct>)
  {
    |top| == Min(10, |ProductTotals(items)|) &&
    (forall i, j :: 0 <= i < j < |top| ==> top[i].totalRevenue >= top[j].totalRevenue) &&
    DistinctNames(top) &&
    multiset(top) <= multiset(ProductTotals(items)) &&
    (forall k :: 0 <= k < |items| && !Listed(top, items[k].productName) ==>
      |top| == 10 && forall i :: 0 <= i < |top| ==> ProductRevenue(items, items[k].productName) <= top[i].totalRevenue)
  }

  /**
   * `getDashboardReport`: the range of the filter, then the four parts computed over
   * the sales in that range and their items: each period's bucket holds the revenue
   * of the sales in range booked under it, and the top products are those of the
   * items of those sales. The parts agree with each other: the chart's buckets add
   * up to the summary's revenue and the payment counts to its number of sales; with
   * every sale dated validly, the chart has exactly one bucket per period of the
   * range.
   */
  method GetDashboardReport(filterType: string, month: Option<int>, year: int,
                            allTxs: seq<Transaction>, allItems: seq<TransactionItem>)
    returns (r: Result<Report, RangeError>)
    ensures r.Err? <==> DashboardRange(filterType, month, year).Err?
    ensures r.Ok? ==>
      var range := DashboardRange(filterType, month, year).value;
      var txs := SalesBetween(allTxs, range.0, range.1);
      r.value.summary == GetSummary(txs, ItemsOfSales(allItems, txs)) &&
      ChartOf(filterType, txs, r.value.revenueChart) &&
      TopOf(ItemsOfSales(allItems, txs), r.value.topProducts) &&
      Grouping.Total(r.value.revenueChart) == r.value.summary.totalRevenue &&
      r.value.paymentMethods == PaymentMethods(txs) &&
      Grouping.Total(r.value.paymentMethods) == r.value.summary.totalTransactions &&
      |r.value.topProducts| <= 10
    ensures r.Ok? && (forall k :: 0 <= k < |allTxs| ==> ValidDate(allTxs[k].createdAt)) ==>
      Grouping.Keys(r.value.revenueChart) == Periods(filterType, year, month.GetOr(1))
  {
    var range := DashboardRange(filterType, month, year);
    if range.Err? {
      return Err(range.error);
    }
    var (start, end) := range.value;
    var txs := SalesBetween(allTxs, start, end);
    var items := ItemsOfSales(allItems, txs);
    var m := month.GetOr(1);
    var chart := RevenueChart(filterType, year, m, txs);
    var top := TopProducts(items);
    assert ChartOf(filterType, txs, chart);
    assert TopOf(items, top);
    r := Ok(Report(GetSummary(txs, items), chart, top, PaymentMethods(txs)));
    if forall k :: 0 <= k < |allTxs| ==> ValidDate(allTxs[k].createdAt) {
      forall k | 0 <= k < |txs| ensures PeriodOf(filterType, txs[k]) in Periods(filterType, year, m) {
        var t := txs[k];
        assert t in allTxs;
        if filterType == "month" {
          MonthRangeIsTheMonth(year, m, t.createdAt);
        }
        PeriodOfInRange(filterType, year, m, t);
      }
    }
  }
}

=== FILE: transaction_service.dfy ===
/**
 * The sales side of `TransactionService`: recording a sale with its items, the
 * loyalty points it earns, and the sales history grouped by date and customer.
 * Money is in cents; the customer service's answer for a card number and the
 * current date are inputs.
 */
module TransactionService {
  import opened Wrappers
  import opened Calendar
  import Numbers
  import Sequences
  import Ordering
  import Grouping

  /** The customer id recorded for a sale without a loyalty card. */
  const GUEST_CUSTOMER_ID: int := 99999

  /** A line of the checkout request (`dto.request.Item`). */
  datatype Item = Item(id: string, code: string, name: string, price: int, quantity: int)

  datatype TransactionRequest = TransactionRequest(
    items: seq<Item>, total: int, paymentMethod: string, cardNumber: Option<string>)

  /** A stored `Transaction`. */
  datatype Transaction = Transaction(id: nat, customerId: int, total: int, paymentMethod: string, createdAt: Date)

  /** A stored `TransactionItem`. */
  datatype TransactionItem = TransactionItem(
    id: nat, transactionId: nat, productId: string, productName: string, quantity: int, priceAtTime: int)

  /** The request sent to the customer service's `addPoints`. */
  datatype PointsUpdate = PointsUpdate(customerId: int, rewardPoints: int, tierPoints: int)

  /** The request sent to the inventory service's `reduceInventory`. */
  datatype Reduction = Reduction(productId: string, quantity: int)

  /** A missing or empty card number marks a guest sale. */
  predicate IsGuestCard(cardNumber: Option<string>)
  {
    cardNumber.None? || cardNumber.value == []
  }

  /** `(int) total.longValue()`: the whole currency units of the total, narrowed to 32 bits. */
  function WholeUnits(totalCents: int): (r: int)
    ensures Numbers.INT_MIN <= r <= Numbers.INT_MAX
  {
    Numbers.Int32(Numbers.TruncDiv(totalCents, 100))
  }

  /** One reward point per 100 000 units spent, in Java's truncating division. */
  function RewardPoints(totalCents: int): (r: int)
    ensures -21474 <= r <= 21474
  {
    Numbers.TruncDiv(WholeUnits(totalCents), 100000)
  }

  /** One tier point per 200 000 units spent. */
  function TierPoints(totalCents: int): (r: int)
    ensures -10737 <= r <= 10737
  {
    Numbers.TruncDiv(WholeUnits(totalCents), 200000)
  }

  /**
   * For a non-negative total whose whole units fit in an `int`, the reward points
   * are the whole units over 100 000 and the tier points are half the reward
   * points, rounded down.
   */
  lemma TierIsHalfReward(totalCents: int)
    requires 0 <= totalCents && totalCents / 100 <= Numbers.INT_MAX
    ensures RewardPoints(totalCents) == totalCents / 100 / 100000
    ensures TierPoints(totalCents) == RewardPoints(totalCents) / 2
    ensures 0 <= TierPoints(totalCents) <= RewardPoints(totalCents)
  {
    var units := totalCents / 100;
    Numbers.TruncDivNonNegative(totalCents, 100);
    Numbers.Int32InRange(units);
    Numbers.TruncDivNonNegative(units, 100000);
    Numbers.TruncDivNonNegative(units, 200000);
    Numbers.NestedDivision(units, 100000);
  }

  /** The narrowing cast wraps: a total of 2^31 whole units earns negative points. */
  lemma PointsWrapPastIntRange()
    ensures RewardPoints((Numbers.INT_MAX + 1) * 100) == -21474
    ensures TierPoints((Numbers.INT_MAX + 1) * 100) == -10737
  {
    assert WholeUnits((Numbers.INT_MAX + 1) * 100) == Numbers.INT_MIN;
  }

  /** The item row saved for one request line. */
  function ItemRow(id: nat, transactionId: nat, item: Item): TransactionItem
  {
    TransactionItem(id, transactionId, item.id, item.name, item.quantity, item.price)
  }

  /** The transaction and item tables. */
  class TransactionStore {
    var transactions: seq<Transaction>
    var items: seq<TransactionItem>
    var nextTransactionId: nat
    var nextItemId: nat

    /** Every stored row has an id below the next one handed out. */
    ghost predicate Valid()
      reads this
    {
      (forall i :: 0 <= i < |transactions| ==> transactions[i].id < nextTransactionId) &&
      (forall i :: 0 <= i < |items| ==> items[i].id < nextItemId)
    }

    constructor ()
      ensures Valid()
      ensures transactions == [] && items == [] && nextTransactionId == 0 && nextItemId == 0
    {
      transactions := [];
      items := [];
      nextTransactionId := 0;
      nextItemId := 0;
    }

    /**
     * `createTransaction`: saves the sale under the card's customer (the guest id
     * without a card), then for each line asks the inventory service to reduce the
     * stock and saves an item row linked to the sale. `rejectedAt` is the first line
     * whose reduction the inventory service refuses, if any: `block()` then throws,
     * and with no transaction around the method the sale and the rows saved before
     * that line stay stored, no later line is sent and no points are added.
     * Otherwise every line is stored and a sale by anyone but the guest customer
     * earns points.
     */
    method CreateTransaction(request: TransactionRequest, today: Date, cardCustomerId: int, rejectedAt: Option<nat>)
      returns (completed: bool, points: Option<PointsUpdate>, reductions: seq<Reduction>)
      requires Valid()
      modifies this
      ensures Valid()
      ensures completed <==> rejectedAt.None? || rejectedAt.value >= |request.items|
      ensures var customerId := if IsGuestCard(request.cardNumber) then GUEST_CUSTOMER_ID else cardCustomerId;
        transactions == old(transactions) +
          [Transaction(old(nextTransactionId), customerId, request.total, request.paymentMethod, today)] &&
        points == if !completed || customerId == GUEST_CUSTOMER_ID then None
                  else Some(PointsUpdate(customerId, RewardPoints(request.total), TierPoints(request.total)))
      ensures nextTransactionId == old(nextTransactionId) + 1
      ensures var stored := if completed then |request.items| else rejectedAt.value;
        |items| == |old(items)| + stored && items[..|old(items)|] == old(items) &&
        nextItemId == old(nextItemId) + stored &&
        (forall k :: 0 <= k < stored ==>
          items[|old(items)| + k] == ItemRow(old(nextItemId) + k, old(nextTransactionId), request.items[k])) &&
        |reductions| == (if completed then stored else stored + 1)
      ensures forall k :: 0 <= k < |reductions| ==>
        k < |request.items| && reductions[k] == Reduction(request.items[k].id, request.items[k].quantity)
    {
      var customerId := if IsGuestCard(request.cardNumber) then GUEST_CUSTOMER_ID else cardCustomerId;
      var transaction := Transaction(nextTransactionId, customerId, request.total, request.paymentMethod, today);
      transactions := transactions + [transaction];
      nextTransactionId := nextTransactionId + 1;
      reductions := [];
      for k := 0 to |request.items|
        invariant Valid()
        invariant transactions == old(transactions) + [transaction] && nextTransactionId == old(nextTransactionId) + 1
        invariant rejectedAt.Some? ==> k <= rejectedAt.value
        invariant |items| == |old(items)| + k && items[..|old(items)|] == old(items)
        invariant nextItemId == old(nextItemId) + k
        invariant forall m :: 0 <= m < k ==>
          items[|old(items)| + m] == ItemRow(old(nextItemId) + m, transaction.id, request.items[m])
        invariant |reductions| == k
        invariant forall m :: 0 <= m < k ==>
          reductions[m] == Reduction(request.items[m].id, request.items[m].quantity)
      {
        var item := request.items[k];
        reductions := reductions + [Reduction(item.id, item.quantity)];
        if rejectedAt == Some(k) {
          return false, None, reductions;
        }
        items := items + [ItemRow(nextItemId, transaction.id, item)];
        nextItemId := nextItemId + 1;
      }
      if customerId == GUEST_CUSTOMER_ID {
        return true, None, reductions;
      }
      completed := true;
      points := Some(PointsUpdate(customerId, RewardPoints(request.total), TierPoints(request.total)));
    }
  }

  /** `TransactionResponse`: a sale with its own items. */
  datatype TransactionResponse = TransactionResponse(
    id: nat, customerId: int, total: int, paymentMethod: string, createdAt: Date, items: seq<TransactionItem>)

  /** `CustomerTransactionResponse`. */
  datatype CustomerTransactions = CustomerTransactions(customerId: int, transactions: seq<TransactionResponse>)

  /** `DateGroupResponse`. */
  datatype DateGroup = DateGroup(date: Date, customers: seq<CustomerTransactions>)

  predicate OfTransaction(id: nat, item: TransactionItem)
  {
    item.transactionId == id
  }

  /** `itemsByTransaction.getOrDefault(id, [])`: the sale's items in the order they were read. */
  function ItemsOf(items: seq<TransactionItem>, id: nat): seq<TransactionItem>
  {
    Sequences.Filter(items, (x: TransactionItem) => OfTransaction(id, x))
  }

  function Respond(t: Transaction, items: seq<TransactionItem>): TransactionResponse
  {
    TransactionResponse(t.id, t.customerId, t.total, t.paymentMethod, t.createdAt, ItemsOf(items, t.id))
  }

  predicate OnDate(d: Date, t: Transaction)
  {
    t.createdAt == d
  }

  predicate OfCustomer(c: int, t: Transaction)
  {
    t.customerId == c
  }

  function CustomerOf(t: Transaction): int
  {
    t.customerId
  }

  function DateOf(t: Transaction): Date
  {
    t.createdAt
  }

  /** One customer's sales of one day, in the order the repository returned them. */
  function CustomerGroup(day: seq<Transaction>, c: int, items: seq<TransactionItem>): CustomerTransactions
  {
    var own := Sequences.Filter(day, (t: Transaction) => OfCustomer(c, t));
    CustomerTransactions(c, seq(|own|, k requires 0 <= k < |own| => Respond(own[k], items)))
  }

  /** One day's sales grouped by customer, customers in order of their first sale. */
  function DateGroupOf(txs: seq<Transaction>, d: Date, items: seq<TransactionItem>): DateGroup
  {
    var day := Sequences.Filter(txs, (t: Transaction) => OnDate(d, t));
    var customers := Grouping.DistinctKeys(day, CustomerOf);
    DateGroup(d, seq(|customers|, j requires 0 <= j < |customers| => CustomerGroup(day, customers[j], items)))
  }

  /** `Comparator.comparing(DateGroupResponse::getDate).reversed()` on ISO date strings. */
  function NewestDateFirst(): (Date, Date) -> bool
  {
    (a: Date, b: Date) => DateLe(b, a)
  }

  /** The dates of the sales, each once, newest first. */
  function HistoryDates(txs: seq<Transaction>): (ds: seq<Date>)
    ensures forall i, j :: 0 <= i < j < |ds| ==> DateLe(ds[j], ds[i]) && ds[i] != ds[j]
    ensures forall d :: d in ds <==> exists i :: 0 <= i < |txs| && txs[i].createdAt == d
  {
    var dates := Grouping.DistinctKeys(txs, DateOf);
    DateLeTotalOrder();
    var ds := Ordering.SortBy(dates, NewestDateFirst());
    Grouping.DistinctPermutation(dates, ds);
    Ordering.SortByKeepsElements(dates, NewestDateFirst());
    ds
  }

  /**
   * `getTransactionHistory` over the sales the repository found in the range and
   * the items it found for them.
   */
  function TransactionHistory(txs: seq<Transaction>, items: seq<TransactionItem>): seq<DateGroup>
  {
    var ds := HistoryDates(txs);
    seq(|ds|, i requires 0 <= i < |ds| => DateGroupOf(txs, ds[i], items))
  }

  /** No sales in the range give an empty history. */
  lemma EmptyHistory(items: seq<TransactionItem>)
    ensures TransactionHistory([], items) == []
  {
    assert HistoryDates([]) == [];
  }

  lemma HistoryAt(txs: seq<Transaction>, items: seq<TransactionItem>)
    ensures var h := TransactionHistory(txs, items);
      var ds := HistoryDates(txs);
      |h| == |ds| && forall i :: 0 <= i < |ds| ==> h[i] == DateGroupOf(txs, ds[i], items)
  {
  }

  /** One group per date that has sales, newest first. */
  lemma HistoryNewestFirst(txs: seq<Transaction>, items: seq<TransactionItem>)
    ensures var h := TransactionHistory(txs, items);
      (forall i, j :: 0 <= i < j < |h| ==> DateLe(h[j].date, h[i].date) && h[i].date != h[j].date) &&
      (forall i :: 0 <= i < |h| ==> exists k :: 0 <= k < |txs| && txs[k].createdAt == h[i].date) &&
      (forall k :: 0 <= k < |txs| ==> exists i :: 0 <= i < |h| && h[i].date == txs[k].createdAt)
  {
    var h := TransactionHistory(txs, items);
    var ds := HistoryDates(txs);
    HistoryDatesShown(txs, items);
    forall i | 0 <= i < |h| ensures exists k :: 0 <= k < |txs| && txs[k].createdAt == h[i].date {
      assert ds[i] in ds;
    }
    forall k | 0 <= k < |txs| ensures exists i :: 0 <= i < |h| && h[i].date == txs[k].createdAt {
      assert txs[k].createdAt in ds;
      var i :| 0 <= i < |ds| && ds[i] == txs[k].createdAt;
      assert h[i].date == txs[k].createdAt;
    }
  }

  /** The history's groups carry the history dates, in their order. */
  lemma HistoryDatesShown(txs: seq<Transaction>, items: seq<TransactionItem>)
    ensures var h := TransactionHistory(txs, items);
      var ds := HistoryDates(txs);
      |h| == |ds| && forall i :: 0 <= i < |h| ==> h[i].date == ds[i]
  {
    HistoryAt(txs, items);
  }

  /** A sale of the day shows up under its customer in that day's group. */
  lemma DayGroupHolds(txs: seq<Transaction>, items: seq<TransactionItem>, t: Transaction)
    requires t in txs
    ensures var g := DateGroupOf(txs, t.createdAt, items);
      exists j, k :: 0 <= j < |g.customers| && 0 <= k < |g.customers[j].transactions| &&
        g.customers[j].customerId == t.customerId && g.customers[j].transactions[k] == Respond(t, items)
  {
    var day := Sequences.Filter(txs, (x: Transaction) => OnDate(t.createdAt, x));
    var customers := Grouping.DistinctKeys(day, CustomerOf);
    assert t in day;
    var p :| 0 <= p < |day| && day[p] == t;
    assert CustomerOf(day[p]) == t.customerId;
    assert t.customerId in customers;
    var j :| 0 <= j < |customers| && customers[j] == t.customerId;
    var own := Sequences.Filter(day, (x: Transaction) => OfCustomer(t.customerId, x));
    assert t in own;
    var k :| 0 <= k < |own| && own[k] == t;
    var g := DateGroupOf(txs, t.createdAt, items);
    assert g.customers[j] == CustomerGroup(day, t.customerId, items);
    assert g.customers[j].transactions[k] == Respond(t, items);
  }

  /**
   * Every sale shows up under its own date and its own customer, with exactly its
   * own items.
   */
  lemma HistoryPlacesEverySale(txs: seq<Transaction>, items: seq<TransactionItem>, t: Transaction)
    requires t in txs
    ensures var h := TransactionHistory(txs, items);
      exists i, j, k :: 0 <= i < |h| && 0 <= j < |h[i].customers| && 0 <= k < |h[i].customers[j].transactions| &&
        h[i].date == t.createdAt && h[i].customers[j].customerId == t.customerId &&
        h[i].customers[j].transactions[k] == Respond(t, items)
  {
    var h := TransactionHistory(txs, items);
    var ds := HistoryDates(txs);
    HistoryAt(txs, items);
    assert t.createdAt in ds;
    var i :| 0 <= i < |ds| && ds[i] == t.createdAt;
    assert h[i] == DateGroupOf(txs, t.createdAt, items);
    DayGroupHolds(txs, items, t);
  }

  /** Every listed sale of a day's group is a sale of that day and customer, with exactly its own items. */
  lemma DayGroupListsOnlyItsSales(txs: seq<Transaction>, d: Date, items: seq<TransactionItem>, j: nat, k: nat)
    requires var g := DateGroupOf(txs, d, items);
      j < |g.customers| && k < |g.customers[j].transactions|
    ensures var g := DateGroupOf(txs, d, items);
      var r := g.customers[j].transactions[k];
      r.createdAt == d && r.customerId == g.customers[j].customerId && r.items == ItemsOf(items, r.id) &&
      exists t :: t in txs && Respond(t, items) == r
  {
    var day := Sequences.Filter(txs, (x: Transaction) => OnDate(d, x));
    var customers := Grouping.DistinctKeys(day, CustomerOf);
    var own := Sequences.Filter(day, (x: Transaction) => OfCustomer(customers[j], x));
    assert own[k] in day;
  }

  /**
   * Every listed sale is a sale of the range, under its own date and customer, with
   * exactly its own items.
   */
  lemma HistoryListsOnlyItsSales(txs: seq<Transaction>, items: seq<TransactionItem>, i: nat, j: nat, k: nat)
    requires var h := TransactionHistory(txs, items);
      i < |h| && j < |h[i].customers| && k < |h[i].customers[j].transactions|
    ensures var h := TransactionHistory(txs, items);
      var r := h[i].customers[j].transactions[k];
      r.createdAt == h[i].date && r.customerId == h[i].customers[j].customerId && r.items == ItemsOf(items, r.id) &&
      exists t :: t in txs && Respond(t, items) == r
  {
    HistoryAt(txs, items);
    DayGroupListsOnlyItsSales(txs, HistoryDates(txs)[i], items, j, k);
  }
}

=== FILE: warehouse_inventory.dfy ===
/**
 * The supermarket inventory service (`com.supermarket.inventory.service.InventoryService`):
 * the listing of the WAREHOUSE rows, named, priced and sorted, and the quantity of one
 * product at one kind of source.
 */
module WarehouseInventory {
  import opened Wrappers
  import Sequences
  import Ordering
  import opened InventoryListing

  /** `SourceType`. */
  datatype SourceType = WAREHOUSE | SHELF

  /** A stored `Inventory` row. */
  datatype Row = Row(sourceType: SourceType, productId: string, quantity: int)

  /** A derived single-result query that finds more than one row. */
  datatype QueryError = NonUniqueResult

  predicate IsWarehouse(r: Row)
  {
    r.sourceType == WAREHOUSE
  }

  function Item(r: Row): StockItem
  {
    StockItem(r.productId, r.quantity)
  }

  function Items(rows: seq<Row>): (items: seq<StockItem>)
    ensures |items| == |rows|
    ensures forall i :: 0 <= i < |rows| ==> items[i] == Item(rows[i])
  {
    if rows == [] then [] else Items(rows[..|rows| - 1]) + [Item(rows[|rows| - 1])]
  }

  /**
   * `getInventory`: the WAREHOUSE rows in the order the repository returns them, one
   * response each, then sorted. The result holds exactly those rows' responses, no
   * SHELF row among them, in the requested order; a name sort over a row the product
   * service could not name throws.
   */
  method GetInventory(rows: seq<Row>, sortBy: string, direction: Option<string>, lookup: string -> Option<ProductInfo>)
    returns (r: Result<seq<InventoryResponse>, ListingError>)
    ensures var listed := Listing(Items(Sequences.Filter(rows, IsWarehouse)), lookup);
      (r.Err? <==> SortThrows(listed, sortBy)) &&
      (r.Ok? ==> multiset(r.value) == multiset(listed) &&
                 Ordering.SortedBy(r.value, Comparator(KeyFor(sortBy), IsDesc(direction))))
    ensures r.Ok? ==> forall x :: x in r.value ==>
      exists i :: 0 <= i < |rows| && rows[i].sourceType == WAREHOUSE &&
                  rows[i].productId == x.productId && rows[i].quantity == x.quantity
  {
    var warehouseRows := Sequences.Filter(rows, IsWarehouse);
    var responses := BuildListing(Items(warehouseRows), lookup);
    r := SortListing(responses, sortBy, direction);
    if r.Ok? {
      assert forall w :: w in warehouseRows ==> w in rows && w.sourceType == WAREHOUSE;
      ListedFromWarehouse(rows, warehouseRows, responses, r.value);
    }
  }

  /** Responses made row by row from WAREHOUSE rows, in any order, each come from such a row. */
  lemma ListedFromWarehouse(rows: seq<Row>, warehouseRows: seq<Row>, responses: seq<InventoryResponse>,
                            out: seq<InventoryResponse>)
    requires |responses| == |warehouseRows|
    requires forall k :: 0 <= k < |responses| ==>
      responses[k].productId == warehouseRows[k].productId && responses[k].quantity == warehouseRows[k].quantity
    requires forall w :: w in warehouseRows ==> w in rows && w.sourceType == WAREHOUSE
    requires multiset(out) == multiset(responses)
    ensures forall x :: x in out ==>
      exists i :: 0 <= i < |rows| && rows[i].sourceType == WAREHOUSE &&
                  rows[i].productId == x.productId && rows[i].quantity == x.quantity
  {
    forall x | x in out
      ensures exists i :: 0 <= i < |rows| && rows[i].sourceType == WAREHOUSE &&
                          rows[i].productId == x.productId && rows[i].quantity == x.quantity
    {
      assert x in multiset(responses);
      var k :| 0 <= k < |responses| && responses[k] == x;
      var w := warehouseRows[k];
      assert w in rows;
      var i :| 0 <= i < |rows| && rows[i] == w;
    }
  }

  /** The query's condition: the row is for the product at that kind of source. */
  function Matches(productId: string, sourceType: SourceType): Row -> bool
  {
    (x: Row) => x.productId == productId && x.sourceType == sourceType
  }

  /**
   * `getQuantityByProductIdAndSourceType`: the quantity of the one matching row, 0 when
   * there is none; a second matching row makes the single-result query throw.
   */
  function GetQuantity(rows: seq<Row>, productId: string, sourceType: SourceType): (r: Result<int, QueryError>)
    ensures r.Ok? ==> (r.value == 0 ||
      exists i :: 0 <= i < |rows| && rows[i].productId == productId && rows[i].sourceType == sourceType &&
                  rows[i].quantity == r.value)
  {
    var matching := Sequences.Filter(rows, Matches(productId, sourceType));
    if |matching| == 0 then Ok(0)
    else if |matching| == 1 then Ok(matching[0].quantity)
    else Err(NonUniqueResult)
  }

  /** A product with no row at that kind of source reads as quantity 0. */
  lemma MissingRowIsZero(rows: seq<Row>, productId: string, sourceType: SourceType)
    requires forall i :: 0 <= i < |rows| ==> !(rows[i].productId == productId && rows[i].sourceType == sourceType)
    ensures GetQuantity(rows, productId, sourceType) == Ok(0)
  {
    Sequences.FilterNone(rows, Matches(productId, sourceType));
  }

  /** With exactly one row for the product at that kind of source, its quantity is read. */
  lemma SingleRowQuantity(rows: seq<Row>, productId: string, sourceType: SourceType, i: nat)
    requires i < |rows| && rows[i].productId == productId && rows[i].sourceType == sourceType
    requires forall j :: 0 <= j < |rows| && j != i ==> !(rows[j].productId == productId && rows[j].sourceType == sourceType)
    ensures GetQuantity(rows, productId, sourceType) == Ok(rows[i].quantity)
  {
    var p := Matches(productId, sourceType);
    var before, after := rows[..i], rows[i + 1..];
    assert rows == before + [rows[i]] + after;
    forall j | 0 <= j < |before| ensures !p(before[j]) {
      assert before[j] == rows[j];
    }
    forall j | 0 <= j < |after| ensures !p(after[j]) {
      assert after[j] == rows[i + 1 + j];
    }
    Sequences.FilterNone(before, p);
    Sequences.FilterNone(after, p);
    Sequences.FilterAppend(before, [rows[i]], p);
    Sequences.FilterAppend(before + [rows[i]], after, p);
    assert Sequences.Filter([rows[i]], p) == [rows[i]];
    assert Sequences.Filter(rows, p) == [rows[i]];
  }

  /** Two rows for the product at that kind of source make the query throw. */
  lemma DuplicateRowsThrow(rows: seq<Row>, productId: string, sourceType: SourceType, i: nat, j: nat)
    requires i < j < |rows|
    requires rows[i].productId == productId && rows[i].sourceType == sourceType
    requires rows[j].productId == productId && rows[j].sourceType == sourceType
    ensures GetQuantity(rows, productId, sourceType) == Err(NonUniqueResult)
  {
    var p := Matches(productId, sourceType);
    assert rows == rows[..j] + rows[j..];
    Sequences.FilterAppend(rows[..j], rows[j..], p);
    assert rows[i] in rows[..j] && rows[j] in rows[j..];
    assert |Sequences.Filter(rows[..j], p)| >= 1 && |Sequences.Filter(rows[j..], p)| >= 1;
  }
}

=== FILE: warehouse_transfer_form.dfy ===
/**
 * The warehouse dialog that imports goods into the warehouse or exports them to the
 * shelves: a list of rows, each a chosen product and a quantity typed as text,
 * checked row by row before one batch request is sent.
 */
module WarehouseTransferForm {
  import opened Wrappers
  import Numbers

  /** A row of the dialog. `product` is the selected id, `""` while none is selected. */
  datatype Row = Row(product: string, quantity: string)

  /** The row `addExportRow` appends and the list starts and ends with. */
  const EMPTY_ROW := Row("", "")

  /**
   * An entry of the loaded list: inventory rows (for an export) carry `productId`
   * and a stock quantity; catalogue products (for an import) carry `id` and no
   * quantity.
   */
  datatype Stock = Stock(productId: Option<string>, id: Option<string>, quantity: Option<int>)

  /** One element of the batch request. */
  datatype Transfer = Transfer(productId: string, quantity: int, kind: string)

  /** The warning a row can stop the export with. */
  datatype RowProblem = NoProduct | UnknownProduct | BadQuantity | OverStock

  /** The first row at fault and what is wrong with it. */
  datatype Refusal = Refusal(row: nat, problem: RowProblem)

  /** `p.productId === product || p.id === product`. */
  predicate Names(p: Stock, product: string)
  {
    p.productId == Some(product) || p.id == Some(product)
  }

  /** `products.find(...)`: the first entry for the product. */
  function FindStock(products: seq<Stock>, product: string): (r: Option<Stock>)
    ensures r.None? <==> forall i :: 0 <= i < |products| ==> !Names(products[i], product)
    ensures r.Some? ==> exists i :: (0 <= i < |products| && products[i] == r.value && Names(r.value, product) &&
      forall j :: 0 <= j < i ==> !Names(products[j], product))
  {
    if products == [] then None
    else if Names(products[0], product) then Some(products[0])
    else
      var r := FindStock(products[1..], product);
      assert forall i :: 1 <= i < |products| ==> products[i] == products[1..][i - 1];
      if r.Some? then
        var i :| 0 <= i < |products[1..]| && products[1..][i] == r.value && Names(r.value, product) &&
          forall j :: 0 <= j < i ==> !Names(products[1..][j], product);
        assert products[i + 1] == r.value;
        r
      else r
  }

  /** `Number(quantity)`, where it is a number. */
  function Amount(q: string): int
  {
    Numbers.JsNumber(q).GetOr(0)
  }

  /** `!quantity || isNaN(quantity) || Number(quantity) <= 0` fails the quantity. */
  predicate QuantityValid(q: string)
  {
    q != "" && Numbers.JsNumber(q).Some? && Amount(q) > 0
  }

  /** The checks of one row, in order: a product, a known product, a quantity, and for an export enough stock. */
  function RowCheck(row: Row, products: seq<Stock>, kind: string): (r: Option<RowProblem>)
    ensures r.None? ==> row.product != "" && FindStock(products, row.product).Some? && QuantityValid(row.quantity)
    ensures r.None? && kind == "EXPORT" && FindStock(products, row.product).value.quantity.Some? ==>
      Amount(row.quantity) <= FindStock(products, row.product).value.quantity.value
    ensures r == Some(OverStock) ==> kind == "EXPORT"
  {
    if row.product == "" then Some(NoProduct)
    else
      var stock := FindStock(products, row.product);
      if stock.None? then Some(UnknownProduct)
      else if !QuantityValid(row.quantity) then Some(BadQuantity)
      else if kind == "EXPORT" && stock.value.quantity.Some? &&
              Amount(row.quantity) > stock.value.quantity.value then Some(OverStock)
      else None
  }

  predicate RowsValid(rows: seq<Row>, products: seq<Stock>, kind: string)
  {
    forall i :: 0 <= i < |rows| ==> RowCheck(rows[i], products, kind).None?
  }

  /** The transfer a row becomes. */
  function RowTransfer(row: Row, kind: string): Transfer
  {
    Transfer(row.product, Amount(row.quantity), kind)
  }

  /** The batch `handleExport` sends: one transfer per row, in row order. */
  function Payload(rows: seq<Row>, kind: string): (r: seq<Transfer>)
    ensures |r| == |rows|
    ensures forall i :: 0 <= i < |rows| ==> r[i] == RowTransfer(rows[i], kind)
  {
    if rows == [] then []
    else [RowTransfer(rows[0], kind)] + Payload(rows[1..], kind)
  }

  /**
   * The stock check compares each row with the stock on its own: two export rows
   * of 3 for a product with 5 in stock both pass, though 6 leave the warehouse.
   */
  lemma StockCheckIsPerRow()
    ensures var products := [Stock(Some("P1"), None, Some(5))];
      var rows := [Row("P1", "3"), Row("P1", "3")];
      RowsValid(rows, products, "EXPORT") && Numbers.JsNumber("3") == Some(3)
  {
    var products := [Stock(Some("P1"), None, Some(5))];
    assert Numbers.AllDigits("3");
    assert Numbers.DigitsValue("3") == 3 by {
      assert "3"[..0] == [];
    }
    Numbers.JsNumberOfDigits("3");
    assert Names(products[0], "P1");
  }

  /** The dialog: the loaded list, the rows and whether it moves goods in or out. */
  class TransferDialog {
    const kind: string
    var products: seq<Stock>
    var rows: seq<Row>

    /** The dialog opens with one empty row; the list is what the load returned. */
    constructor (kind: string, loaded: seq<Stock>)
      ensures this.kind == kind && products == loaded && rows == [EMPTY_ROW]
    {
      this.kind := kind;
      products := loaded;
      rows := [EMPTY_ROW];
    }

    /** `addExportRow`: exactly one empty row more. */
    method AddRow()
      modifies this`rows
      ensures rows == old(rows) + [EMPTY_ROW]
    {
      rows := rows + [EMPTY_ROW];
    }

    /** `handleChange(index, "product", value)`: only that row's product changes. */
    method ChangeProduct(index: nat, value: string)
      requires index < |rows|
      modifies this`rows
      ensures |rows| == |old(rows)|
      ensures rows[index] == old(rows)[index].(product := value)
      ensures forall i :: 0 <= i < |rows| && i != index ==> rows[i] == old(rows)[i]
    {
      rows := rows[index := rows[index].(product := value)];
    }

    /** `handleChange(index, "quantity", value)`: only that row's quantity changes. */
    method ChangeQuantity(index: nat, value: string)
      requires index < |rows|
      modifies this`rows
      ensures |rows| == |old(rows)|
      ensures rows[index] == old(rows)[index].(quantity := value)
      ensures forall i :: 0 <= i < |rows| && i != index ==> rows[i] == old(rows)[i]
    {
      rows := rows[index := rows[index].(quantity := value)];
    }

    /** The validation loop of `handleExport`: the first row that fails, or none. */
    method FirstRefusal() returns (r: Option<Refusal>)
      ensures r.None? <==> RowsValid(rows, products, kind)
      ensures r.Some? ==>
        (r.value.row < |rows| &&
         RowCheck(rows[r.value.row], products, kind) == Some(r.value.problem) &&
         forall j :: 0 <= j < r.value.row ==> RowCheck(rows[j], products, kind).None?)
    {
      var i := 0;
      while i < |rows|
        invariant i <= |rows|
        invariant forall j :: 0 <= j < i ==> RowCheck(rows[j], products, kind).None?
      {
        var problem := RowCheck(rows[i], products, kind);
        if problem.Some? {
          return Some(Refusal(i, problem.value));
        }
        i := i + 1;
      }
      return None;
    }

    /**
     * `handleExport`, given whether the service accepted the batch. An empty list or
     * a refused row sends nothing; otherwise the batch is sent and, once accepted,
     * the rows go back to one empty row.
     */
    method Export(accepted: bool) returns (refusal: Option<Refusal>, sent: Option<seq<Transfer>>)
      modifies this`rows
      ensures old(rows) == [] ==> refusal.None? && sent.None? && rows == old(rows)
      ensures old(rows) != [] ==> (refusal.None? <==> RowsValid(old(rows), products, kind))
      ensures refusal.Some? ==> sent.None? && rows == old(rows)
      ensures sent.Some? ==> RowsValid(old(rows), products, kind) && sent.value == Payload(old(rows), kind)
      ensures sent.Some? && accepted ==> rows == [EMPTY_ROW]
      ensures sent.Some? && !accepted ==> rows == old(rows)
    {
      if rows == [] {
        return None, None;
      }
      refusal := FirstRefusal();
      if refusal.Some? {
        return refusal, None;
      }
      sent := Some(Payload(rows, kind));
      if accepted {
        rows := [EMPTY_ROW];
      }
    }
  }
}

=== FILE: wrappers.dfy ===
/** Optional values and results with an error case, shared by every module. */
module Wrappers {

  /** A Java `null`-able reference, a JavaScript `undefined`, or an `Optional`. */
  datatype Option<T> = None | Some(value: T)
  {
    function GetOr(default: T): T
    {
      match this
      case None => default
      case Some(v) => v
    }
  }

  /** The outcome of an operation that may throw: its value, or the exception it raises. */
  datatype Result<T, E> = Ok(value: T) | Err(error: E)
}
